=== FILE: README.md ===
# maple_engine kernels in Dafny

This project models the self-contained kernels of the Maple runtime, its
bytecode engine and the `mprint` debugger command.  All values are immutable
datatypes and every operation is a pure function or a method with a
contract.

- **Object inspector** (`maple_debugger/m_print.py`), in modules
  `MprintCommand`, `ClassChain`, `FieldOrder`, `ClassDisplay`,
  `ArrayPreview`, `FieldValues` and `HexText`:
  - the walk of an object's inheritance chain, base first;
  - the per-level field order and numbering;
  - the data base chosen for an array level;
  - the preview policies for primitive, reference and character arrays;
  - the all-or-nothing multi-width field decoder;
  - the token dispatch of `mprint`;
  - the two dynamic-language lookups.
  Memory is a partial map from (address, width) to an unsigned value.  The
  class-definition cache, the runtime type of an address and the property
  store are given maps.  Printed output is a sequence of structured lines.
- **Date arithmetic** (`jsdate.cpp`, section 15.9.1 of ECMAScript 5.1), in
  `JsDate`.  Times are integer milliseconds, and division truncates as in
  C, except in `DayFromYear`, which floors.  The floating-point first guess of `YearFromTime` is a parameter.
- **Regular-array fast paths** (`jsarray.cpp`), in `RegularArray`: the
  slot layout (length in slot 0, element i in slot i + 1), `RegularRealloc`,
  push, pop, shift, unshift, reverse, slice, relative-index clamping and
  `__jsarr_getIndex`.
- **Memory manager** (`vmmemory.cpp`):
  - `FreeChunks` holds the size buckets and the offset-sorted first-fit
    list of `MemoryHash`, with splitting and coalescing.
  - `VmHeap` holds `Malloc`, `Realloc`, `RecallMem`, `GCDecRf`,
    `NewMemoryChunk` and the header written by `VMMallocGC`.
- **Intl kernels**:
  - `DatePattern` covers `ResolveICUPattern`, `GetDateTimeStringSkeleton`
    and `ToBCP47CalendarName`.
  - `FormatMatcher` covers `BasicFormatMatcher` (section 12.1.1.1 of
    ECMA-402, 1st edition).
  - `NumberFormat` covers the ISO 4217 digit table, the digit defaults of
    `InitializeNumberFormat` and `ToRawFixed` from the scaled integer n
    (section 11.3.2 of ECMA-402, 1st edition).
- **Type conversions** (`jstyconv.cpp`), in `JsValue` and
  `TypeConversion`: ToLength, ToBoolean, ToNumber's non-string cases,
  integer ToString and SameValue.
- **Interpreter support** (`shimdynfunction.cpp`):
  - `Frames` models the prolog and epilog, including nested calls.
  - `PassArguments` models the argument layout on the stack.
  - `InterpArith` models the i32/u32 arithmetic, bit operators and
    primitive comparisons.
  - `InterpValues` models the dynamic comparison, `JSopCVT` and logical not.
- **Engine micro-kernels** (`invoke_dyn_method.cpp`):
  - `PropCache` is the 64-slot generation-tagged property cache.
  - `BitExtend` covers `sext`, `zext` and `extractbits`.
  - `PrimTypes` covers `typestr`.

`Common` (optional values, powers of two, wrap-around, truncating division,
decimal strings) and `Bits` (bitwise operations on unsigned words) are
shared helpers.

## Model

| member | source | states |
|---|---|---|
| ClassChain.GetClassListCorrect | maple_debugger/m_print.py:149-207 | get_class_list returns a chain exactly when that chain is correct: base-first, each level the definition of its name, linked by `base_class` to the next level up, the first level rooted at THIS_IS_ROOT, the caller's syntax and size on the last level and "class"/1 on every other one |
| ClassChain.GetClassList | maple_debugger/m_print.py:149-207 | an uncached class name gives the missing-definition result; a returned chain is non-empty, starts at a level whose base class is THIS_IS_ROOT, and ends at the requested class carrying the caller's syntax and size |
| ClassChain.WalkUnfold | maple_debugger/m_print.py:193-200 | when the walk reaches a chain through a derived class, that class was not yet visited, its own level is last, and the walk from its base class yields all the levels before it |
| ClassChain.ChainStep | maple_debugger/m_print.py:193-200 | a derived class's level on top of a correct chain for its base class, where neither the chain nor the new level uses a visited class, is a correct chain that avoids the visited classes |
| ClassChain.WalkSound | maple_debugger/m_print.py:180-200 | every chain the walk returns is a correct chain and passes through no class it already visited |
| ClassChain.WalkComplete | maple_debugger/m_print.py:180-200 | every correct chain that avoids the visited classes is what the walk returns |
| ClassChain.ChainExtend | maple_debugger/m_print.py:193-200 | prepending the base class's chain to the level of a class deriving from it gives a correct chain for that class |
| ClassChain.ChainInit | maple_debugger/m_print.py:193-200 | dropping the last level of a correct chain leaves a correct chain for its base class, none of whose levels is the dropped class |
| ClassChain.WalkMissing | maple_debugger/m_print.py:184-186 | the walk reports a missing definition only when the base-class path from the class reaches a name with no definition |
| ClassChain.GetClassListMissing | maple_debugger/m_print.py:184-186 | get_class_list gives None (no partial chain) only when some class on the base-class path has no definition |
| ClassChain.WalkCycle | maple_debugger/m_print.py:183-200 | the walk reports a cycle only when the base-class path comes back to a class already visited or already on the path |
| ClassChain.GetClassListCycle | maple_debugger/m_print.py:183-200 | the walk ends in the cycle outcome, where the unbounded `while True` never ends, only when a base-class path from the class returns to one of its own classes |
| FieldOrder.InsertByOffset | maple_debugger/m_print.py:242 | inserting a field adds exactly that field to the multiset of fields |
| FieldOrder.InsertSorted | maple_debugger/m_print.py:242 | inserting into a list sorted by offset keeps it sorted |
| FieldOrder.InsertLowerBound | maple_debugger/m_print.py:242 | insertion keeps every offset above a common lower bound |
| FieldOrder.InsertWithOffset | maple_debugger/m_print.py:242 | an inserted field goes after every field with the same offset and the order of the others is kept |
| FieldOrder.SortByOffset | maple_debugger/m_print.py:242 | a level's fields are printed in ascending offset order and are a permutation of the level's fields |
| FieldOrder.SortStable | maple_debugger/m_print.py:242 | the sort is stable, as Python's `sorted` is: the fields that share an offset keep their order from the class definition |
| ClassDisplay.FieldLines | maple_debugger/m_print.py:243-252 | one output line per field of a level |
| ClassDisplay.FieldLinesNumbered | maple_debugger/m_print.py:243-252 | the k-th field line carries number count + k, the field's offset, length and name, and the value decoded at the object address plus that offset |
| ClassDisplay.FieldLinesAppend | maple_debugger/m_print.py:243-252 | the field counter continues from one block of fields into the next |
| ClassDisplay.LevelLinesFields | maple_debugger/m_print.py:224-252 | the field lines of one level are the lines of its fields in offset order; an array level prints none |
| ClassDisplay.LevelsFromFields | maple_debugger/m_print.py:222-252 | the field lines of the levels from i on are those of all their sorted fields, numbered on from the given count |
| ClassDisplay.DisplayClassData | maple_debugger/m_print.py:209-219 | an empty chain prints only "no data found"; otherwise the first line is the object-type header of the last level, with its class name unless its syntax names an array |
| ClassDisplay.ClassDataFieldLines | maple_debugger/m_print.py:221-252 | the field lines of the whole display are the lines of every level's sorted fields, in level order, numbered from 1 |
| ClassDisplay.ClassDataFields | maple_debugger/m_print.py:221-252 | the `#` counter starts at 1 and runs across all levels: the k-th field line of the display is field k+1 of the concatenated sorted levels, with its decoded value |
| ClassDisplay.ChainArrayBase | maple_debugger/m_print.py:225-236 | in a chain returned by get_class_list an array level is the last level, and its elements start at the address plus its own size when it is the root level and plus the previous level's size otherwise |
| ClassDisplay.StringSuffixAddress | maple_debugger/m_print.py:254-263 | after a String object's fields the inspector shows the character array at the address in the hex part of the last field's value, and nothing when the last level is not the String class or no value was read |
| ClassDisplay.DisplayStringObject | maple_debugger/m_print.py:311-326 | a string object whose runtime syntax is not "array C[]" prints nothing; one whose syntax is "array C[]" prints the character-array display of the data at +12, with the length read at +12 |
| ClassDisplay.MprintStaticClass | maple_debugger/m_print.py:78-104 | a class or array object whose class name starts with 'L' shows the class data of its correct chain when one exists; otherwise it prints "no class data found" or never returns |
| ClassDisplay.MprintStatic | maple_debugger/m_print.py:78-104 | an address without a runtime type, or whose type has an empty or non-array, non-class syntax, prints nothing; an array or class with an empty class name raises; a primitive array prints the primitive-array preview of the data 12 bytes past the address |
| ArrayPreview.Range | maple_debugger/m_print.py:283 | `range(lo, lo + n)` |
| ArrayPreview.PreviewIndices | maple_debugger/m_print.py:336-339 | for at most 10 elements exactly indices 0..n-1; for more exactly 0..6, n-3, n-2, n-1; strictly increasing and below n |
| ArrayPreview.CharIndices | maple_debugger/m_print.py:279-283 | for at most 32 units all indices; for more, 0..23 then n-8..n-1; strictly increasing and below n |
| ArrayPreview.DecodeUnit | maple_debugger/m_print.py:302 | a 16-bit unit decodes as UTF-16 exactly when it is not a surrogate, and then to the character with that code |
| ArrayPreview.SnipPosition | maple_debugger/m_print.py:372-374 | the `"  ..."` line goes after the first element that was shown once more than six indices were processed |
| ArrayPreview.RenderWithoutSnip | maple_debugger/m_print.py:341-374 | with at most ten elements no `"  ..."` line is printed: the output is the element lines |
| ArrayPreview.ElementLinesSplit | maple_debugger/m_print.py:343-370 | the element lines split at any index before the first aborting read |
| ArrayPreview.RenderElementsSpec | maple_debugger/m_print.py:341-374 | the element loop prints exactly the element lines, a failed read as `[i] no-data` and the loop going on, with one `"  ..."` right after the snip position and only for more than ten elements |
| ArrayPreview.RenderElements | maple_debugger/m_print.py:341-374 | the loop prints at most one line per processed index, plus one `"  ..."` line only while snipping is still on |
| ArrayPreview.RenderElementsNoSnip | maple_debugger/m_print.py:372-374 | with snipping off, or for at most ten elements, no `"  ..."` line is printed |
| ArrayPreview.SnipAtHead | maple_debugger/m_print.py:372-374 | an element shown once more than six indices are processed is the snip position, and the `"  ..."` line follows it directly |
| ArrayPreview.ElementLines | maple_debugger/m_print.py:343-370 | at most one line per index |
| ArrayPreview.ElementLinesNoSnip | maple_debugger/m_print.py:343-370 | the element lines never contain the `"  ..."` line |
| ArrayPreview.ElementLinesStop | maple_debugger/m_print.py:343-370 | the element lines stop short of the indices only when the last one is an exception, at an element Python cannot decode |
| ArrayPreview.DisplayPrimitiveArray | maple_debugger/m_print.py:329-354 | the two header lines come first, with the length read at the array address; an element size outside {1, 2, 4, 8} prints nothing more; for the other sizes the element lines of the preview indices follow |
| ArrayPreview.FirstBadUnit | maple_debugger/m_print.py:288-302 | the first unit that cannot be read or decoded, and none exactly when every unit reads and decodes |
| ArrayPreview.Units | maple_debugger/m_print.py:288-302 | the decoded text has one character per index, the unit read at addr + 4 + type_size*i |
| ArrayPreview.CharLoopFails | maple_debugger/m_print.py:292-298 | the first unreadable unit prints `no-data` and abandons the whole string; the first undecodable one raises |
| ArrayPreview.CharLoopPlain | maple_debugger/m_print.py:288-308 | when every unit reads and no marker is due, the string value is the decoded units |
| ArrayPreview.CharLoopSnip | maple_debugger/m_print.py:300-306 | for more than 32 units `'...'` is appended once, right after the 24th decoded unit |
| ArrayPreview.DisplayCharValuesSpec | maple_debugger/m_print.py:277-309 | the character preview is the decoded units, with `'...'` after the 24th when there are more than 32; any failed read prints `no-data` instead |
| ArrayPreview.DisplayCharValues | maple_debugger/m_print.py:277-309 | the character preview is a single line: the string, `no-data`, or an exception |
| ArrayPreview.CharLoop | maple_debugger/m_print.py:288-308 | the character loop prints exactly one line |
| ArrayPreview.CharLoopLine | maple_debugger/m_print.py:288-308 | that line is the string, `no-data` or an exception |
| FieldValues.ReadWord | maple_debugger/m_print.py:436-441 | a gdb `x` read succeeds exactly when memory holds a word of that width at that address, and yields it |
| FieldValues.WordLimit | maple_debugger/m_print.py:436-538 | the value range of a 1-, 2-, 4- or 8-byte word |
| FieldValues.Signed | maple_debugger/m_print.py:436-538 | the signed view of a word (long, int, short, byte) is its two's-complement value |
| FieldValues.ValueFromMemory | maple_debugger/m_print.py:415-543 | a value exists only for lengths 8, 4, 2 and 1 and only when every read the decoder makes succeeds (for length 2 the word and both bytes); it carries the word read |
| FieldValues.PaddedHex | maple_debugger/m_print.py:436-538 | gdb's zero-padded hex text starts with "0x" followed by hex digits |
| FieldValues.HexPartOfFieldText | maple_debugger/m_print.py:256 | `split(',')[0].split('hex:')[1]` of a field's value text gives back its hex text |
| FieldValues.PaddedHexRoundTrip | maple_debugger/m_print.py:256-258 | parsing the zero-padded hex text gives back the word |
| FieldValues.HexStringRoundTrip | maple_debugger/m_print.py:254-258 | parsing the hex part of a value gives back the raw word, so the string address is the one read |
| FieldValues.ArrayLength | maple_debugger/m_print.py:267-275 | the array length is the 4-byte word at the address, and 0 when that read fails |
| HexText.NatToHex | maple_debugger/m_print.py:50 | hex digits without leading zeros |
| HexText.NatToHexRoundTrip | maple_debugger/m_print.py:50 | the hex digits denote the number |
| HexText.Hex | maple_debugger/m_print.py:50 | Python's `hex()`: "0x" and hex digits for non-negative numbers, a leading '-' otherwise |
| HexText.ParseHexToken | maple_debugger/m_print.py:62-63 | `int(token, 16)` of a hex-digit token is its value |
| HexText.HexRoundTrip | maple_debugger/m_print.py:50-63 | parsing `hex(n)` gives back n |
| MprintCommand.TakeWord | maple_debugger/m_print.py:54 | the longest prefix without whitespace |
| MprintCommand.Words | maple_debugger/m_print.py:54 | `str.split()`: every piece is a non-empty run without whitespace |
| MprintCommand.WordsKeepText | maple_debugger/m_print.py:54 | the pieces together hold every non-space character of the input, in order |
| MprintCommand.WordsOfJoin | maple_debugger/m_print.py:54 | splitting words joined by spaces gives back the words |
| MprintCommand.FindProp | maple_debugger/m_print.py:573 | the index of the first property record with exactly that name, and none only when no record has it |
| MprintCommand.ValueLine | maple_debugger/m_print.py:582-600 | a JSTYPE_OBJECT record prints its object fields and any other record its value text; a value whose shape does not match the tag raises |
| MprintCommand.RecordLines | maple_debugger/m_print.py:578-608 | a record prints its tag, its value, the node and next addresses, and always the parent "Global Object"; only the tag and the exception when the value does not match the tag |
| MprintCommand.ByName | maple_debugger/m_print.py:561-608 | outside dynamic mode only the not-dynamic message; empty or absent data gives "property data not ready yet"; no exact-name match gives the distinct "not available" message; otherwise the first match is printed |
| MprintCommand.ByNameFirstMatch | maple_debugger/m_print.py:573-608 | lookup by name prints the record of the first property with that name |
| MprintCommand.ByAddr | maple_debugger/m_print.py:625-674 | an address with a known type and value prints them on one line; otherwise the address in decimal names a property-list node, and with no such node the output is the single line "value not valid" |
| MprintCommand.ByAddrMatchesByName | maple_debugger/m_print.py:626-668 | an address without both a type and a value that names a property-list node prints that record exactly as lookup by its name does, apart from the first line, which shows the address |
| MprintCommand.Mprint | maple_debugger/m_print.py:46-69 | anything but exactly one token prints the usage message |
| MprintCommand.HexIsWord | maple_debugger/m_print.py:47-54 | an evaluated expression becomes one token, its hex text |
| MprintCommand.MprintEvaluatedAddress | maple_debugger/m_print.py:47-76 | an argument gdb evaluates to a non-negative number inspects that address |
| MprintCommand.MprintEvaluatedNegative | maple_debugger/m_print.py:47-60 | an argument that evaluates to a negative number, whose hex text starts with '-', goes to lookup by name |
| MprintCommand.MprintToken | maple_debugger/m_print.py:54-76 | one token not starting with a digit goes to lookup by name, even in static mode; a digit token that is not hex prints the usage; otherwise the address is inspected |
| JsDate.Day | maple_runtime/ecma/src/jsdate.cpp:894-896 | Day truncates toward zero: it is floor(t / msPerDay) for non-negative or whole-day t and one more than that otherwise |
| JsDate.TimeWithinDay | maple_runtime/ecma/src/jsdate.cpp:899-901 | the truncating remainder: Day(t)·msPerDay plus it gives back t, and it lies strictly between -msPerDay and msPerDay |
| JsDate.DaysInYear | maple_runtime/ecma/src/jsdate.cpp:904-918 | 366 exactly when the year is divisible by 400, or by 4 but not by 100; 365 otherwise |
| JsDate.DayFromYearStep | maple_runtime/ecma/src/jsdate.cpp:959-965 | DayFromYear(1970) is 0 and DayFromYear(y+1) − DayFromYear(y) is DaysInYear(y) |
| JsDate.TimeFromYearStep | maple_runtime/ecma/src/jsdate.cpp:936-938 | TimeFromYear(1970) is 0 and consecutive years are DaysInYear(y)·msPerDay apart |
| JsDate.TimeFromYearMonotone | maple_runtime/ecma/src/jsdate.cpp:936-938 | later years start at later times |
| JsDate.YearUnique | maple_runtime/ecma/src/jsdate.cpp:941-956 | a time lies in one year only |
| JsDate.YearFromTime | maple_runtime/ecma/src/jsdate.cpp:941-956 | the result is the estimate corrected by at most one year, and when the estimate is within a year of the truth it is the year containing t |
| JsDate.CorrectYear | maple_runtime/ecma/src/jsdate.cpp:946-953 | the correction moves the estimate by at most one year |
| JsDate.CorrectYearNear | maple_runtime/ecma/src/jsdate.cpp:946-953 | from an estimate within one year the correction reaches the year containing t |
| JsDate.YearFromTimeCorrect | maple_runtime/ecma/src/jsdate.cpp:941-956 | with an estimate always within a year, YearFromTime(t) is y exactly when TimeFromYear(y) ≤ t < TimeFromYear(y+1) |
| JsDate.DayFromYearBounds | maple_runtime/ecma/src/jsdate.cpp:959-965 | DayFromYear(1970 + k) stays within two days of 365.2425·k: the floor corrections for leap years never drift |
| JsDate.ExactEstimateGood | maple_runtime/ecma/src/jsdate.cpp:945 | the exact estimate floor(t / (msPerDay·365.2425)) + 1970 is always within a year of the true year |
| JsDate.InLeapYear | maple_runtime/ecma/src/jsdate.cpp:921-933 | 1 exactly when the year of t is a leap year, else 0 |
| JsDate.DayWithinYear | maple_runtime/ecma/src/jsdate.cpp:968-970 | within [0, DaysInYear] of t's year, and below DaysInYear for non-negative or whole-day t (truncating Day can reach DaysInYear for other negative t) |
| JsDate.DayInYear | maple_runtime/ecma/src/jsdate.cpp:968-970 | the truncated day of a time in year y lies between the first day of y and the first day of y+1 |
| JsDate.MonthOfDay | maple_runtime/ecma/src/jsdate.cpp:981-1006 | the month test chain succeeds exactly for day numbers in [0, 365+L], giving the month m with CumDays(m) ≤ d < CumDays(m+1), day 365+L falling to December |
| JsDate.MonthOfDayUnique | maple_runtime/ecma/src/jsdate.cpp:981-1006 | a day within month m's cumulative bounds is reported as month m |
| JsDate.MonthFromTime | maple_runtime/ecma/src/jsdate.cpp:973-1009 | with a good year estimate the month is always in 0..11 |
| JsDate.DateFromTime | maple_runtime/ecma/src/jsdate.cpp:1012-1052 | a date is always found when the year estimate of the shifted time is good |
| JsDate.DateOfDay | maple_runtime/ecma/src/jsdate.cpp:1024-1049 | subtracting the month's cumulative count gives 1..DaysInMonth, and the day after the year's last (d = 365+L) gives 32 |
| JsDate.ShiftBackDay | maple_runtime/ecma/src/jsdate.cpp:1016-1017 | subtracting msPerDay−1 from a time before truncating turns Day into floor division |
| JsDate.LeapDays | maple_runtime/ecma/src/jsdate.cpp:904-918 | 1 for a leap year and 0 otherwise |
| JsDate.DayWithinYearFloor | maple_runtime/ecma/src/jsdate.cpp:968-970 | with floor division the day within the year is in [0, DaysInYear) |
| JsDate.FloorDayInYear | maple_runtime/ecma/src/jsdate.cpp:968-970 | the floored day of a time in year y lies in [DayFromYear(y), DayFromYear(y+1)) |
| JsDate.MonthFromTimeFloor | maple_runtime/ecma/src/jsdate.cpp:973-1009 | corrected MonthFromTime: the month in 0..11 whose cumulative bounds hold the floored day within the year |
| JsDate.DateFromTimeFloor | maple_runtime/ecma/src/jsdate.cpp:1012-1052 | corrected DateFromTime: always in 1..DaysInMonth of that month |
| JsDate.MonthFromTimeAgrees | maple_runtime/ecma/src/jsdate.cpp:973-1009 | for non-negative or whole-day t the runtime's month is the corrected one |
| JsDate.DateFromTimeAgrees | maple_runtime/ecma/src/jsdate.cpp:1012-1052 | the runtime's date is the corrected one except on the first day of a year before 1970 |
| JsDate.ShiftBackSameYear | maple_runtime/ecma/src/jsdate.cpp:1016-1017 | the shift stays in the same year unless t is on the year's first day |
| JsDate.MonthFromTimeLastDay | maple_runtime/ecma/src/jsdate.cpp:973-1009 | at t = −28900800000 (mid-day on 31 Jan 1969) the runtime reports February where the corrected month is January |
| JsDate.DateFromTimeNewYear | maple_runtime/ecma/src/jsdate.cpp:1012-1052 | at t = −31536000000 (1 Jan 1969) the runtime reports date 32 where the corrected date is 1 |
| JsDate.NegativeWithinDay | maple_runtime/ecma/src/jsdate.cpp:1055-1084 | msPerDay plus the truncating remainder of a negative t is the floored remainder, or msPerDay for whole days |
| JsDate.HourFromTime | maple_runtime/ecma/src/jsdate.cpp:1055-1060 | for every t, negative included, floor(t / msPerHour) mod 24, in [0, 24) |
| JsDate.MinFromTime | maple_runtime/ecma/src/jsdate.cpp:1063-1068 | for every t floor(t / msPerMinute) mod 60, in [0, 60) |
| JsDate.SecFromTime | maple_runtime/ecma/src/jsdate.cpp:1071-1076 | for every t floor(t / msPerSecond) mod 60, in [0, 60) |
| JsDate.MsFromTime | maple_runtime/ecma/src/jsdate.cpp:1079-1084 | for every t, t mod 1000, in [0, 1000) |
| JsDate.WeekDay | maple_runtime/ecma/src/jsdate.cpp:1111-1118 | for every t (floor(t / msPerDay) + 4) mod 7, in [0, 7): the negative branch compensates for the truncating Day |
| JsDate.MakeDateRoundTrip | maple_runtime/ecma/src/jsdate.cpp:117-122 | a time built by MakeDate(day, MakeTime(h, m, s, ms)) and TimeClip from in-range parts gives back the day and each part |
| JsDate.LocalTimeInverse | maple_runtime/ecma/src/jsdate.cpp:1093-1101 | UTC undoes LocalTime and LocalTime undoes UTC for a given zone offset |
| JsDate.MakeTime | maple_runtime/ecma/src/jsdate.cpp:175-186 | hours, minutes, seconds and milliseconds each within range give a time inside one day |
| JsDate.MakeDate | maple_runtime/ecma/src/jsdate.cpp:117-122 | with a time inside one day, the result lies on the given day, at that time of day |
| JsDate.TimeClip | maple_runtime/ecma/src/jsdate.cpp:188-191 | the time is returned unchanged: no range check is applied |
| JsDate.LocalTime | maple_runtime/ecma/src/jsdate.cpp:1093-1096 | local time is ahead of UTC by exactly the zone offset, the daylight-saving adjustment being 0 |
| JsDate.UTC | maple_runtime/ecma/src/jsdate.cpp:1098-1101 | UTC is behind local time by exactly the zone offset, the daylight-saving adjustment being 0 |
| JsDate.YearStart | maple_runtime/ecma/src/jsdate.cpp:936-956 | the start of a year lies in that year and has its leap flag |
| JsDate.MakeDay | maple_runtime/ecma/src/jsdate.cpp:125-170 | for month ≥ 0 it is DayFromYear(y + m/12) plus the days before month m%12 (February 28 or 29 by leap year) plus date − 1; for a negative month no month days are added and the year moves by the truncated quotient |
| JsDate.MakeDayAgrees | maple_runtime/ecma/src/jsdate.cpp:125-170 | for month ≥ 0 the runtime's MakeDay is the one section 15.9.1.12 of ECMAScript 5.1 defines |
| JsDate.MakeDayNegativeMonth | maple_runtime/ecma/src/jsdate.cpp:132-133 | month −1 of 1970 gives 1970-01-01 (day 0) where the standard gives 1969-12-01 (day −31) |
| JsDate.CumDaysBound | maple_runtime/ecma/src/jsdate.cpp:140-165 | the cumulative month counts increase and stay within the year |
| JsDate.StartOfDayInYear | maple_runtime/ecma/src/jsdate.cpp:941-970 | the start of the d-th day of year y lies in y and is day d of it |
| JsDate.ReadBackMonth | maple_runtime/ecma/src/jsdate.cpp:973-1052 | a day within a month's bounds reads back as that month and date |
| JsDate.MakeDayRoundTrip | maple_runtime/ecma/src/jsdate.cpp:125-170 | a valid year, month and date built into a day read back as that year, month and date |
| JsValue.Payload32 | maple_runtime/ecma/src/jstyconv.cpp:396-399 | the 32-bit payload of a number is the number and that of a boolean is 1 or 0 |
| JsValue.TruncReal | maple_runtime/ecma/src/jstyconv.cpp:111-116 | C's double-to-integer conversion rounds toward zero |
| TypeConversion.ToBoolean | maple_runtime/ecma/src/jstyconv.cpp:68-89 | false exactly for none, undefined, null, NaN, false, 0, 0.0 and the empty string; true for every other number, string, infinity and object; no result for the kinds the default case asserts against |
| TypeConversion.ToNumberSlow | maple_runtime/ecma/src/jstyconv.cpp:91-125 | undefined, null, none, NaN and both infinities give 0; booleans give 1 or 0; a double gives its truncation toward zero modulo 2^32, which is the truncation itself when it fits in int32; strings and objects are not converted here |
| TypeConversion.ToNumber | maple_runtime/ecma/include/jstycnv.h:28-33 | an int32 number is returned unchanged; every other kind goes through the slow path |
| TypeConversion.ToNumber2 | maple_runtime/ecma/src/jstyconv.cpp:147-212 | undefined, null and none become 0 and a boolean 0 or 1; a double becomes its truncation, an int32 number when it fits and an integral double otherwise; numbers, NaN and the infinities are unchanged; only strings, objects and the internal kinds are not converted; an int32 result agrees with ToNumber |
| TypeConversion.NumberToString | maple_runtime/ecma/src/jstyconv.cpp:216-227 | 0 is "0"; every other number has no leading zero and a '-' exactly when negative |
| TypeConversion.NumberToStringRoundTrip | maple_runtime/ecma/src/jstyconv.cpp:216-227 | the string is the `%d` decimal form of n, and parsing it gives back n |
| TypeConversion.NumberToStringDigits | maple_runtime/ecma/src/jstyconv.cpp:224-226 | every character after the optional sign is a decimal digit |
| TypeConversion.ToBooleanOfNumber | maple_runtime/ecma/src/jstyconv.cpp:68-125 | for undefined, null, none and booleans, ToBoolean is "ToNumber is not 0" |
| TypeConversion.NumberAsDouble | maple_runtime/ecma/src/jstyconv.cpp:68-125 | an int32 number and the same number as a double have the same truth value, and the double converts back to the number |
| TypeConversion.SameValue | maple_runtime/ecma/src/jstyconv.cpp:396-428 | two number-or-boolean values compare by 32-bit payload only; otherwise identical values are equal, strings compare by content, and an object equals a function object or function exactly when they share a code pointer |
| TypeConversion.SameValueBoolNumber | maple_runtime/ecma/src/jstyconv.cpp:397-399 | true is the same value as 1 and false as 0 |
| TypeConversion.SameValueReflexive | maple_runtime/ecma/src/jstyconv.cpp:396-428 | every value is the same value as itself |
| TypeConversion.SameValueSymmetric | maple_runtime/ecma/src/jstyconv.cpp:396-428 | the comparison does not depend on the order of its operands, including the swap in the object/function case |
| TypeConversion.SameValueTransitive | maple_runtime/ecma/src/jstyconv.cpp:396-428 | the comparison is transitive |
| TypeConversion.ClampLength | maple_runtime/ecma/src/jstyconv.cpp:439-446 | clamps to [0, 2^53−1] and is the identity inside it |
| TypeConversion.ToLength | maple_runtime/ecma/src/jstyconv.cpp:431-465 | an int32 n gives max(n, 0); a double gives 0 below 1, 2^53−1 from 2^53−1 on and its floor in between; +Infinity gives 2^53−1; NaN, −Infinity, undefined, null and none give 0; booleans give 1 or 0; the result never exceeds 2^53−1 |
| TypeConversion.ToLengthNumberAsDouble | maple_runtime/ecma/src/jstyconv.cpp:431-446 | an int32 number and the same value as a double have the same length |
| TypeConversion.ToLengthIdempotent | maple_runtime/ecma/src/jstyconv.cpp:431-465 | a length converted again as a double is unchanged |
| TypeConversion.ToLengthMonotone | maple_runtime/ecma/src/jstyconv.cpp:437-446 | ToLength of doubles is monotone |
| RegularArray.LengthValue | maple_runtime/ecma/src/jsarray.cpp:46 | a new array's length is stored as an int32 number when it fits and as a double otherwise |
| RegularArray.Length | maple_runtime/ecma/src/jsarray.cpp:28-48 | the element count is below the slot count, and in a well-formed block slot 0 holds it as a number |
| RegularArray.NewArray | maple_runtime/ecma/src/jsarray.cpp:28-48 | a new array gets min(length, 0x10000) + 1 slots, slot 0 holding the length and every other slot none |
| RegularArray.NewArrayFull | maple_runtime/ecma/src/jsarray.cpp:28-48 | the corrected allocation: length + 1 slots, slot 0 the length, all others none |
| RegularArray.Read | maple_runtime/ecma/src/jsarray.cpp:1538-1554 | element idx is the value in slot idx + 1, or for a hole the prototype's property idx, or none when it has none |
| RegularArray.ReadAsWritten | maple_runtime/ecma/src/jsarray.cpp:1538-1554 | as written the block is consulted only for indices up to 0x10000; above that only the prototype is |
| RegularArray.SetElem | maple_runtime/ecma/src/jsarray.cpp:1491-1501 | storing element i writes slot i + 1 and no other slot |
| RegularArray.ReadAfterSet | maple_runtime/ecma/src/jsarray.cpp:1491-1554 | a stored element reads back, and the other elements read as before |
| RegularArray.OrUndefined | maple_runtime/ecma/src/jsarray.cpp:317-321 | a hole read by pop or shift is returned as undefined; any other value unchanged |
| RegularArray.Filled | maple_runtime/ecma/src/jsarray.cpp:1538-1554 | the elements of a block as they read through the prototype |
| RegularArray.FilledNoHoles | maple_runtime/ecma/src/jsarray.cpp:1538-1554 | without holes the elements are the stored slots |
| RegularArray.Realloc | maple_runtime/ecma/src/jsarray.cpp:1569-1604 | RegularRealloc sets slot 0 to the new length (as an int32), keeps the first min(old, new) elements and fills the slots for indices old_len .. new_len−1 with none |
| RegularArray.ReallocShrinkGrow | maple_runtime/ecma/src/jsarray.cpp:1569-1604 | shrinking then growing back leaves holes where the dropped elements were |
| RegularArray.Pop | maple_runtime/ecma/src/jsarray.cpp:310-323 | on length 0 nothing changes and the result is undefined; otherwise the last element (a hole as undefined) is returned and the length drops by one, keeping the other elements |
| RegularArray.PopAsWritten | maple_runtime/ecma/src/jsarray.cpp:310-323 | pop as written leaves the same block but reads its last element through the 0x10000-limited read |
| RegularArray.PushLength | maple_runtime/ecma/src/jsarray.cpp:355-366 | size 0 changes nothing; n + size above 2^53−1 throws a TypeError; otherwise the new length is n + size |
| RegularArray.RegularPushNoTypeError | maple_runtime/ecma/src/jsarray.cpp:355-366 | a regular array whose length and item count fit in 32 bits never reaches the TypeError |
| RegularArray.Push | maple_runtime/ecma/src/jsarray.cpp:351-375 | size 0 returns n with nothing changed; otherwise the items occupy indices n .. n+size−1, the old elements are kept and the result is n + size as a double |
| RegularArray.PushPopRoundTrip | maple_runtime/ecma/src/jsarray.cpp:306-375 | pushing one value and popping gives back the array and the value |
| RegularArray.ShiftSpec | maple_runtime/ecma/src/jsarray.cpp:463-481 | shift leaves one slot fewer (elements read through the prototype at every index: the corrected read) |
| RegularArray.Shift | maple_runtime/ecma/src/jsarray.cpp:463-481 | on length 0 nothing changes and the result is undefined; otherwise the first element (a hole as undefined) is returned, every other element moves down one and the length drops by one (elements read through the prototype at every index: the corrected read) |
| RegularArray.ShiftDone | maple_runtime/ecma/src/jsarray.cpp:470-475 | once every element has moved down the block is the shifted one |
| RegularArray.UnshiftSpec | maple_runtime/ecma/src/jsarray.cpp:766-777 | unshift adds one slot per item (elements read through the prototype at every index: the corrected read) |
| RegularArray.Unshift | maple_runtime/ecma/src/jsarray.cpp:758-795 | the items occupy indices 0 .. size−1, the old elements follow in order, and the result is len + size as an int32 number (elements read through the prototype at every index: the corrected read) |
| RegularArray.UnshiftDone | maple_runtime/ecma/src/jsarray.cpp:766-777 | once the elements have moved up and the items are stored the block is the unshifted one |
| RegularArray.UnshiftShiftRoundTrip | maple_runtime/ecma/src/jsarray.cpp:459-481 | shift after unshifting one value returns that value first and gives back the array (elements read through the prototype at every index: the corrected read) |
| RegularArray.ReverseSpec | maple_runtime/ecma/src/jsarray.cpp:431-446 | reverse keeps the length slot and puts element len−1−i at position i, except a middle element which stays (elements read through the prototype at every index: the corrected read) |
| RegularArray.Reverse | maple_runtime/ecma/src/jsarray.cpp:425-446 | the swap loop produces the reversed block and leaves the length unchanged (elements read through the prototype at every index: the corrected read) |
| RegularArray.ReverseDone | maple_runtime/ecma/src/jsarray.cpp:432-442 | once lower reaches len/2 every pair is swapped |
| RegularArray.ReverseMirror | maple_runtime/ecma/src/jsarray.cpp:425-446 | without holes, element i of the result is element len−1−i of the input (elements read through the prototype at every index: the corrected read) |
| RegularArray.ReverseInvolution | maple_runtime/ecma/src/jsarray.cpp:425-446 | reversing twice gives back an array without holes (elements read through the prototype at every index: the corrected read) |
| RegularArray.FromRelative | maple_runtime/ecma/src/jsarray.cpp:514-520 | max(refer + relat, 0) for negative relat and min(relat, refer) otherwise, so in [0, refer] |
| RegularArray.FromRelativeFixes | maple_runtime/ecma/src/jsarray.cpp:514-520 | an index within the length is its own clamp, and so is its negative offset from the length |
| RegularArray.Int64OrLength | maple_runtime/ecma/src/jsarray.cpp:522-538 | +Infinity maps to len, −Infinity to −len, NaN to 0, an int32 to itself and a double to its truncation; other kinds assert |
| RegularArray.SliceBounds | maple_runtime/ecma/src/jsarray.cpp:541-561 | start and end go through ToNumber2 and are clamped to [0, len], the end defaulting to len when undefined; only a string, an object or an internal kind among them gives no bounds; an already numeric bound is clamped from its own position |
| RegularArray.ToNumber2Position | maple_runtime/ecma/src/jsarray.cpp:548-559 | converting a bound that is already numeric does not change the position Int64OrLength reads from it |
| RegularArray.SliceBoundsDefault | maple_runtime/ecma/src/jsarray.cpp:546-561 | slice() with no arguments covers [0, len]; null and none count as 0 and true as 1 |
| RegularArray.SliceBoundsInfinity | maple_runtime/ecma/src/jsarray.cpp:522-561 | start −Infinity slices from 0 and +Infinity gives an empty slice at len |
| RegularArray.SliceSpec | maple_runtime/ecma/src/jsarray.cpp:563-575 | the slice has max(final − k, 0) elements, element j being element k + j read through the prototype (elements read through the prototype at every index: the corrected read) |
| RegularArray.Slice | maple_runtime/ecma/src/jsarray.cpp:563-575 | the copy loop produces exactly the slice, with a well-formed length slot (elements read through the prototype at every index: the corrected read) |
| RegularArray.SliceWhole | maple_runtime/ecma/src/jsarray.cpp:563-575 | slicing the whole of an array without holes copies it (elements read through the prototype at every index: the corrected read) |
| RegularArray.GetIndex | maple_runtime/ecma/src/jsarray.cpp:1449-1484 | a non-negative int32 maps to itself; a double in [0, 0xFFFFFFFF) to its truncation; a string to an index only when it is the numeral of one; a boolean, undefined, null, NaN, an infinity, a negative int32 and any other double to 0xFFFFFFFF; an object, function, environment, gpbase or none key gives None (not converted) |
| RegularArray.StringIndex | maple_runtime/ecma/src/jsarray.cpp:1464-1481 | as written a string maps to an index only when it is digits denoting at most 2^32−1 and equals the int32 number of that value printed back |
| RegularArray.StringIndexFixed | maple_runtime/ecma/src/jsarray.cpp:1464-1481 | corrected: a string maps to an index exactly when it is the canonical decimal of its value |
| RegularArray.StringIndexCanonical | maple_runtime/ecma/src/jsarray.cpp:1464-1481 | a string that maps to an index is the canonical decimal of that index ("007" is not 7) |
| RegularArray.StringIndexSmall | maple_runtime/ecma/src/jsarray.cpp:1464-1481 | the numeral of every index up to 2^31−1 maps to it |
| RegularArray.StringIndexLargeRejected | maple_runtime/ecma/src/jsarray.cpp:1476-1478 | as written the numerals of 2^31 .. 2^32−2 are rejected, because the int32 they pass through prints with a '-' |
| RegularArray.StringIndexFixedCorrect | maple_runtime/ecma/src/jsarray.cpp:1464-1481 | with the fix the numeral of every index up to 2^32−1 maps to it |
| RegularArray.BigArray | maple_runtime/ecma/src/jsarray.cpp:1569-1604 | a well-formed block of 0x10002 elements |
| RegularArray.PopPastLimitLosesElement | maple_runtime/ecma/src/jsarray.cpp:1541-1546 | popping an array of 0x10002 elements returns undefined as written where the element pushed last is meant |
| RegularArray.SeenBelowLimit | maple_runtime/ecma/src/jsarray.cpp:1538-1554 | for indices up to 0x10000 the as-written read and the corrected read agree |
| RegularArray.ShiftAsWritten | maple_runtime/ecma/src/jsarray.cpp:463-481 | shift as written: element i of the result is element i + 1 read with the 0x10000-limited read, and the length drops by one |
| RegularArray.ShiftAsWrittenAgrees | maple_runtime/ecma/src/jsarray.cpp:463-481 | shift as written gives the corrected result exactly when every moved element reads the same both ways, so always for at most 0x10001 elements |
| RegularArray.UnshiftAsWritten | maple_runtime/ecma/src/jsarray.cpp:766-777 | unshift as written: the items, then every old element read with the 0x10000-limited read |
| RegularArray.UnshiftAsWrittenAgrees | maple_runtime/ecma/src/jsarray.cpp:766-777 | unshift as written gives the corrected result exactly when every old element reads the same both ways, so always for at most 0x10001 elements |
| RegularArray.ReverseAsWritten | maple_runtime/ecma/src/jsarray.cpp:431-446 | reverse as written: the swapped elements are read with the 0x10000-limited read |
| RegularArray.ReverseAsWrittenAgrees | maple_runtime/ecma/src/jsarray.cpp:431-446 | reverse as written gives the corrected result when every element reads the same both ways, so always for at most 0x10001 elements |
| RegularArray.SliceAsWritten | maple_runtime/ecma/src/jsarray.cpp:563-575 | slice as written: a block from `__js_new_arr_internal` holding the elements read with the 0x10000-limited read, or none when an element would be stored past that block |
| RegularArray.SliceAsWrittenAgrees | maple_runtime/ecma/src/jsarray.cpp:563-575 | on at most 0x10000 elements slice as written builds exactly the corrected slice |
| RegularArray.MovesPastLimitLoseElements | maple_runtime/ecma/src/jsarray.cpp:1512-1554 | on 0x10002 set elements and an empty prototype, shift and unshift as written leave a hole at element 0x10000 and 0x10001, and reverse a hole at element 0, where the corrected reads keep the value; reversing twice does not give the array back |
| RegularArray.SlicePastLimitAsWritten | maple_runtime/ecma/src/jsarray.cpp:563-575 | on the same array, slice(2, 0x10002) as written holds a hole at its last element where the corrected slice holds the value, and slice(0, 0x10001) stores past its block |
| RegularArray.SliceOverrunsNewArray | maple_runtime/ecma/src/jsarray.cpp:36-39 | a slice of 0x10001 elements needs 0x10002 slots but the new array gets 0x10001 |
| FreeChunks.BucketIndex | maple_runtime/ecma/src/vmmemory.cpp:136-139 | a chunk whose size >> 2 lies in [1, n) goes to bucket (size >> 2) − 1, every other chunk to the last bucket n − 1 |
| FreeChunks.TotalAppend | maple_runtime/ecma/src/vmmemory.cpp:136-233 | the free bytes of two lists add up |
| FreeChunks.InsertChunk | maple_runtime/ecma/src/vmmemory.cpp:151-168 | the ordered insertion into the big list adds exactly the one chunk |
| FreeChunks.InsertTotal | maple_runtime/ecma/src/vmmemory.cpp:151-168 | the insertion adds the chunk's size to the list's free bytes |
| FreeChunks.InsertPos | maple_runtime/ecma/src/vmmemory.cpp:153-156 | the walk stops before the first chunk whose offset is not below the new one's |
| FreeChunks.InsertAt | maple_runtime/ecma/src/vmmemory.cpp:151-168 | the chunks before the stop are kept, the new chunk follows them, then the rest in order |
| FreeChunks.InsertChunkSorted | maple_runtime/ecma/src/vmmemory.cpp:151-168 | inserting into a list sorted by offset keeps it sorted |
| FreeChunks.InsertDisjoint | maple_runtime/ecma/src/vmmemory.cpp:151-168 | inserting a non-empty chunk that overlaps none keeps the list disjoint |
| FreeChunks.PutFreeChunk | maple_runtime/ecma/src/vmmemory.cpp:136-170 | a small chunk is pushed on the front of its bucket and a big one inserted into the last bucket; only that bucket changes and it gains exactly the chunk |
| FreeChunks.InsertElems | maple_runtime/ecma/src/vmmemory.cpp:151-168 | every chunk of the inserted list is the new one or an old one |
| FreeChunks.InsertInBucket | maple_runtime/ecma/src/vmmemory.cpp:136-170 | a chunk inserted into its own bucket keeps the bucket's size class |
| FreeChunks.InsertNonEmpty | maple_runtime/ecma/src/vmmemory.cpp:151-168 | inserting a non-empty chunk keeps every chunk non-empty |
| FreeChunks.PutFreeChunkValid | maple_runtime/ecma/src/vmmemory.cpp:136-170 | freeing a non-empty chunk that overlaps no big free chunk keeps the table valid |
| FreeChunks.TakeFit | maple_runtime/ecma/src/vmmemory.cpp:208-232 | the first-fit walk finds nothing exactly when every chunk is too small, and otherwise hands out exactly size bytes, the free bytes of the list dropping by size |
| FreeChunks.FitPos | maple_runtime/ecma/src/vmmemory.cpp:210-213 | the walk stops at the first chunk of at least size bytes |
| FreeChunks.RemainderCons | maple_runtime/ecma/src/vmmemory.cpp:208-232 | taking from a later chunk keeps the list's head |
| FreeChunks.TakeFitFirst | maple_runtime/ecma/src/vmmemory.cpp:208-232 | the chunk handed out starts where the first fit starts, and the list left is that chunk unlinked or split |
| FreeChunks.RemainderAt | maple_runtime/ecma/src/vmmemory.cpp:217-231 | an exact fit is unlinked and a larger one is replaced by its tail at offset + size; the other chunks stay in place |
| FreeChunks.RemainderDisjoint | maple_runtime/ecma/src/vmmemory.cpp:217-231 | the list left is disjoint, and overlaps nothing of the chunk handed out |
| FreeChunks.TakeFitDisjoint | maple_runtime/ecma/src/vmmemory.cpp:208-232 | taking a first fit from a disjoint list leaves a disjoint list that does not overlap the chunk handed out |
| FreeChunks.GetFreeChunk | maple_runtime/ecma/src/vmmemory.cpp:196-233 | a small request pops the head of its bucket, finding nothing exactly when it is empty; a big one takes a first fit of exactly size bytes; only that bucket changes, losing the chunk's bytes; nothing found changes nothing |
| FreeChunks.GetSmallSizeClass | maple_runtime/ecma/src/vmmemory.cpp:198-205 | in a valid table a small chunk handed out has the request's size class |
| FreeChunks.GetFreeChunkValid | maple_runtime/ecma/src/vmmemory.cpp:196-233 | taking a chunk keeps the table valid, and a big chunk handed out overlaps no chunk left in the big list |
| FreeChunks.SmallTakeValid | maple_runtime/ecma/src/vmmemory.cpp:198-205 | popping a small bucket keeps the table valid |
| FreeChunks.BigTakeValid | maple_runtime/ecma/src/vmmemory.cpp:206-232 | a big take keeps the table valid and the chunk handed out disjoint from the big list |
| FreeChunks.BucketsKept | maple_runtime/ecma/src/vmmemory.cpp:196-233 | a table with one bucket changed keeps the size class of every other bucket |
| FreeChunks.RemainderNonEmpty | maple_runtime/ecma/src/vmmemory.cpp:217-231 | unlinking or splitting keeps every chunk non-empty |
| FreeChunks.Merge | maple_runtime/ecma/src/vmmemory.cpp:173-194 | coalescing keeps the free bytes and the first offset and never lengthens the list; a list of at most one chunk is kept |
| FreeChunks.MergeHeadDisjoint | maple_runtime/ecma/src/vmmemory.cpp:181-185 | absorbing the touching next chunk keeps the list disjoint |
| FreeChunks.ConsSeparated | maple_runtime/ecma/src/vmmemory.cpp:186-187 | a chunk ending strictly before a separated list's chunks can lead it |
| FreeChunks.MergeSeparates | maple_runtime/ecma/src/vmmemory.cpp:173-194 | coalescing a disjoint list never hits the fatal error and leaves no two chunks touching |
| FreeChunks.MergeOverlapFatal | maple_runtime/ecma/src/vmmemory.cpp:188-190 | a chunk reaching past the next one's start is the fatal error |
| FreeChunks.MergeSeparatedUnchanged | maple_runtime/ecma/src/vmmemory.cpp:173-194 | a list with no touching chunks is left as it is |
| FreeChunks.MergeIdempotent | maple_runtime/ecma/src/vmmemory.cpp:173-194 | coalescing twice is coalescing once |
| FreeChunks.MergeNonEmpty | maple_runtime/ecma/src/vmmemory.cpp:173-194 | coalescing keeps every chunk non-empty |
| FreeChunks.MergeBigFreeChunk | maple_runtime/ecma/src/vmmemory.cpp:173-194 | only the last bucket changes and it keeps its free bytes |
| FreeChunks.MergeBigFreeChunkValid | maple_runtime/ecma/src/vmmemory.cpp:173-194 | coalescing a valid table succeeds, keeps it valid and leaves no two big free chunks touching |
| VmHeap.Align4 | maple_runtime/ecma/src/vmmemory.cpp:63 | Bytes4Align gives the least multiple of 4 not below n |
| VmHeap.IsHeap | maple_runtime/ecma/src/vmmemory.cpp:941 | an address is a heap address exactly when it lies in [base, base + total size) |
| VmHeap.Allocate | maple_runtime/ecma/src/vmmemory.cpp:718-763 | a free chunk is used when the table has one; otherwise a bump offset hands out the block; the headers, roots and sizes are kept and the bump offsets only grow |
| VmHeap.Malloc | maple_runtime/ecma/src/vmmemory.cpp:699-764 | an allocation keeps the headers, the candidate roots, the base and the header sizes |
| VmHeap.MallocAsWritten | maple_runtime/ecma/src/vmmemory.cpp:736-738 | Malloc as written differs from the corrected one only where the wrapping growth test differs from the exact one |
| VmHeap.GrowthTestsAgree | maple_runtime/ecma/src/vmmemory.cpp:736-738 | for a heap of at least 1 MiB the uint32 test and the exact test agree |
| VmHeap.InSpaceMonotone | maple_runtime/ecma/src/vmmemory.cpp:718-763 | a chunk in used space stays there as the bump offsets grow |
| VmHeap.BankInSpaceMonotone | maple_runtime/ecma/src/vmmemory.cpp:718-763 | the same for a whole table |
| VmHeap.TailInSpace | maple_runtime/ecma/src/vmmemory.cpp:226 | the tail of a split chunk stays in used space |
| VmHeap.JoinInSpace | maple_runtime/ecma/src/vmmemory.cpp:181-185 | two touching chunks in used space join into one in used space |
| VmHeap.MergeInSpace | maple_runtime/ecma/src/vmmemory.cpp:173-194 | coalescing keeps a list in used space |
| VmHeap.MergeBankInSpace | maple_runtime/ecma/src/vmmemory.cpp:173-194 | coalescing keeps a table in used space |
| VmHeap.RemainderInSpace | maple_runtime/ecma/src/vmmemory.cpp:217-231 | unlinking or splitting keeps a list in used space |
| VmHeap.GetFreeChunkInSpace | maple_runtime/ecma/src/vmmemory.cpp:196-233 | taking a chunk keeps the table in used space |
| VmHeap.ChunkNonEmpty | maple_runtime/ecma/src/vmmemory.cpp:136-233 | every chunk of a valid table is non-empty |
| VmHeap.GrowthInSpace | maple_runtime/ecma/src/vmmemory.cpp:736-738 | when the small region grows by 1 MiB every free chunk is still in used space |
| VmHeap.MallocValid | maple_runtime/ecma/src/vmmemory.cpp:699-764 | a successful Malloc keeps the heap valid |
| VmHeap.MallocFresh | maple_runtime/ecma/src/vmmemory.cpp:722-745 | a block cut from a bump offset lies inside the heap and overlaps no free chunk |
| VmHeap.SmallGrowthPastHeapEnd | maple_runtime/ecma/src/vmmemory.cpp:736-738 | on a valid 512 KiB heap the wrapped test lets the small region grow past the end of the heap, where the corrected Malloc reports out of memory |
| VmHeap.SmallHeap | maple_runtime/ecma/src/vmmemory.cpp:736-738 | the 512 KiB heap with a two-bucket table used to show the wrap |
| VmHeap.RecallMem | maple_runtime/ecma/src/vmmemory.cpp:801-873 | the block leaves the candidate roots and loses its in_roots flag if it is a JSObj; no other header changes; its chunk of Bytes4Align(size) plus header bytes is put back in its bucket |
| VmHeap.RecallMemRoots | maple_runtime/ecma/src/vmmemory.cpp:862-867 | recalling a block keeps the in_roots flags in step with the candidate roots |
| VmHeap.VMMallocGC | maple_runtime/ecma/src/vmmemory.cpp:62-94 | it succeeds exactly when Malloc of the aligned size plus the header succeeds, returns the address just after the header, and records a header with the tag, count 0 and not in roots |
| VmHeap.AllocRecallRoundTrip | maple_runtime/ecma/src/vmmemory.cpp:62-94 | recalling a block just allocated frees exactly the chunk it was cut from |
| VmHeap.RecalledAt | maple_runtime/ecma/src/vmmemory.cpp:837-838 | the recalled chunk starts at the address minus the base and the header, and spans the aligned size plus the header |
| VmHeap.MallocOffsetBound | maple_runtime/ecma/src/vmmemory.cpp:699-764 | the offset Malloc returns fits in 32 bits |
| VmHeap.ChunkTakenInSpace | maple_runtime/ecma/src/vmmemory.cpp:196-233 | a chunk taken from the table lies in used space |
| VmHeap.DecCount | maple_runtime/ecma/src/vmmemory.cpp:949-950 | a count below UINT14_MAX drops by one (0 wrapping to UINT14_MAX) and a saturated count stays |
| VmHeap.GCDecRf | maple_runtime/ecma/src/vmmemory.cpp:938-981 | with the collector off or outside the heap nothing changes; otherwise the count drops; at 0 an object or environment is released, a string or iterator recalled, any other tag fatal; above 0 a JSObj becomes a candidate root once |
| VmHeap.GCDecRfRoots | maple_runtime/ecma/src/vmmemory.cpp:938-981 | the candidate roots stay in step with the in_roots flags |
| VmHeap.ReallocContent | maple_runtime/ecma/src/vmmemory.cpp:774-795 | the new block keeps the header and the first min(old, new) bytes, and the grown bytes are zero |
| VmHeap.Zeros | maple_runtime/ecma/src/vmmemory.cpp:782-783 | the memset's zero bytes |
| VmHeap.ReallocGrowShrink | maple_runtime/ecma/src/vmmemory.cpp:766-798 | growing a block and shrinking it back gives back its bytes |
| VmHeap.PoolRealloc | maple_runtime/ecma/src/vmmemory.cpp:766-798 | Realloc succeeds exactly when Malloc of the new size plus the header does, returns that block, and recalls the old one |
| VmHeap.NewMemoryChunk | maple_runtime/ecma/src/vmmemory.cpp:615-632 | a recycled node is reused first; otherwise the offset bumps by one aligned node, and running past the limit is fatal |
| VmHeap.NewMemoryChunkBounded | maple_runtime/ecma/src/vmmemory.cpp:615-632 | the node pool never runs past its limit and its offset only grows |
| DatePattern.FieldOf | maple_runtime/ecma/src/jsintl-datetimeformat.cpp:915-937 | a letter that names a property has a width for every run length |
| DatePattern.NameWidth | maple_runtime/ecma/src/jsintl-datetimeformat.cpp:877-882 | G, E, z, v and V runs: short up to 3 letters, long for 4, narrow from 5 |
| DatePattern.NumberWidth | maple_runtime/ecma/src/jsintl-datetimeformat.cpp:892-895 | y, d, h, H, m, s, k and K runs: 2-digit for exactly 2 letters, numeric otherwise |
| DatePattern.MonthWidth | maple_runtime/ecma/src/jsintl-datetimeformat.cpp:897-908 | M and L runs: numeric, 2-digit, short, long for 1 to 4 letters and narrow from 5 |
| DatePattern.Hour12Of | maple_runtime/ecma/src/jsintl-datetimeformat.cpp:945-954 | h and K set hour12 to true, H and k set it to false, no other letter sets it |
| DatePattern.ApplyRun | maple_runtime/ecma/src/jsintl-datetimeformat.cpp:915-954 | a run sets its letter's property to its width and hour12 for an hour letter, and leaves every other property as it was |
| DatePattern.RunLength | maple_runtime/ecma/src/jsintl-datetimeformat.cpp:865-869 | a run is the longest prefix of one repeated letter |
| DatePattern.AfterQuote | maple_runtime/ecma/src/jsintl-datetimeformat.cpp:860-863 | a quoted literal is skipped up to and past its closing apostrophe |
| DatePattern.AfterQuoteOf | maple_runtime/ecma/src/jsintl-datetimeformat.cpp:860-863 | skipping a literal without apostrophes resumes right after its closing one |
| DatePattern.ResolveQuoted | maple_runtime/ecma/src/jsintl-datetimeformat.cpp:858-863 | a quoted literal sets nothing |
| DatePattern.RunLengthOf | maple_runtime/ecma/src/jsintl-datetimeformat.cpp:865-869 | a run of count letters followed by another letter is read as count letters |
| DatePattern.ResolveRun | maple_runtime/ecma/src/jsintl-datetimeformat.cpp:858-956 | reading a pattern applies its first run, then reads the rest |
| DatePattern.OtherLetterSetsNothing | maple_runtime/ecma/src/jsintl-datetimeformat.cpp:910-912 | a letter outside the table sets nothing |
| DatePattern.Pattern | maple_runtime/ecma/src/jsintl-datetimeformat.cpp:852-957 | the pattern spelled by a list of runs starts with the first run's letter |
| DatePattern.ResolvePattern | maple_runtime/ecma/src/jsintl-datetimeformat.cpp:852-957 | ResolveICUPattern applied to the pattern of a list of runs applies exactly those runs, in order |
| DatePattern.Resolve | maple_runtime/ecma/src/jsintl-datetimeformat.cpp:852-957 | every property already set stays set, every property added is a date-time field name, and a property that is not a field keeps its value |
| DatePattern.Parts | maple_runtime/ecma/src/jsintl-datetimeformat.cpp:1141-1255 | the skeleton's nine parts in their fixed order, from weekday to timeZoneName |
| DatePattern.PartRuns | maple_runtime/ecma/src/jsintl-datetimeformat.cpp:1144-1253 | a part adds a run only when its option is a string it recognises, with the letter count for that value |
| DatePattern.HourLetterAsWritten | maple_runtime/ecma/src/jsintl-datetimeformat.cpp:1204-1213 | as written the hour letter is j unless hour12 is a string, which a boolean hour12 never is |
| DatePattern.HourLetter | maple_runtime/ecma/src/jsintl-datetimeformat.cpp:1204-1213 | corrected: h for hour12 true, H for false, j when it is absent |
| DatePattern.PartsRunsAppend | maple_runtime/ecma/src/jsintl-datetimeformat.cpp:1141-1255 | the skeleton of two lists of parts is the concatenation of theirs |
| DatePattern.PartsRunsAbsent | maple_runtime/ecma/src/jsintl-datetimeformat.cpp:1146-1253 | parts whose options are undefined add nothing |
| DatePattern.HourOnlySkeleton | maple_runtime/ecma/src/jsintl-datetimeformat.cpp:1214-1223 | with only a numeric hour the skeleton is the hour letter alone |
| DatePattern.PropRankAt | maple_runtime/ecma/src/jsintl-datetimeformat.cpp:1141-1255 | the parts' properties are distinct and only the sixth is the hour |
| DatePattern.PartsRunsOnly | maple_runtime/ecma/src/jsintl-datetimeformat.cpp:1141-1255 | with only one part's option given the skeleton is that part's run |
| DatePattern.SkeletonIgnoresBooleanHour12 | maple_runtime/ecma/src/jsintl-datetimeformat.cpp:1204-1213 | for hour "numeric" and hour12 false the skeleton as written is "j" where "H" is meant |
| DatePattern.SingleRunPattern | maple_runtime/ecma/src/jsintl-datetimeformat.cpp:1221 | a single one-letter run spells that letter |
| DatePattern.PartsAgreeTail | maple_runtime/ecma/src/jsintl-datetimeformat.cpp:1141-1255 | the agreement of the parts with the pattern reader holds for every suffix |
| DatePattern.TableReadsBack | maple_runtime/ecma/src/jsintl-datetimeformat.cpp:1141-1255 | a letter count of a part's table reads back as the value it was chosen for |
| DatePattern.PartAgreesOf | maple_runtime/ecma/src/jsintl-datetimeformat.cpp:852-957 | a part whose letter sets its property and whose counts read back agrees with the pattern reader |
| DatePattern.PartAgreesAt | maple_runtime/ecma/src/jsintl-datetimeformat.cpp:852-957 | each of the nine parts agrees with the pattern reader |
| DatePattern.DatePartsAgree | maple_runtime/ecma/src/jsintl-datetimeformat.cpp:1144-1203 | the weekday, era, year, month and day parts agree with the pattern reader |
| DatePattern.TimePartsAgree | maple_runtime/ecma/src/jsintl-datetimeformat.cpp:1204-1253 | the hour, minute, second and time-zone parts agree with the pattern reader |
| DatePattern.PartsEachAgree | maple_runtime/ecma/src/jsintl-datetimeformat.cpp:1141-1255 | every part agrees with the pattern reader |
| DatePattern.PartsDistinct | maple_runtime/ecma/src/jsintl-datetimeformat.cpp:1141-1255 | no two parts share a property or a letter |
| DatePattern.PartsHourOnce | maple_runtime/ecma/src/jsintl-datetimeformat.cpp:1141-1255 | at most one part's letter sets hour12 |
| DatePattern.PartsOfAgree | maple_runtime/ecma/src/jsintl-datetimeformat.cpp:1141-1255 | the skeleton's parts agree with the pattern reader as a whole |
| DatePattern.PartsRunsSplit | maple_runtime/ecma/src/jsintl-datetimeformat.cpp:1141-1255 | the runs of agreeing parts never merge into one another |
| DatePattern.LettersTail | maple_runtime/ecma/src/jsintl-datetimeformat.cpp:1141-1255 | a list's letters include its tail's |
| DatePattern.HeadLetterFresh | maple_runtime/ecma/src/jsintl-datetimeformat.cpp:1141-1255 | the first part's letter is not used again |
| DatePattern.JoinRuns | maple_runtime/ecma/src/jsintl-datetimeformat.cpp:1141-1255 | a run of a fresh letter in front of split runs keeps them split |
| DatePattern.ApplyRunsAppend | maple_runtime/ecma/src/jsintl-datetimeformat.cpp:858-956 | applying two lists of runs is applying one after the other |
| DatePattern.PartRunsCounts | maple_runtime/ecma/src/jsintl-datetimeformat.cpp:1141-1255 | every run of the skeleton has at least one letter |
| DatePattern.ApplyPartsCons | maple_runtime/ecma/src/jsintl-datetimeformat.cpp:858-956 | applying the parts' runs is applying the first part's run, then the rest |
| DatePattern.ApplyPartsProps | maple_runtime/ecma/src/jsintl-datetimeformat.cpp:852-957 | reading the runs back sets every property whose option the skeleton encodes to that option |
| DatePattern.ApplyPartsFrame | maple_runtime/ecma/src/jsintl-datetimeformat.cpp:852-957 | reading the runs back leaves every other property except hour12 alone |
| DatePattern.ApplyPartsUnset | maple_runtime/ecma/src/jsintl-datetimeformat.cpp:852-957 | reading the runs back leaves the properties the skeleton does not encode alone |
| DatePattern.ApplyPartsHour | maple_runtime/ecma/src/jsintl-datetimeformat.cpp:945-954 | reading back an encoded h or H run sets hour12 accordingly |
| DatePattern.ResolveParts | maple_runtime/ecma/src/jsintl-datetimeformat.cpp:852-957 | resolving the runs of agreeing parts gives back exactly the options they encode |
| DatePattern.ResolveHourPart | maple_runtime/ecma/src/jsintl-datetimeformat.cpp:945-954 | hour12 is read back exactly when the one hour letter is a 12- or 24-hour letter and the hour is encoded |
| DatePattern.OnlyHourLetter | maple_runtime/ecma/src/jsintl-datetimeformat.cpp:1204-1223 | only the hour part can carry an hour12 letter |
| DatePattern.SkeletonFields | maple_runtime/ecma/src/jsintl-datetimeformat.cpp:1141-1255 | resolving the corrected skeleton gives back every recognised option and no other property except hour12 |
| DatePattern.SkeletonHour12 | maple_runtime/ecma/src/jsintl-datetimeformat.cpp:1204-1223 | resolving the corrected skeleton gives back hour12 exactly when it was given and the hour is encoded |
| DatePattern.SkeletonHourLetter | maple_runtime/ecma/src/jsintl-datetimeformat.cpp:1204-1223 | resolving a skeleton built with a given hour letter reads hour12 from that letter |
| DatePattern.SkeletonRoundTrip | maple_runtime/ecma/src/jsintl-datetimeformat.cpp:1141-1255 | ResolveICUPattern after GetDateTimeStringSkeleton gives back every option the skeleton recognises, hour12 included, and nothing else (with lines 852-957 of the same file) |
| DatePattern.Skeleton | maple_runtime/ecma/src/jsintl-datetimeformat.cpp:1141-1255 | every letter of the skeleton is one of the letters of the parts the options select, with the intended hour letter |
| DatePattern.SkeletonAsWritten | maple_runtime/ecma/src/jsintl-datetimeformat.cpp:1141-1255 | every letter of the skeleton is one of the letters of the parts the options select, with the hour letter the source picks |
| DatePattern.ToBCP47CalendarName | maple_runtime/ecma/src/jsintl-datetimeformat.cpp:1126-1139 | ethiopic-amete-alem, gregorian and islamic-civil are renamed ethiopic, gregory and islamicc; every other name is kept |
| DatePattern.CalendarNameIdempotent | maple_runtime/ecma/src/jsintl-datetimeformat.cpp:1126-1139 | renaming a renamed calendar name changes nothing |
| FormatMatcher.Get | maple_runtime/ecma/src/jsintl-datetimeformat.cpp:428 | an undefined property is None and a defined one its value |
| FormatMatcher.WidthIndex | maple_runtime/ecma/src/jsintl-datetimeformat.cpp:456-461 | the position of a value among 2-digit, numeric, narrow, short and long, −1 when it is not one of them |
| FormatMatcher.IndexIn | maple_runtime/ecma/src/jsintl-datetimeformat.cpp:459-461 | indexOf: the first position of x, or −1 when x is absent |
| FormatMatcher.Clamp | maple_runtime/ecma/src/jsintl-datetimeformat.cpp:463-464 | the delta is clamped to [−2, 2] |
| FormatMatcher.Penalty | maple_runtime/ecma/src/jsintl-datetimeformat.cpp:447-478 | 20 for an added component, 120 for a removed one, 0 exactly when both are undefined or of equal width, never above 120 |
| FormatMatcher.DeltaPenaltyOrder | maple_runtime/ecma/src/jsintl-datetimeformat.cpp:463-477 | a larger width difference in one direction never costs less |
| FormatMatcher.PenaltyOrder | maple_runtime/ecma/src/jsintl-datetimeformat.cpp:447-478 | a format further from the requested width in one direction scores no better |
| FormatMatcher.Score | maple_runtime/ecma/src/jsintl-datetimeformat.cpp:420-479 | a format's score lies between 0 and −120 per component |
| FormatMatcher.ScoreZeroIff | maple_runtime/ecma/src/jsintl-datetimeformat.cpp:420-479 | a format scores 0 exactly when it agrees with the options on every component |
| FormatMatcher.ExactFormatScoresZero | maple_runtime/ecma/src/jsintl-datetimeformat.cpp:420-479 | a format carrying exactly the requested components scores 0 |
| FormatMatcher.ScoreAppend | maple_runtime/ecma/src/jsintl-datetimeformat.cpp:423-479 | the score of a list of components is the sum of its parts' scores |
| FormatMatcher.FirstBestUnique | maple_runtime/ecma/src/jsintl-datetimeformat.cpp:481-486 | at most one position is the first best one |
| FormatMatcher.BasicFormatMatcher | maple_runtime/ecma/src/jsintl-datetimeformat.cpp:390-492 | with no formats the result is undefined; otherwise it is the first format whose score no other format beats |
| FormatMatcher.ScoreOf | maple_runtime/ecma/src/jsintl-datetimeformat.cpp:420-479 | the loop accumulates exactly the format's score |
| NumberFormat.FindDigits | maple_runtime/ecma/src/jsintl-numberformat.cpp:366-376 | the digits of the first entry for the code, or 2 when no entry has it |
| NumberFormat.CurrencyDigits | maple_runtime/ecma/src/jsintl-numberformat.cpp:366-376 | a currency has 0, 2 or 3 minor digits |
| NumberFormat.TableDigits | maple_runtime/ecma/src/jsintl-numberformat.cpp:30-57 | every currency the table lists has 0 or 3 digits |
| NumberFormat.CurrencyDigitsListed | maple_runtime/ecma/src/jsintl-numberformat.cpp:366-376 | a currency gets 2 digits exactly when the table does not list it (with lines 30-57 of the same file) |
| NumberFormat.FindDigitsUnlisted | maple_runtime/ecma/src/jsintl-numberformat.cpp:366-376 | for a table without the value 2, the lookup gives 2 exactly for an unlisted code |
| NumberFormat.GetNumberOption | maple_runtime/ecma/src/jsintl-numberformat.cpp:231-235 | an undefined option takes the fallback; a defined one is accepted exactly when it lies in [minimum, maximum], and is then kept (None is the RangeError) |
| NumberFormat.MaxFractionDefaultAsWritten | maple_runtime/ecma/src/jsintl-numberformat.cpp:254-265 | as written the maximum-fraction default is the currency's digits, 0 for percent and 3 otherwise, whatever the minimum fraction digits are |
| NumberFormat.MathMax | maple_runtime/ecma/src/jsintl-numberformat.cpp:258-264 | Math.max over its argument list, the receiver not counted: an upper bound that is one of the arguments |
| NumberFormat.MaxFractionDefault | maple_runtime/ecma/src/jsintl-numberformat.cpp:254-265 | corrected: the larger of the minimum fraction digits and the style's default |
| NumberFormat.ResolveDigitsAsWritten | maple_runtime/ecma/src/jsintl-numberformat.cpp:230-300 | as written an unset maximum fraction resolves to the style's default alone |
| NumberFormat.ResolveDigits | maple_runtime/ecma/src/jsintl-numberformat.cpp:230-300 | the resolved digit options keep every given value, default the rest (the minimum fraction to the currency's digits or 0, the maximum to at least the minimum), stay within 1..21 and 0..20, and carry the significant pair exactly when one of its options is given |
| NumberFormat.ResolveDigitsWith | maple_runtime/ecma/src/jsintl-numberformat.cpp:230-300 | the options are rejected exactly when a given value is out of its range (minInteger 1..21, minFraction 0..20, maxFraction from the minimum fraction to 20, the significant pair 1..21 and ordered); otherwise minInteger is the given one or 1, minFraction the given one or the style's default, a given maxFraction is kept, and the significant pair is present exactly when one of its options is given |
| NumberFormat.ResolveDigitsRejects | maple_runtime/ecma/src/jsintl-numberformat.cpp:230-300 | the options are rejected exactly when a given one lies outside its range, the maximum's range starting at the minimum |
| NumberFormat.MaxFractionBelowMinimum | maple_runtime/ecma/src/jsintl-numberformat.cpp:254-271 | minimumFractionDigits 5 resolves as written to maximumFractionDigits 3, below the minimum, where 5 is meant |
| NumberFormat.Pow10 | maple_runtime/ecma/src/jsintl-numberformat.cpp:781 | powers of ten are positive |
| NumberFormat.Pow10Monotone | maple_runtime/ecma/src/jsintl-numberformat.cpp:781 | powers of ten grow with the exponent |
| NumberFormat.DigitRoundTrip | maple_runtime/ecma/src/jsintl-numberformat.cpp:787 | a digit character reads back as itself |
| NumberFormat.AppendDigits | maple_runtime/ecma/src/jsintl-numberformat.cpp:799-807 | joining digit strings gives a digit string |
| NumberFormat.DecimalAppend | maple_runtime/ecma/src/jsintl-numberformat.cpp:804-807 | the value of a joined numeral is the first part shifted left by the second's length plus the second |
| NumberFormat.DecimalBound | maple_runtime/ecma/src/jsintl-numberformat.cpp:787 | a numeral of k digits is below 10^k |
| NumberFormat.DecimalZeros | maple_runtime/ecma/src/jsintl-numberformat.cpp:797 | a run of zeros is the value 0 |
| NumberFormat.Fraction | maple_runtime/ecma/src/jsintl-numberformat.cpp:804-805 | n splits into its quotient by 10^f and a remainder below 10^f |
| NumberFormat.LastDigitBelow | maple_runtime/ecma/src/jsintl-numberformat.cpp:787 | a numeral below 10^k with one more digit stays below 10^(k+1) |
| NumberFormat.ShiftedUnique | maple_runtime/ecma/src/jsintl-numberformat.cpp:804-805 | quotient and remainder by 10^f are unique |
| NumberFormat.FixedWidth | maple_runtime/ecma/src/jsintl-numberformat.cpp:804-805 | the f-digit numeral of a remainder has exactly f digits |
| NumberFormat.ModPow10 | maple_runtime/ecma/src/jsintl-numberformat.cpp:804-805 | the last w + 1 digits of v are its last digit after the last w digits of v / 10 |
| NumberFormat.FixedWidthValue | maple_runtime/ecma/src/jsintl-numberformat.cpp:804-805 | the f-digit numeral of v denotes v mod 10^f |
| NumberFormat.FixedWidthUnique | maple_runtime/ecma/src/jsintl-numberformat.cpp:804-805 | a digit string is the fixed-width numeral of its own value |
| NumberFormat.LeadingNonzero | maple_runtime/ecma/src/jsintl-numberformat.cpp:784-788 | a numeral with a non-zero first digit is at least 1 |
| NumberFormat.CanonicalUnique | maple_runtime/ecma/src/jsintl-numberformat.cpp:784-788 | a numeral without a leading zero is the shortest numeral of its value |
| NumberFormat.SplitPoint | maple_runtime/ecma/src/jsintl-numberformat.cpp:791-809 | the integer part has at least one digit, the fraction part exactly f, and together they are m padded with zeros up to f + 1 digits |
| NumberFormat.TrimZeros | maple_runtime/ecma/src/jsintl-numberformat.cpp:818-823 | at most cut trailing zeros are removed, and only zeros; removal stops early only at a non-zero digit |
| NumberFormat.DropPoint | maple_runtime/ecma/src/jsintl-numberformat.cpp:825-828 | a trailing decimal point is removed and nothing else changes |
| NumberFormat.PadIntegerExtra | maple_runtime/ecma/src/jsintl-numberformat.cpp:829-835 | as written step 9 puts i more zeros in front than the intended padding to minInteger digits |
| NumberFormat.PadLeft | maple_runtime/ecma/src/jsintl-numberformat.cpp:831-834 | padding to width w gives max(length, w) characters |
| NumberFormat.PaddedValue | maple_runtime/ecma/src/jsintl-numberformat.cpp:797-799 | leading zeros add nothing to a numeral's value |
| NumberFormat.SplitValues | maple_runtime/ecma/src/jsintl-numberformat.cpp:804-805 | the two parts of a numeral of n, split f digits from the end, are the quotient and the f-digit remainder by 10^f |
| NumberFormat.PartsDigits | maple_runtime/ecma/src/jsintl-numberformat.cpp:804-805 | both parts of a digit string are digit strings |
| NumberFormat.SplitHeadCanonical | maple_runtime/ecma/src/jsintl-numberformat.cpp:791-809 | the integer part has no leading zero |
| NumberFormat.SplitPointDigits | maple_runtime/ecma/src/jsintl-numberformat.cpp:791-809 | both parts are digits and together denote n |
| NumberFormat.SplitPointValues | maple_runtime/ecma/src/jsintl-numberformat.cpp:791-809 | the integer part is the shortest numeral of n / 10^f and the fraction part the f-digit numeral of n mod 10^f |
| NumberFormat.TrimAfterPoint | maple_runtime/ecma/src/jsintl-numberformat.cpp:818-823 | trimming m.f trims only the fraction digits |
| NumberFormat.DropPointText | maple_runtime/ecma/src/jsintl-numberformat.cpp:825-828 | removing a bare trailing point gives the integer part alone |
| NumberFormat.UnpaddedText | maple_runtime/ecma/src/jsintl-numberformat.cpp:783-828 | steps 3 to 8 give the quotient's numeral and the remainder's digits with the allowed trailing zeros removed |
| NumberFormat.UnpaddedSplitText | maple_runtime/ecma/src/jsintl-numberformat.cpp:791-828 | with f ≠ 0, steps 3 to 8 give the split parts with the fraction trimmed |
| NumberFormat.PrefixDigits | maple_runtime/ecma/src/jsintl-numberformat.cpp:818-823 | a prefix of a digit string is a digit string |
| NumberFormat.Unpadded | maple_runtime/ecma/src/jsintl-numberformat.cpp:783-828 | the integer count i is the length of the quotient's numeral |
| NumberFormat.ToRawFixedMatchesReference | maple_runtime/ecma/src/jsintl-numberformat.cpp:773-837 | ToRawFixed of n / 10^f is the arithmetic reference: the quotient padded to minInteger digits, then the remainder's f digits with at most f − minFraction trailing zeros removed |
| NumberFormat.ToRawFixed | maple_runtime/ecma/src/jsintl-numberformat.cpp:773-837 | the result is the unpadded text with zeros in front, up to minInteger integer digits when it had fewer (step 9) |
| NumberFormat.ToRawFixedAsWritten | maple_runtime/ecma/src/jsintl-numberformat.cpp:829-835 | the result is the unpadded text with minInteger zeros in front whenever it had fewer than minInteger integer digits |
| NumberFormat.PadInteger | maple_runtime/ecma/src/jsintl-numberformat.cpp:829-835 | zeros are put in front of the text until its integer part has minInteger digits, and only when it had fewer |
| NumberFormat.PadText | maple_runtime/ecma/src/jsintl-numberformat.cpp:829-835 | padding the whole numeral by its integer count pads the integer digits alone, leaving the point and the fraction as they are |
| NumberFormat.PadIntegerAsWritten | maple_runtime/ecma/src/jsintl-numberformat.cpp:829-835 | when the integer part has fewer than minInteger digits, exactly minInteger zeros are put in front of it |
| NumberFormat.FixedReference | maple_runtime/ecma/src/jsintl-numberformat.cpp:773-837 | the reference text starts with at least minInteger digits, no fewer than the quotient's numeral, whose value is the quotient, followed by the point when anything follows |
| NumberFormat.AsWrittenPadsExtra | maple_runtime/ecma/src/jsintl-numberformat.cpp:829-835 | as written a short integer part ends up with i extra zeros in front |
| NumberFormat.MinIntegerOverPads | maple_runtime/ecma/src/jsintl-numberformat.cpp:829-835 | 5 with minimumIntegerDigits 3 is "0005" as written where "005" is meant |
| PropCache.Fresh | maple_engine/src/invoke_dyn_method.cpp:496-497 | at start-up the generation is 1 and every slot is from generation 0, so nothing hits |
| PropCache.Hash | maple_engine/src/invoke_dyn_method.cpp:498 | the slot index is below 64 |
| PropCache.GetKeyed | maple_engine/src/invoke_dyn_method.cpp:657-673 | a lookup hits exactly when its slot is from the current generation and holds the same object and name words |
| PropCache.Lookup | maple_engine/src/invoke_dyn_method.cpp:657-664 | PROP_CACHE_GET hits exactly when the entry's generation is current and its object and name words match, and then returns the stored value |
| PropCache.Store | maple_engine/src/invoke_dyn_method.cpp:501-514 | a store keeps the 64 slots and the generation |
| PropCache.Set | maple_engine/src/invoke_dyn_method.cpp:501-507 | PROP_CACHE_SET keeps the 64 slots |
| PropCache.Invalidate | maple_engine/src/invoke_dyn_method.cpp:500 | invalidating touches no slot |
| PropCache.Reset | maple_engine/src/invoke_dyn_method.cpp:499 | a reset keeps the 64 slots and the generation |
| PropCache.StoreThenGet | maple_engine/src/invoke_dyn_method.cpp:501-514 | a lookup right after a store of the same words returns the stored result (with lines 657-673 of the same file) |
| PropCache.SetThenGet | maple_engine/src/invoke_dyn_method.cpp:501-507 | PROP_CACHE_GET right after PROP_CACHE_SET of the same object and name returns the result (with lines 657-664 of the same file) |
| PropCache.FreshMisses | maple_engine/src/invoke_dyn_method.cpp:496-497 | the start-up cache answers no lookup (with lines 657-664 of the same file) |
| PropCache.InvalidateMisses | maple_engine/src/invoke_dyn_method.cpp:500 | after PROP_CACHE_INVALIDATE no lookup hits (with lines 657-664 of the same file) |
| PropCache.ResetMisses | maple_engine/src/invoke_dyn_method.cpp:499 | after PROP_CACHE_RESET a lookup with a non-zero object word misses (with lines 657-664 of the same file) |
| PropCache.Apply | maple_engine/src/invoke_dyn_method.cpp:499-514 | each cache operation keeps the 64 slots |
| PropCache.Run | maple_engine/src/invoke_dyn_method.cpp:499-514 | a sequence of cache operations keeps the 64 slots |
| PropCache.Step | maple_engine/src/invoke_dyn_method.cpp:499-514 | after one operation a remembered answer is the earlier one or the value just stored, and an invalidation forgets it |
| PropCache.ApplyAnswers | maple_engine/src/invoke_dyn_method.cpp:499-514 | one operation keeps the cache valid and changes a lookup's answer exactly as the reference: a store into the slot answers for its own words only, an invalidation or a reset of the slot ends the answer, anything else leaves it (with lines 657-673 of the same file) |
| PropCache.RunAnswers | maple_engine/src/invoke_dyn_method.cpp:499-514 | over any sequence of operations the cache answers every lookup as the reference does (with lines 657-673 of the same file) |
| PropCache.AnswerUntouched | maple_engine/src/invoke_dyn_method.cpp:499-514 | operations on other slots leave an answer alone |
| PropCache.AnswerStaysMissing | maple_engine/src/invoke_dyn_method.cpp:499-514 | a lookup nobody stores stays missing |
| PropCache.HitPersists | maple_engine/src/invoke_dyn_method.cpp:501-507 | a stored result keeps hitting while no operation touches its slot (with lines 657-664 of the same file) |
| PropCache.MissUntilStored | maple_engine/src/invoke_dyn_method.cpp:500-514 | after an invalidation a lookup misses until it is stored again (with lines 657-673 of the same file) |
| PrimTypes.ShortName | maple_engine/src/invoke_dyn_method.cpp:47-72 | every type's name has 1 to 6 characters |
| PrimTypes.AlignRight | maple_engine/src/invoke_dyn_method.cpp:49-70 | the name is right-aligned in exactly w characters with spaces in front |
| PrimTypes.TypeStr | maple_engine/src/invoke_dyn_method.cpp:47-72 | typestr always gives 6 characters |
| PrimTypes.TypeStrAligned | maple_engine/src/invoke_dyn_method.cpp:47-72 | typestr is the short name right-aligned in 6 characters |
| PrimTypes.TypeStrUnknown | maple_engine/src/invoke_dyn_method.cpp:70 | typestr is "   UNK" exactly for the types the switch does not name |
| BitExtend.ExtMask | maple_engine/src/invoke_dyn_method.cpp:1233 | the mask is the low min(bsize, 32) bits (with line 1248 of the same file) |
| Bits.And | maple_engine/src/shimdynfunction.cpp:689-692 | a & b is at most each operand |
| Bits.Or | maple_engine/src/shimdynfunction.cpp:693-696 | the bitwise or of a and b is at least each operand and at most their sum |
| Bits.Xor | maple_engine/src/shimdynfunction.cpp:697-700 | a ^ b is at most the sum of the operands |
| Bits.Not | maple_engine/src/invoke_dyn_method.cpp:1233-1235 | the complement within w bits stays within w bits and xors with the operand to all ones |
| Bits.Shl | maple_engine/src/invoke_dyn_method.cpp:1607 | a << o has its o low bits clear and shifting it back by o gives a |
| Bits.Shr | maple_engine/src/invoke_dyn_method.cpp:1609 | a >> o is the r with r·2^o ≤ a < (r + 1)·2^o, so never above a |
| BitExtend.Zext | maple_engine/src/invoke_dyn_method.cpp:1248-1250 | zext keeps the value mod 2^bsize, or the whole word from 32 bits |
| BitExtend.ZextMask | maple_engine/src/invoke_dyn_method.cpp:1248-1250 | and-ing with the mask is reduction mod 2^bsize |
| BitExtend.Sext | maple_engine/src/invoke_dyn_method.cpp:1233-1235 | sext keeps the low bsize bits and its signed value is those bits read as a bsize-bit two's-complement number |
| BitExtend.SextSet | maple_engine/src/invoke_dyn_method.cpp:1235 | or-ing with the inverted mask adds 2^32 − 2^bsize to the low bits |
| BitExtend.SextValue | maple_engine/src/invoke_dyn_method.cpp:1233-1235 | the branch on the tested bit gives the sign-extended word |
| BitExtend.SextArith | maple_engine/src/invoke_dyn_method.cpp:1235 | the arithmetic of sign extension by adding 2^32 − 2^bsize |
| BitExtend.TestedBitIsTop | maple_engine/src/invoke_dyn_method.cpp:1235 | the tested bit is 1 exactly when the low bits are at least 2^(bsize−1) |
| BitExtend.ShiftNegative | maple_engine/src/invoke_dyn_method.cpp:1235 | shifting the signed view tests the same bit as shifting the word |
| BitExtend.DivModSplit | maple_engine/src/invoke_dyn_method.cpp:1235 | the remainder by 2P splits into the bit at P and the remainder by P |
| BitExtend.SplitTop | maple_engine/src/invoke_dyn_method.cpp:1235 | that bit is 1 exactly when the remainder is at least P |
| BitExtend.SextRange | maple_engine/src/invoke_dyn_method.cpp:1233-1235 | the sign-extended value lies in [−2^(bsize−1), 2^(bsize−1)) |
| BitExtend.SignedViewInjective | maple_engine/src/invoke_dyn_method.cpp:1235 | two words with the same signed view are equal |
| BitExtend.SextIdempotent | maple_engine/src/invoke_dyn_method.cpp:1233-1235 | sign-extending twice is sign-extending once |
| BitExtend.SextFullWord | maple_engine/src/invoke_dyn_method.cpp:1233-1235 | sext from 32 bits keeps the word |
| BitExtend.ZextOfSext | maple_engine/src/invoke_dyn_method.cpp:1233-1250 | zext after sext from the same width is zext alone |
| BitExtend.ExtractBits | maple_engine/src/invoke_dyn_method.cpp:1607-1609 | extractbits is the bsize-bit field starting at boffset |
| BitExtend.ExtractBitsValue | maple_engine/src/invoke_dyn_method.cpp:1607-1609 | masking with the shifted mask and shifting down gives that field |
| BitExtend.MaskBelow | maple_engine/src/invoke_dyn_method.cpp:1607 | wrapping the mask to 64 bits does not change the and |
| BitExtend.ShrModBelow | maple_engine/src/invoke_dyn_method.cpp:1609 | the field fits in 64 bits |
| BitExtend.ModAtMost | maple_engine/src/invoke_dyn_method.cpp:1609 | a remainder is at most the value |
| BitExtend.AndBelow | maple_engine/src/invoke_dyn_method.cpp:1607-1609 | and-ing with a value below 2^n ignores the bits of the other operand from n up |
| BitExtend.AndStep | maple_engine/src/invoke_dyn_method.cpp:1607-1609 | and is decided bit by bit |
| BitExtend.ExtractIsZext | maple_engine/src/invoke_dyn_method.cpp:1607-1609 | extractbits at offset 0 agrees with zext (with lines 1248-1250 of the same file) |
| InterpArith.ShrWord | maple_engine/src/shimdynfunction.cpp:1106 | a logical right shift never grows the word (with line 1117 of the same file) |
| InterpArith.AshrI32 | maple_engine/src/shimdynfunction.cpp:1059 | an arithmetic right shift keeps the sign and never grows the magnitude |
| InterpArith.AshrBounds | maple_engine/src/shimdynfunction.cpp:1059 | floor division by a positive divisor keeps the sign and shrinks the magnitude |
| InterpArith.FloorDivNegative | maple_engine/src/shimdynfunction.cpp:1059 | a negative value's floor quotient stays negative and not below the value |
| InterpArith.MulMono | maple_engine/src/shimdynfunction.cpp:1092 | multiplying by a non-negative factor keeps the order |
| InterpArith.I32Arith | maple_engine/src/shimdynfunction.cpp:1053-1098 | the int32 case is defined exactly for the arithmetic operators, and lshr is the same arithmetic shift as ashr |
| InterpArith.DivI32Range | maple_engine/src/shimdynfunction.cpp:1085-1087 | a C quotient of int32 operands, other than INT32_MIN / −1, fits in int32 |
| InterpArith.QuotientHalves | maple_engine/src/shimdynfunction.cpp:1086 | a quotient by at least 2 is at most half the dividend |
| InterpArith.U32Arith | maple_engine/src/shimdynfunction.cpp:1099-1146 | the uint32 and a32 case is defined exactly for the arithmetic operators, ashr and lshr both being the logical shift |
| InterpArith.Arith | maple_engine/src/shimdynfunction.cpp:1045-1161 | JSopArith gives an int32 number exactly for i32, u32 and a32 operands and an arithmetic operator: the int32 result for i32, and for u32 and a32 the uint32 result carried in an int32 |
| InterpArith.MaxMinOperand | maple_engine/src/shimdynfunction.cpp:1073-1078 | max and min return one of the operands, at least (at most) both, under the type's reading of the words (with lines 1120-1125 of the same file) |
| InterpArith.DivRem | maple_engine/src/shimdynfunction.cpp:1079-1087 | div and rem satisfy v0 = q·v1 + m with \|m\| < \|v1\| for i32 (C truncation) and m < w1 for u32 (with lines 1126-1134 of the same file) |
| InterpArith.SignednessAgnostic | maple_engine/src/shimdynfunction.cpp:1053-1146 | sub, mul, shl, band, bior and bxor give the same result word for i32 and u32 |
| InterpArith.SubAgnostic | maple_engine/src/shimdynfunction.cpp:1088-1090 | sub agrees under both readings once the two differences are congruent mod 2^32 (with lines 1135-1137 of the same file) |
| InterpArith.MulAgnostic | maple_engine/src/shimdynfunction.cpp:1091-1093 | mul agrees under both readings once the two products are congruent mod 2^32 (with lines 1138-1140 of the same file) |
| InterpArith.ShlAgnostic | maple_engine/src/shimdynfunction.cpp:1082-1084 | shl agrees under both readings once the two shifted values are congruent mod 2^32 (with lines 1129-1131 of the same file) |
| InterpArith.SameBitwise | maple_engine/src/shimdynfunction.cpp:1061-1069 | the bitwise operators agree under both readings (with lines 1108-1116 of the same file) |
| InterpArith.WrapCongruent | maple_engine/src/shimdynfunction.cpp:1088-1093 | values that differ by a multiple of 2^32 wrap to the same word |
| InterpArith.MulCongruent | maple_engine/src/shimdynfunction.cpp:1091-1093 | the product of the signed views is congruent to the product of the words |
| InterpArith.ShlCongruent | maple_engine/src/shimdynfunction.cpp:1082-1084 | the shifted signed view is congruent to the shifted word |
| InterpArith.WrapI32Exact | maple_engine/src/shimdynfunction.cpp:1088-1093 | an in-range value is its own int32 wrap |
| InterpArith.SubInverse | maple_engine/src/shimdynfunction.cpp:1088-1090 | v0 − (v0 − v1) is v1 under wrap-around |
| InterpArith.AshrIsShrThenSext | maple_engine/src/shimdynfunction.cpp:1059 | an arithmetic shift by k is the logical shift sign-extended from 32 − k bits (with lines 1106, 1233-1235 of the same file) |
| InterpArith.AshrQuotient | maple_engine/src/shimdynfunction.cpp:1059 | the logical shift of a negative value's word is its floor quotient plus 2^(32−k) (with line 1106 of the same file) |
| InterpArith.BitOperand | maple_engine/src/shimdynfunction.cpp:670-682 | NaN, null and undefined read as 0, an int32 number as itself and a boolean as 0 or 1; operands that need the string parse or ToPrimitive are not modelled |
| InterpArith.BitOpI32 | maple_engine/src/shimdynfunction.cpp:684-721 | land and lior give 1 exactly when both (either) operand is non-zero and 0 otherwise; lshr shifts the unsigned word and is non-negative for a shift of at least 1 |
| InterpArith.BitOp | maple_engine/src/shimdynfunction.cpp:664-724 | JSopBitOp is defined exactly for a bit operator on readable operands, and gives the int32 number of the switch |
| InterpArith.LshrNonNegative | maple_engine/src/shimdynfunction.cpp:701-705 | a logical shift by at least 1 fits in 31 bits |
| InterpArith.HalfAtMost | maple_engine/src/shimdynfunction.cpp:704 | a word divided by at least 2 fits in 31 bits |
| InterpArith.BitXorInverse | maple_engine/src/shimdynfunction.cpp:697-699 | xor-ing with y twice gives back x's int32 operand |
| InterpArith.XorI32Inverse | maple_engine/src/shimdynfunction.cpp:697-699 | on int32 values xor with k twice is the identity |
| InterpArith.XorTwice | maple_engine/src/shimdynfunction.cpp:698 | on naturals xor with b twice is the identity |
| InterpArith.XorDigits | maple_engine/src/shimdynfunction.cpp:698 | xor works bit by bit |
| InterpArith.XorBack | maple_engine/src/shimdynfunction.cpp:698 | the induction step of xor-twice |
| InterpArith.DigitCancels | maple_engine/src/shimdynfunction.cpp:698 | adding the same bit twice mod 2 cancels |
| InterpArith.XorSelf | maple_engine/src/shimdynfunction.cpp:698 | x xor x is 0 |
| InterpArith.XorZero | maple_engine/src/shimdynfunction.cpp:698 | xor is 0 only for equal operands |
| InterpArith.ShlThenAshr | maple_engine/src/shimdynfunction.cpp:685-688 | shifting left by k and arithmetically back by k gives back a value that fits in 32 − k bits (with lines 707-710 of the same file) |
| InterpArith.ShlExact | maple_engine/src/shimdynfunction.cpp:707-710 | a left shift that does not overflow is multiplication by 2^k |
| InterpArith.ProductFits | maple_engine/src/shimdynfunction.cpp:707-710 | such a product fits in int32 |
| InterpArith.PrimCmp | maple_engine/src/shimdynfunction.cpp:1168-1212 | JSopPrimCmp is defined exactly for the six comparisons on i32 and u32; eq and ne compare the words, the orderings use the signed view for i32 and the unsigned value for u32 |
| InterpArith.SignedViewOrder | maple_engine/src/shimdynfunction.cpp:1177-1191 | two words have the same signed view exactly when they are equal |
| InterpArith.PrimCmpDuality | maple_engine/src/shimdynfunction.cpp:1168-1212 | ge is not-lt, le is not-gt, ne is not-eq, and gt is lt with the operands swapped |
| InterpArith.SignedUnsignedAgree | maple_engine/src/shimdynfunction.cpp:1177-1208 | words on the same side of 2^31 compare alike under i32 and u32 |
| InterpArith.SignedUnsignedDisagree | maple_engine/src/shimdynfunction.cpp:1177-1208 | a word below 2^31 is below one at or above it as u32 but not as i32 |
| InterpValues.Judge | maple_engine/src/shimdynfunction.cpp:1223-1250 | eq and ne use the equality routine, lt and ge the relational one on (x, y) with left-first, gt and le the relational one on (y, x) without; ne, ge and le negate the answer and keep the always-false flag |
| InterpValues.Cmp | maple_engine/src/shimdynfunction.cpp:1214-1256 | when either operand is tagged, a NaN gives true for ne and false otherwise, an always-false verdict gives false, and any other result is the verdict; two untagged words are compared by JSopPrimCmp |
| InterpValues.CmpGeIsNotLt | maple_engine/src/shimdynfunction.cpp:1232-1235 | without NaN or an always-false verdict ge is the negation of lt (with lines 1244-1246 of the same file) |
| InterpValues.CmpLeIsNotGt | maple_engine/src/shimdynfunction.cpp:1236-1243 | without NaN or an always-false verdict le is the negation of gt |
| InterpValues.CmpNeIsNotEq | maple_engine/src/shimdynfunction.cpp:1224-1231 | without NaN or an always-false verdict ne is the negation of eq |
| InterpValues.CmpAlwaysFalse | maple_engine/src/shimdynfunction.cpp:1251 | an always-false equality makes both eq and ne false |
| InterpValues.CmpRawWords | maple_engine/src/shimdynfunction.cpp:1254-1255 | two untagged words compare as their int32 views |
| InterpValues.Cvt | maple_engine/src/shimdynfunction.cpp:1258-1305 | to a dynamic type u1 becomes a boolean, i32 and a32 an int32 number, u32 an int32 number exactly when it fits (a double otherwise); from a dynamic type u1 is ToBoolean and an integer type ToInteger; between two static types the result is undefined |
| InterpValues.CvtInteger | maple_engine/src/shimdynfunction.cpp:1291-1295 | __number_value(__js_ToInteger(v)) is defined exactly when the conversion is |
| InterpValues.CvtKeepsValue | maple_engine/src/shimdynfunction.cpp:1262-1276 | converting a word to a dynamic number keeps its value under the source type's reading |
| InterpValues.CvtRoundTrip | maple_engine/src/shimdynfunction.cpp:1262-1295 | an i32 word converted to a dynamic value and back is its int32 view; a u32 word that fits comes back as itself; a u1 flag comes back as the same truth value |
| InterpValues.LnotAsWritten | maple_engine/src/shimdynfunction.cpp:1669-1690 | as written every string, object and simplestr gives false, so !"" is false |
| InterpValues.LnotEmptyStringAsWritten | maple_engine/src/shimdynfunction.cpp:1678-1681 | ToBoolean("") is false, yet JSopUnaryLnot as written gives false for "" where true is meant |
| InterpValues.Lnot | maple_engine/src/shimdynfunction.cpp:1669-1690 | corrected: a boolean for every value kind the switch accepts, and the fatal error for the others |
| InterpValues.LnotIsNotToBoolean | maple_engine/src/shimdynfunction.cpp:1669-1690 | the corrected Lnot is the negation of ToBoolean, and differs from the source only on "" |
| InterpValues.LnotTwice | maple_engine/src/shimdynfunction.cpp:1669-1690 | !!v is ToBoolean(v) |
| PassArguments.ArgCount | maple_engine/src/shimdynfunction.cpp:151-162 | all actual arguments are passed for a formal count of −1, otherwise at most the formal count |
| PassArguments.PadCount | maple_engine/src/shimdynfunction.cpp:153-159 | no padding for −1; otherwise enough undefined values to reach the formal count |
| PassArguments.LayoutContents | maple_engine/src/shimdynfunction.cpp:138-198 | the slots hold this, then the environment if any, then the passed arguments in order, then undefined; a formal count n gives exactly n argument slots, −1 gives all the actual ones |
| PassArguments.Layout | maple_engine/src/shimdynfunction.cpp:138-198 | the layout starts with this; with formal count −1 it has one slot per actual argument, otherwise exactly the formal count, plus the environment slot when there is one |
| PassArguments.ConcatIndex | maple_engine/src/shimdynfunction.cpp:138-198 | where the parts of a three-part layout sit |
| PassArguments.PushedReads | maple_engine/src/shimdynfunction.cpp:155-191 | after w stores the u-th slot below the stack pointer holds the layout's u-th value from the end |
| PassArguments.PushedKeeps | maple_engine/src/shimdynfunction.cpp:155-191 | the stores touch only the slots they fill |
| PassArguments.Pass | maple_engine/src/shimdynfunction.cpp:138-198 | PassArguments returns minus 8 times the layout's length and stores the layout from that offset up; no other stack slot changes |
| PassArguments.StoreLayout | maple_engine/src/shimdynfunction.cpp:151-197 | the pads, arguments, environment and this are stored from the top down into consecutive slots |
| PassArguments.LayoutStored | maple_engine/src/shimdynfunction.cpp:138-198 | once every slot is stored the layout reads back from the offset up |
| PassArguments.StoreSlot | maple_engine/src/shimdynfunction.cpp:156-158 | storing the next slot extends the pushed stack |
| PassArguments.PushPads | maple_engine/src/shimdynfunction.cpp:155-159 | the pad loop stores undefined into the topmost slots |
| PassArguments.PushArgs | maple_engine/src/shimdynfunction.cpp:164-175 | the argument loop stores the arguments from the last one down; a negative count stores none |
| PassArguments.PassDone | maple_engine/src/shimdynfunction.cpp:191-197 | slots numbered down from the stack pointer read back up from the offset |
| Frames.Store32 | maple_engine/src/shimdynfunction.cpp:1378 | a 32-bit store changes only its four bytes and reads back |
| Frames.ZeroFill | maple_engine/src/shimdynfunction.cpp:1379 | the memset clears exactly [lo, hi) |
| Frames.Prolog | maple_engine/src/shimdynfunction.cpp:1376-1382 | InsertProlog saves fp in the word just below sp, clears the rest of the frame, sets fp to sp and moves sp down by the frame size; nothing outside the frame changes |
| Frames.Epilog | maple_engine/src/shimdynfunction.cpp:2169-2172 | InsertEplog sets sp to fp and fp to the word saved just below it, and writes no memory |
| Frames.PrologEpilog | maple_engine/src/shimdynfunction.cpp:1376-1382 | InsertEplog right after InsertProlog restores both pointers (with lines 2169-2172 of the same file) |
| Frames.EpilogAfterWrites | maple_engine/src/shimdynfunction.cpp:1376-1382 | whatever the frame's code writes, the epilog restores both pointers while fp and the saved word are left alone (with lines 2169-2172 of the same file) |
| Frames.RunCode | maple_engine/src/shimdynfunction.cpp:1376-1382 | running a call or a local write restores sp and fp and leaves everything from the stack pointer up (for a call) or from the saved word up (for a write) unchanged (with lines 2169-2172 of the same file) |
| Frames.RunAll | maple_engine/src/shimdynfunction.cpp:1376-1382 | a frame's code keeps sp, fp and everything from the saved word up (with lines 2169-2172 of the same file) |
| Frames.SavedWordKept | maple_engine/src/shimdynfunction.cpp:2169-2172 | when the saved word survives the frame's code, the epilog restores the caller's pointers and memory above the frame |
| Frames.CallRestoresCaller | maple_engine/src/shimdynfunction.cpp:1376-1382 | nested calls unwind in LIFO order: a call of any depth returns with the caller's sp, fp and memory from sp up intact (with lines 2169-2172 of the same file) |

## Left out

- The gdb plumbing of `m_print.py`: `gdb.parse_and_eval`, the parsing of gdb's text output, the frame, info and datastore lookups, colours and column padding. Memory, the class cache, the runtime type of an address and the property store are given maps. A line of output is a structured value, not formatted text.
- Floating point. A double is an exact real, with no rounding and no sign of zero. The `double:` and `float:` parts of a decoded field are not computed. Number-to-string conversion of non-integers is not modelled.
- ICU, libc and environment calls: the pattern ICU returns, the available calendars, the time zone (LocalTZA is a parameter and DaylightSavingTA is 0), the clock and random numbers.
- JsDate.YearFromTime: the floating-point first guess of the year is a parameter. Its correctness is proved for any guess within one year of the true year.
- JsDate: the source computes in `int64_t` (jsdate.h:21 and jsdate.cpp:117-191, 936-965), while the model computes `TimeFromYear`, `DayFromYear`, `MakeDay`, `MakeDate` and `MakeTime` on unbounded integers, so signed overflow is not modelled. `TimeFromYear(2147483647)` is about 6.8e19 ms, which does not fit in 64 bits. Neither `TimeClip` nor the model applies the range check of section 15.9.1.14 of ECMAScript 5.1, so times beyond 8.64e15 ms are not turned into NaN.
- NumberFormat.ToRawFixed: the computation of n = x·10^f in floating point is not modelled. The kernel starts from the integer n.
- NumberFormat.GetNumberOption: the option lookup lives in a file that is not part of this model. It is modelled as its range check on an optional value.
- NumberFormat.MathMax: the receiver of `__jsmath_pt_max` is taken to be ignored, as Math.max ignores `this`.
- Headers that are not part of this model: jsvalue.h (the NaN-box layout; a value is its tag and payload), vmmemory.h and the jsarray and jsobject headers.
  - MEMHASHTABLESIZE, MALLOCHEADSIZE and MALLOCEXHEADSIZE are parameters or fields of the heap record.
  - Bytes4Align is taken to round up to a multiple of 4.
  - MVALSIZE and PTRSIZE are taken to be 8, and UINT14_MAX to be 0x3FFF.
  - ARRAY_MAXINDEXNUM_INTERNAL is taken to be 0x10000.
- Reference counting on values stored into arrays and onto the stack (the GCIncRf and GCDecRf calls in jsarray.cpp and PassArguments). The counts do not change what these operations compute.
- The cycle collector (RecallCycle, ManageObject, ManageEnvironment, MarkAndSweep) and the MM_DEBUG statistics and debug printing. GCDecRf reports which release it would dispatch instead of performing it.
- VmHeap.Malloc: the crc_alloc_size bookkeeping, which only triggers collections, is not modelled.
- VmHeap.RecallMem: the body size of the block is a parameter, as the callers pass it. RecallString's string-length computation is not modelled.
- RegularArray.GetIndex: a key that is an object, function, environment, gpbase or none gives None. The source converts such a key with `__js_ToString` (ToPrimitive for an object) and then reads it as a numeral, so an object whose string form is "3" denotes index 3; that conversion is not part of this model.
- RegularArray.StringIndex: the digit test of `__jsstr_is_numidx` (jsstring.cpp is not part of this model) is taken as "non-empty, all decimal digits, value at most 2^32 - 1". The string's number is the decimal value of those digits.
- RegularArray.ShiftSpec: describes the corrected shift, which reads every element through the prototype-aware read. The source's 0x10000-limited read is ShiftAsWritten (see Findings).
- RegularArray.Shift: computes the corrected shift. As written, elements above index 0x10000 are read from the prototype only, ignoring the block (ShiftAsWritten).
- RegularArray.UnshiftSpec: describes the corrected unshift. The source's result is UnshiftAsWritten (see Findings).
- RegularArray.Unshift: computes the corrected unshift. As written, old elements above index 0x10000 are lost (UnshiftAsWritten).
- RegularArray.UnshiftShiftRoundTrip: holds for the corrected shift and unshift. As written it holds for arrays of at most 0x10001 elements (ShiftAsWrittenAgrees, UnshiftAsWrittenAgrees).
- RegularArray.Unshift: requires Length(a) + |items| <= UINT32_MAX. The source calls RegularRealloc with the uint32 sum len + size and no guard (jsarray.cpp:768); that wrap-around is not modelled.
- RegularArray.ReverseSpec: describes the corrected reverse. The source's result is ReverseAsWritten (see Findings).
- RegularArray.Reverse: computes the corrected reverse. As written, elements above index 0x10000 are read from the prototype only, ignoring the block (ReverseAsWritten).
- RegularArray.ReverseMirror: holds for the corrected reverse. As written it holds for arrays of at most 0x10001 elements (ReverseAsWrittenAgrees).
- RegularArray.ReverseInvolution: holds for the corrected reverse. As written it fails on 0x10002 elements (MovesPastLimitLoseElements).
- RegularArray.SliceSpec: describes the corrected slice. The source's result is SliceAsWritten (see Findings).
- RegularArray.Slice: computes the corrected slice, into a block with room for every element (NewArrayFull).
- RegularArray.SliceWhole: holds for the corrected slice. As written it holds for arrays of at most 0x10000 elements (SliceAsWrittenAgrees).
- RegularArray.SliceBounds: a string or object bound gives None, because ToNumber2 does not convert those kinds here.
- TypeConversion.ToLength: the source converts a double with `(int64_t)floor(d)` (jstyconv.cpp:440), which has no defined result for |d| ≥ 2^63; on x86 it gives INT64_MIN, so `ToLength(1e20)` is 0 as written, while the model truncates exactly and gives 2^53 − 1. `ToNumberSlow` (jstyconv.cpp:114) and `ToNumber2` (jstyconv.cpp:197) use the same int64 step: the model takes it as exact, so for such doubles its result comes from the exact truncation where the source's comes from INT64_MIN (0 from `ToNumberSlow`, the double −2^63 from `ToNumber2`).
- TypeConversion.ToNumber2: strings need the string-to-double parser and objects need ToPrimitive, which are not part of this model, so they give None. This includes the array object, which the source turns into NaN.
- RegularArray.Push: requires Length(a) + |items| <= UINT32_MAX. The source's guard for a longer regular array (jsarray.cpp:360-361) has an empty body, and RegularRealloc's uint32 sizes then wrap. That wrap-around is not modelled.
- VmHeap.HeadSize: every JSObj block gets the extended header. This is the build without MARK_CYCLE_ROOTS (vmmemory.cpp:65, 76, 804); the other build is not modelled.
- MprintCommand.Mprint: the first-character test is ASCII digits only. Python's `isdigit()` (m_print.py:58) also accepts other Unicode digits, and `int(x, 16)` (m_print.py:62) also takes underscores and non-ASCII digits. Those inputs are not modelled.
- TypeConversion.ToNumber: strings and objects need the string parser and ToPrimitive, which are not part of this model, so they give None.
- InterpValues.Cmp: the abstract equality and relational comparisons JSopCmp calls are parameters. Only the NaN rule, the always-false verdict and the raw-word case are modelled.
- InterpValues.Cvt: conversions involving simplestr give None, because the string table is not modelled.
- InterpValues.Lnot: a gpbase operand gives false as written. Its string contents are not visible to this model, so LnotIsNotToBoolean excludes it.
- InterpArith.Arith: the a64 multiplication and the small integer types (i8, i16, u8, u16) are not modelled. The latter reach a fatal error in the source and give None here.
- I32Arith: signed overflow of add, sub and mul is undefined in C and is modelled as 32-bit two's-complement wrap-around, as the compiled code behaves. Division by zero, INT32_MIN / -1 and shift counts outside 0..31 are preconditions.
- InterpArith.BitOp: shift counts outside 0..31 are a precondition, because the source does not mask them to 5 bits.
- PropCache: the 64-bit generation counter is unbounded here, so its wrap-around after 2^64 invalidations is not modelled.
- PassArguments.Pass: the ALIGNMENTNEGOFFSET step is the identity, because every offset already moves by whole 8-byte slots.
- The threaded interpreter loop, exception handling, process startup and module loading, the Intl initialisers' property-bag plumbing, and the builtin string table: these are outside the kernels modelled here.
- The unbounded `while True` of `get_class_list` is modelled by a walk that records the classes it has passed. A revisited class ends it with a separate cycle outcome, where the source would loop for ever.

## Findings

| source | as written | input that shows it | evidently intended | confidence | as-written member | corrected member |
|---|---|---|---|---|---|---|
| maple_runtime/ecma/src/jsdate.cpp:973-1009 | MonthFromTime finds the day within the year with truncating division by msPerDay | t = -28900800000 (noon on 1969-01-31) gives month 1 | month 0: the day is floor(t / msPerDay) | not executed | JsDate.MonthFromTimeLastDay | JsDate.MonthFromTimeFloor |
| maple_runtime/ecma/src/jsdate.cpp:1012-1052 | DateFromTime steps a negative t back by msPerDay - 1 before the year is found | t = -31536000000 (midnight on 1969-01-01) gives date 32 | date 1 | not executed | JsDate.DateFromTimeNewYear | JsDate.DateFromTimeFloor |
| maple_runtime/ecma/src/jsdate.cpp:132-133 | MakeDay splits the month with C's truncating `/` and `%` | MakeDay(1970, -1, 1) gives day 0 | day -31 (1969-12-01), by floor division as section 15.9.1.12 of ECMAScript 5.1 defines | not executed | JsDate.MakeDayNegativeMonth | JsDate.MakeDayRoundTrip |
| maple_runtime/ecma/src/jsintl-datetimeformat.cpp:1204-1213 | the hour letter follows hour12 only when the option is a string | hour "numeric" with hour12 false gives skeleton "j" | "H" | not executed | DatePattern.SkeletonIgnoresBooleanHour12 | DatePattern.SkeletonRoundTrip |
| maple_runtime/ecma/src/jsintl-numberformat.cpp:254-271 | mnfd is passed in Math.max's receiver slot, so it is ignored | minimumFractionDigits 5 without a maximum gives maximumFractionDigits 3 | max(5, 3) = 5 | not executed | NumberFormat.MaxFractionBelowMinimum | NumberFormat.ResolveDigits |
| maple_runtime/ecma/src/jsintl-numberformat.cpp:829-835 | ToRawFixed prepends minInteger zeros when the integer part is shorter | n = 5, minInteger 3 gives "0005" | "005": minInteger - i zeros | not executed | NumberFormat.MinIntegerOverPads | NumberFormat.ToRawFixedMatchesReference |
| maple_runtime/ecma/src/vmmemory.cpp:736-738 | the small-region growth test subtracts 1 MiB from the uint32 heap size | a valid 512 KiB heap with a full small region, request of 4 bytes | the request fails instead of growing the small region past the heap's end | not executed | VmHeap.SmallGrowthPastHeapEnd | VmHeap.MallocValid |
| maple_runtime/ecma/src/jsarray.cpp:1538-1546 | pop reads its last element with `__jsarr_GetRegularElem`, which ignores slots above index 0x10000 | popping a regular array of 0x10002 elements with an empty prototype gives undefined | the last element | not executed | RegularArray.PopPastLimitLosesElement | RegularArray.Pop |
| maple_runtime/ecma/src/jsarray.cpp:463-481 | shift moves each element down with `__jsarr_internal_MoveElem`, which reads through `__jsarr_GetRegularElem` | shifting a regular array of 0x10002 elements with an empty prototype leaves a hole at element 0x10000 | every element moved down one place | not executed | RegularArray.MovesPastLimitLoseElements | RegularArray.Shift |
| maple_runtime/ecma/src/jsarray.cpp:766-777 | unshift moves each element up with `__jsarr_internal_MoveElem` | unshift() on the same array leaves a hole at element 0x10001 | every element moved up by the item count | not executed | RegularArray.UnshiftAsWrittenAgrees | RegularArray.UnshiftShiftRoundTrip |
| maple_runtime/ecma/src/jsarray.cpp:431-446 | reverse reads both swapped elements with `__jsarr_GetRegularElem` | reversing the same array leaves a hole at element 0 | the mirror image of the array | not executed | RegularArray.ReverseAsWrittenAgrees | RegularArray.ReverseInvolution |
| maple_runtime/ecma/src/jsarray.cpp:563-575 | slice reads each element with `__jsarr_GetRegularElem` | slice(2, 0x10002) on the same array ends with a hole | a copy of elements 2 .. 0x10001 | not executed | RegularArray.SlicePastLimitAsWritten | RegularArray.SliceWhole |
| maple_runtime/ecma/src/jsarray.cpp:1464-1481 | a numeric string passes through int32 before it is compared with its canonical form | "2147483648" gives 0xFFFFFFFF | 2147483648, an array index by section 15.4 of ECMAScript 5.1 | not executed | RegularArray.StringIndexLargeRejected | RegularArray.StringIndexFixedCorrect |
| maple_runtime/ecma/src/jsarray.cpp:36-39 | `__js_new_arr_internal` allocates at most 0x10001 slots, and slice writes one slot per element | a slice of 0x10001 elements needs 0x10002 slots | a block with a slot for every element | not executed | RegularArray.SliceOverrunsNewArray | RegularArray.NewArrayFull |
| maple_engine/src/shimdynfunction.cpp:1678-1681 | JSopUnaryLnot gives false for every string | !"" gives false | true, since ToBoolean("") is false | not executed | InterpValues.LnotEmptyStringAsWritten | InterpValues.LnotIsNotToBoolean |

=== FILE: bit_extend.dfy ===
/** The engine's bit-field handlers: `zext` and `sext` on the 32-bit word
    on top of the operand stack, and `extractbits` on the 64-bit word.  A
    word is its unsigned value; the int32 view is ToSigned32 of it. */
module BitExtend {
  import opened Common
  import opened Bits

  /** The two's-complement value of a k-bit field x. */
  function SignedField(x: nat, k: nat): int
    requires 1 <= k
  {
    if x >= Pow2(k - 1) then x - Pow2(k) else x
  }

  /** The mask both handlers build: 2^bsize - 1 for a field narrower than
      the word, ~0 otherwise. */
  function ExtMask(bsize: nat): (m: u32)
    ensures m == LowMask(Min(bsize, 32))
  {
    Pow2Word();
    if bsize < 32 then Pow2Monotone(bsize, 32); LowMask(bsize) else UINT32_MAX
  }

  /** The zext handler: the word with every bit from bsize up cleared. */
  function Zext(w: u32, bsize: nat): (r: u32)
    ensures bsize < 32 ==> r == w % Pow2(bsize)
    ensures bsize >= 32 ==> r == w
  {
    ZextMask(w, bsize);
    And(w, ExtMask(bsize))
  }

  lemma {:induction false} ZextMask(w: u32, bsize: nat)
    ensures And(w, ExtMask(bsize)) == (if bsize < 32 then w % Pow2(bsize) else w)
  {
    AndLowMask(w, Min(bsize, 32));
    if bsize >= 32 {
      Pow2Word();
      DivModUnique(w, Pow2(32), 0, w);
    }
  }

  /** The bit the sext handler tests: the int32 view shifted right
      arithmetically (a floor division) by bsize - 1, then `& 1`. */
  function TestedBit(w: u32, bsize: nat): nat
    requires 1 <= bsize <= 32
  {
    (ToSigned32(w) / Pow2(bsize - 1)) % 2
  }

  /** The sext handler: the word with the field's top bit copied into every
      bit from bsize up. */
  function Sext(w: u32, bsize: nat): (r: u32)
    requires 1 <= bsize <= 32
    ensures r % Pow2(bsize) == w % Pow2(bsize)
    ensures ToSigned32(r) == SignedField(w % Pow2(bsize), bsize)
  {
    var m := ExtMask(bsize);
    ZextMask(w, bsize);
    SextSet(w, bsize);
    SextValue(w, bsize);
    if TestedBit(w, bsize) == 1 then Or(w, UINT32_MAX - m) else And(w, m)
  }

  /** Or-ing in the complement of the mask adds every bit from bsize up. */
  lemma {:induction false} SextSet(w: u32, bsize: nat)
    requires 1 <= bsize <= 32
    ensures Or(w, UINT32_MAX - ExtMask(bsize)) == w % Pow2(bsize) + TWO32 - Pow2(bsize)
  {
    Pow2Word();
    assert UINT32_MAX - ExtMask(bsize) == HighMask(32, bsize);
    OrHighMask(w, 32, bsize);
  }

  /** The value either branch of sext produces, and what it means. */
  lemma {:induction false} SextValue(w: u32, bsize: nat)
    requires 1 <= bsize <= 32
    ensures var low := w % Pow2(bsize);
      var r := if TestedBit(w, bsize) == 1 then low + TWO32 - Pow2(bsize) else low;
      && 0 <= r < TWO32 && r % Pow2(bsize) == low
      && ToSigned32(r) == SignedField(low, bsize)
  {
    var P2, B := Pow2(bsize), Pow2(bsize - 1);
    Pow2Word();
    Pow2Monotone(bsize - 1, 31);
    Pow2Add(bsize, 32 - bsize);
    TestedBitIsTop(w, bsize);
    SextArith(w % P2, P2, B, Pow2(32 - bsize), TestedBit(w, bsize) == 1);
  }

  lemma {:induction false} SextArith(low: nat, P2: nat, B: nat, K: nat, bit: bool)
    requires P2 == 2 * B && 1 <= B <= TWO31 && TWO32 == P2 * K
    requires low < P2 && (bit <==> low >= B)
    ensures var r := if bit then low + TWO32 - P2 else low;
      && 0 <= r < TWO32 && r % P2 == low
      && ToSigned32(r) == (if low >= B then low - P2 else low)
  {
    if bit {
      assert low + TWO32 - P2 == P2 * (K - 1) + low;
      DivModUnique(low + TWO32 - P2, P2, K - 1, low);
    } else {
      DivModUnique(low, P2, 0, low);
    }
  }

  /** The tested bit is set exactly when the field is in its upper half. */
  lemma {:induction false} TestedBitIsTop(w: u32, bsize: nat)
    requires 1 <= bsize <= 32
    ensures TestedBit(w, bsize) == 1 <==> w % Pow2(bsize) >= Pow2(bsize - 1)
  {
    var P := Pow2(bsize - 1);
    assert Pow2(bsize) == 2 * P;
    var s := ToSigned32(w);
    if w >= TWO31 {
      Pow2Word();
      Pow2Add(bsize - 1, 33 - bsize);
      assert Pow2(33 - bsize) == 2 * Pow2(32 - bsize);
      ShiftNegative(w, P, Pow2(32 - bsize));
    }
    DivModSplit(w, P);
    SplitTop(w % (2 * P), P, (w / P) % 2, w % P);
  }

  /** For a negative int32 view, the arithmetic shift differs from the
      logical one by an even amount. */
  lemma {:induction false} ShiftNegative(w: nat, P: nat, Q: nat)
    requires P >= 1 && TWO32 == P * (2 * Q)
    ensures ((w - TWO32) / P) % 2 == (w / P) % 2
  {
    var q, r := w / P, w % P;
    assert w - TWO32 == P * (q - 2 * Q) + r;
    DivModUnique(w - TWO32, P, q - 2 * Q, r);
    DivModUnique(q - 2 * Q, 2, q / 2 - Q, q % 2);
  }

  /** w mod 2P is bit k of w times P plus w mod P, for P = 2^k. */
  lemma {:induction false} DivModSplit(w: nat, P: nat)
    requires P >= 1
    ensures w % (2 * P) == P * ((w / P) % 2) + w % P
  {
    var q, r := w / P, w % P;
    var q2, c := q / 2, q % 2;
    assert w == (2 * P) * q2 + (P * c + r);
    DivModUnique(w, 2 * P, q2, P * c + r);
  }

  lemma {:induction false} SplitTop(low: nat, P: nat, bit: nat, r: nat)
    requires low == P * bit + r && r < P && bit < 2
    ensures bit == 1 <==> low >= P
  {
  }

  /** A sign-extended field lies in the k-bit two's-complement range. */
  lemma {:induction false} SextRange(w: u32, bsize: nat)
    requires 1 <= bsize <= 32
    ensures -(Pow2(bsize - 1) as int) <= ToSigned32(Sext(w, bsize)) < Pow2(bsize - 1)
  {
    var B := Pow2(bsize - 1);
    assert Pow2(bsize) == 2 * B;
  }

  /** Two words with the same int32 view are the same word. */
  lemma {:induction false} SignedViewInjective(a: u32, b: u32)
    requires ToSigned32(a) == ToSigned32(b)
    ensures a == b
  {
    assert Wrap32(ToSigned32(a)) == a && Wrap32(ToSigned32(b)) == b;
  }

  /** Sign-extending twice is sign-extending once. */
  lemma {:induction false} SextIdempotent(w: u32, bsize: nat)
    requires 1 <= bsize <= 32
    ensures Sext(Sext(w, bsize), bsize) == Sext(w, bsize)
  {
    var r := Sext(w, bsize);
    SignedViewInjective(Sext(r, bsize), r);
  }

  /** Sign extension over the whole word changes nothing. */
  lemma {:induction false} SextFullWord(w: u32)
    ensures Sext(w, 32) == w
  {
    Pow2Word();
    DivModUnique(w, Pow2(32), 0, w);
    assert ToSigned32(Sext(w, 32)) == ToSigned32(w);
    SignedViewInjective(Sext(w, 32), w);
  }

  /** Zero-extending a sign-extended field gives back the zero-extended one. */
  lemma {:induction false} ZextOfSext(w: u32, bsize: nat)
    requires 1 <= bsize <= 32
    ensures Zext(Sext(w, bsize), bsize) == Zext(w, bsize)
  {
    if bsize == 32 {
      SextFullWord(w);
    }
  }

  /** The extractbits handler: the word masked with
      ((1 << bsize) - 1) << boffset, in 64 bits, then shifted down by
      boffset.  Both shift counts must be below 64 for the C shifts to be
      defined. */
  function ExtractBits(w: u64, bsize: nat, boffset: nat): (r: u64)
    requires bsize < 64 && boffset < 64
    ensures r == Shr(w, boffset) % Pow2(bsize)
  {
    var mask := Wrap64(Shl(LowMask(bsize), boffset));
    ExtractBitsValue(w, bsize, boffset);
    Shr(And(w, mask), boffset)
  }

  lemma {:induction false} ExtractBitsValue(w: u64, bsize: nat, boffset: nat)
    requires bsize < 64 && boffset < 64
    ensures Shr(And(w, Wrap64(Shl(LowMask(bsize), boffset))), boffset) == Shr(w, boffset) % Pow2(bsize)
    ensures Shr(w, boffset) % Pow2(bsize) < TWO64
  {
    var M := Shl(LowMask(bsize), boffset);
    MaskBelow(w, M);
    ExtractField(w, bsize, boffset);
    ShrModBelow(w, bsize, boffset);
  }

  /** Wrapping the mask to 64 bits does not change its and with a 64-bit word. */
  lemma {:induction false} MaskBelow(w: u64, M: nat)
    ensures And(w, Wrap64(M)) == And(w, M)
  {
    Pow2Word();
    AndBelow(w, M, 64);
  }

  lemma {:induction false} ShrModBelow(w: u64, bsize: nat, boffset: nat)
    ensures Shr(w, boffset) % Pow2(bsize) < TWO64
  {
    DivOfNat(w, Pow2(boffset));
    ModAtMost(Shr(w, boffset), Pow2(bsize));
  }

  lemma {:induction false} ModAtMost(x: nat, d: nat)
    requires d > 0
    ensures x % d <= x
  {
    if x < d {
      DivModUnique(x, d, 0, x);
    }
  }

  /** Bits of b above a word's width do not affect its and with the word. */
  lemma {:induction false} AndBelow(a: nat, b: nat, n: nat)
    requires a < Pow2(n)
    ensures And(a, b) == And(a, b % Pow2(n))
    decreases n
  {
    if a != 0 && n > 0 {
      var P := Pow2(n - 1);
      var c := b % Pow2(n);
      DivModTwice(b, P);
      assert c / 2 == (b / 2) % P && c % 2 == b % 2 by {
        DivModUnique(c, 2, (b / 2) % P, b % 2);
      }
      AndBelow(a / 2, b / 2, n - 1);
      AndStep(a, b, c);
    }
  }

  lemma {:induction false} AndStep(a: nat, b: nat, c: nat)
    requires a != 0 && c % 2 == b % 2 && And(a / 2, b / 2) == And(a / 2, c / 2)
    ensures And(a, b) == And(a, c)
  {
  }

  /** With no offset, extracting a field narrower than 32 bits from a 32-bit
      word is zero-extending it. */
  lemma {:induction false} ExtractIsZext(w: u32, bsize: nat)
    requires bsize < 32
    ensures ExtractBits(w, bsize, 0) == Zext(w, bsize)
  {
    DivModUnique(w, 1, w, 0);
  }
}

=== FILE: bits.dfy ===
/** Bitwise operations on unsigned integers, defined digit by digit in base
    two, and the facts the engine's bit-manipulation handlers rely on:
    masking with 2^k - 1 is reduction modulo 2^k, or-ing in a high mask
    sign-extends, and a shifted mask extracts a bit field. */
module Bits {
  import opened Common

  /** a & b */
  function And(a: nat, b: nat): (r: nat)
    ensures r <= a && r <= b
    decreases a
  {
    if a == 0 || b == 0 then 0 else 2 * And(a / 2, b / 2) + (a % 2) * (b % 2)
  }

  /** a | b */
  function Or(a: nat, b: nat): (r: nat)
    ensures a <= r && b <= r && r <= a + b
    decreases a
  {
    if a == 0 then b else if b == 0 then a else 2 * Or(a / 2, b / 2) + Max(a % 2, b % 2)
  }

  /** a ^ b */
  function Xor(a: nat, b: nat): (r: nat)
    ensures r <= a + b
    decreases a
  {
    if a == 0 then b else if b == 0 then a else 2 * Xor(a / 2, b / 2) + (a % 2 + b % 2) % 2
  }

  /** ~a within a word of w bits */
  function Not(a: nat, w: nat): (r: nat)
    requires a < Pow2(w)
    ensures r < Pow2(w)
    ensures Xor(a, r) == Pow2(w) - 1
  {
    XorComplement(a, w);
    Pow2(w) - 1 - a
  }

  // ---------------------------------------------------------------------
  // Arithmetic facts about division by two

  lemma {:induction false} DoubleProduct(y: int, p: int)
    ensures 2 * (y * p) == y * (2 * p)
  {
  }

  /** Halving an even difference of doubled values. */
  lemma {:induction false} HalfOfDoubled(h: int, x: int, y: int)
    requires h == 2 * x - 2 * y
    ensures h / 2 == x - y && h % 2 == 0
  {
  }

  /** Peeling one binary digit off a division by 2p. */
  lemma {:induction false} DivModTwice(a: nat, p: nat)
    requires p >= 1
    ensures a / (2 * p) == (a / 2) / p
    ensures a % (2 * p) == 2 * ((a / 2) % p) + a % 2
  {
    var q, r := a / 2, a % 2;
    var x, y := q / p, q % p;
    assert a == (2 * p) * x + (2 * y + r);
    DivModUnique(a, 2 * p, x, 2 * y + r);
  }

  // ---------------------------------------------------------------------
  // Words of bounded width stay bounded

  lemma {:induction false} BoundedOps(a: nat, b: nat, w: nat)
    requires a < Pow2(w) && b < Pow2(w)
    ensures And(a, b) < Pow2(w) && Or(a, b) < Pow2(w) && Xor(a, b) < Pow2(w)
    decreases w
  {
    if w > 0 && a != 0 && b != 0 {
      BoundedOps(a / 2, b / 2, w - 1);
    }
  }

  lemma {:induction false} XorComplement(a: nat, w: nat)
    requires a < Pow2(w)
    ensures Xor(a, Pow2(w) - 1 - a) == Pow2(w) - 1
    decreases w
  {
    if w > 0 && a != 0 && Pow2(w) - 1 - a != 0 {
      var c := Pow2(w) - 1 - a;
      assert c / 2 == Pow2(w - 1) - 1 - a / 2;
      XorComplement(a / 2, w - 1);
    }
  }

  // ---------------------------------------------------------------------
  // Masks

  /** 2^k - 1: the bits 0..k-1 set */
  function LowMask(k: nat): (m: nat)
    ensures m < Pow2(k)
  {
    Pow2(k) - 1
  }

  /** 2^n - 2^k: the bits k..n-1 set */
  function HighMask(n: nat, k: nat): (m: nat)
    requires k <= n
    ensures m < Pow2(n)
  {
    Pow2Monotone(k, n);
    Pow2(n) - Pow2(k)
  }

  /** a & (2^k - 1) == a mod 2^k */
  lemma {:induction false} AndLowMask(a: nat, k: nat)
    ensures And(a, LowMask(k)) == a % Pow2(k)
    decreases k
  {
    if k == 0 {
      DivModUnique(a, 1, a, 0);
    } else if a == 0 {
      DivModUnique(0, Pow2(k), 0, 0);
    } else {
      var P := Pow2(k - 1);
      var m := LowMask(k);
      assert m == 2 * LowMask(k - 1) + 1;
      AndLowMask(a / 2, k - 1);
      DivModTwice(a, P);
      AndLowStep(a, m, LowMask(k - 1), (a / 2) % P);
    }
  }

  lemma {:induction false} AndLowStep(a: nat, m: nat, m2: nat, x: nat)
    requires a != 0 && m == 2 * m2 + 1
    requires And(a / 2, m2) == x
    ensures And(a, m) == 2 * x + a % 2
  {
    assert m / 2 == m2 && m % 2 == 1;
  }

  /** a | (2^n - 1) == 2^n - 1 for a below 2^n */
  lemma {:induction false} OrAllOnes(a: nat, n: nat)
    requires a < Pow2(n)
    ensures Or(a, LowMask(n)) == LowMask(n)
    decreases n
  {
    if n > 0 && a != 0 {
      var m := LowMask(n);
      assert m == 2 * LowMask(n - 1) + 1;
      OrAllOnes(a / 2, n - 1);
      OrAllOnesStep(a, m, LowMask(n - 1));
    }
  }

  lemma {:induction false} OrAllOnesStep(a: nat, m: nat, m2: nat)
    requires a != 0 && m == 2 * m2 + 1
    requires Or(a / 2, m2) == m2
    ensures Or(a, m) == m
  {
    assert m / 2 == m2 && m % 2 == 1;
  }

  /** Or-ing the bits k..n-1 into a word of n bits keeps the low k bits and sets the rest. */
  lemma {:induction false} OrHighMask(a: nat, n: nat, k: nat)
    requires k <= n && a < Pow2(n)
    ensures Or(a, HighMask(n, k)) == a % Pow2(k) + HighMask(n, k)
    decreases k
  {
    var h := HighMask(n, k);
    if k == 0 {
      assert h == LowMask(n);
      OrAllOnes(a, n);
      DivModUnique(a, 1, a, 0);
    } else if k == n {
      assert h == 0 && Or(a, 0) == a;
      DivModUnique(a, Pow2(k), 0, a);
    } else if a == 0 {
      DivModUnique(0, Pow2(k), 0, 0);
    } else {
      var P := Pow2(k - 1);
      var h2 := HighMask(n - 1, k - 1);
      Pow2Monotone(k, n - 1);
      assert h == 2 * h2 && h2 > 0;
      OrHighMask(a / 2, n - 1, k - 1);
      DivModTwice(a, P);
      OrHighStep(a, h, h2, (a / 2) % P);
      assert Pow2(k) == 2 * P;
    }
  }

  lemma {:induction false} OrHighStep(a: nat, h: nat, h2: nat, x: nat)
    requires a != 0 && h2 > 0 && h == 2 * h2
    requires Or(a / 2, h2) == x + h2
    ensures Or(a, h) == 2 * x + a % 2 + h
  {
    HalfOfDoubled(h, h2, 0);
  }

  /** a << o on unbounded integers: shifting back gives a. */
  function Shl(a: nat, o: nat): (r: nat)
    ensures Shr(r, o) == a && r % Pow2(o) == 0
  {
    DivModUnique(a * Pow2(o), Pow2(o), a, 0);
    a * Pow2(o)
  }

  /** a >> o on unsigned integers: the o low bits are dropped. */
  function Shr(a: nat, o: nat): (r: nat)
    ensures r <= a
    ensures r * Pow2(o) <= a < r * Pow2(o) + Pow2(o)
  {
    DivOfNat(a, Pow2(o));
    a / Pow2(o)
  }

  lemma {:induction false} DivOfNat(a: nat, d: nat)
    requires d > 0
    ensures 0 <= a / d <= a
  {
    var q, m := a / d, a % d;
    assert a == d * q + m && 0 <= m < d;
    if q < 0 {
      MulAtLeast(d, -q);
    } else if q > a {
      MulAtLeast(q, d);
    }
  }

  /** a & (b << o) == ((a >> o) & b) << o */
  lemma {:induction false} AndShifted(a: nat, b: nat, o: nat)
    ensures And(a, Shl(b, o)) == Shl(And(Shr(a, o), b), o)
    decreases o
  {
    if o == 0 {
      DivModUnique(a, 1, a, 0);
    } else if a == 0 || b == 0 {
      DivModUnique(0, Pow2(o), 0, 0);
    } else {
      AndShifted(a / 2, b, o - 1);
      AndShiftedStep(a, b, o);
    }
  }

  /** The step of AndShifted from o - 1 to o: both sides double. */
  lemma {:induction false} AndShiftedStep(a: nat, b: nat, o: nat)
    requires o > 0 && a != 0 && b != 0
    requires And(a / 2, Shl(b, o - 1)) == Shl(And(Shr(a / 2, o - 1), b), o - 1)
    ensures And(a, Shl(b, o)) == Shl(And(Shr(a, o), b), o)
  {
    var P := Pow2(o - 1);
    var c, c2 := Shl(b, o), Shl(b, o - 1);
    DoubleProduct(b, P);
    assert c == 2 * c2;
    DivModTwice(a, P);
    assert Shr(a, o) == Shr(a / 2, o - 1);
    var y := And(Shr(a, o), b);
    assert And(a / 2, c2) == Shl(y, o - 1);
    DoubleProduct(y, P);
    assert Shl(y, o) == 2 * Shl(y, o - 1);
    AndShiftStep(a, c, c2, Shl(y, o - 1));
  }

  lemma {:induction false} AndShiftStep(a: nat, c: nat, c2: nat, x: nat)
    requires a != 0 && c2 > 0 && c == 2 * c2
    requires And(a / 2, c2) == x
    ensures And(a, c) == 2 * x
  {
    HalfOfDoubled(c, c2, 0);
  }

  /** (a & ((2^k - 1) << o)) >> o == (a >> o) mod 2^k */
  lemma {:induction false} ExtractField(a: nat, k: nat, o: nat)
    ensures Shr(And(a, Shl(LowMask(k), o)), o) == Shr(a, o) % Pow2(k)
  {
    AndShifted(a, LowMask(k), o);
    AndLowMask(Shr(a, o), k);
    var y := And(Shr(a, o), LowMask(k));
    assert Shr(Shl(y, o), o) == y;
  }
}

=== FILE: common.dfy ===
/** Shared vocabulary: optional values, powers of two, fixed-width integer
    wrap-around and decimal strings.  Everything here is pure. */
module Common {

  datatype Option<+T> = None | Some(value: T)

  /** 2^n */
  function Pow2(n: nat): (r: nat)
    ensures r >= 1
    decreases n
  {
    if n == 0 then 1 else 2 * Pow2(n - 1)
  }

  lemma {:induction false} Pow2Add(a: nat, b: nat)
    ensures Pow2(a + b) == Pow2(a) * Pow2(b)
    decreases a
  {
    if a > 0 {
      Pow2Add(a - 1, b);
      assert Pow2(a + b) == 2 * Pow2(a - 1 + b);
    }
  }

  lemma {:induction false} Pow2Monotone(a: nat, b: nat)
    requires a <= b
    ensures Pow2(a) <= Pow2(b)
    decreases b
  {
    if a < b {
      Pow2Monotone(a, b - 1);
    }
  }

  lemma {:induction false} Pow2Values()
    ensures Pow2(3) == 8 && Pow2(6) == 64 && Pow2(8) == 256
    ensures Pow2(16) == 0x1_0000 && Pow2(31) == 0x8000_0000
    ensures Pow2(32) == 0x1_0000_0000 && Pow2(53) == 0x20_0000_0000_0000
    ensures Pow2(64) == 0x1_0000_0000_0000_0000
  {
    assert Pow2(8) == 256;
    assert Pow2(16) == 0x1_0000 by { Pow2Add(8, 8); }
    assert Pow2(32) == 0x1_0000_0000 by { Pow2Add(16, 16); }
    assert Pow2(31) == 0x8000_0000;
    assert Pow2(53) == 0x20_0000_0000_0000 by { Pow2Add(32, 21); Pow2Add(16, 5); }
    assert Pow2(64) == 0x1_0000_0000_0000_0000 by { Pow2Add(32, 32); }
  }

  /** The powers of two that are word sizes. */
  lemma {:induction false} Pow2Word()
    ensures Pow2(31) == TWO31 && Pow2(32) == TWO32 && Pow2(64) == TWO64
  {
    Pow2Values();
  }

  const TWO32: nat := 0x1_0000_0000
  const TWO31: nat := 0x8000_0000
  const TWO64: nat := 0x1_0000_0000_0000_0000
  const INT32_MAX: int := 0x7FFF_FFFF
  const INT32_MIN: int := -0x8000_0000
  const UINT32_MAX: nat := 0xFFFF_FFFF

  type byte = x: int | 0 <= x < 0x100
  type u32 = x: int | 0 <= x < 0x1_0000_0000
  type i32 = x: int | -0x8000_0000 <= x < 0x8000_0000
  type u64 = x: int | 0 <= x < 0x1_0000_0000_0000_0000

  /** The unsigned 32-bit word holding any integer, i.e. C's conversion to uint32_t. */
  function Wrap32(x: int): (r: u32)
    ensures (r - x) % TWO32 == 0
    ensures 0 <= x < TWO32 ==> r == x
  {
    x % TWO32
  }

  /** Reading a 32-bit word as a two's-complement int32_t. */
  function ToSigned32(w: u32): (r: i32)
    ensures Wrap32(r) == w
    ensures r < 0 <==> w >= TWO31
  {
    if w < TWO31 then w else w - TWO32
  }

  /** C's conversion of any integer to int32_t on a two's-complement machine. */
  function WrapI32(x: int): (r: i32)
    ensures (r - x) % TWO32 == 0
  {
    ToSigned32(Wrap32(x))
  }

  function Wrap64(x: int): (r: u64)
    ensures (r - x) % TWO64 == 0
  {
    x % TWO64
  }

  function ToSigned64(w: u64): (r: int)
    ensures -0x8000_0000_0000_0000 <= r < 0x8000_0000_0000_0000
    ensures Wrap64(r) == w
  {
    if w < 0x8000_0000_0000_0000 then w else w - TWO64
  }

  /** C's `/` on integers: the quotient truncated toward zero. */
  function TruncDiv(a: int, b: int): (q: int)
    requires b != 0
    ensures b > 0 && a >= 0 ==> q == a / b
  {
    if (a >= 0) == (b > 0) then Abs(a) / Abs(b) else -(Abs(a) / Abs(b))
  }

  /** C's `%` on integers: the remainder carries the sign of the dividend. */
  function TruncMod(a: int, b: int): (r: int)
    requires b != 0
    ensures a == TruncDiv(a, b) * b + r
    ensures Abs(r) < Abs(b)
    ensures a >= 0 ==> r >= 0
    ensures a <= 0 ==> r <= 0
  {
    a - TruncDiv(a, b) * b
  }

  /** Euclidean division is determined by any quotient and remainder that fit. */
  lemma {:induction false} DivModUnique(a: int, d: int, x: int, z: int)
    requires d > 0 && a == d * x + z && 0 <= z < d
    ensures a / d == x && a % d == z
  {
    var k := x - a / d;
    assert d * k == a % d - z;
    if k >= 1 {
      MulAtLeast(d, k);
    } else if k <= -1 {
      MulAtLeast(d, -k);
    }
  }

  lemma {:induction false} MulAtLeast(d: int, k: int)
    requires d > 0 && k >= 1
    ensures d * k >= d
  {
  }

  /** For a positive divisor, C's truncating division and remainder are the
      floor ones, moved one step toward zero when the dividend is negative
      and not a multiple. */
  lemma {:induction false} TruncByFloor(a: int, b: int)
    requires b > 0
    ensures TruncDiv(a, b) == (if a >= 0 || a % b == 0 then a / b else a / b + 1)
    ensures TruncMod(a, b) == (if a >= 0 || a % b == 0 then a % b else a % b - b)
  {
    if a < 0 {
      TruncDivNegative(a, b);
      if a % b != 0 {
        assert (a / b + 1) * b == a / b * b + b;
      }
    }
  }

  lemma {:induction false} TruncDivNegative(a: int, b: int)
    requires b > 0 && a < 0
    ensures TruncDiv(a, b) == (if a % b == 0 then a / b else a / b + 1)
  {
    var q, r := (-a) / b, (-a) % b;
    assert TruncDiv(a, b) == -q;
    if r == 0 {
      NegatedExact(a, b, q);
    } else {
      NegatedInexact(a, b, q, r);
    }
  }

  lemma {:induction false} NegatedExact(a: int, b: int, q: int)
    requires b > 0 && -a == b * q
    ensures a / b == -q && a % b == 0
  {
    assert a == b * (-q) + 0 by { MulNegate(b, q); }
    DivModUnique(a, b, -q, 0);
  }

  lemma {:induction false} NegatedInexact(a: int, b: int, q: int, r: int)
    requires b > 0 && -a == b * q + r && 0 < r < b
    ensures a / b == -q - 1 && a % b == b - r
  {
    assert a == b * (-q - 1) + (b - r) by { MulNegate(b, q); MulNegate(b, -q - 1); }
    DivModUnique(a, b, -q - 1, b - r);
  }

  lemma {:induction false} MulNegate(b: int, q: int)
    ensures b * (-q) == -(b * q) && b * (q + 1) == b * q + b
  {
  }

  function Abs(x: int): nat { if x < 0 then -x else x }

  function Min(a: int, b: int): int { if a < b then a else b }
  function Max(a: int, b: int): int { if a > b then a else b }

  // ---------------------------------------------------------------------
  // Decimal strings, as printed by C's "%d" / std::to_string

  predicate IsDigit(c: char) { '0' <= c <= '9' }

  function DigitChar(d: nat): (c: char)
    requires d < 10
    ensures IsDigit(c) && DigitValue(c) == d
  {
    ['0', '1', '2', '3', '4', '5', '6', '7', '8', '9'][d]
  }

  function DigitValue(c: char): nat
    requires IsDigit(c)
  {
    c as int - '0' as int
  }

  /** The shortest decimal numeral of n: "0" for zero, no leading zeros otherwise. */
  function NatToDecimal(n: nat): (s: string)
    ensures |s| >= 1
    ensures forall i :: 0 <= i < |s| ==> IsDigit(s[i])
    ensures n > 0 ==> s[0] != '0'
    decreases n
  {
    if n < 10 then [DigitChar(n)] else NatToDecimal(n / 10) + [DigitChar(n % 10)]
  }

  /** C's "%d" rendering of a (signed) integer. */
  function IntToDecimal(i: int): (s: string)
    ensures |s| >= 1
    ensures i < 0 <==> s[0] == '-'
  {
    if i < 0 then "-" + NatToDecimal(-i) else NatToDecimal(i)
  }

  /** The value of a string of decimal digits (the empty string is 0). */
  function DecimalValue(s: string): nat
    requires forall i :: 0 <= i < |s| ==> IsDigit(s[i])
    decreases |s|
  {
    if |s| == 0 then 0 else DecimalValue(s[..|s| - 1]) * 10 + DigitValue(s[|s| - 1])
  }

  /** Reading back a "%d" numeral. */
  function ParseDecimal(s: string): int
    requires |s| >= 1
    requires s[0] == '-' ==> |s| >= 2
    requires forall i :: (if s[0] == '-' then 1 else 0) <= i < |s| ==> IsDigit(s[i])
  {
    if s[0] == '-' then 0 - DecimalValue(s[1..]) as int else DecimalValue(s)
  }

  lemma {:induction false} DecimalRoundTrip(n: nat)
    ensures DecimalValue(NatToDecimal(n)) == n
    decreases n
  {
    if n >= 10 {
      var s := NatToDecimal(n);
      DecimalRoundTrip(n / 10);
      assert s[..|s| - 1] == NatToDecimal(n / 10);
    }
  }

  lemma {:induction false} IntDecimalRoundTrip(i: int)
    ensures var s := IntToDecimal(i);
      && (s[0] == '-' ==> |s| >= 2)
      && (forall k :: (if s[0] == '-' then 1 else 0) <= k < |s| ==> IsDigit(s[k]))
      && ParseDecimal(s) == i
  {
    var s := IntToDecimal(i);
    if i < 0 {
      assert s[1..] == NatToDecimal(-i);
      DecimalRoundTrip(-i);
    } else {
      DecimalRoundTrip(i);
    }
  }

  /** n copies of x: C++'s std::string(n, c) for a character, and a run
      of identical slots for a value. */
  function Repeat<T>(x: T, n: nat): (s: seq<T>)
    ensures |s| == n
    ensures forall i :: 0 <= i < n ==> s[i] == x
  {
    seq(n, _ => x)
  }

  /** A run of a + b copies is a run of a followed by a run of b. */
  lemma RepeatSplit(c: char, a: nat, b: nat)
    ensures Repeat(c, a + b) == Repeat(c, a) + Repeat(c, b)
  {
    assert forall i :: 0 <= i < a + b ==> Repeat(c, a + b)[i] == (Repeat(c, a) + Repeat(c, b))[i];
  }

  /** `sub` occurs in `s` starting at position i. */
  predicate OccursAt(s: string, sub: string, i: nat) {
    i + |sub| <= |s| && s[i..i + |sub|] == sub
  }

  /** Python's `sub in s`. */
  predicate Contains(s: string, sub: string) {
    exists i :: 0 <= i <= |s| && OccursAt(s, sub, i)
  }

  // ---------------------------------------------------------------------
  // Finite sets

  lemma {:induction false} SubsetCard<T>(a: set<T>, b: set<T>)
    requires a <= b
    ensures |a| <= |b|
    decreases |a|
  {
    if a != {} {
      var x :| x in a;
      SubsetCard(a - {x}, b - {x});
    }
  }

  /** Removing a present element strictly shrinks a finite set's subsets. */
  lemma {:induction false} RemoveShrinks<T>(a: set<T>, b: set<T>, x: T)
    requires a <= b && x in b && x !in a
    ensures |a| < |b|
  {
    SubsetCard(a, b - {x});
  }
}

=== FILE: frames.dfy ===
/** The interpreter's call frames: InsertProlog saves the caller's frame
    pointer in the word just below the stack pointer, clears the rest of
    the new frame and moves both pointers down; InsertEplog moves the stack
    pointer back to the frame pointer and reloads the saved one.  The
    pointers are byte offsets into the interpreter's memory; a 32-bit word
    is stored little-endian. */
module Frames {
  import opened Common

  datatype Machine = Machine(sp: u32, fp: u32, mem: seq<byte>)

  /** The 32-bit word at byte offset a. */
  function Load32(mem: seq<byte>, a: nat): u32
    requires a + 4 <= |mem|
  {
    mem[a] as int + 256 * (mem[a + 1] as int + 256 * (mem[a + 2] as int + 256 * mem[a + 3] as int))
  }

  /** Memory with the word v written at byte offset a. */
  function Store32(mem: seq<byte>, a: nat, v: u32): (m: seq<byte>)
    requires a + 4 <= |mem|
    ensures |m| == |mem|
    ensures forall i :: 0 <= i < |mem| && !(a <= i < a + 4) ==> m[i] == mem[i]
    ensures Load32(m, a) == v
  {
    var v1 := v / 256;
    var v2 := v1 / 256;
    mem[a := v % 256][a + 1 := v1 % 256][a + 2 := v2 % 256][a + 3 := v2 / 256]
  }

  /** memset(mem + lo, 0, hi - lo). */
  function ZeroFill(mem: seq<byte>, lo: nat, hi: nat): (m: seq<byte>)
    requires lo <= hi <= |mem|
    ensures |m| == |mem|
    ensures forall i :: 0 <= i < |mem| ==> m[i] == (if lo <= i < hi then 0 else mem[i])
  {
    seq(|mem|, i requires 0 <= i < |mem| => if lo <= i < hi then 0 else mem[i])
  }

  /** InsertProlog(frameSize).  The frame must hold at least the saved
      word (memset is given frameSize - 4 bytes) and fit below sp. */
  function Prolog(s: Machine, frameSize: nat): (r: Machine)
    requires 4 <= frameSize < 0x1_0000 && frameSize <= s.sp <= |s.mem|
    ensures r.sp == s.sp - frameSize && r.fp == s.sp && |r.mem| == |s.mem|
    ensures Load32(r.mem, s.sp - 4) == s.fp
    ensures forall i :: s.sp - frameSize <= i < s.sp - 4 ==> r.mem[i] == 0
    ensures forall i :: 0 <= i < |s.mem| && !(s.sp - frameSize <= i < s.sp) ==> r.mem[i] == s.mem[i]
  {
    var saved := Store32(s.mem, s.sp - 4, s.fp);
    var cleared := ZeroFill(saved, s.sp - frameSize, s.sp - 4);
    assert Load32(cleared, s.sp - 4) == Load32(saved, s.sp - 4);
    Machine(s.sp - frameSize, s.sp, cleared)
  }

  /** InsertEplog: sp returns to the frame base and fp to the word saved
      just below it; memory is not touched. */
  function Epilog(s: Machine): (r: Machine)
    requires 4 <= s.fp <= |s.mem|
    ensures r.sp == s.fp && r.fp == Load32(s.mem, s.fp - 4) && r.mem == s.mem
  {
    Machine(s.fp, Load32(s.mem, s.fp - 4), s.mem)
  }

  /** A prolog followed directly by an epilog restores both pointers. */
  lemma {:induction false} PrologEpilog(s: Machine, frameSize: nat)
    requires 4 <= frameSize < 0x1_0000 && frameSize <= s.sp <= |s.mem|
    ensures Epilog(Prolog(s, frameSize)).sp == s.sp
    ensures Epilog(Prolog(s, frameSize)).fp == s.fp
  {
  }

  /** Whatever the frame's code does in between, the epilog restores both
      pointers as long as the frame pointer and the saved word are left
      alone. */
  lemma {:induction false} EpilogAfterWrites(s: Machine, frameSize: nat, t: Machine)
    requires 4 <= frameSize < 0x1_0000 && frameSize <= s.sp <= |s.mem|
    requires t.fp == s.sp && |t.mem| == |s.mem|
    requires forall i :: s.sp - 4 <= i < s.sp ==> t.mem[i] == Prolog(s, frameSize).mem[i]
    ensures Epilog(t).sp == s.sp && Epilog(t).fp == s.fp
  {
    var p := Prolog(s, frameSize);
    var a := s.sp - 4;
    assert t.mem[a] == p.mem[a] && t.mem[a + 1] == p.mem[a + 1];
    assert t.mem[a + 2] == p.mem[a + 2] && t.mem[a + 3] == p.mem[a + 3];
  }

  // ---------------------------------------------------------------------
  // Nested calls

  /** Straight-line code of a frame: a call of a function with its own
      frame, or a write of one byte of the current frame's locals, k bytes
      below the saved word. */
  datatype Code = Call(frameSize: nat, body: seq<Code>) | Local(k: nat, b: byte)

  /** The code fits the stack: every frame holds its saved word and fits
      below the stack pointer, and every local write stays inside its frame. */
  predicate FitsStack(c: Code, sp: nat, fp: nat)
    decreases c
  {
    match c
    case Local(k, _) => k + 5 <= fp
    case Call(fs, body) =>
      && 4 <= fs < 0x1_0000 && fs <= sp
      && forall i :: 0 <= i < |body| ==> FitsStack(body[i], sp - fs, sp)
  }

  /** The lowest byte offset the code is guaranteed not to write. */
  function Kept(c: Code, s: Machine): int {
    if c.Call? then s.sp else s.fp as int - 4
  }

  /** Running one piece of code: a call restores both pointers and leaves
      everything from the stack pointer up as it was; a local write stays
      below the saved word. */
  function RunCode(s: Machine, c: Code): (r: Machine)
    requires s.sp <= |s.mem| && (c.Local? ==> s.fp <= |s.mem|)
    requires FitsStack(c, s.sp, s.fp)
    ensures r.sp == s.sp && r.fp == s.fp && |r.mem| == |s.mem|
    ensures forall i :: Kept(c, s) <= i < |s.mem| ==> r.mem[i] == s.mem[i]
    decreases c, 1
  {
    match c
    case Local(k, b) => s.(mem := s.mem[s.fp - 5 - k := b])
    case Call(fs, body) =>
      var entered := Prolog(s, fs);
      var done := RunAll(entered, body);
      SavedWordKept(s, fs, entered, done);
      Epilog(done)
  }

  /** Running a frame's code in order. */
  function RunAll(s: Machine, cs: seq<Code>): (r: Machine)
    requires s.sp as int + 4 <= s.fp <= |s.mem|
    requires forall i :: 0 <= i < |cs| ==> FitsStack(cs[i], s.sp, s.fp)
    ensures r.sp == s.sp && r.fp == s.fp && |r.mem| == |s.mem|
    ensures forall i :: s.fp - 4 <= i < |s.mem| ==> r.mem[i] == s.mem[i]
    decreases cs, 0
  {
    if |cs| == 0 then s
    else
      var s1 := RunCode(s, cs[0]);
      assert forall i :: 0 <= i < |cs| - 1 ==> cs[1..][i] == cs[i + 1];
      RunAll(s1, cs[1..])
  }

  lemma {:induction false} SavedWordKept(s: Machine, fs: nat, entered: Machine, done: Machine)
    requires 4 <= fs < 0x1_0000 && fs <= s.sp <= |s.mem|
    requires entered == Prolog(s, fs)
    requires done.fp == s.sp && |done.mem| == |s.mem|
    requires forall i :: s.sp - 4 <= i < |s.mem| ==> done.mem[i] == entered.mem[i]
    ensures Epilog(done).sp == s.sp && Epilog(done).fp == s.fp
    ensures forall i :: s.sp <= i < |s.mem| ==> Epilog(done).mem[i] == s.mem[i]
  {
    EpilogAfterWrites(s, fs, done);
  }

  /** Nested frames unwind in LIFO order: a call of any depth, whose inner
      calls and local writes fit the stack, returns with the caller's stack
      and frame pointers and everything from the stack pointer up intact. */
  lemma {:induction false} CallRestoresCaller(s: Machine, fs: nat, body: seq<Code>)
    requires s.sp <= |s.mem| && FitsStack(Call(fs, body), s.sp, s.fp)
    ensures var r := RunCode(s, Call(fs, body));
      && r.sp == s.sp && r.fp == s.fp
      && r.mem[s.sp..] == s.mem[s.sp..]
  {
    var r := RunCode(s, Call(fs, body));
    assert forall i :: 0 <= i < |s.mem| - s.sp ==> r.mem[s.sp..][i] == r.mem[s.sp + i];
  }
}

=== FILE: inspect_arrays.dfy ===
/** Array previews: which indices the inspector shows, how element lines and
    the "  ..." marker are interleaved, and how a character array becomes a
    string value. */
module ArrayPreview {
  import opened Common
  import opened InspectTypes
  import opened FieldValues

  function Range(lo: nat, n: nat): (r: seq<nat>)
    ensures |r| == n
    ensures forall k :: 0 <= k < n ==> r[k] == lo + k
  {
    seq(n, k => lo + k)
  }

  ghost predicate StrictlyIncreasing(s: seq<nat>) {
    forall a, b :: 0 <= a < b < |s| ==> s[a] < s[b]
  }

  /** Indices shown for primitive and reference arrays: all of them up to
      ten elements, else the first seven and the last three. */
  function PreviewIndices(n: nat): (r: seq<nat>)
    ensures n <= 10 ==> r == Range(0, n)
    ensures n > 10 ==> r == [0, 1, 2, 3, 4, 5, 6, n - 3, n - 2, n - 1]
    ensures StrictlyIncreasing(r)
    ensures forall k :: 0 <= k < |r| ==> r[k] < n
  {
    if n > 10 then Range(0, 7) + [n - 3, n - 2, n - 1] else Range(0, n)
  }

  /** Indices shown for character arrays: all of them up to 32 units, else
      the first 24 and the last 8. */
  function CharIndices(n: nat): (r: seq<nat>)
    ensures n <= 32 ==> r == Range(0, n)
    ensures n > 32 ==> |r| == 32 && r[..24] == Range(0, 24) && r[24..] == Range(n - 8, 8)
    ensures StrictlyIncreasing(r)
    ensures forall k :: 0 <= k < |r| ==> r[k] < n
  {
    if n > 32 then
      var r := Range(0, 24) + Range(n - 8, 8);
      assert r[..24] == Range(0, 24) && r[24..] == Range(n - 8, 8);
      r
    else Range(0, n)
  }

  /** One UTF-16 code unit decoded on its own; a surrogate (or a value that
      does not fit in two bytes) makes Python raise. */
  function DecodeUnit(u: nat): (c: Option<char>)
    ensures c.Some? <==> u < 0x1_0000 && !(0xD800 <= u < 0xE000)
    ensures c.Some? ==> c.value as int == u
  {
    if u < 0xD800 || (0xE000 <= u < 0x1_0000) then Some(u as char) else None
  }

  // ---------------------------------------------------------------------
  // Primitive and reference arrays

  /** The address of element i: the array data starts four bytes after the
      length word. */
  function ElementAddr(base: nat, stride: nat, i: nat): nat { base + 4 + stride * i }

  /** What reading and printing one element gives. */
  datatype ElemOutcome = Missing | Shown(line: Line) | Fails

  function Outcome(mem: Memory, base: nat, stride: nat, isChar: bool, i: nat): ElemOutcome {
    match ReadWord(mem, ElementAddr(base, stride, i), stride)
    case None => Missing
    case Some(w) =>
      if !isChar then Shown(Element(i, w, None))
      else match DecodeUnit(w)
        case None => Fails
        case Some(c) => Shown(Element(i, w, Some(c)))
  }

  /** The element loop, with `steps` indices already processed and `snip`
      still true while the "  ..." marker has not been printed. */
  function RenderElements(mem: Memory, base: nat, stride: nat, isChar: bool, n: nat,
                          idx: seq<nat>, steps: nat, snip: bool): (r: seq<Line>)
    ensures |r| <= |idx| + (if snip then 1 else 0)
    decreases |idx|
  {
    if |idx| == 0 then []
    else
      var i := idx[0];
      match Outcome(mem, base, stride, isChar, i)
      case Missing => [ElementNoData(i)] + RenderElements(mem, base, stride, isChar, n, idx[1..], steps + 1, snip)
      case Fails => [Raised]
      case Shown(line) =>
        if n > 10 && steps + 1 > 6 && snip then
          [line, Snip] + RenderElements(mem, base, stride, isChar, n, idx[1..], steps + 1, false)
        else
          [line] + RenderElements(mem, base, stride, isChar, n, idx[1..], steps + 1, snip)
  }

  /** The element lines alone: one per index in order, a failed read as
      "no-data", stopping at the first element Python cannot decode. */
  function ElementLines(mem: Memory, base: nat, stride: nat, isChar: bool, idx: seq<nat>): (r: seq<Line>)
    ensures |r| <= |idx|
    decreases |idx|
  {
    if |idx| == 0 then []
    else match Outcome(mem, base, stride, isChar, idx[0])
      case Missing => [ElementNoData(idx[0])] + ElementLines(mem, base, stride, isChar, idx[1..])
      case Fails => [Raised]
      case Shown(line) => [line] + ElementLines(mem, base, stride, isChar, idx[1..])
  }

  /** The position of the element after which "  ..." is printed: the first
      successfully shown element once more than six indices are processed,
      unless a decoding failure comes first. */
  function SnipPosition(mem: Memory, base: nat, stride: nat, isChar: bool, idx: seq<nat>, steps: nat): (p: Option<nat>)
    ensures p.Some? ==> p.value < |idx| && steps + p.value + 1 > 6
    ensures p.Some? ==> Outcome(mem, base, stride, isChar, idx[p.value]).Shown?
    decreases |idx|
  {
    if |idx| == 0 then None
    else match Outcome(mem, base, stride, isChar, idx[0])
      case Fails => None
      case Shown(_) => if steps + 1 > 6 then Some(0) else ShiftPos(SnipPosition(mem, base, stride, isChar, idx[1..], steps + 1))
      case Missing => ShiftPos(SnipPosition(mem, base, stride, isChar, idx[1..], steps + 1))
  }

  function ShiftPos(p: Option<nat>): Option<nat> {
    match p
    case None => None
    case Some(k) => Some(k + 1)
  }

  lemma {:induction false} RenderWithoutSnip(mem: Memory, base: nat, stride: nat, isChar: bool, n: nat,
                                             idx: seq<nat>, steps: nat, snip: bool)
    requires n <= 10 || !snip
    ensures RenderElements(mem, base, stride, isChar, n, idx, steps, snip) == ElementLines(mem, base, stride, isChar, idx)
    decreases |idx|
  {
    if |idx| > 0 {
      RenderWithoutSnip(mem, base, stride, isChar, n, idx[1..], steps + 1, snip);
    }
  }

  /** The element lines never contain the "  ..." marker. */
  lemma {:induction false} ElementLinesNoSnip(mem: Memory, base: nat, stride: nat, isChar: bool, idx: seq<nat>)
    ensures Snip !in ElementLines(mem, base, stride, isChar, idx)
    decreases |idx|
  {
    if |idx| > 0 {
      ElementLinesNoSnip(mem, base, stride, isChar, idx[1..]);
    }
  }

  /** The element lines stop short of the indices only at an element
      Python cannot decode, whose line is the exception. */
  lemma {:induction false} ElementLinesStop(mem: Memory, base: nat, stride: nat, isChar: bool, idx: seq<nat>)
    ensures var r := ElementLines(mem, base, stride, isChar, idx);
      |r| < |idx| ==> |r| >= 1 && r[|r| - 1] == Raised
    decreases |idx|
  {
    if |idx| > 0 && !Outcome(mem, base, stride, isChar, idx[0]).Fails? {
      ElementLinesStop(mem, base, stride, isChar, idx[1..]);
    }
  }

  /** With snipping off, or for at most ten elements, no "  ..." line is
      printed. */
  lemma {:induction false} RenderElementsNoSnip(mem: Memory, base: nat, stride: nat, isChar: bool, n: nat,
                                                idx: seq<nat>, steps: nat, snip: bool)
    requires n <= 10 || !snip
    ensures Snip !in RenderElements(mem, base, stride, isChar, n, idx, steps, snip)
  {
    RenderWithoutSnip(mem, base, stride, isChar, n, idx, steps, snip);
    ElementLinesNoSnip(mem, base, stride, isChar, idx);
  }

  lemma {:induction false} ElementLinesSplit(mem: Memory, base: nat, stride: nat, isChar: bool, idx: seq<nat>, p: nat)
    requires p < |idx|
    requires forall k :: 0 <= k <= p ==> !Outcome(mem, base, stride, isChar, idx[k]).Fails?
    ensures ElementLines(mem, base, stride, isChar, idx) ==
      ElementLines(mem, base, stride, isChar, idx[..p + 1]) + ElementLines(mem, base, stride, isChar, idx[p + 1..])
    decreases p
  {
    var t := idx[1..];
    assert idx[..p + 1][1..] == t[..p];
    if p > 0 {
      ElementLinesSplit(mem, base, stride, isChar, t, p - 1);
      assert t[p..] == idx[p + 1..];
    } else {
      assert idx[..1][1..] == [];
    }
  }

  lemma {:induction false} SnipPositionNoFail(mem: Memory, base: nat, stride: nat, isChar: bool, idx: seq<nat>, steps: nat)
    requires SnipPosition(mem, base, stride, isChar, idx, steps).Some?
    ensures forall k :: 0 <= k <= SnipPosition(mem, base, stride, isChar, idx, steps).value ==>
      !Outcome(mem, base, stride, isChar, idx[k]).Fails?
    decreases |idx|
  {
    var p := SnipPosition(mem, base, stride, isChar, idx, steps).value;
    if p > 0 {
      SnipPositionNoFail(mem, base, stride, isChar, idx[1..], steps + 1);
    }
  }

  /** The element loop prints exactly the element lines, with one "  ..."
      inserted right after the first element shown once more than six
      indices are processed, and only for arrays of more than ten elements. */
  lemma {:induction false} RenderElementsSpec(mem: Memory, base: nat, stride: nat, isChar: bool, n: nat,
                                              idx: seq<nat>, steps: nat)
    ensures var out := RenderElements(mem, base, stride, isChar, n, idx, steps, true);
      var lines := ElementLines(mem, base, stride, isChar, idx);
      match SnipPosition(mem, base, stride, isChar, idx, steps)
      case None => out == lines
      case Some(p) =>
        if n > 10 then
          out == ElementLines(mem, base, stride, isChar, idx[..p + 1]) + [Snip]
                 + ElementLines(mem, base, stride, isChar, idx[p + 1..])
        else out == lines
    decreases |idx|
  {
    if n <= 10 {
      RenderWithoutSnip(mem, base, stride, isChar, n, idx, steps, true);
    } else if |idx| > 0 {
      var rest := idx[1..];
      match Outcome(mem, base, stride, isChar, idx[0])
      case Fails =>
      case Shown(line) =>
        if steps + 1 > 6 {
          SnipAtHead(mem, base, stride, isChar, n, idx, steps, line);
        } else {
          RenderElementsSpec(mem, base, stride, isChar, n, rest, steps + 1);
          NoSnipInductive(mem, base, stride, isChar, n, idx, steps);
        }
      case Missing =>
        RenderElementsSpec(mem, base, stride, isChar, n, rest, steps + 1);
        NoSnipInductive(mem, base, stride, isChar, n, idx, steps);
    }
  }

  /** The marker goes right after the first element when that element is
      shown once more than six indices are processed. */
  lemma {:induction false} SnipAtHead(mem: Memory, base: nat, stride: nat, isChar: bool, n: nat,
                                      idx: seq<nat>, steps: nat, line: Line)
    requires n > 10 && |idx| > 0 && steps + 1 > 6
    requires Outcome(mem, base, stride, isChar, idx[0]) == Shown(line)
    ensures SnipPosition(mem, base, stride, isChar, idx, steps) == Some(0)
    ensures RenderElements(mem, base, stride, isChar, n, idx, steps, true)
            == ElementLines(mem, base, stride, isChar, idx[..1]) + [Snip] + ElementLines(mem, base, stride, isChar, idx[1..])
  {
    RenderWithoutSnip(mem, base, stride, isChar, n, idx[1..], steps + 1, false);
    assert idx[..1] == [idx[0]];
  }

  /** The inductive step of RenderElementsSpec when the first element does
      not carry the marker. */
  lemma {:induction false} NoSnipInductive(mem: Memory, base: nat, stride: nat, isChar: bool, n: nat, idx: seq<nat>, steps: nat)
    requires n > 10 && |idx| > 0
    requires var o := Outcome(mem, base, stride, isChar, idx[0]); o.Missing? || (o.Shown? && steps + 1 <= 6)
    requires var rest := idx[1..];
      var out := RenderElements(mem, base, stride, isChar, n, rest, steps + 1, true);
      match SnipPosition(mem, base, stride, isChar, rest, steps + 1)
      case None => out == ElementLines(mem, base, stride, isChar, rest)
      case Some(p) =>
        out == ElementLines(mem, base, stride, isChar, rest[..p + 1]) + [Snip]
               + ElementLines(mem, base, stride, isChar, rest[p + 1..])
    ensures var out := RenderElements(mem, base, stride, isChar, n, idx, steps, true);
      match SnipPosition(mem, base, stride, isChar, idx, steps)
      case None => out == ElementLines(mem, base, stride, isChar, idx)
      case Some(p) =>
        out == ElementLines(mem, base, stride, isChar, idx[..p + 1]) + [Snip]
               + ElementLines(mem, base, stride, isChar, idx[p + 1..])
  {
    var rest := idx[1..];
    var head := HeadLine(Outcome(mem, base, stride, isChar, idx[0]), idx[0]);
    UnfoldStep(mem, base, stride, isChar, n, idx, steps);
    match SnipPosition(mem, base, stride, isChar, rest, steps + 1)
    case None =>
    case Some(q) =>
      ElementLinesPrefix(mem, base, stride, isChar, idx, q);
      ConsSnip(RenderElements(mem, base, stride, isChar, n, idx, steps, true),
               RenderElements(mem, base, stride, isChar, n, rest, steps + 1, true), head,
               ElementLines(mem, base, stride, isChar, rest[..q + 1]), ElementLines(mem, base, stride, isChar, rest[q + 1..]),
               ElementLines(mem, base, stride, isChar, idx[..q + 2]), ElementLines(mem, base, stride, isChar, idx[q + 2..]));
  }

  /** The line printed for an element that neither carries nor is followed
      by the marker. */
  function HeadLine(o: ElemOutcome, i: nat): Line {
    match o
    case Missing => ElementNoData(i)
    case Shown(line) => line
    case Fails => Raised
  }

  lemma {:induction false} UnfoldStep(mem: Memory, base: nat, stride: nat, isChar: bool, n: nat, idx: seq<nat>, steps: nat)
    requires n > 10 && |idx| > 0
    requires var o := Outcome(mem, base, stride, isChar, idx[0]); o.Missing? || (o.Shown? && steps + 1 <= 6)
    ensures var head := HeadLine(Outcome(mem, base, stride, isChar, idx[0]), idx[0]);
      && RenderElements(mem, base, stride, isChar, n, idx, steps, true)
         == [head] + RenderElements(mem, base, stride, isChar, n, idx[1..], steps + 1, true)
      && ElementLines(mem, base, stride, isChar, idx) == [head] + ElementLines(mem, base, stride, isChar, idx[1..])
      && SnipPosition(mem, base, stride, isChar, idx, steps) == ShiftPos(SnipPosition(mem, base, stride, isChar, idx[1..], steps + 1))
  {
  }

  lemma {:induction false} ElementLinesPrefix(mem: Memory, base: nat, stride: nat, isChar: bool, idx: seq<nat>, q: nat)
    requires q + 1 < |idx|
    requires !Outcome(mem, base, stride, isChar, idx[0]).Fails?
    ensures ElementLines(mem, base, stride, isChar, idx[..q + 2])
      == [HeadLine(Outcome(mem, base, stride, isChar, idx[0]), idx[0])] + ElementLines(mem, base, stride, isChar, idx[1..][..q + 1])
    ensures idx[q + 2..] == idx[1..][q + 1..]
  {
    var p := idx[..q + 2];
    assert p[0] == idx[0];
    assert p[1..] == idx[1..][..q + 1];
  }

  lemma {:induction false} ConsSnip(out: seq<Line>, tail: seq<Line>, head: Line, a: seq<Line>, b: seq<Line>, a2: seq<Line>, b2: seq<Line>)
    requires out == [head] + tail && tail == a + [Snip] + b
    requires a2 == [head] + a && b2 == b
    ensures out == a2 + [Snip] + b2
  {
  }

  /** display_array_primitive_values, from the array's data address: the
      header, the length line and the element lines.  Element widths other
      than 8, 4, 2 and 1 stop the loop before anything is printed. */
  function DisplayPrimitiveArray(mem: Memory, addr: nat, syntax: string, typeSize: nat): (out: seq<Line>)
    ensures |out| >= 2 && out[0] == PrimitiveHeader(syntax) && out[1] == PrimitiveLevel(syntax, ArrayLength(mem, addr))
    ensures typeSize !in {8, 4, 2, 1} ==> |out| == 2
    ensures typeSize in {8, 4, 2, 1} ==>
              out[2..] == RenderElements(mem, addr, typeSize, syntax == CHAR_ARRAY, ArrayLength(mem, addr),
                                         PreviewIndices(ArrayLength(mem, addr)), 0, true)
  {
    var n := ArrayLength(mem, addr);
    [PrimitiveHeader(syntax), PrimitiveLevel(syntax, n)]
      + (if typeSize in {8, 4, 2, 1}
         then RenderElements(mem, addr, typeSize, syntax == CHAR_ARRAY, n, PreviewIndices(n), 0, true)
         else [])
  }

  /** print_array_class_values: the element lines of an array of
      references, eight bytes each. */
  function PrintArrayClassValues(mem: Memory, addr: nat): seq<Line> {
    var n := ArrayLength(mem, addr);
    RenderElements(mem, addr, 8, false, n, PreviewIndices(n), 0, true)
  }

  // ---------------------------------------------------------------------
  // Character arrays

  datatype UnitOutcome = NoRead | BadUnit | Unit(c: char)

  /** Unit i of a character array: a two-byte read at addr + 4 + typeSize*i. */
  function CharUnit(mem: Memory, addr: nat, typeSize: nat, i: nat): UnitOutcome {
    match ReadWord(mem, addr + 4 + typeSize * i, 2)
    case None => NoRead
    case Some(u) =>
      match DecodeUnit(u)
      case None => BadUnit
      case Some(c) => Unit(c)
  }

  /** The character loop; `text` is the string built so far.  A failed read
      prints "no-data" and abandons the string. */
  function CharLoop(mem: Memory, addr: nat, typeSize: nat, n: nat, idx: seq<nat>,
                    steps: nat, snip: bool, text: string): (r: seq<Line>)
    ensures |r| == 1
    decreases |idx|
  {
    if |idx| == 0 then [StringValue(text)]
    else match CharUnit(mem, addr, typeSize, idx[0])
      case NoRead => [CharNoData]
      case BadUnit => [Raised]
      case Unit(c) =>
        if n > 32 && steps + 1 >= 24 && snip then
          CharLoop(mem, addr, typeSize, n, idx[1..], steps + 1, false, text + [c] + "...")
        else
          CharLoop(mem, addr, typeSize, n, idx[1..], steps + 1, snip, text + [c])
  }

  /** display_array_char_values. */
  function DisplayCharValues(mem: Memory, addr: nat, typeSize: nat, n: nat): (r: seq<Line>)
    ensures |r| == 1 && (r[0].StringValue? || r[0] == CharNoData || r[0] == Raised)
  {
    CharLoopLine(mem, addr, typeSize, n, CharIndices(n), 0, true, "");
    CharLoop(mem, addr, typeSize, n, CharIndices(n), 0, true, "")
  }

  /** The character loop prints the string, "no-data" or an exception. */
  lemma {:induction false} CharLoopLine(mem: Memory, addr: nat, typeSize: nat, n: nat, idx: seq<nat>,
                                        steps: nat, snip: bool, text: string)
    ensures var r := CharLoop(mem, addr, typeSize, n, idx, steps, snip, text);
      r[0].StringValue? || r[0] == CharNoData || r[0] == Raised
    decreases |idx|
  {
    if |idx| > 0 && CharUnit(mem, addr, typeSize, idx[0]).Unit? {
      var c := CharUnit(mem, addr, typeSize, idx[0]).c;
      if n > 32 && steps + 1 >= 24 && snip {
        CharLoopLine(mem, addr, typeSize, n, idx[1..], steps + 1, false, text + [c] + "...");
      } else {
        CharLoopLine(mem, addr, typeSize, n, idx[1..], steps + 1, snip, text + [c]);
      }
    }
  }

  /** All units at the given indices decode. */
  ghost predicate AllUnits(mem: Memory, addr: nat, typeSize: nat, idx: seq<nat>) {
    forall k :: 0 <= k < |idx| ==> CharUnit(mem, addr, typeSize, idx[k]).Unit?
  }

  function Units(mem: Memory, addr: nat, typeSize: nat, idx: seq<nat>): (s: string)
    requires AllUnits(mem, addr, typeSize, idx)
    ensures |s| == |idx|
    ensures forall k :: 0 <= k < |idx| ==> s[k] == CharUnit(mem, addr, typeSize, idx[k]).c
  {
    seq(|idx|, k requires 0 <= k < |idx| => CharUnit(mem, addr, typeSize, idx[k]).c)
  }

  /** The first index whose unit cannot be read or decoded. */
  function FirstBadUnit(mem: Memory, addr: nat, typeSize: nat, idx: seq<nat>): (p: Option<nat>)
    ensures p.None? <==> AllUnits(mem, addr, typeSize, idx)
    ensures p.Some? ==> (p.value < |idx| && !CharUnit(mem, addr, typeSize, idx[p.value]).Unit?
      && AllUnits(mem, addr, typeSize, idx[..p.value]))
    decreases |idx|
  {
    if |idx| == 0 then None
    else if !CharUnit(mem, addr, typeSize, idx[0]).Unit? then Some(0)
    else
      var r := FirstBadUnit(mem, addr, typeSize, idx[1..]);
      assert AllUnits(mem, addr, typeSize, idx[1..]) ==> AllUnits(mem, addr, typeSize, idx) by {
        if AllUnits(mem, addr, typeSize, idx[1..]) {
          forall k | 0 <= k < |idx| ensures CharUnit(mem, addr, typeSize, idx[k]).Unit? {
            if k > 0 { assert idx[k] == idx[1..][k - 1]; }
          }
        }
      }
      if r.Some? then
        assert idx[..r.value + 1] == [idx[0]] + idx[1..][..r.value];
        Some(r.value + 1)
      else None
  }

  lemma {:induction false} CharLoopFails(mem: Memory, addr: nat, typeSize: nat, n: nat, idx: seq<nat>,
                                         steps: nat, snip: bool, text: string, p: nat)
    requires FirstBadUnit(mem, addr, typeSize, idx) == Some(p)
    ensures CharLoop(mem, addr, typeSize, n, idx, steps, snip, text) ==
      (if CharUnit(mem, addr, typeSize, idx[p]).NoRead? then [CharNoData] else [Raised])
    decreases |idx|
  {
    if p > 0 {
      var c := CharUnit(mem, addr, typeSize, idx[0]).c;
      assert idx[1..][p - 1] == idx[p];
      var snip' := if n > 32 && steps + 1 >= 24 && snip then false else snip;
      var text' := if n > 32 && steps + 1 >= 24 && snip then text + [c] + "..." else text + [c];
      CharLoopFails(mem, addr, typeSize, n, idx[1..], steps + 1, snip', text', p - 1);
    }
  }

  lemma {:induction false} AllUnitsSlice(mem: Memory, addr: nat, typeSize: nat, idx: seq<nat>, lo: nat, hi: nat)
    requires lo <= hi <= |idx|
    requires AllUnits(mem, addr, typeSize, idx)
    ensures AllUnits(mem, addr, typeSize, idx[lo..hi])
  {
    var t := idx[lo..hi];
    forall k | 0 <= k < |t| ensures CharUnit(mem, addr, typeSize, t[k]).Unit? {
      assert t[k] == idx[lo + k];
    }
  }

  lemma {:induction false} UnitsCons(mem: Memory, addr: nat, typeSize: nat, idx: seq<nat>)
    requires |idx| > 0 && AllUnits(mem, addr, typeSize, idx)
    ensures AllUnits(mem, addr, typeSize, idx[1..])
    ensures Units(mem, addr, typeSize, idx) == [CharUnit(mem, addr, typeSize, idx[0]).c] + Units(mem, addr, typeSize, idx[1..])
  {
    AllUnitsSlice(mem, addr, typeSize, idx, 1, |idx|);
    assert idx[1..|idx|] == idx[1..];
  }

  lemma {:induction false} CharLoopPlain(mem: Memory, addr: nat, typeSize: nat, n: nat, idx: seq<nat>,
                                         steps: nat, snip: bool, text: string)
    requires AllUnits(mem, addr, typeSize, idx)
    requires !snip || n <= 32 || steps + |idx| < 24
    ensures CharLoop(mem, addr, typeSize, n, idx, steps, snip, text) == [StringValue(text + Units(mem, addr, typeSize, idx))]
    decreases |idx|
  {
    if |idx| > 0 {
      var c := CharUnit(mem, addr, typeSize, idx[0]).c;
      UnitsCons(mem, addr, typeSize, idx);
      CharLoopPlain(mem, addr, typeSize, n, idx[1..], steps + 1, snip, text + [c]);
      assert text + [c] + Units(mem, addr, typeSize, idx[1..]) == text + Units(mem, addr, typeSize, idx);
    } else {
      assert text + Units(mem, addr, typeSize, idx) == text;
    }
  }

  /** Splitting the units at m, after taking off the first one. */
  lemma {:induction false} UnitsSplitHead(mem: Memory, addr: nat, typeSize: nat, idx: seq<nat>, m: nat)
    requires 1 <= m <= |idx| && AllUnits(mem, addr, typeSize, idx)
    ensures AllUnits(mem, addr, typeSize, idx[1..]) && AllUnits(mem, addr, typeSize, idx[..m])
    ensures AllUnits(mem, addr, typeSize, idx[m..]) && AllUnits(mem, addr, typeSize, idx[1..][..m - 1])
    ensures idx[1..][m - 1..] == idx[m..]
    ensures Units(mem, addr, typeSize, idx[..m])
      == [CharUnit(mem, addr, typeSize, idx[0]).c] + Units(mem, addr, typeSize, idx[1..][..m - 1])
  {
    AllUnitsSlice(mem, addr, typeSize, idx, 1, |idx|);
    AllUnitsSlice(mem, addr, typeSize, idx, 0, m);
    AllUnitsSlice(mem, addr, typeSize, idx, m, |idx|);
    AllUnitsSlice(mem, addr, typeSize, idx, 1, m);
    assert idx[1..|idx|] == idx[1..] && idx[0..m] == idx[..m] && idx[m..|idx|] == idx[m..];
    assert idx[1..m] == idx[1..][..m - 1];
    UnitsCons(mem, addr, typeSize, idx[..m]);
    assert idx[..m][1..] == idx[1..][..m - 1];
  }

  lemma {:induction false} CharLoopSnip(mem: Memory, addr: nat, typeSize: nat, n: nat, idx: seq<nat>,
                                        steps: nat, text: string)
    requires n > 32 && steps < 24 && steps + |idx| >= 24
    requires AllUnits(mem, addr, typeSize, idx)
    ensures AllUnits(mem, addr, typeSize, idx[..24 - steps]) && AllUnits(mem, addr, typeSize, idx[24 - steps..])
    ensures CharLoop(mem, addr, typeSize, n, idx, steps, true, text) ==
      [StringValue(text + Units(mem, addr, typeSize, idx[..24 - steps]) + "..." + Units(mem, addr, typeSize, idx[24 - steps..]))]
    decreases |idx|
  {
    var m := 24 - steps;
    var c := CharUnit(mem, addr, typeSize, idx[0]).c;
    var rest := idx[1..];
    UnitsSplitHead(mem, addr, typeSize, idx, m);
    var u1 := Units(mem, addr, typeSize, rest[..m - 1]);
    var u2 := Units(mem, addr, typeSize, idx[m..]);
    if m == 1 {
      CharLoopSnipLast(mem, addr, typeSize, n, idx, text);
    } else {
      assert CharLoop(mem, addr, typeSize, n, idx, steps, true, text)
        == CharLoop(mem, addr, typeSize, n, rest, steps + 1, true, text + [c]);
      CharLoopSnip(mem, addr, typeSize, n, rest, steps + 1, text + [c]);
      assert text + [c] + u1 + "..." + u2 == text + ([c] + u1) + "..." + u2;
    }
  }

  /** The 24th character is followed by the "..." and the loop goes on
      without snipping. */
  lemma {:induction false} CharLoopSnipLast(mem: Memory, addr: nat, typeSize: nat, n: nat, idx: seq<nat>, text: string)
    requires n > 32 && |idx| >= 1 && AllUnits(mem, addr, typeSize, idx)
    ensures AllUnits(mem, addr, typeSize, idx[..1]) && AllUnits(mem, addr, typeSize, idx[1..])
    ensures CharLoop(mem, addr, typeSize, n, idx, 23, true, text) ==
      [StringValue(text + Units(mem, addr, typeSize, idx[..1]) + "..." + Units(mem, addr, typeSize, idx[1..]))]
  {
    var c := CharUnit(mem, addr, typeSize, idx[0]).c;
    var rest := idx[1..];
    UnitsSplitHead(mem, addr, typeSize, idx, 1);
    assert rest[..0] == [];
    assert Units(mem, addr, typeSize, idx[..1]) == [c];
    assert CharLoop(mem, addr, typeSize, n, idx, 23, true, text)
      == CharLoop(mem, addr, typeSize, n, rest, 24, false, text + [c] + "...");
    CharLoopPlain(mem, addr, typeSize, n, rest, 24, false, text + [c] + "...");
  }

  /** A character array is shown as one string of its preview units, with
      "..." after the 24th unit when it has more than 32; the first unit
      that cannot be read abandons the string with "no-data", and the first
      that cannot be decoded raises. */
  lemma {:induction false} DisplayCharValuesSpec(mem: Memory, addr: nat, typeSize: nat, n: nat)
    ensures var idx := CharIndices(n);
      var out := DisplayCharValues(mem, addr, typeSize, n);
      match FirstBadUnit(mem, addr, typeSize, idx)
      case Some(p) => out == (if CharUnit(mem, addr, typeSize, idx[p]).NoRead? then [CharNoData] else [Raised])
      case None =>
        if n > 32 then out == [StringValue(Units(mem, addr, typeSize, idx[..24]) + "..." + Units(mem, addr, typeSize, idx[24..]))]
        else out == [StringValue(Units(mem, addr, typeSize, idx))]
  {
    var idx := CharIndices(n);
    match FirstBadUnit(mem, addr, typeSize, idx)
    case Some(p) => CharLoopFails(mem, addr, typeSize, n, idx, 0, true, "", p);
    case None =>
      if n > 32 {
        CharLoopSnip(mem, addr, typeSize, n, idx, 0, "");
        var u1 := Units(mem, addr, typeSize, idx[..24]);
        assert "" + u1 == u1;
      } else {
        CharLoopPlain(mem, addr, typeSize, n, idx, 0, true, "");
        assert "" + Units(mem, addr, typeSize, idx) == Units(mem, addr, typeSize, idx);
      }
  }
}

=== FILE: inspect_chain.dfy ===
/** The inheritance-chain walk: starting from an object's class, follow
    base-class links through the definition cache until a layout whose base
    is the root, and record the levels base-first. */
module ClassChain {
  import opened Common
  import opened InspectTypes

  /** The outcome of the walk: the chain, a missing definition somewhere on
      the way (the inspector then reports nothing), or a revisited class
      (the inspector's unbounded loop never ends). */
  datatype ChainResult = Chain(levels: seq<Level>) | MissingDef | Cycle

  /** The walk from `name`, with `visited` the classes already passed and
      `count` the number of levels already recorded. */
  function Walk(defs: ClassDefs, name: string, syntax: string, size: nat,
                visited: set<string>, count: nat): (r: ChainResult)
    decreases |defs.Keys - visited|
  {
    if name !in defs then MissingDef
    else if name in visited then Cycle
    else
      var c := defs[name];
      var level := Level(name, if count == 0 then syntax else "class", if count == 0 then size else 1, c);
      if c.baseClass == ROOT then Chain([level])
      else
        RemoveShrinks(defs.Keys - (visited + {name}), defs.Keys - visited, name);
        match Walk(defs, c.baseClass, syntax, size, visited + {name}, count + 1)
        case Chain(rest) => Chain(rest + [level])
        case other => other
  }

  /** The chain for an object of class `name` whose runtime syntax and size
      are `syntax` and `size`. */
  function GetClassList(defs: ClassDefs, name: string, syntax: string, size: nat): (r: ChainResult)
    ensures name !in defs ==> r == MissingDef
    ensures r.Chain? ==> |r.levels| >= 1 && r.levels[0].cls.baseClass == ROOT
    ensures r.Chain? ==> var last := r.levels[|r.levels| - 1];
      last.className == name && last.syntax == syntax && last.typeSize == size
  {
    var r := Walk(defs, name, syntax, size, {}, 0);
    assert r.Chain? ==> IsChain(defs, name, syntax, size, r.levels) by {
      if r.Chain? {
        WalkSound(defs, name, syntax, size, {}, 0, r.levels);
      }
    }
    r
  }

  /** What a correct chain for `name` looks like, independently of how it is
      built: base-first, linked by base-class names, the first level rooted
      and no later one, every level the cached definition of its class, the
      last level carrying the given syntax and size and every earlier one
      "class" and 1, and no class twice. */
  ghost predicate IsChain(defs: ClassDefs, name: string, lastSyntax: string, lastSize: nat, levels: seq<Level>) {
    && |levels| >= 1
    && levels[|levels| - 1].className == name
    && levels[|levels| - 1].syntax == lastSyntax
    && levels[|levels| - 1].typeSize == lastSize
    && (forall i :: 0 <= i < |levels| ==>
          levels[i].className in defs && levels[i].cls == defs[levels[i].className])
    && levels[0].cls.baseClass == ROOT
    && (forall i :: 0 < i < |levels| ==>
          levels[i].cls.baseClass != ROOT && levels[i].cls.baseClass == levels[i - 1].className)
    && (forall i :: 0 <= i < |levels| - 1 ==> levels[i].syntax == "class" && levels[i].typeSize == 1)
    && (forall i, j :: 0 <= i < j < |levels| ==> levels[i].className != levels[j].className)
  }

  function SyntaxAt(syntax: string, count: nat): string { if count == 0 then syntax else "class" }
  function SizeAt(size: nat, count: nat): nat { if count == 0 then size else 1 }

  /** A chain for the base class, extended by the level of a class deriving
      from it, is a chain for that class. */
  lemma {:induction false} ChainExtend(defs: ClassDefs, rest: seq<Level>, level: Level)
    requires level.className in defs && level.cls == defs[level.className]
    requires level.cls.baseClass != ROOT
    requires IsChain(defs, level.cls.baseClass, "class", 1, rest)
    requires forall i :: 0 <= i < |rest| ==> rest[i].className != level.className
    ensures IsChain(defs, level.className, level.syntax, level.typeSize, rest + [level])
  {
    var levels := rest + [level];
    forall i | 0 <= i < |rest|
      ensures levels[i] == rest[i]
    {
    }
    assert levels[|rest|] == level;
  }

  /** Dropping the last level of a chain of two or more leaves a chain for
      its base class that does not mention the dropped class. */
  lemma {:induction false} ChainInit(defs: ClassDefs, name: string, syntax: string, size: nat, levels: seq<Level>)
    requires IsChain(defs, name, syntax, size, levels)
    requires |levels| > 1
    ensures IsChain(defs, levels[|levels| - 1].cls.baseClass, "class", 1, levels[..|levels| - 1])
    ensures forall i :: 0 <= i < |levels| - 1 ==> levels[i].className != name
  {
    var last := |levels| - 1;
    var rest := levels[..last];
    forall i | 0 <= i < last
      ensures rest[i] == levels[i]
    {
    }
    assert rest[last - 1] == levels[last - 1];
  }

  /** One step of a walk that reaches a chain through a derived class: the
      walk from its base class yields every level but the last, and the
      last is the class's own. */
  lemma {:induction false} WalkUnfold(defs: ClassDefs, name: string, syntax: string, size: nat,
                                      visited: set<string>, count: nat, levels: seq<Level>)
    requires Walk(defs, name, syntax, size, visited, count) == Chain(levels)
    requires name in defs && defs[name].baseClass != ROOT
    ensures name !in visited && |levels| >= 1
    ensures Walk(defs, defs[name].baseClass, syntax, size, visited + {name}, count + 1) == Chain(levels[..|levels| - 1])
    ensures levels[|levels| - 1] == Level(name, SyntaxAt(syntax, count), SizeAt(size, count), defs[name])
  {
    var c := defs[name];
    var level := Level(name, SyntaxAt(syntax, count), SizeAt(size, count), c);
    var rest := Walk(defs, c.baseClass, syntax, size, visited + {name}, count + 1).levels;
    assert levels == rest + [level];
    assert levels[..|levels| - 1] == rest;
  }

  lemma {:induction false} WalkSound(defs: ClassDefs, name: string, syntax: string, size: nat,
                                     visited: set<string>, count: nat, levels: seq<Level>)
    requires Walk(defs, name, syntax, size, visited, count) == Chain(levels)
    ensures IsChain(defs, name, SyntaxAt(syntax, count), SizeAt(size, count), levels)
    ensures forall i :: 0 <= i < |levels| ==> levels[i].className !in visited
    decreases |defs.Keys - visited|
  {
    var c := defs[name];
    var level := Level(name, SyntaxAt(syntax, count), SizeAt(size, count), c);
    if c.baseClass == ROOT {
      assert levels == [level];
    } else {
      WalkUnfold(defs, name, syntax, size, visited, count, levels);
      var rest := levels[..|levels| - 1];
      RemoveShrinks(defs.Keys - (visited + {name}), defs.Keys - visited, name);
      WalkSound(defs, c.baseClass, syntax, size, visited + {name}, count + 1, rest);
      ChainStep(defs, visited, rest, level, SyntaxAt(syntax, count + 1), SizeAt(size, count + 1));
      assert levels == rest + [level];
    }
  }

  /** The step WalkSound takes through a derived class: its level on top of a
      correct chain for its base class that avoids it and the visited
      classes is a correct chain that avoids the visited classes. */
  lemma {:induction false} ChainStep(defs: ClassDefs, visited: set<string>, rest: seq<Level>, level: Level,
                                     baseSyntax: string, baseSize: nat)
    requires level.className in defs && level.cls == defs[level.className]
    requires level.cls.baseClass != ROOT && level.className !in visited
    requires baseSyntax == "class" && baseSize == 1
    requires IsChain(defs, level.cls.baseClass, baseSyntax, baseSize, rest)
    requires forall i :: 0 <= i < |rest| ==> rest[i].className !in visited + {level.className}
    ensures IsChain(defs, level.className, level.syntax, level.typeSize, rest + [level])
    ensures forall i :: 0 <= i < |rest| + 1 ==> (rest + [level])[i].className !in visited
  {
    var levels := rest + [level];
    ChainExtend(defs, rest, level);
    forall i | 0 <= i < |levels|
      ensures levels[i].className !in visited
    {
      if i < |rest| {
        assert levels[i] == rest[i];
      }
    }
  }

  lemma {:induction false} WalkComplete(defs: ClassDefs, name: string, syntax: string, size: nat,
                                        visited: set<string>, count: nat, levels: seq<Level>)
    requires IsChain(defs, name, SyntaxAt(syntax, count), SizeAt(size, count), levels)
    requires forall i :: 0 <= i < |levels| ==> levels[i].className !in visited
    ensures Walk(defs, name, syntax, size, visited, count) == Chain(levels)
    decreases |levels|
  {
    var last := |levels| - 1;
    var c := defs[name];
    assert levels[last] == Level(name, SyntaxAt(syntax, count), SizeAt(size, count), c);
    if last > 0 {
      var rest := levels[..last];
      ChainInit(defs, name, SyntaxAt(syntax, count), SizeAt(size, count), levels);
      forall i | 0 <= i < |rest|
        ensures rest[i].className !in visited + {name}
      {
        assert rest[i] == levels[i];
      }
      WalkComplete(defs, c.baseClass, syntax, size, visited + {name}, count + 1, rest);
      assert levels == rest + [levels[last]];
    } else {
      assert levels == [levels[last]];
    }
  }

  /** The walk returns a chain exactly when a correct chain exists, and that
      chain is the one returned. */
  lemma {:induction false} GetClassListCorrect(defs: ClassDefs, name: string, syntax: string, size: nat, levels: seq<Level>)
    ensures GetClassList(defs, name, syntax, size) == Chain(levels) <==> IsChain(defs, name, syntax, size, levels)
  {
    if GetClassList(defs, name, syntax, size) == Chain(levels) {
      WalkSound(defs, name, syntax, size, {}, 0, levels);
    }
    if IsChain(defs, name, syntax, size, levels) {
      WalkComplete(defs, name, syntax, size, {}, 0, levels);
    }
  }

  /** Consecutive names follow base-class links that are not the root. */
  ghost predicate LinkPath(defs: ClassDefs, names: seq<string>) {
    && |names| >= 1
    && forall i :: 0 <= i < |names| - 1 ==>
         names[i] in defs && defs[names[i]].baseClass != ROOT && defs[names[i]].baseClass == names[i + 1]
  }

  /** A link from `name` to the start of a path extends the path. */
  lemma {:induction false} LinkPathCons(defs: ClassDefs, name: string, tail: seq<string>)
    requires LinkPath(defs, tail)
    requires name in defs && defs[name].baseClass != ROOT && defs[name].baseClass == tail[0]
    ensures LinkPath(defs, [name] + tail)
    ensures ([name] + tail)[0] == name
    ensures ([name] + tail)[|tail|] == tail[|tail| - 1]
    ensures ([name] + tail)[..|tail|] == [name] + tail[..|tail| - 1]
  {
    var names := [name] + tail;
    forall i | 0 < i < |names|
      ensures names[i] == tail[i - 1]
    {
    }
  }

  lemma {:induction false} WalkMissing(defs: ClassDefs, name: string, syntax: string, size: nat,
                                       visited: set<string>, count: nat)
    requires Walk(defs, name, syntax, size, visited, count) == MissingDef
    ensures exists names :: LinkPath(defs, names) && names[0] == name && names[|names| - 1] !in defs
    decreases |defs.Keys - visited|
  {
    if name in defs {
      var c := defs[name];
      RemoveShrinks(defs.Keys - (visited + {name}), defs.Keys - visited, name);
      WalkMissing(defs, c.baseClass, syntax, size, visited + {name}, count + 1);
      var tail :| LinkPath(defs, tail) && tail[0] == c.baseClass && tail[|tail| - 1] !in defs;
      LinkPathCons(defs, name, tail);
      var names := [name] + tail;
      assert names[|names| - 1] !in defs;
    } else {
      assert LinkPath(defs, [name]);
    }
  }

  lemma {:induction false} WalkCycle(defs: ClassDefs, name: string, syntax: string, size: nat,
                                     visited: set<string>, count: nat)
    requires Walk(defs, name, syntax, size, visited, count) == Cycle
    ensures exists names :: (LinkPath(defs, names) && names[0] == name &&
      (names[|names| - 1] in visited || names[|names| - 1] in names[..|names| - 1]))
    decreases |defs.Keys - visited|
  {
    if name in visited {
      assert LinkPath(defs, [name]);
    } else {
      var c := defs[name];
      RemoveShrinks(defs.Keys - (visited + {name}), defs.Keys - visited, name);
      WalkCycle(defs, c.baseClass, syntax, size, visited + {name}, count + 1);
      var tail :| LinkPath(defs, tail) && tail[0] == c.baseClass &&
        (tail[|tail| - 1] in visited + {name} || tail[|tail| - 1] in tail[..|tail| - 1]);
      LinkPathCons(defs, name, tail);
      var names := [name] + tail;
      assert names[|names| - 1] in visited || names[|names| - 1] in names[..|names| - 1];
    }
  }

  /** A missing definition anywhere on the base-class path is the only way
      to get no chain without looping. */
  lemma {:induction false} GetClassListMissing(defs: ClassDefs, name: string, syntax: string, size: nat)
    requires GetClassList(defs, name, syntax, size) == MissingDef
    ensures exists names :: LinkPath(defs, names) && names[0] == name && names[|names| - 1] !in defs
  {
    WalkMissing(defs, name, syntax, size, {}, 0);
  }

  /** The inspector loops only when the base-class path comes back to a class
      it has already passed. */
  lemma {:induction false} GetClassListCycle(defs: ClassDefs, name: string, syntax: string, size: nat)
    requires GetClassList(defs, name, syntax, size) == Cycle
    ensures exists names :: LinkPath(defs, names) && names[0] == name && names[|names| - 1] in names[..|names| - 1]
  {
    WalkCycle(defs, name, syntax, size, {}, 0);
  }
}

=== FILE: inspect_command.dfy ===
/** The mprint command: splitting its argument, choosing between a
    variable name and an address, and the two dynamic-language views of a
    property. */
module MprintCommand {
  import opened Common
  import opened HexText
  import opened InspectTypes
  import opened FieldValues
  import opened ClassDisplay

  // ---------------------------------------------------------------------
  // Python's str.split() with no separator

  /** The characters Python's str.isspace accepts. */
  predicate IsSpace(c: char) {
    var n := c as int;
    || n == 0x20 || 0x09 <= n <= 0x0D || 0x1C <= n <= 0x1F || n == 0x85 || n == 0xA0
    || n == 0x1680 || 0x2000 <= n <= 0x200A || n == 0x2028 || n == 0x2029
    || n == 0x202F || n == 0x205F || n == 0x3000
  }

  /** A non-empty run of non-space characters. */
  predicate IsWord(w: string) {
    |w| > 0 && forall k :: 0 <= k < |w| ==> !IsSpace(w[k])
  }

  /** The longest prefix of s without a space. */
  function TakeWord(s: string): (w: string)
    ensures |w| <= |s| && w == s[..|w|]
    ensures forall k :: 0 <= k < |w| ==> !IsSpace(w[k])
    ensures |w| < |s| ==> IsSpace(s[|w|])
    decreases |s|
  {
    if |s| == 0 || IsSpace(s[0]) then "" else [s[0]] + TakeWord(s[1..])
  }

  /** Python's s.split(): the maximal runs of non-space characters. */
  function Words(s: string): (ws: seq<string>)
    ensures forall k :: 0 <= k < |ws| ==> IsWord(ws[k])
    decreases |s|
  {
    if |s| == 0 then []
    else if IsSpace(s[0]) then Words(s[1..])
    else
      var w := TakeWord(s);
      [w] + Words(s[|w|..])
  }

  /** The non-space characters of s, in order. */
  function NonSpace(s: string): string
    decreases |s|
  {
    if |s| == 0 then "" else (if IsSpace(s[0]) then "" else [s[0]]) + NonSpace(s[1..])
  }

  function Concat(ws: seq<string>): string
    decreases |ws|
  {
    if |ws| == 0 then "" else ws[0] + Concat(ws[1..])
  }

  /** The words joined by single spaces. */
  function Join(ws: seq<string>): string
    decreases |ws|
  {
    if |ws| == 0 then "" else if |ws| == 1 then ws[0] else ws[0] + " " + Join(ws[1..])
  }

  lemma {:induction false} NonSpaceAppend(a: string, b: string)
    ensures NonSpace(a + b) == NonSpace(a) + NonSpace(b)
    decreases |a|
  {
    if |a| > 0 {
      assert (a + b)[1..] == a[1..] + b;
      NonSpaceAppend(a[1..], b);
    } else {
      assert a + b == b;
    }
  }

  lemma {:induction false} NonSpaceOfWord(w: string)
    requires forall k :: 0 <= k < |w| ==> !IsSpace(w[k])
    ensures NonSpace(w) == w
    decreases |w|
  {
    if |w| > 0 {
      NonSpaceOfWord(w[1..]);
    }
  }

  /** Splitting drops exactly the spaces: the words put back together are
      the non-space characters of the input. */
  lemma {:induction false} WordsKeepText(s: string)
    ensures Concat(Words(s)) == NonSpace(s)
    decreases |s|
  {
    if |s| > 0 {
      if IsSpace(s[0]) {
        WordsKeepText(s[1..]);
      } else {
        var w := TakeWord(s);
        WordsKeepText(s[|w|..]);
        assert s == w + s[|w|..];
        NonSpaceAppend(w, s[|w|..]);
        NonSpaceOfWord(w);
        assert Words(s)[1..] == Words(s[|w|..]);
      }
    }
  }

  lemma {:induction false} TakeWordOf(w: string, rest: string)
    requires IsWord(w)
    requires |rest| == 0 || IsSpace(rest[0])
    ensures TakeWord(w + rest) == w
    decreases |w|
  {
    var s := w + rest;
    assert s[1..] == w[1..] + rest;
    if |w| > 1 {
      TakeWordOf(w[1..], rest);
    } else {
      assert s[1..] == rest;
    }
  }

  /** Splitting words joined by single spaces gives the words back. */
  /** Words of a word followed by a space and more text. */
  lemma {:induction false} WordsOfWordThenSpace(w: string, t: string)
    requires IsWord(w)
    ensures Words(w + " " + t) == [w] + Words(t)
  {
    var rest := " " + t;
    var s := w + rest;
    assert s == w + " " + t;
    TakeWordOf(w, rest);
    assert s[|w|..] == rest;
    assert IsSpace(rest[0]);
    assert rest[1..] == t;
  }

  /** Splitting words joined by single spaces gives the words back. */
  lemma {:induction false} WordsOfJoin(ws: seq<string>)
    requires forall k :: 0 <= k < |ws| ==> IsWord(ws[k])
    ensures Words(Join(ws)) == ws
    decreases |ws|
  {
    if |ws| == 1 {
      TakeWordOf(ws[0], "");
      assert ws[0] + "" == ws[0];
      assert ws[0][|ws[0]|..] == "";
    } else if |ws| > 1 {
      WordsOfJoin(ws[1..]);
      WordsOfWordThenSpace(ws[0], Join(ws[1..]));
      assert ws == [ws[0]] + ws[1..];
    }
  }

  /** A token without spaces splits into itself. */
  lemma {:induction false} WordsOfWord(w: string)
    requires IsWord(w)
    ensures Words(w) == [w]
  {
    WordsOfJoin([w]);
  }

  // ---------------------------------------------------------------------
  // The dynamic-language views

  /** The first property record with the given name. */
  function FindProp(ps: seq<PropRecord>, name: string): (r: Option<nat>)
    ensures r.None? <==> forall j :: 0 <= j < |ps| ==> ps[j].name != name
    ensures r.Some? ==> (r.value < |ps| && ps[r.value].name == name
      && forall j :: 0 <= j < r.value ==> ps[j].name != name)
    decreases |ps|
  {
    if |ps| == 0 then None
    else if ps[0].name == name then Some(0)
    else match FindProp(ps[1..], name)
      case None => None
      case Some(k) => Some(k + 1)
  }

  /** The value line of a record: an object's fields when the tag says
      object, the text otherwise; a record whose value does not match its
      tag makes Python raise a TypeError. */
  function ValueLine(rec: PropRecord): (l: Option<Line>)
    ensures l.Some? <==> (rec.tag == JSTYPE_OBJECT <==> rec.value.ObjectValue?)
    ensures l.Some? && rec.value.ObjectValue? ==> l.value == ObjectValueLine(rec.value.fields)
    ensures l.Some? && rec.value.ScalarValue? ==> l.value == ScalarValueLine(rec.value.text)
  {
    match rec.value
    case ObjectValue(f) => if rec.tag == JSTYPE_OBJECT then Some(ObjectValueLine(f)) else None
    case ScalarValue(t) => if rec.tag == JSTYPE_OBJECT then None else Some(ScalarValueLine(t))
  }

  /** The lines after a record's name: tag, value, node, next and parent;
      only tag and the exception when the value does not match the tag. */
  function RecordLines(rec: PropRecord): (out: seq<Line>)
    ensures |out| >= 2 && out[0] == Tag(rec.tag)
    ensures ValueLine(rec).None? <==> out == [Tag(rec.tag), Raised]
    ensures ValueLine(rec).Some? ==> (|out| == 5 && out[1] == ValueLine(rec).value
      && out[2..] == [NodeAddr(rec.nodeAddr), NextAddr(rec.next), Parent("Global Object")])
  {
    match ValueLine(rec)
    case None => [Tag(rec.tag), Raised]
    case Some(v) => [Tag(rec.tag), v, NodeAddr(rec.nodeAddr), NextAddr(rec.next), Parent("Global Object")]
  }

  /** mprint_func_dync_by_property_name. */
  function ByName(name: string, isDync: bool, props: Option<seq<PropRecord>>): (out: seq<Line>)
    ensures !isDync <==> out == [NotDynamic]
    ensures isDync && (props.None? || |props.value| == 0) ==> out == [PropertyDataNotReady]
    ensures isDync && props.Some? && |props.value| > 0 && (forall j :: 0 <= j < |props.value| ==> props.value[j].name != name)
      ==> out == [PropertyNotAvailable(name)]
  {
    if !isDync then [NotDynamic]
    else if props.None? || |props.value| == 0 then [PropertyDataNotReady]
    else match FindProp(props.value, name)
      case None => [PropertyNotAvailable(name)]
      case Some(k) => [PropertyName(name)] + RecordLines(props.value[k])
  }

  /** A property is shown from the first record with its name. */
  lemma {:induction false} ByNameFirstMatch(name: string, props: seq<PropRecord>, j: nat)
    requires j < |props| && props[j].name == name
    requires forall i :: 0 <= i < j ==> props[i].name != name
    ensures ByName(name, true, Some(props)) == [PropertyName(name)] + RecordLines(props[j])
  {
    assert FindProp(props, name) == Some(j);
  }

  /** What the debugger reports for an address holding a script value. */
  datatype JsTypeValue = JsTypeValue(mtype: string, text: string)

  /** mprint_func_dync_by_addr: a script value with both a type and a
      value is shown directly; otherwise the address, written in decimal,
      names a property-list node. */
  function ByAddr(addr: nat, values: map<nat, JsTypeValue>, nodes: map<string, PropRecord>): (out: seq<Line>)
    ensures addr in values && values[addr].mtype != "" && values[addr].text != "" ==>
      out == [TypeAndValue(addr, values[addr].mtype, values[addr].text)]
    ensures (addr !in values || values[addr].mtype == "" || values[addr].text == "") ==>
      if NatToDecimal(addr) !in nodes then out == [ValueNotValid(addr)]
      else out == [AddrName(addr, nodes[NatToDecimal(addr)].name)] + RecordLines(nodes[NatToDecimal(addr)])
  {
    if addr in values && values[addr].mtype != "" && values[addr].text != "" then
      [TypeAndValue(addr, values[addr].mtype, values[addr].text)]
    else
      var key := NatToDecimal(addr);
      if key !in nodes then [ValueNotValid(addr)]
      else [AddrName(addr, nodes[key].name)] + RecordLines(nodes[key])
  }

  /** A property-list node shown by address reads exactly like the same
      record looked up by its name, after the first line. */
  lemma {:induction false} ByAddrMatchesByName(addr: nat, values: map<nat, JsTypeValue>, nodes: map<string, PropRecord>,
                            props: seq<PropRecord>)
    requires addr !in values || values[addr].mtype == "" || values[addr].text == ""
    requires NatToDecimal(addr) in nodes
    requires var rec := nodes[NatToDecimal(addr)];
      FindProp(props, rec.name).Some? && props[FindProp(props, rec.name).value] == rec
    ensures var rec := nodes[NatToDecimal(addr)];
      var a := ByAddr(addr, values, nodes);
      var n := ByName(rec.name, true, Some(props));
      a[0] == AddrName(addr, rec.name) && n[0] == PropertyName(rec.name) && a[1..] == n[1..]
  {
    var rec := nodes[NatToDecimal(addr)];
    assert ByAddr(addr, values, nodes)[1..] == RecordLines(rec);
    assert ByName(rec.name, true, Some(props))[1..] == RecordLines(rec);
  }

  // ---------------------------------------------------------------------
  // The command

  /** Everything the command reads from the debugger. */
  datatype Debuggee = Debuggee(
    mem: Memory,
    types: map<nat, TypeInfo>,        // get_class_name_syntax for each resolvable address
    defs: ClassDefs,                  // the class-definition cache
    primitives: set<string>,          // names of the primitive element types
    gdbText: string,                  // gdb's rendering of non-hex views
    isDync: bool,                     // whether the closest frame runs a dynamic language
    props: Option<seq<PropRecord>>,   // all property records, when ready
    values: map<nat, JsTypeValue>,
    nodes: map<string, PropRecord>)

  /** mprint_func.  `evaluated` is gdb's value of the argument as an
      integer, when gdb can evaluate it; the argument is then replaced by
      Python's hex() of that value. */
  function Mprint(args: string, evaluated: Option<int>, d: Debuggee): (out: seq<Line>)
    requires MemoryWellFormed(d.mem)
    ensures |Words(if evaluated.Some? then Hex(evaluated.value) else args)| != 1 ==> out == [Usage]
  {
    var s := if evaluated.Some? then Hex(evaluated.value) else args;
    var x := Words(s);
    if |x| != 1 then [Usage]
    else
      var w := x[0];
      if !IsDigit(w[0]) then ByName(w, d.isDync, d.props)
      else match ParseHexToken(w)
        case None => [Usage]
        case Some(a) => AtAddress(a, d)
  }

  /** The view of an address in the current frame's language. */
  function AtAddress(a: nat, d: Debuggee): seq<Line>
    requires MemoryWellFormed(d.mem)
  {
    if d.isDync then ByAddr(a, d.values, d.nodes)
    else MprintStatic(d.mem, d.types, d.defs, d.primitives, a, d.gdbText)
  }

  lemma {:induction false} HexIsWord(i: int)
    ensures IsWord(Hex(i))
  {
    var h := Hex(i);
    var digits := NatToHex(if i < 0 then -i else i);
    forall k | 0 <= k < |h| ensures !IsSpace(h[k]) {
      if i < 0 {
        if k >= 3 { assert h[k] == digits[k - 3]; }
      } else {
        if k >= 2 { assert h[k] == digits[k - 2]; }
      }
    }
  }

  /** An expression gdb evaluates to a non-negative integer is shown as
      the object at that address: hex() and int(_, 16) round-trip. */
  lemma {:induction false} MprintEvaluatedAddress(args: string, i: nat, d: Debuggee)
    requires MemoryWellFormed(d.mem)
    ensures Mprint(args, Some(i), d) == AtAddress(i, d)
  {
    HexIsWord(i);
    WordsOfWord(Hex(i));
    HexRoundTrip(i);
  }

  /** A negative value prints as "-0x...", which does not start with a
      digit, so it is looked up as a property name. */
  lemma {:induction false} MprintEvaluatedNegative(args: string, i: int, d: Debuggee)
    requires MemoryWellFormed(d.mem) && i < 0
    ensures Mprint(args, Some(i), d) == ByName(Hex(i), d.isDync, d.props)
  {
    HexIsWord(i);
    WordsOfWord(Hex(i));
  }

  /** An argument gdb cannot evaluate is taken word for word: a single
      word starting with a digit must be hexadecimal, any other single
      word is a property name, and anything else prints the usage. */
  lemma {:induction false} MprintToken(args: string, d: Debuggee)
    requires MemoryWellFormed(d.mem)
    ensures var ws := Words(args);
      var out := Mprint(args, None, d);
      if |ws| != 1 then out == [Usage]
      else if !IsDigit(ws[0][0]) then out == ByName(ws[0], d.isDync, d.props)
      else match ParseHexToken(ws[0])
        case None => out == [Usage]
        case Some(a) => out == AtAddress(a, d)
  {
  }
}

=== FILE: inspect_hex.dfy ===
/** Hexadecimal text as the inspector produces and reads it: Python's
    `hex(n)` (lower-case, "0x" prefix, '-' for negatives) and `int(s, 16)`
    on a token that starts with a decimal digit. */
module HexText {
  import opened Common

  const HEX_DIGITS: string := "0123456789abcdef"

  predicate IsHexDigit(c: char) {
    ('0' <= c <= '9') || ('a' <= c <= 'f') || ('A' <= c <= 'F')
  }

  function HexDigitValue(c: char): (d: nat)
    requires IsHexDigit(c)
    ensures d < 16
  {
    if '0' <= c <= '9' then c as int - '0' as int
    else if 'a' <= c <= 'f' then c as int - 'a' as int + 10
    else c as int - 'A' as int + 10
  }

  function HexDigitChar(d: nat): (c: char)
    requires d < 16
    ensures IsHexDigit(c) && HexDigitValue(c) == d
  {
    HEX_DIGITS[d]
  }

  /** The shortest lower-case hexadecimal numeral of n, without prefix. */
  function NatToHex(n: nat): (s: string)
    ensures |s| >= 1
    ensures forall i :: 0 <= i < |s| ==> IsHexDigit(s[i])
    ensures n > 0 ==> s[0] != '0'
    decreases n
  {
    if n < 16 then [HexDigitChar(n)] else NatToHex(n / 16) + [HexDigitChar(n % 16)]
  }

  predicate AllHex(s: string) {
    forall i :: 0 <= i < |s| ==> IsHexDigit(s[i])
  }

  function HexDigitsValue(s: string): nat
    requires AllHex(s)
    decreases |s|
  {
    if |s| == 0 then 0 else HexDigitsValue(s[..|s| - 1]) * 16 + HexDigitValue(s[|s| - 1])
  }

  lemma {:induction false} NatToHexRoundTrip(n: nat)
    ensures HexDigitsValue(NatToHex(n)) == n
    decreases n
  {
    if n >= 16 {
      var s := NatToHex(n);
      NatToHexRoundTrip(n / 16);
      assert s[..|s| - 1] == NatToHex(n / 16);
    }
  }

  /** Python's hex(i). */
  function Hex(i: int): (s: string)
    ensures |s| >= 3
    ensures i >= 0 <==> s[0] == '0'
    ensures i >= 0 ==> s[..2] == "0x" && AllHex(s[2..])
  {
    if i < 0 then "-0x" + NatToHex(-i) else "0x" + NatToHex(i)
  }

  /** Python's int(s, 16) on a token whose first character is a decimal digit:
      an optional "0x"/"0X" prefix followed by at least one hexadecimal digit.
      Digit-group underscores are not modelled. */
  function ParseHexToken(s: string): (r: Option<nat>)
    ensures r.Some? ==> |s| >= 1
    ensures AllHex(s) && |s| >= 1 ==> r == Some(HexDigitsValue(s))
  {
    if |s| >= 2 && s[0] == '0' && (s[1] == 'x' || s[1] == 'X') then
      if |s| > 2 && AllHex(s[2..]) then Some(HexDigitsValue(s[2..])) else None
    else if |s| >= 1 && AllHex(s) then Some(HexDigitsValue(s))
    else None
  }

  /** hex() followed by int(_, 16) gives back every non-negative integer. */
  lemma {:induction false} HexRoundTrip(n: nat)
    ensures ParseHexToken(Hex(n)) == Some(n)
  {
    var s := Hex(n);
    assert s[2..] == NatToHex(n);
    NatToHexRoundTrip(n);
  }
}

=== FILE: inspect_render.dfy ===
/** The static-language view of an object: the header line, one block per
    level of its inheritance chain (array elements or numbered fields), and
    the characters of a string object's value. */
module ClassDisplay {
  import opened Common
  import opened HexText
  import opened InspectTypes
  import opened FieldValues
  import opened ClassChain
  import opened FieldOrder
  import opened ArrayPreview

  predicate IsArraySyntax(s: string) { Contains(s, "array") }
  predicate IsClassSyntax(s: string) { Contains(s, "class") }

  /** The lines for the fields fs, numbered from count; every field is read
      at the object address plus its offset. */
  function FieldLines(mem: Memory, addr: nat, fs: seq<FieldDef>, count: nat): (r: seq<Line>)
    ensures |r| == |fs|
    decreases |fs|
  {
    if |fs| == 0 then []
    else
      var f := fs[0];
      [FieldLine(count, f.offset, f.length, f.name, ValueFromMemory(mem, addr, f.offset, f.length))]
        + FieldLines(mem, addr, fs[1..], count + 1)
  }

  /** Where the elements of an array level start.  A rooted level uses its
      own size, any other the size of the level before it (Python's index -1
      would name the last level for the first one). */
  function ArrayBase(levels: seq<Level>, i: nat, addr: nat): nat
    requires i < |levels|
  {
    if levels[i].cls.baseClass == ROOT then addr + levels[i].cls.size
    else addr + levels[if i == 0 then |levels| - 1 else i - 1].cls.size
  }

  /** The number of field lines a level prints. */
  function FieldCount(l: Level): nat {
    if IsArraySyntax(l.syntax) then 0 else |l.cls.fields|
  }

  /** The block for level i, whose first field is numbered count. */
  function LevelLines(mem: Memory, levels: seq<Level>, i: nat, addr: nat, count: nat): seq<Line>
    requires i < |levels|
  {
    var l := levels[i];
    if IsArraySyntax(l.syntax) then
      var base := ArrayBase(levels, i, addr);
      [ArrayLevel(i + 1, l.syntax, ArrayLength(mem, base))] + PrintArrayClassValues(mem, base)
    else
      [ClassLevel(i + 1, l.syntax, l.className)] + FieldLines(mem, addr, SortByOffset(l.cls.fields), count)
  }

  /** The blocks for levels i and after. */
  function LevelsFrom(mem: Memory, levels: seq<Level>, i: nat, addr: nat, count: nat): seq<Line>
    decreases |levels| - i
  {
    if i >= |levels| then []
    else LevelLines(mem, levels, i, addr, count) + LevelsFrom(mem, levels, i + 1, addr, count + FieldCount(levels[i]))
  }

  /** The value of the last field printed (Python's value_string), starting
      from prev before level i. */
  function ValueAfter(mem: Memory, levels: seq<Level>, i: nat, addr: nat, prev: Option<FieldValue>): Option<FieldValue>
    decreases |levels| - i
  {
    if i >= |levels| then prev
    else ValueAfter(mem, levels, i + 1, addr, NextValue(mem, levels[i], addr, prev))
  }

  /** value_string after the fields of level l. */
  function NextValue(mem: Memory, l: Level, addr: nat, prev: Option<FieldValue>): Option<FieldValue> {
    var fs := SortByOffset(l.cls.fields);
    if IsArraySyntax(l.syntax) || |fs| == 0 then prev
    else ValueFromMemory(mem, addr, fs[|fs| - 1].offset, fs[|fs| - 1].length)
  }

  lemma {:induction false} ValueAfterFits(mem: Memory, levels: seq<Level>, i: nat, addr: nat, prev: Option<FieldValue>)
    requires MemoryWellFormed(mem) && (prev.Some? ==> FitsWidth(prev.value))
    ensures var r := ValueAfter(mem, levels, i, addr, prev); r.Some? ==> FitsWidth(r.value)
    decreases |levels| - i
  {
    if i < |levels| {
      var fs := SortByOffset(levels[i].cls.fields);
      if |fs| > 0 {
        ValueFits(mem, addr, fs[|fs| - 1].offset, fs[|fs| - 1].length);
      }
      ValueAfterFits(mem, levels, i + 1, addr, NextValue(mem, levels[i], addr, prev));
    }
  }

  /** Reading well-formed memory gives a value that fits its width. */
  lemma {:induction false} ValueFits(mem: Memory, addr: nat, offset: nat, length: nat)
    requires MemoryWellFormed(mem)
    ensures ValueFromMemory(mem, addr, offset, length).Some? ==> FitsWidth(ValueFromMemory(mem, addr, offset, length).value)
  {
    var a := addr + offset;
    if length == 2 && ValueFromMemory(mem, addr, offset, length).Some? {
      assert (a, 1) in mem && (a + 1, 1) in mem;
    }
  }

  /** display_single_string_object_values: a string object whose runtime
      type is a character array has its length at +12 and its characters
      after it. */
  function DisplayStringObject(mem: Memory, types: map<nat, TypeInfo>, a: nat): (out: seq<Line>)
    ensures a !in types || types[a].syntax != CHAR_ARRAY ==> out == []
    ensures a in types && types[a].syntax == CHAR_ARRAY ==>
              out == DisplayCharValues(mem, a + 12, types[a].typeSize, ArrayLength(mem, a + 12))
  {
    if a !in types then []
    else
      var t := types[a];
      if t.syntax != CHAR_ARRAY then []
      else DisplayCharValues(mem, a + 12, t.typeSize, ArrayLength(mem, a + 12))
  }

  /** The address a String object's value is read from: the last field's
      text is cut at its first comma and its hex part parsed back.  None
      when the object is not a String or no field value was read. */
  function StringAddress(mem: Memory, levels: seq<Level>, addr: nat, gdbText: string): Option<nat>
    requires MemoryWellFormed(mem) && |levels| > 0
  {
    var last := levels[|levels| - 1];
    if last.syntax == "class" && last.className == STRING_CLASS then
      match ValueAfter(mem, levels, 0, addr, None)
      case None => None
      case Some(v) =>
        assert FitsWidth(v) by { ValueAfterFits(mem, levels, 0, addr, None); }
        match HexPart(FieldText(v, gdbText))
        case None => None
        case Some(h) => ParseHexToken(h)
    else None
  }

  /** The string value shown after a String object's fields. */
  function StringSuffix(mem: Memory, types: map<nat, TypeInfo>, levels: seq<Level>, addr: nat, gdbText: string): seq<Line>
    requires MemoryWellFormed(mem) && |levels| > 0
  {
    match StringAddress(mem, levels, addr, gdbText)
    case None => []
    case Some(a) => DisplayStringObject(mem, types, a)
  }

  /** display_class_data.  `gdbText` is gdb's rendering of the last field's
      non-hex views, which does not affect the output. */
  function DisplayClassData(mem: Memory, types: map<nat, TypeInfo>, levels: seq<Level>, addr: nat, gdbText: string): (out: seq<Line>)
    requires MemoryWellFormed(mem)
    ensures |out| >= 1
    ensures |levels| == 0 <==> out == [NoData]
    ensures |levels| > 0 ==> var last := levels[|levels| - 1];
      out[0] == ObjectHeader(last.syntax, if IsArraySyntax(last.syntax) then None else Some(last.className))
  {
    if |levels| == 0 then [NoData]
    else
      var last := levels[|levels| - 1];
      [ObjectHeader(last.syntax, if IsArraySyntax(last.syntax) then None else Some(last.className))]
        + LevelsFrom(mem, levels, 0, addr, 1)
        + StringSuffix(mem, types, levels, addr, gdbText)
  }

  // ---------------------------------------------------------------------
  // The field lines of the whole display

  /** The field lines among the lines out, in order. */
  function FieldsOf(out: seq<Line>): seq<Line>
    decreases |out|
  {
    if |out| == 0 then [] else (if out[0].FieldLine? then [out[0]] else []) + FieldsOf(out[1..])
  }

  lemma {:induction false} FieldsOfAppend(a: seq<Line>, b: seq<Line>)
    ensures FieldsOf(a + b) == FieldsOf(a) + FieldsOf(b)
    decreases |a|
  {
    if |a| > 0 {
      assert (a + b)[1..] == a[1..] + b;
      FieldsOfAppend(a[1..], b);
    } else {
      assert a + b == b;
    }
  }

  lemma {:induction false} FieldsOfNone(a: seq<Line>)
    requires forall k :: 0 <= k < |a| ==> !a[k].FieldLine?
    ensures FieldsOf(a) == []
    decreases |a|
  {
    if |a| > 0 {
      FieldsOfNone(a[1..]);
    }
  }

  lemma {:induction false} FieldsOfAll(a: seq<Line>)
    requires forall k :: 0 <= k < |a| ==> a[k].FieldLine?
    ensures FieldsOf(a) == a
    decreases |a|
  {
    if |a| > 0 {
      FieldsOfAll(a[1..]);
    }
  }

  lemma {:induction false} ElementsHaveNoFields(mem: Memory, base: nat, stride: nat, isChar: bool, n: nat,
                                                idx: seq<nat>, steps: nat, snip: bool)
    ensures FieldsOf(RenderElements(mem, base, stride, isChar, n, idx, steps, snip)) == []
    decreases |idx|
  {
    var out := RenderElements(mem, base, stride, isChar, n, idx, steps, snip);
    if |idx| > 0 {
      match Outcome(mem, base, stride, isChar, idx[0])
      case Fails =>
      case Missing =>
        ElementsHaveNoFields(mem, base, stride, isChar, n, idx[1..], steps + 1, snip);
        FieldsOfAppend([ElementNoData(idx[0])], RenderElements(mem, base, stride, isChar, n, idx[1..], steps + 1, snip));
      case Shown(line) =>
        var snip' := if n > 10 && steps + 1 > 6 && snip then false else snip;
        var head := if n > 10 && steps + 1 > 6 && snip then [line, Snip] else [line];
        ElementsHaveNoFields(mem, base, stride, isChar, n, idx[1..], steps + 1, snip');
        assert out == head + RenderElements(mem, base, stride, isChar, n, idx[1..], steps + 1, snip');
        FieldsOfAppend(head, RenderElements(mem, base, stride, isChar, n, idx[1..], steps + 1, snip'));
        FieldsOfNone(head);
    }
  }

  lemma {:induction false} CharLoopHasNoFields(mem: Memory, addr: nat, typeSize: nat, n: nat, idx: seq<nat>,
                                               steps: nat, snip: bool, text: string)
    ensures FieldsOf(CharLoop(mem, addr, typeSize, n, idx, steps, snip, text)) == []
    decreases |idx|
  {
    if |idx| > 0 && CharUnit(mem, addr, typeSize, idx[0]).Unit? {
      var c := CharUnit(mem, addr, typeSize, idx[0]).c;
      if n > 32 && steps + 1 >= 24 && snip {
        CharLoopHasNoFields(mem, addr, typeSize, n, idx[1..], steps + 1, false, text + [c] + "...");
      } else {
        CharLoopHasNoFields(mem, addr, typeSize, n, idx[1..], steps + 1, snip, text + [c]);
      }
    }
  }

  lemma {:induction false} StringObjectHasNoFields(mem: Memory, types: map<nat, TypeInfo>, a: nat)
    ensures FieldsOf(DisplayStringObject(mem, types, a)) == []
  {
    if a in types && types[a].syntax == CHAR_ARRAY {
      var n := ArrayLength(mem, a + 12);
      CharLoopHasNoFields(mem, a + 12, types[a].typeSize, n, CharIndices(n), 0, true, "");
    }
  }

  lemma {:induction false} StringSuffixHasNoFields(mem: Memory, types: map<nat, TypeInfo>, levels: seq<Level>, addr: nat, gdbText: string)
    requires MemoryWellFormed(mem) && |levels| > 0
    ensures FieldsOf(StringSuffix(mem, types, levels, addr, gdbText)) == []
  {
    var sa := StringAddress(mem, levels, addr, gdbText);
    if sa.Some? {
      StringObjectHasNoFields(mem, types, sa.value);
    } else {
      assert StringSuffix(mem, types, levels, addr, gdbText) == [];
    }
  }

  /** The fields of levels i and after, each level's in printing order. */
  function AllFields(levels: seq<Level>, i: nat): seq<FieldDef>
    decreases |levels| - i
  {
    if i >= |levels| then []
    else LevelFields(levels[i]) + AllFields(levels, i + 1)
  }

  lemma {:induction false} FieldLinesAppend(mem: Memory, addr: nat, a: seq<FieldDef>, b: seq<FieldDef>, count: nat)
    ensures FieldLines(mem, addr, a + b, count) == FieldLines(mem, addr, a, count) + FieldLines(mem, addr, b, count + |a|)
    decreases |a|
  {
    if |a| > 0 {
      assert (a + b)[1..] == a[1..] + b;
      FieldLinesAppend(mem, addr, a[1..], b, count + 1);
    } else {
      assert a + b == b;
    }
  }

  /** The fields a level prints, in printing order. */
  function LevelFields(l: Level): seq<FieldDef> {
    if IsArraySyntax(l.syntax) then [] else SortByOffset(l.cls.fields)
  }

  lemma {:induction false} LevelLinesFields(mem: Memory, levels: seq<Level>, i: nat, addr: nat, count: nat)
    requires i < |levels|
    ensures FieldsOf(LevelLines(mem, levels, i, addr, count)) == FieldLines(mem, addr, LevelFields(levels[i]), count)
  {
    var l := levels[i];
    if IsArraySyntax(l.syntax) {
      var base := ArrayBase(levels, i, addr);
      var n := ArrayLength(mem, base);
      ElementsHaveNoFields(mem, base, 8, false, n, PreviewIndices(n), 0, true);
      FieldsOfAppend([ArrayLevel(i + 1, l.syntax, n)], PrintArrayClassValues(mem, base));
    } else {
      var fl := FieldLines(mem, addr, SortByOffset(l.cls.fields), count);
      FieldsOfAppend([ClassLevel(i + 1, l.syntax, l.className)], fl);
      FieldLinesNumbered(mem, addr, SortByOffset(l.cls.fields), count);
      FieldsOfAll(fl);
    }
  }

  lemma {:induction false} UnfoldAllFields(levels: seq<Level>, i: nat)
    requires i < |levels|
    ensures AllFields(levels, i) == LevelFields(levels[i]) + AllFields(levels, i + 1)
    ensures |LevelFields(levels[i])| == FieldCount(levels[i])
  {
  }

  /** The inductive step of LevelsFromFields, over plain sequences. */
  lemma {:induction false} CombineFields(mem: Memory, addr: nat, whole: seq<Line>, x: seq<Line>, y: seq<Line>,
                      f: seq<FieldDef>, g: seq<FieldDef>, fg: seq<FieldDef>, count: nat, next: nat)
    requires whole == x + y && fg == f + g && next == count + |f|
    requires FieldsOf(x) == FieldLines(mem, addr, f, count)
    requires FieldsOf(y) == FieldLines(mem, addr, g, next)
    ensures FieldsOf(whole) == FieldLines(mem, addr, fg, count)
  {
    FieldsOfAppend(x, y);
    FieldLinesAppend(mem, addr, f, g, count);
  }

  lemma {:induction false} LevelsFromFields(mem: Memory, levels: seq<Level>, i: nat, addr: nat, count: nat)
    ensures FieldsOf(LevelsFrom(mem, levels, i, addr, count)) == FieldLines(mem, addr, AllFields(levels, i), count)
    decreases |levels| - i
  {
    if i < |levels| {
      var l := levels[i];
      var next := count + FieldCount(l);
      LevelsFromFields(mem, levels, i + 1, addr, next);
      LevelLinesFields(mem, levels, i, addr, count);
      UnfoldAllFields(levels, i);
      CombineFields(mem, addr, LevelsFrom(mem, levels, i, addr, count),
                    LevelLines(mem, levels, i, addr, count), LevelsFrom(mem, levels, i + 1, addr, next),
                    LevelFields(l), AllFields(levels, i + 1), AllFields(levels, i), count, next);
    } else {
      assert FieldLines(mem, addr, AllFields(levels, i), count) == [];
    }
  }

  lemma {:induction false} ClassDataFieldLines(mem: Memory, types: map<nat, TypeInfo>, levels: seq<Level>, addr: nat, gdbText: string)
    requires MemoryWellFormed(mem) && |levels| > 0
    ensures FieldsOf(DisplayClassData(mem, types, levels, addr, gdbText)) == FieldLines(mem, addr, AllFields(levels, 0), 1)
  {
    var last := levels[|levels| - 1];
    var header := [ObjectHeader(last.syntax, if IsArraySyntax(last.syntax) then None else Some(last.className))];
    var body := LevelsFrom(mem, levels, 0, addr, 1);
    var suffix := StringSuffix(mem, types, levels, addr, gdbText);
    FieldsOfNone(header);
    LevelsFromFields(mem, levels, 0, addr, 1);
    StringSuffixHasNoFields(mem, types, levels, addr, gdbText);
    FieldsOfThree(DisplayClassData(mem, types, levels, addr, gdbText), header, body, suffix);
  }

  lemma {:induction false} FieldLinesNumbered(mem: Memory, addr: nat, fs: seq<FieldDef>, count: nat)
    ensures var fl := FieldLines(mem, addr, fs, count);
      forall k :: 0 <= k < |fs| ==>
        fl[k] == FieldLine(count + k, fs[k].offset, fs[k].length, fs[k].name, ValueFromMemory(mem, addr, fs[k].offset, fs[k].length))
    decreases |fs|
  {
    if |fs| > 0 {
      FieldLinesNumbered(mem, addr, fs[1..], count + 1);
      var fl := FieldLines(mem, addr, fs, count);
      forall k | 0 < k < |fs|
        ensures fl[k] == FieldLine(count + k, fs[k].offset, fs[k].length, fs[k].name, ValueFromMemory(mem, addr, fs[k].offset, fs[k].length))
      {
        assert fl[k] == FieldLines(mem, addr, fs[1..], count + 1)[k - 1];
        assert fs[k] == fs[1..][k - 1];
      }
    }
  }

  /** The field lines of the display are numbered 1, 2, 3, ... across all
      class levels, base level first and each level's fields by offset, and
      every field is read at the object address plus its offset. */
  lemma {:induction false} ClassDataFields(mem: Memory, types: map<nat, TypeInfo>, levels: seq<Level>, addr: nat, gdbText: string)
    requires MemoryWellFormed(mem) && |levels| > 0
    ensures var fs := AllFields(levels, 0);
      var fl := FieldsOf(DisplayClassData(mem, types, levels, addr, gdbText));
      |fl| == |fs| &&
      forall k :: 0 <= k < |fs| ==>
        fl[k] == FieldLine(k + 1, fs[k].offset, fs[k].length, fs[k].name, ValueFromMemory(mem, addr, fs[k].offset, fs[k].length))
  {
    ClassDataFieldLines(mem, types, levels, addr, gdbText);
    FieldLinesNumbered(mem, addr, AllFields(levels, 0), 1);
  }

  lemma {:induction false} FieldsOfThree(whole: seq<Line>, a: seq<Line>, b: seq<Line>, c: seq<Line>)
    requires whole == a + b + c && FieldsOf(a) == [] && FieldsOf(c) == []
    ensures FieldsOf(whole) == FieldsOf(b)
  {
    FieldsOfAppend(a + b, c);
    FieldsOfAppend(a, b);
  }

  /** The string shown after a String object's fields is the one at the
      address held in its last field: printing that field's value as text
      and parsing its hex part back loses nothing. */
  lemma {:induction false} StringSuffixAddress(mem: Memory, types: map<nat, TypeInfo>, levels: seq<Level>, addr: nat, gdbText: string)
    requires MemoryWellFormed(mem) && |levels| > 0
    ensures var last := levels[|levels| - 1];
      var out := StringSuffix(mem, types, levels, addr, gdbText);
      match ValueAfter(mem, levels, 0, addr, None)
      case Some(v) =>
        out == (if last.syntax == "class" && last.className == STRING_CLASS
                then DisplayStringObject(mem, types, v.raw) else [])
      case None => out == []
  {
    match ValueAfter(mem, levels, 0, addr, None)
    case None =>
    case Some(v) =>
      ValueAfterFits(mem, levels, 0, addr, None);
      HexPartOfFieldText(v, gdbText);
      HexStringRoundTrip(v);
  }

  /** Reference elements are shown only for array levels; for a chain the
      walk returns, only the last level can be one, and its elements start
      after the previous level (or after its own layout when it is the only
      level). */
  lemma {:induction false} ChainArrayBase(defs: ClassDefs, name: string, syntax: string, size: nat, levels: seq<Level>, addr: nat, i: nat)
    requires GetClassList(defs, name, syntax, size) == Chain(levels)
    requires i < |levels| && IsArraySyntax(levels[i].syntax)
    ensures i == |levels| - 1
    ensures ArrayBase(levels, i, addr) == addr + (if i == 0 then levels[0].cls.size else levels[i - 1].cls.size)
  {
    GetClassListCorrect(defs, name, syntax, size, levels);
    if i < |levels| - 1 {
      assert levels[i].syntax == "class";
      ClassIsNotArray();
    }
  }

  lemma {:induction false} ClassIsNotArray()
    ensures !IsArraySyntax("class")
  {
    forall i | 0 <= i <= 5 ensures !OccursAt("class", "array", i) {
      if i == 0 {
        assert "class"[0] != "array"[0];
      }
    }
  }

  lemma {:induction false} ContainsNonEmpty(s: string, sub: string)
    requires |sub| > 0 && Contains(s, sub)
    ensures |s| > 0
  {
    var i :| 0 <= i <= |s| && OccursAt(s, sub, i);
  }

  // ---------------------------------------------------------------------
  // mprint in a static-language frame

  /** mprint_func_static.  `types` is what the debugger reports for each
      address it can resolve, `defs` the class-definition cache and
      `primitives` the names of the primitive element types. */
  function MprintStatic(mem: Memory, types: map<nat, TypeInfo>, defs: ClassDefs, primitives: set<string>,
                        addr: nat, gdbText: string): (out: seq<Line>)
    requires MemoryWellFormed(mem)
    ensures addr !in types || types[addr].syntax == "" ==> out == []
    ensures addr in types && !IsArraySyntax(types[addr].syntax) && !IsClassSyntax(types[addr].syntax) ==> out == []
    ensures addr in types ==> var t := types[addr];
      (IsArraySyntax(t.syntax) || IsClassSyntax(t.syntax)) && |t.className| == 0 ==> out == [Raised]
    ensures addr in types ==> var t := types[addr];
      IsArraySyntax(t.syntax) && t.className in primitives && |t.className| > 0 && t.className[0] != 'L' ==>
        out == DisplayPrimitiveArray(mem, addr + 12, t.syntax, t.typeSize)
  {
    if addr !in types || types[addr].syntax == "" then []
    else
      var t := types[addr];
      var named := IsArraySyntax(t.syntax) || IsClassSyntax(t.syntax);
      if named && |t.className| == 0 then [Raised]
      else if named && t.className[0] == 'L' then
        match GetClassList(defs, t.className, t.syntax, t.typeSize)
        case MissingDef => [NoClassData]
        case Cycle => [Hangs]
        case Chain(levels) => DisplayClassData(mem, types, levels, addr, gdbText)
      else if IsArraySyntax(t.syntax) && t.className in primitives then
        DisplayPrimitiveArray(mem, addr + 12, t.syntax, t.typeSize)
      else []
  }

  /** An object of a class type is shown level by level exactly when a
      correct inheritance chain exists for its class; that chain is the one
      shown, and without one the command reports no class data or never
      returns. */
  lemma {:induction false} MprintStaticClass(mem: Memory, types: map<nat, TypeInfo>, defs: ClassDefs, primitives: set<string>,
                          addr: nat, gdbText: string, levels: seq<Level>)
    requires MemoryWellFormed(mem) && addr in types
    requires var t := types[addr];
      (IsArraySyntax(t.syntax) || IsClassSyntax(t.syntax)) && |t.className| > 0 && t.className[0] == 'L'
    ensures var t := types[addr];
      IsChain(defs, t.className, t.syntax, t.typeSize, levels) ==>
        MprintStatic(mem, types, defs, primitives, addr, gdbText) == DisplayClassData(mem, types, levels, addr, gdbText)
    ensures var out := MprintStatic(mem, types, defs, primitives, addr, gdbText);
      out == [NoClassData] || out == [Hangs] || out[0].ObjectHeader?
  {
    var t := types[addr];
    if IsArraySyntax(t.syntax) {
      ContainsNonEmpty(t.syntax, "array");
    } else {
      ContainsNonEmpty(t.syntax, "class");
    }
    GetClassListCorrect(defs, t.className, t.syntax, t.typeSize, levels);
    match GetClassList(defs, t.className, t.syntax, t.typeSize)
    case MissingDef =>
    case Cycle =>
    case Chain(ls) => GetClassListCorrect(defs, t.className, t.syntax, t.typeSize, ls);
  }
}

=== FILE: inspect_sort.dfy ===
/** The order in which a class level's fields are printed: Python's stable
    `sorted` keyed on the field offset, written as an insertion sort. */
module FieldOrder {
  import opened InspectTypes

  ghost predicate SortedByOffset(s: seq<FieldDef>) {
    forall i, j :: 0 <= i < j < |s| ==> s[i].offset <= s[j].offset
  }

  /** The fields at offset o, in their order in s. */
  function WithOffset(s: seq<FieldDef>, o: nat): seq<FieldDef>
    decreases |s|
  {
    if |s| == 0 then [] else (if s[0].offset == o then [s[0]] else []) + WithOffset(s[1..], o)
  }

  /** Insert f after every field whose offset is not larger. */
  function InsertByOffset(f: FieldDef, s: seq<FieldDef>): (r: seq<FieldDef>)
    ensures |r| == |s| + 1
    ensures multiset(r) == multiset(s) + multiset{f}
    decreases |s|
  {
    if |s| == 0 || f.offset < s[0].offset then [f] + s
    else
      assert s == [s[0]] + s[1..];
      [s[0]] + InsertByOffset(f, s[1..])
  }

  /** The fields of one level in printing order. */
  function SortByOffset(s: seq<FieldDef>): (r: seq<FieldDef>)
    ensures |r| == |s|
    ensures SortedByOffset(r)
    ensures multiset(r) == multiset(s)
    decreases |s|
  {
    if |s| == 0 then []
    else
      var init := SortByOffset(s[..|s| - 1]);
      InsertSorted(s[|s| - 1], init);
      MultisetSnoc(s);
      InsertByOffset(s[|s| - 1], init)
  }

  lemma {:induction false} MultisetSnoc(s: seq<FieldDef>)
    requires |s| > 0
    ensures multiset(s) == multiset(s[..|s| - 1]) + multiset{s[|s| - 1]}
  {
    assert s == s[..|s| - 1] + [s[|s| - 1]];
  }

  lemma {:induction false} InsertSorted(f: FieldDef, s: seq<FieldDef>)
    requires SortedByOffset(s)
    ensures SortedByOffset(InsertByOffset(f, s))
    decreases |s|
  {
    if |s| > 0 && f.offset >= s[0].offset {
      InsertSorted(f, s[1..]);
      InsertLowerBound(f, s[1..], s[0].offset);
    }
  }

  lemma {:induction false} InsertLowerBound(f: FieldDef, s: seq<FieldDef>, b: nat)
    requires b <= f.offset
    requires forall k :: 0 <= k < |s| ==> b <= s[k].offset
    ensures forall k :: 0 <= k < |s| + 1 ==> b <= InsertByOffset(f, s)[k].offset
    decreases |s|
  {
    if |s| > 0 && f.offset >= s[0].offset {
      InsertLowerBound(f, s[1..], b);
    }
  }

  lemma {:induction false} WithOffsetAppend(s: seq<FieldDef>, x: FieldDef, o: nat)
    ensures WithOffset(s + [x], o) == WithOffset(s, o) + (if x.offset == o then [x] else [])
    decreases |s|
  {
    if |s| > 0 {
      assert (s + [x])[1..] == s[1..] + [x];
      WithOffsetAppend(s[1..], x, o);
    }
  }

  lemma {:induction false} WithOffsetNone(s: seq<FieldDef>, o: nat)
    requires forall k :: 0 <= k < |s| ==> s[k].offset != o
    ensures WithOffset(s, o) == []
    decreases |s|
  {
    if |s| > 0 {
      WithOffsetNone(s[1..], o);
    }
  }

  lemma {:induction false} WithOffsetCons(x: FieldDef, s: seq<FieldDef>, o: nat)
    ensures WithOffset([x] + s, o) == (if x.offset == o then [x] else []) + WithOffset(s, o)
  {
    assert ([x] + s)[0] == x;
    assert ([x] + s)[1..] == s;
  }

  /** In a sorted sequence nothing sits at an offset below the first one. */
  lemma {:induction false} BelowFirstAbsent(s: seq<FieldDef>, o: nat)
    requires SortedByOffset(s)
    requires |s| > 0 && o < s[0].offset
    ensures WithOffset(s, o) == []
  {
    forall k | 0 <= k < |s|
      ensures s[k].offset != o
    {
      if k > 0 {
        assert s[0].offset <= s[k].offset;
      }
    }
    WithOffsetNone(s, o);
  }

  /** Putting the same field in front of both sides keeps a WithOffset equation. */
  lemma {:induction false} WithOffsetConsBoth(x: FieldDef, t: seq<FieldDef>, r: seq<FieldDef>, o: nat, tail: seq<FieldDef>)
    requires WithOffset(r, o) == WithOffset(t, o) + tail
    ensures WithOffset([x] + r, o) == WithOffset([x] + t, o) + tail
  {
    WithOffsetCons(x, r, o);
    WithOffsetCons(x, t, o);
  }

  /** Inserting f adds it after the fields that share its offset and changes
      no other offset's fields. */
  lemma {:induction false} InsertWithOffset(f: FieldDef, s: seq<FieldDef>, o: nat)
    requires SortedByOffset(s)
    ensures WithOffset(InsertByOffset(f, s), o) == WithOffset(s, o) + (if f.offset == o then [f] else [])
    decreases |s|
  {
    if |s| == 0 {
      WithOffsetCons(f, [], o);
    } else if f.offset < s[0].offset {
      WithOffsetCons(f, s, o);
      if f.offset == o {
        BelowFirstAbsent(s, o);
      }
    } else {
      var r := InsertByOffset(f, s[1..]);
      InsertWithOffset(f, s[1..], o);
      WithOffsetConsBoth(s[0], s[1..], r, o, if f.offset == o then [f] else []);
      assert InsertByOffset(f, s) == [s[0]] + r;
      assert [s[0]] + s[1..] == s;
    }
  }

  /** The sort is stable: for every offset, the fields at that offset come
      out in their original order.  With the length and multiset facts this
      says the output is the unique stable sorted permutation of the input. */
  lemma {:induction false} SortStable(s: seq<FieldDef>, o: nat)
    ensures WithOffset(SortByOffset(s), o) == WithOffset(s, o)
    decreases |s|
  {
    if |s| > 0 {
      var init := s[..|s| - 1];
      var x := s[|s| - 1];
      SortStable(init, o);
      InsertWithOffset(x, SortByOffset(init), o);
      assert s == init + [x];
      WithOffsetAppend(init, x, o);
    }
  }
}

=== FILE: inspect_types.dfy ===
/** The data the object inspector works on.  Memory, the class-definition
    cache, the runtime type of an address and the dynamic-language property
    store are all given as partial maps; reading them is the only effect
    the inspector has besides printing. */
module InspectTypes {
  import opened Common

  /** One field of a class layout: its name, its length in bytes and its
      offset from the start of the class level. */
  datatype FieldDef = FieldDef(name: string, length: nat, offset: nat)

  /** A class layout from the definition cache.  `size` is the offset at
      which the next derived level starts. */
  datatype ClassDef = ClassDef(fields: seq<FieldDef>, baseClass: string, size: nat)

  /** One level of an inheritance chain as the inspector records it. */
  datatype Level = Level(className: string, syntax: string, typeSize: nat, cls: ClassDef)

  /** The base-class name that ends every chain. */
  const ROOT: string := "THIS_IS_ROOT"

  /** The name of the runtime's string class. */
  const STRING_CLASS: string := "Ljava_2Flang_2FString_3B"

  /** The syntax of a character array. */
  const CHAR_ARRAY: string := "array C[]"

  type ClassDefs = map<string, ClassDef>

  /** A readable memory word: (address, width in bytes) to the unsigned value
      stored there.  A missing key is a read that fails. */
  type Memory = map<(nat, nat), nat>

  /** What the debugger reports about the object at an address: its class
      name, its full syntax (for example "array C[]" or "class") and its
      element or object size. */
  datatype TypeInfo = TypeInfo(className: string, syntax: string, typeSize: nat)

  /** The fields of a JSTYPE_OBJECT property value, each already as text. */
  datatype ObjectFields = ObjectFields(
    propList: string, propIndexMap: string, propStringMap: string,
    extensible: string, objectClass: string, objectType: string, isBuiltin: string,
    protoIsBuiltin: string, builtinId: string, prototype: string, shared: string)

  /** A property value: an object record or any other value as text. */
  datatype PropValue = ObjectValue(fields: ObjectFields) | ScalarValue(text: string)

  /** One entry of the dynamic-language property list. */
  datatype PropRecord = PropRecord(name: string, tag: string, value: PropValue, nodeAddr: string, next: string)

  const JSTYPE_OBJECT: string := "JSTYPE_OBJECT"

  /** A field read from memory; every variant keeps the raw unsigned word
      that the "hex:" part shows. */
  datatype FieldValue =
    | Value8(raw: nat)                    // hex, long and double views
    | Value4(raw: nat)                    // hex, int and float views
    | Value2(raw: nat, lo: nat, hi: nat)  // hex, short and the two bytes
    | Value1(raw: nat)                    // hex and the byte as a character

  /** One line of inspector output, without colours or padding. */
  datatype Line =
    | Usage
    | NoClassData                                     // "no class data found"
    | NoData                                          // "no data found"
    | ObjectHeader(syntax: string, headerName: Option<string>)
    | ArrayLevel(level: nat, syntax: string, length: nat)
    | ClassLevel(level: nat, syntax: string, name: string)
    | FieldLine(count: nat, offset: nat, length: nat, name: string, value: Option<FieldValue>)
    | Element(index: nat, word: nat, ch: Option<char>)   // "[i] 0x..", with the character for char arrays
    | ElementNoData(index: nat)                           // "[i] no-data"
    | Snip                                                // "  ..."
    | CharNoData                                          // "  no-data"
    | StringValue(text: string)                           // 'String Value: "..."'
    | PrimitiveHeader(syntax: string)                     // "Object Type: .."
    | PrimitiveLevel(syntax: string, length: nat)         // "Level 1 ..: length=n"
    | NotDynamic
    | PropertyDataNotReady
    | PropertyNotAvailable(name: string)
    | PropertyName(name: string)
    | AddrName(addr: nat, name: string)                   // "0x..: name"
    | Tag(tag: string)
    | ObjectValueLine(fields: ObjectFields)
    | ScalarValueLine(text: string)
    | NodeAddr(text: string)
    | NextAddr(text: string)
    | Parent(text: string)
    | ValueNotValid(addr: nat)
    | TypeAndValue(addr: nat, mtype: string, text: string)
    | Raised                     // a Python exception ends the command here
    | Hangs                      // the command never returns
}

=== FILE: inspect_values.dfy ===
/** Reading fields and array lengths out of memory, and the text the
    inspector builds for a field value.  A field is decoded only when every
    read it needs succeeds, and only for lengths 8, 4, 2 and 1. */
module FieldValues {
  import opened Common
  import opened HexText
  import opened InspectTypes

  /** A read of `width` bytes at `addr`; None when the debugger cannot read it. */
  function ReadWord(mem: Memory, addr: nat, width: nat): (r: Option<nat>)
    ensures r.Some? <==> (addr, width) in mem
    ensures r.Some? ==> r.value == mem[(addr, width)]
  {
    if (addr, width) in mem then Some(mem[(addr, width)]) else None
  }

  /** 2^(8*width) for the widths the debugger reads. */
  function WordLimit(width: nat): (r: nat)
    ensures width == 1 ==> r == 0x100
    ensures width == 2 ==> r == 0x1_0000
    ensures width == 4 ==> r == 0x1_0000_0000
    ensures width == 8 ==> r == 0x1_0000_0000_0000_0000
  {
    if width == 1 then 0x100 else if width == 2 then 0x1_0000
    else if width == 4 then 0x1_0000_0000 else 0x1_0000_0000_0000_0000
  }

  /** Every word the debugger can read fits in its width. */
  ghost predicate MemoryWellFormed(mem: Memory) {
    forall k :: k in mem ==> mem[k] < WordLimit(k.1)
  }

  /** The two's-complement reading gdb's 'd' format gives a word of `width` bytes. */
  function Signed(raw: nat, width: nat): (r: int)
    requires raw < WordLimit(width)
    ensures r >= 0 ==> r == raw
    ensures r < 0 ==> r + WordLimit(width) == raw
    ensures -(HalfLimit(width) as int) <= r < HalfLimit(width)
  {
    if raw >= HalfLimit(width) then raw - WordLimit(width) else raw
  }

  function HalfLimit(width: nat): (r: nat)
    ensures 2 * r == WordLimit(width)
  {
    if width == 1 then 0x80 else if width == 2 then 0x8000
    else if width == 4 then 0x8000_0000 else 0x8000_0000_0000_0000
  }

  /** get_value_from_memory: the value of the field of `length` bytes at
      addr + offset. */
  function ValueFromMemory(mem: Memory, addr: nat, offset: nat, length: nat): (r: Option<FieldValue>)
    ensures r.Some? <==>
      || (length in {8, 4, 1} && (addr + offset, length) in mem)
      || (length == 2 && (addr + offset, 2) in mem && (addr + offset, 1) in mem && (addr + offset + 1, 1) in mem)
    ensures r.Some? ==> r.value.raw == mem[(addr + offset, length)]
    ensures r.Some? && length == 8 ==> r.value.Value8?
    ensures r.Some? && length == 4 ==> r.value.Value4?
    ensures r.Some? && length == 2 ==> r.value.Value2? && r.value.lo == mem[(addr + offset, 1)] && r.value.hi == mem[(addr + offset + 1, 1)]
    ensures r.Some? && length == 1 ==> r.value.Value1?
  {
    var a := addr + offset;
    if length == 8 then
      // the hex, double and long views all read the same eight bytes
      match ReadWord(mem, a, 8)
      case None => None
      case Some(w) => Some(Value8(w))
    else if length == 4 then
      match ReadWord(mem, a, 4)
      case None => None
      case Some(w) => Some(Value4(w))
    else if length == 2 then
      match ReadWord(mem, a, 2)
      case None => None
      case Some(w) =>
        // x/2b reads the two bytes one by one
        match (ReadWord(mem, a, 1), ReadWord(mem, a + 1, 1))
        case (Some(b0), Some(b1)) => Some(Value2(w, b0, b1))
        case _ => None
    else if length == 1 then
      match ReadWord(mem, a, 1)
      case None => None
      case Some(w) => Some(Value1(w))
    else None
  }

  function Width(v: FieldValue): nat {
    match v
    case Value8(_) => 8
    case Value4(_) => 4
    case Value2(_, _, _) => 2
    case Value1(_) => 1
  }

  /** The hex view: canonical for eight-byte fields, zero-padded to the
      field width otherwise, as gdb prints them. */
  function HexString(v: FieldValue): string {
    match v
    case Value8(w) => Hex(w)
    case Value4(w) => PaddedHex(w, 8)
    case Value2(w, _, _) => PaddedHex(w, 4)
    case Value1(w) => PaddedHex(w, 2)
  }

  function PaddedHex(w: nat, digits: nat): (s: string)
    ensures |s| >= 3 && s[..2] == "0x" && AllHex(s[2..])
  {
    var h := NatToHex(w);
    var z := if |h| < digits then Repeat('0', digits - |h|) else "";
    assert AllHex(z + h);
    "0x" + z + h
  }

  /** Every word of the value fits in its width. */
  ghost predicate FitsWidth(v: FieldValue) {
    && v.raw < WordLimit(Width(v))
    && (v.Value2? ==> v.lo < 0x100 && v.hi < 0x100)
  }

  /** The text of a field value.  `gdbText` is gdb's own rendering of the
      double, float or character view, which this model does not compute. */
  function FieldText(v: FieldValue, gdbText: string): string
    requires FitsWidth(v)
  {
    "hex:" + HexString(v) + "," + OtherViews(v, gdbText)
  }

  /** The views after the hex one: "long:..,double:..", "int:..,float:..",
      "short:..,byte:.." or "byte:..". */
  function OtherViews(v: FieldValue, gdbText: string): string
    requires FitsWidth(v)
  {
    match v
    case Value8(w) => "long:" + IntToDecimal(Signed(w, 8)) + ",double:" + gdbText
    case Value4(w) => "int:" + IntToDecimal(Signed(w, 4)) + ",float:" + gdbText
    case Value2(w, b0, b1) =>
      "short:" + IntToDecimal(Signed(w, 2)) + ",byte:" + IntToDecimal(Signed(b0, 1)) + "\t" + IntToDecimal(Signed(b1, 1))
    case Value1(w) => "byte:" + gdbText
  }

  /** Python's s.split(',')[0]. */
  function UpToComma(s: string): (r: string)
    ensures |r| <= |s| && r == s[..|r|]
    ensures forall i :: 0 <= i < |r| ==> r[i] != ','
    decreases |s|
  {
    if |s| == 0 || s[0] == ',' then "" else [s[0]] + UpToComma(s[1..])
  }

  /** Python's s.split('hex:')[1] when s starts with 'hex:' (None when it
      does not, where Python would fail or take other text). */
  function AfterHexTag(s: string): Option<string> {
    if |s| >= 4 && s[..4] == "hex:" && !Contains(s[4..], "hex:") then Some(s[4..]) else None
  }

  /** The hex part of a field text: the address the string-object path
      parses back. */
  function HexPart(text: string): Option<string> {
    AfterHexTag(UpToComma(text))
  }

  lemma {:induction false} UpToCommaPrefix(a: string, b: string)
    requires forall i :: 0 <= i < |a| ==> a[i] != ','
    ensures UpToComma(a + "," + b) == a
    decreases |a|
  {
    if |a| > 0 {
      assert (a + "," + b)[1..] == a[1..] + "," + b;
      UpToCommaPrefix(a[1..], b);
    } else {
      assert (a + "," + b)[0] == ',';
    }
  }

  lemma {:induction false} HexHasNoTag(h: string)
    requires |h| >= 2 && h[..2] == "0x" && AllHex(h[2..])
    ensures !Contains(h, "hex:")
  {
    forall i | 0 <= i <= |h| && i + 4 <= |h|
      ensures !OccursAt(h, "hex:", i)
    {
      if i + 3 >= 2 {
        assert h[i + 3] == h[2..][i + 1];
      }
    }
  }

  lemma {:induction false} HexShapeHasNoComma(h: string)
    requires |h| >= 2 && h[..2] == "0x" && AllHex(h[2..])
    ensures forall i :: 0 <= i < |h| ==> h[i] != ','
  {
    forall i | 2 <= i < |h|
      ensures h[i] != ','
    {
      assert h[i] == h[2..][i - 2];
    }
  }

  /** The hex part of "hex:" + h + "," + rest is h. */
  lemma {:induction false} HexPartOf(h: string, rest: string)
    requires |h| >= 2 && h[..2] == "0x" && AllHex(h[2..])
    ensures HexPart("hex:" + h + "," + rest) == Some(h)
  {
    var a := "hex:" + h;
    HexShapeHasNoComma(h);
    forall i | 0 <= i < |a|
      ensures a[i] != ','
    {
      if i >= 4 {
        assert a[i] == h[i - 4];
      }
    }
    UpToCommaPrefix(a, rest);
    assert a[4..] == h;
    HexHasNoTag(h);
  }

  /** The hex part of a field's text is its hex view, whatever gdb prints
      for the other views. */
  lemma {:induction false} HexPartOfFieldText(v: FieldValue, gdbText: string)
    requires FitsWidth(v)
    ensures HexPart(FieldText(v, gdbText)) == Some(HexString(v))
  {
    HexPartOf(HexString(v), OtherViews(v, gdbText));
  }

  lemma {:induction false} LeadingZeros(z: string, h: string)
    requires forall i :: 0 <= i < |z| ==> z[i] == '0'
    requires AllHex(h)
    ensures AllHex(z + h) && HexDigitsValue(z + h) == HexDigitsValue(h)
    decreases |h|, |z|
  {
    if |h| > 0 {
      assert (z + h)[..|z + h| - 1] == z + h[..|h| - 1];
      LeadingZeros(z, h[..|h| - 1]);
    } else if |z| > 0 {
      assert z + h == z;
      assert z[..|z| - 1] + h == z[..|z| - 1];
      LeadingZeros(z[..|z| - 1], h);
    }
  }

  lemma {:induction false} PaddedHexRoundTrip(w: nat, digits: nat)
    ensures ParseHexToken(PaddedHex(w, digits)) == Some(w)
  {
    var h := NatToHex(w);
    var z := if |h| < digits then Repeat('0', digits - |h|) else "";
    var s := PaddedHex(w, digits);
    assert s == "0x" + z + h;
    assert s[0] == '0' && s[1] == 'x';
    assert s[2..] == z + h;
    LeadingZeros(z, h);
    NatToHexRoundTrip(w);
    assert ParseHexToken(s) == Some(HexDigitsValue(s[2..]));
  }

  /** Reading the hex view back gives the raw word: what the string-object
      path relies on. */
  lemma {:induction false} HexStringRoundTrip(v: FieldValue)
    ensures ParseHexToken(HexString(v)) == Some(v.raw)
  {
    match v
    case Value8(w) => HexRoundTrip(w);
    case Value4(w) => PaddedHexRoundTrip(w, 8);
    case Value2(w, _, _) => PaddedHexRoundTrip(w, 4);
    case Value1(w) => PaddedHexRoundTrip(w, 2);
  }

  /** get_array_length: the 32-bit word at addr, or 0 when it cannot be read. */
  function ArrayLength(mem: Memory, addr: nat): (n: nat)
    ensures (addr, 4) in mem ==> n == mem[(addr, 4)]
    ensures (addr, 4) !in mem ==> n == 0
  {
    match ReadWord(mem, addr, 4)
    case Some(w) => w
    case None => 0
  }
}

=== FILE: interp_arith.dfy ===
/** The interpreter's integer operators: JSopArith and JSopPrimCmp on the
    raw 32-bit words of two operands, read as int32 or uint32 by the
    instruction's primitive type, and JSopBitOp on two dynamic values.  A
    word is its unsigned value; its int32 view is ToSigned32. */
module InterpArith {
  import opened Common
  import opened Bits
  import opened JsValue
  import opened TypeConversion
  import opened PrimTypes
  import BitExtend

  datatype Opcode =
    | OpAshr | OpBand | OpBior | OpBxor | OpLshr | OpShl | OpLand | OpLior
    | OpMax | OpMin | OpRem | OpDiv | OpSub | OpMul
    | OpEq | OpNe | OpGe | OpGt | OpLe | OpLt
    | OtherOp   // any other opcode, which these handlers reject

  predicate IsShift(op: Opcode) { op == OpAshr || op == OpLshr || op == OpShl }

  /** The opcodes JSopArith handles for 32-bit operands. */
  predicate IsArith(op: Opcode) {
    || op == OpAshr || op == OpBand || op == OpBior || op == OpBxor || op == OpLshr
    || op == OpMax || op == OpMin || op == OpRem || op == OpShl || op == OpDiv || op == OpSub || op == OpMul
  }

  /** The opcodes JSopBitOp handles. */
  predicate IsBitOp(op: Opcode) {
    || op == OpAshr || op == OpBand || op == OpBior || op == OpBxor
    || op == OpLshr || op == OpShl || op == OpLand || op == OpLior
  }

  predicate IsCmp(op: Opcode) {
    op == OpEq || op == OpNe || op == OpGe || op == OpGt || op == OpLe || op == OpLt
  }

  // ---------------------------------------------------------------------
  // Words

  /** u32 >> k, a logical shift. */
  function ShrWord(w: u32, k: nat): (r: u32)
    ensures r <= w
  {
    DivOfNat(w, Pow2(k));
    Shr(w, k)
  }

  /** int32 >> k: an arithmetic shift, which rounds toward minus infinity. */
  function AshrI32(v: i32, k: nat): (r: i32)
    ensures v >= 0 ==> 0 <= r <= v
    ensures v < 0 ==> v <= r < 0
  {
    AshrBounds(v, Pow2(k));
    v / Pow2(k)
  }

  lemma {:induction false} AshrBounds(v: int, d: nat)
    requires d >= 1
    ensures v >= 0 ==> 0 <= v / d <= v
    ensures v < 0 ==> v <= v / d < 0
  {
    if v >= 0 {
      DivOfNat(v, d);
    } else {
      FloorDivNegative(v, d, v / d, v % d);
    }
  }

  /** A negative dividend has a quotient between it and zero. */
  lemma {:induction false} FloorDivNegative(v: int, d: int, q: int, m: int)
    requires v < 0 && d >= 1 && v == d * q + m && 0 <= m < d
    ensures v <= q < 0
  {
    assert d * (q + 1) == d * q + d;
    assert (-v) * d == -(d * v) && (-v) * 1 == -v;
    MulMono(d, 0, q);
    MulMono(d, q + 1, v);
    MulMono(-v, 1, d);
  }

  /** Multiplying by a non-negative factor keeps the order. */
  lemma {:induction false} MulMono(a: int, b: int, c: int)
    requires a >= 0
    ensures b <= c ==> a * b <= a * c
  {
    assert a * c - a * b == a * (c - b);
    if a > 0 && b < c {
      MulAtLeast(a, c - b);
    }
  }

  /** The bitwise operators on words. */
  function BitwiseWord(op: Opcode, a: u32, b: u32): (r: u32)
    requires op == OpBand || op == OpBior || op == OpBxor
  {
    Pow2Word();
    BoundedOps(a, b, 32);
    if op == OpBand then And(a, b) else if op == OpBior then Or(a, b) else Xor(a, b)
  }

  // ---------------------------------------------------------------------
  // JSopArith

  /** What C leaves undefined for int32 operands: a zero divisor, INT32_MIN
      divided by -1 (for the remainder as well), and a shift count outside
      0..31. */
  predicate DefinedI32(op: Opcode, v0: i32, v1: i32) {
    && ((op == OpDiv || op == OpRem) ==> v1 != 0 && !(v0 == INT32_MIN && v1 == -1))
    && (IsShift(op) ==> 0 <= v1 < 32)
  }

  /** What C leaves undefined for uint32 operands. */
  predicate DefinedU32(op: Opcode, w0: u32, w1: u32) {
    && ((op == OpDiv || op == OpRem) ==> w1 != 0)
    && (IsShift(op) ==> w1 < 32)
  }

  /** The int32 case of JSopArith.  lshr is the same arithmetic shift as
      ashr; sub, mul and shl keep the low 32 bits. */
  function I32Arith(op: Opcode, v0: i32, v1: i32): (r: Option<i32>)
    requires DefinedI32(op, v0, v1)
    ensures r.Some? <==> IsArith(op)
    ensures op == OpAshr || op == OpLshr ==> r == Some(AshrI32(v0, v1))
  {
    match op
    case OpAshr => Some(AshrI32(v0, v1))
    case OpLshr => Some(AshrI32(v0, v1))
    case OpBand => Some(ToSigned32(BitwiseWord(op, Wrap32(v0), Wrap32(v1))))
    case OpBior => Some(ToSigned32(BitwiseWord(op, Wrap32(v0), Wrap32(v1))))
    case OpBxor => Some(ToSigned32(BitwiseWord(op, Wrap32(v0), Wrap32(v1))))
    case OpMax => Some(if v0 > v1 then v0 else v1)
    case OpMin => Some(if v0 < v1 then v0 else v1)
    case OpRem => Some(TruncMod(v0, v1))
    case OpShl => Some(WrapI32(v0 * Pow2(v1)))
    case OpDiv => DivI32Range(v0, v1); Some(TruncDiv(v0, v1))
    case OpSub => Some(WrapI32(v0 - v1))
    case OpMul => Some(WrapI32(v0 * v1))
    case _ => None
  }

  /** Only INT32_MIN / -1 leaves the int32 range. */
  lemma {:induction false} DivI32Range(a: i32, b: i32)
    requires b != 0 && !(a == INT32_MIN && b == -1)
    ensures INT32_MIN <= TruncDiv(a, b) <= INT32_MAX
  {
    var A, B := Abs(a), Abs(b);
    if B == 1 {
      DivModUnique(A, 1, A, 0);
    } else {
      QuotientHalves(A, B);
    }
  }

  lemma {:induction false} QuotientHalves(A: nat, B: nat)
    requires B >= 2
    ensures 0 <= 2 * (A / B) <= A
  {
    var q, m := A / B, A % B;
    assert A == B * q + m;
    MulMono(B, 0, q);
    MulMono(B, q, -1);
    MulMono(q, 2, B);
  }

  /** The uint32 (and a32) case of JSopArith: every operator on words, with
      sub, mul and shl keeping the low 32 bits. */
  function U32Arith(op: Opcode, w0: u32, w1: u32): (r: Option<u32>)
    requires DefinedU32(op, w0, w1)
    ensures r.Some? <==> IsArith(op)
    ensures op == OpAshr || op == OpLshr ==> r == Some(ShrWord(w0, w1))
  {
    match op
    case OpAshr => Some(ShrWord(w0, w1))
    case OpLshr => Some(ShrWord(w0, w1))
    case OpBand => Some(BitwiseWord(op, w0, w1))
    case OpBior => Some(BitwiseWord(op, w0, w1))
    case OpBxor => Some(BitwiseWord(op, w0, w1))
    case OpMax => Some(if w0 > w1 then w0 else w1)
    case OpMin => Some(if w0 < w1 then w0 else w1)
    case OpRem => Some(w0 % w1)
    case OpShl => Some(Wrap32(w0 * Pow2(w1)))
    case OpDiv => DivOfNat(w0, w1); Some(w0 / w1)
    case OpSub => Some(Wrap32(w0 - w1))
    case OpMul => Some(Wrap32(w0 * w1))
    case _ => None
  }

  /** JSopArith: the int32, uint32 and a32 cases on the operands' raw words;
      the result is the int32 number holding the computed word.  The small
      integer types are rejected, the a64 multiplication is not part of
      this model, and every other type is rejected. */
  function Arith(ptyp: PrimType, op: Opcode, w0: u32, w1: u32): (r: Option<Value>)
    requires ptyp.I32? ==> DefinedI32(op, ToSigned32(w0), ToSigned32(w1))
    requires ptyp.U32? || ptyp.A32? ==> DefinedU32(op, w0, w1)
    ensures r.Some? <==> (ptyp.I32? || ptyp.U32? || ptyp.A32?) && IsArith(op)
    ensures r.Some? ==> r.value.Number?
    ensures r.Some? && ptyp.I32? ==> Some(r.value.n) == I32Arith(op, ToSigned32(w0), ToSigned32(w1))
    ensures r.Some? && !ptyp.I32? ==> Some(Wrap32(r.value.n)) == U32Arith(op, w0, w1)
  {
    match ptyp
    case I32 =>
      var v := I32Arith(op, ToSigned32(w0), ToSigned32(w1));
      if v.Some? then Some(Number(v.value)) else None
    case U32 =>
      var v := U32Arith(op, w0, w1);
      if v.Some? then Some(Number(ToSigned32(v.value))) else None
    case A32 =>
      var v := U32Arith(op, w0, w1);
      if v.Some? then Some(Number(ToSigned32(v.value))) else None
    case _ => None
  }

  /** max and min return one of the operands: the greater, respectively the
      smaller, under the signedness of the type. */
  lemma {:induction false} MaxMinOperand(ptyp: PrimType, w0: u32, w1: u32)
    requires ptyp.I32? || ptyp.U32?
    ensures ptyp.I32? ==> var v0, v1 := ToSigned32(w0), ToSigned32(w1);
      var mx, mn := I32Arith(OpMax, v0, v1).value, I32Arith(OpMin, v0, v1).value;
      && mx >= v0 && mx >= v1 && (mx == v0 || mx == v1)
      && mn <= v0 && mn <= v1 && (mn == v0 || mn == v1)
    ensures ptyp.U32? ==> var mx, mn := U32Arith(OpMax, w0, w1).value, U32Arith(OpMin, w0, w1).value;
      && mx >= w0 && mx >= w1 && (mx == w0 || mx == w1)
      && mn <= w0 && mn <= w1 && (mn == w0 || mn == w1)
  {
  }

  /** Division and remainder fit together: the dividend is the quotient
      times the divisor plus the remainder, for either signedness. */
  lemma {:induction false} DivRem(ptyp: PrimType, w0: u32, w1: u32)
    requires ptyp.I32? || ptyp.U32?
    requires ptyp.I32? ==> DefinedI32(OpDiv, ToSigned32(w0), ToSigned32(w1))
    requires ptyp.U32? ==> w1 != 0
    ensures ptyp.I32? ==> var v0, v1 := ToSigned32(w0), ToSigned32(w1);
      var q, m := I32Arith(OpDiv, v0, v1).value, I32Arith(OpRem, v0, v1).value;
      v0 == q * v1 + m && Abs(m) < Abs(v1)
    ensures ptyp.U32? ==> var q, m := U32Arith(OpDiv, w0, w1).value, U32Arith(OpRem, w0, w1).value;
      w0 == q * w1 + m && m < w1
  {
  }

  /** The int32 and uint32 cases of sub, mul, shl and the bitwise operators
      produce the same number: they agree on all 32 bits. */
  lemma {:induction false} SignednessAgnostic(op: Opcode, w0: u32, w1: u32)
    requires op == OpSub || op == OpMul || op == OpShl || op == OpBand || op == OpBior || op == OpBxor
    requires op == OpShl ==> w1 < 32
    ensures Arith(I32, op, w0, w1) == Arith(U32, op, w0, w1)
  {
    var v0: int, v1: int := ToSigned32(w0), ToSigned32(w1);
    var c0, c1 := (if w0 >= TWO31 then 1 else 0), (if w1 >= TWO31 then 1 else 0);
    if op == OpSub {
      WrapCongruent(v0 - v1, w0 - w1, c1 - c0);
      SubAgnostic(w0, w1, v0 - v1, w0 - w1);
    } else if op == OpMul {
      MulCongruent(w0, w1, c0, c1, v0, v1);
      MulAgnostic(w0, w1, v0 * v1, w0 * w1);
    } else if op == OpShl {
      ShlCongruent(w0, c0, v0, Pow2(w1));
      ShlAgnostic(w0, w1, v0 * Pow2(w1), w0 * Pow2(w1));
    } else {
      SameBitwise(op, w0, w1);
    }
  }

  /** Where the int32 and uint32 cases compute integers that wrap to the
      same word, they give the same number. */
  lemma {:induction false} SubAgnostic(w0: u32, w1: u32, x: int, y: int)
    requires x == ToSigned32(w0) - ToSigned32(w1) && y == w0 - w1 && Wrap32(x) == Wrap32(y)
    ensures Arith(I32, OpSub, w0, w1) == Arith(U32, OpSub, w0, w1)
  {
  }

  lemma {:induction false} MulAgnostic(w0: u32, w1: u32, x: int, y: int)
    requires x == ToSigned32(w0) * ToSigned32(w1) && y == w0 * w1 && Wrap32(x) == Wrap32(y)
    ensures Arith(I32, OpMul, w0, w1) == Arith(U32, OpMul, w0, w1)
  {
  }

  lemma {:induction false} ShlAgnostic(w0: u32, w1: u32, x: int, y: int)
    requires w1 < 32 && x == ToSigned32(w0) * Pow2(w1) && y == w0 * Pow2(w1) && Wrap32(x) == Wrap32(y)
    ensures Arith(I32, OpShl, w0, w1) == Arith(U32, OpShl, w0, w1)
  {
  }

  lemma {:induction false} SameBitwise(op: Opcode, w0: u32, w1: u32)
    requires op == OpBand || op == OpBior || op == OpBxor
    ensures Arith(I32, op, w0, w1) == Arith(U32, op, w0, w1)
  {
    assert Wrap32(ToSigned32(w0)) == w0 && Wrap32(ToSigned32(w1)) == w1;
  }

  /** Integers that differ by a multiple of 2^32 wrap to the same word. */
  lemma {:induction false} WrapCongruent(x: int, y: int, k: int)
    requires x == y + TWO32 * k
    ensures Wrap32(x) == Wrap32(y)
  {
    DivModUnique(x, TWO32, y / TWO32 + k, y % TWO32);
  }

  lemma {:induction false} MulCongruent(w0: nat, w1: nat, c0: int, c1: int, v0: int, v1: int)
    requires v0 == w0 - TWO32 * c0 && v1 == w1 - TWO32 * c1
    ensures Wrap32(v0 * v1) == Wrap32(w0 * w1)
  {
    var k := TWO32 * c0 * c1 - c0 * w1 - c1 * w0;
    assert v0 * v1 == w0 * w1 + TWO32 * k;
    WrapCongruent(v0 * v1, w0 * w1, k);
  }

  lemma {:induction false} ShlCongruent(w0: nat, c0: int, v0: int, p: nat)
    requires v0 == w0 - TWO32 * c0
    ensures Wrap32(v0 * p) == Wrap32(w0 * p)
  {
    assert v0 * p == w0 * p + TWO32 * (-c0 * p);
    WrapCongruent(v0 * p, w0 * p, -c0 * p);
  }

  /** An int32 value wraps to itself. */
  lemma {:induction false} WrapI32Exact(x: int, k: int)
    requires INT32_MIN <= x <= INT32_MAX
    ensures WrapI32(x + TWO32 * k) == x
  {
    WrapCongruent(x + TWO32 * k, x, k);
    if x < 0 {
      WrapCongruent(x, x + TWO32, -1);
    }
  }

  /** Subtracting the difference gives back the subtrahend, in 32 bits. */
  lemma {:induction false} SubInverse(v0: i32, v1: i32)
    ensures I32Arith(OpSub, v0, I32Arith(OpSub, v0, v1).value) == Some(v1)
  {
    var d := WrapI32(v0 - v1);
    var k := (d - (v0 - v1)) / TWO32;
    assert d == v0 - v1 + TWO32 * k;
    WrapI32Exact(v1, -k);
  }

  /** The arithmetic shift is the logical shift of the word followed by
      sign extension of the 32 - k bits left: the bit-level reading of C's
      signed >>. */
  lemma {:induction false} AshrIsShrThenSext(v: i32, k: nat)
    requires k < 32
    ensures ShrWord(Wrap32(v), k) < Pow2(32 - k)
    ensures AshrI32(v, k) == ToSigned32(BitExtend.Sext(ShrWord(Wrap32(v), k), 32 - k))
  {
    var P, Q, H := Pow2(k), Pow2(32 - k), Pow2(31 - k);
    Pow2Word();
    Pow2Add(k, 32 - k);
    Pow2Add(k, 31 - k);
    var x := ShrWord(Wrap32(v), k);
    AshrQuotient(v, P, Q, H, Wrap32(v), x);
    DivModUnique(x, Q, 0, x);
  }

  lemma {:induction false} AshrQuotient(v: i32, P: nat, Q: nat, H: nat, w: u32, x: nat)
    requires P >= 1 && Q == 2 * H && TWO32 == P * Q && TWO31 == P * H
    requires w == Wrap32(v) && x == w / P
    ensures x < Q
    ensures x == (if v >= 0 then v / P else v / P + Q)
    ensures (x >= H) == (v < 0)
  {
    var q, m := v / P, v % P;
    if v >= 0 {
      DivOfNat(v, P);
      MulMono(P, H, q);
    } else {
      FloorDivNegative(v, P, q, m);
      assert w == P * (q + Q) + m by {
        assert P * (q + Q) == P * q + P * Q;
      }
      DivModUnique(w, P, q + Q, m);
      MulMono(P, q + 1, -(H as int));
      assert P * (q + 1) == P * q + P;
      assert P * -(H as int) == -(P * H);
    }
  }

  // ---------------------------------------------------------------------
  // JSopBitOp

  /** How JSopBitOp reads an operand: NaN, null and undefined as 0, and
      anything else through __js_ToNumber. */
  function BitOperand(v: Value): (r: Option<i32>)
    ensures v.NaN? || v == Null || v == Undefined ==> r == Some(0)
    ensures v.Number? ==> r == Some(v.n)
    ensures v.Bool? ==> r == Some(if v.b then 1 else 0)
    ensures r.None? <==> NeedsParseOrPrimitive(v) || Internal(v)
  {
    if v.NaN? || v == Null || v == Undefined then Some(0) else ToNumber(v)
  }

  /** The shift count must be in 0..31 for C's shifts to be defined. */
  predicate ShiftDefined(op: Opcode, y: Value) {
    IsShift(op) && BitOperand(y).Some? ==> 0 <= BitOperand(y).value < 32
  }

  /** The int32 result of JSopBitOp's switch: the int32 operators of
      JSopArith, lshr on the first operand's word, and 0 or 1 for land and
      lior. */
  function BitOpI32(op: Opcode, l: i32, k: i32): (r: i32)
    requires IsBitOp(op) && (IsShift(op) ==> 0 <= k < 32)
    ensures op == OpLand ==> (r == 1 <==> l != 0 && k != 0)
    ensures op == OpLior ==> (r == 1 <==> l != 0 || k != 0)
    ensures op == OpLand || op == OpLior ==> r == 0 || r == 1
    ensures op == OpLshr ==> Wrap32(r) == ShrWord(Wrap32(l), k)
    ensures op == OpLshr && k >= 1 ==> r >= 0
  {
    match op
    case OpLshr => LshrNonNegative(l, k); ToSigned32(ShrWord(Wrap32(l), k))
    case OpLand => if l != 0 && k != 0 then 1 else 0
    case OpLior => if l != 0 || k != 0 then 1 else 0
    case OpAshr => I32Arith(op, l, k).value
    case OpBand => I32Arith(op, l, k).value
    case OpBior => I32Arith(op, l, k).value
    case OpBxor => I32Arith(op, l, k).value
    case OpShl => I32Arith(op, l, k).value
    case _ => 0
  }

  /** JSopBitOp: both operands read as int32, and the result is always a
      number. */
  function BitOp(op: Opcode, x: Value, y: Value): (r: Option<Value>)
    requires ShiftDefined(op, y)
    ensures r.Some? <==> IsBitOp(op) && BitOperand(x).Some? && BitOperand(y).Some?
    ensures r.Some? ==> r.value == Number(BitOpI32(op, BitOperand(x).value, BitOperand(y).value))
  {
    if !IsBitOp(op) || BitOperand(x).None? || BitOperand(y).None? then None
    else Some(Number(BitOpI32(op, BitOperand(x).value, BitOperand(y).value)))
  }

  lemma {:induction false} LshrNonNegative(l: i32, k: int)
    requires 0 <= k < 32
    ensures k >= 1 ==> ShrWord(Wrap32(l), k) < TWO31
  {
    if k >= 1 {
      Pow2Monotone(1, k);
      HalfAtMost(Wrap32(l), Pow2(k));
    }
  }

  lemma {:induction false} HalfAtMost(w: u32, P: nat)
    requires P >= 2
    ensures w / P < TWO31
  {
    var q, m := w / P, w % P;
    assert w == P * q + m;
    MulMono(q, 2, P);
  }

  /** x ^ y ^ y == x: xor-ing twice with the same operand gives back the
      first operand's int32 value. */
  lemma {:induction false} BitXorInverse(x: Value, y: Value)
    requires BitOperand(x).Some? && BitOperand(y).Some?
    ensures BitOp(OpBxor, BitOp(OpBxor, x, y).value, y) == Some(Number(BitOperand(x).value))
  {
    XorI32Inverse(BitOperand(x).value, BitOperand(y).value);
  }

  lemma {:induction false} XorI32Inverse(l: i32, k: i32)
    ensures BitOpI32(OpBxor, BitOpI32(OpBxor, l, k), k) == l
  {
    var a, b := Wrap32(l), Wrap32(k);
    var c := BitwiseWord(OpBxor, a, b);
    assert BitOpI32(OpBxor, l, k) == ToSigned32(c);
    assert Wrap32(ToSigned32(c)) == c;
    XorTwice(a, b);
    assert BitwiseWord(OpBxor, c, b) == a;
  }

  /** Xor with the same word twice is the identity. */
  lemma {:induction false} XorTwice(a: nat, b: nat)
    ensures Xor(Xor(a, b), b) == a
    decreases a + b
  {
    if a == 0 {
      XorSelf(b);
    } else if b != 0 {
      XorDigits(a, b);
      XorTwice(a / 2, b / 2);
      XorBack(a, b, Xor(a, b));
    }
  }

  /** The low digit and the rest of a ^ b, for nonzero operands. */
  lemma {:induction false} XorDigits(a: nat, b: nat)
    requires a != 0 && b != 0
    ensures Xor(a, b) / 2 == Xor(a / 2, b / 2) && Xor(a, b) % 2 == (a % 2 + b % 2) % 2
  {
    var h := Xor(a / 2, b / 2);
    DivModUnique(Xor(a, b), 2, h, (a % 2 + b % 2) % 2);
  }

  /** One step of XorTwice: from the digits of x = a ^ b and the claim for
      the halves, the claim for a and b. */
  lemma {:induction false} XorBack(a: nat, b: nat, x: nat)
    requires a != 0 && b != 0
    requires x / 2 == Xor(a / 2, b / 2) && x % 2 == (a % 2 + b % 2) % 2
    requires Xor(Xor(a / 2, b / 2), b / 2) == a / 2
    ensures Xor(x, b) == a
  {
    if x == 0 {
      XorZero(a / 2, b / 2);
    } else {
      assert Xor(x, b) == 2 * Xor(x / 2, b / 2) + (x % 2 + b % 2) % 2;
      DigitCancels(a % 2, b % 2, x % 2);
    }
  }

  lemma {:induction false} DigitCancels(da: nat, db: nat, dx: nat)
    requires da < 2 && db < 2 && dx == (da + db) % 2
    ensures (dx + db) % 2 == da
  {
  }

  lemma {:induction false} XorSelf(a: nat)
    ensures Xor(a, a) == 0
    decreases a
  {
    if a != 0 {
      XorSelf(a / 2);
    }
  }

  /** Words whose xor is zero are equal. */
  lemma {:induction false} XorZero(a: nat, b: nat)
    requires Xor(a, b) == 0
    ensures a == b
    decreases a
  {
    if a != 0 && b != 0 {
      XorZero(a / 2, b / 2);
    }
  }

  /** Shifting left by k and then arithmetically right by k gives back any
      int32 value small enough that the left shift loses nothing. */
  lemma {:induction false} ShlThenAshr(l: i32, k: nat)
    requires k < 32 && -(Pow2(31 - k) as int) <= l < Pow2(31 - k)
    ensures BitOp(OpAshr, BitOp(OpShl, Number(l), Number(k)).value, Number(k)) == Some(Number(l))
  {
    var P := Pow2(k);
    var p := ShlExact(l, k);
    assert BitOpI32(OpShl, l, k) == p;
    DivModUnique(p, P, l, 0);
    assert BitOpI32(OpAshr, p, k) == l;
  }

  /** The left shift of a value that fits loses nothing. */
  lemma {:induction false} ShlExact(l: i32, k: nat) returns (p: i32)
    requires k < 32 && -(Pow2(31 - k) as int) <= l < Pow2(31 - k)
    ensures p == l * Pow2(k) && WrapI32(l * Pow2(k)) == p
  {
    Pow2Word();
    Pow2Add(31 - k, k);
    ProductFits(l, Pow2(k), Pow2(31 - k));
    WrapI32Exact(l * Pow2(k), 0);
    p := l * Pow2(k);
  }

  lemma {:induction false} ProductFits(l: int, P: nat, H: nat)
    requires H * P == TWO31 && -(H as int) <= l < H
    ensures INT32_MIN <= l * P <= INT32_MAX
  {
    MulMono(P, l, H - 1);
    MulMono(P, -(H as int), l);
    assert P * (H - 1) == P * H - P && P * -(H as int) == -(P * H);
  }

  // ---------------------------------------------------------------------
  // JSopPrimCmp

  /** One of the six comparisons on integers. */
  function Relate(op: Opcode, a: int, b: int): (r: bool)
    requires IsCmp(op)
  {
    match op
    case OpEq => a == b
    case OpNe => a != b
    case OpGe => a >= b
    case OpGt => a > b
    case OpLe => a <= b
    case OpLt => a < b
  }

  /** JSopPrimCmp: the comparison of the operands' words, read as int32 or
      as uint32; the small integer types and every other type are rejected. */
  function PrimCmp(op: Opcode, w0: u32, w1: u32, ptyp: PrimType): (r: Option<bool>)
    ensures r.Some? <==> IsCmp(op) && (ptyp.I32? || ptyp.U32?)
    ensures r.Some? && op == OpEq ==> (r.value <==> w0 == w1)
    ensures r.Some? && op == OpNe ==> (r.value <==> w0 != w1)
    ensures r.Some? && ptyp.U32? ==> r.value == Relate(op, w0, w1)
    ensures r.Some? && ptyp.I32? ==> r.value == Relate(op, ToSigned32(w0), ToSigned32(w1))
  {
    if !IsCmp(op) then None
    else if ptyp.I32? then
      SignedViewOrder(w0, w1);
      Some(Relate(op, ToSigned32(w0), ToSigned32(w1)))
    else if ptyp.U32? then Some(Relate(op, w0, w1))
    else None
  }

  lemma {:induction false} SignedViewOrder(w0: u32, w1: u32)
    ensures ToSigned32(w0) == ToSigned32(w1) <==> w0 == w1
  {
    if ToSigned32(w0) == ToSigned32(w1) {
      BitExtend.SignedViewInjective(w0, w1);
    }
  }

  /** The comparisons come in complementary pairs, and gt is lt with the
      operands swapped. */
  lemma {:induction false} PrimCmpDuality(w0: u32, w1: u32, ptyp: PrimType)
    requires ptyp.I32? || ptyp.U32?
    ensures PrimCmp(OpGe, w0, w1, ptyp).value == !PrimCmp(OpLt, w0, w1, ptyp).value
    ensures PrimCmp(OpLe, w0, w1, ptyp).value == !PrimCmp(OpGt, w0, w1, ptyp).value
    ensures PrimCmp(OpNe, w0, w1, ptyp).value == !PrimCmp(OpEq, w0, w1, ptyp).value
    ensures PrimCmp(OpGt, w0, w1, ptyp) == PrimCmp(OpLt, w1, w0, ptyp)
  {
  }

  /** Reading the words as int32 or as uint32 orders them the same way
      when their sign bits agree. */
  lemma {:induction false} SignedUnsignedAgree(op: Opcode, w0: u32, w1: u32)
    requires IsCmp(op) && (w0 < TWO31) == (w1 < TWO31)
    ensures PrimCmp(op, w0, w1, I32) == PrimCmp(op, w0, w1, U32)
  {
  }

  /** With the sign bits different, int32 and uint32 order the words
      oppositely. */
  lemma {:induction false} SignedUnsignedDisagree(w0: u32, w1: u32)
    requires w0 < TWO31 <= w1
    ensures PrimCmp(OpLt, w0, w1, U32) == Some(true)
    ensures PrimCmp(OpLt, w0, w1, I32) == Some(false)
  {
  }
}

=== FILE: interp_values.dfy ===
/** The interpreter's operators that look at an operand's tag: the dynamic
    comparison JSopCmp, the conversions JSopCVT between raw words and
    dynamic values, and logical not, JSopUnaryLnot.  An operand on the
    interpreter's stack is either a raw word (its tag is "none") or a
    tagged dynamic value. */
module InterpValues {
  import opened Common
  import opened JsValue
  import opened TypeConversion
  import opened PrimTypes
  import opened InterpArith

  datatype Operand = Raw(word: u32) | Tagged(v: Value)

  /** The operand's tag is "none": a raw word, or the none value itself. */
  predicate NoneTagged(x: Operand) { x.Raw? || x.v.NoneValue? }

  /** The operand's low 32 bits: the raw word, or 0 for a tagged value
      without a numeric payload. */
  function Word(x: Operand): u32 {
    if x.Raw? then x.word
    else match x.v
      case Number(n) => Wrap32(n)
      case Bool(b) => if b then 1 else 0
      case _ => 0
  }

  /** The operand as a dynamic value; a raw word reads as the none value. */
  function ValueOf(x: Operand): Value {
    if x.Raw? then NoneValue else x.v
  }

  predicate IsNaN(x: Operand) { x.Tagged? && x.v.NaN? }

  // ---------------------------------------------------------------------
  // JSopCmp

  /** What the abstract comparison routines report: their answer, and
      whether the comparison is one of those that is always false. */
  datatype Verdict = Verdict(result: bool, alwaysFalse: bool)

  /** The verdict JSopCmp takes for each comparison: eq and ne from abstract
      equality, lt and ge from the relational comparison of (x, y), gt and
      le from that of (y, x) with the left operand evaluated second. */
  function Judge(op: Opcode, x: Operand, y: Operand,
                 equality: (Operand, Operand) -> Verdict,
                 relational: (Operand, Operand, bool) -> Verdict): (r: Option<Verdict>)
    ensures r.Some? <==> IsCmp(op)
    ensures op == OpEq ==> r == Some(equality(x, y))
    ensures op == OpNe ==> r == Some(Verdict(!equality(x, y).result, equality(x, y).alwaysFalse))
    ensures op == OpLt ==> r == Some(relational(x, y, true))
    ensures op == OpGe ==> r == Some(Verdict(!relational(x, y, true).result, relational(x, y, true).alwaysFalse))
    ensures op == OpGt ==> r == Some(relational(y, x, false))
    ensures op == OpLe ==> r == Some(Verdict(!relational(y, x, false).result, relational(y, x, false).alwaysFalse))
  {
    match op
    case OpEq => Some(equality(x, y))
    case OpNe => var c := equality(x, y); Some(Verdict(!c.result, c.alwaysFalse))
    case OpGe => var c := relational(x, y, true); Some(Verdict(!c.result, c.alwaysFalse))
    case OpGt => Some(relational(y, x, false))
    case OpLe => var c := relational(y, x, false); Some(Verdict(!c.result, c.alwaysFalse))
    case OpLt => Some(relational(x, y, true))
    case _ => None
  }

  /** JSopCmp.  Unless both operands are none-tagged: a NaN operand makes
      every comparison false except ne, and otherwise the abstract routines
      decide, with an always-false verdict forcing false.  Two none-tagged
      operands compare as raw words of the instruction's type.  The
      abstract equality and relational comparison are parameters. */
  function Cmp(op: Opcode, x: Operand, y: Operand, ptyp: PrimType,
               equality: (Operand, Operand) -> Verdict,
               relational: (Operand, Operand, bool) -> Verdict): (r: Option<Value>)
    ensures r.Some? ==> r.value.Bool?
    ensures !(NoneTagged(x) && NoneTagged(y)) && (IsNaN(x) || IsNaN(y)) ==> r == Some(Bool(op == OpNe))
    ensures !(NoneTagged(x) && NoneTagged(y)) && !IsNaN(x) && !IsNaN(y) ==>
      (r.Some? <==> IsCmp(op)) && (r.Some? && Judge(op, x, y, equality, relational).value.alwaysFalse ==> r.value == Bool(false))
    ensures NoneTagged(x) && NoneTagged(y) ==>
      (r.Some? <==> PrimCmp(op, Word(x), Word(y), ptyp).Some?)
      && (r.Some? ==> r.value.b == PrimCmp(op, Word(x), Word(y), ptyp).value)
  {
    if !(NoneTagged(x) && NoneTagged(y)) then
      if IsNaN(x) || IsNaN(y) then Some(Bool(op == OpNe))
      else
        var c := Judge(op, x, y, equality, relational);
        if c.None? then None
        else Some(Bool(if c.value.alwaysFalse then false else c.value.result))
    else
      var b := PrimCmp(op, Word(x), Word(y), ptyp);
      if b.Some? then Some(Bool(b.value)) else None
  }

  /** Without NaN operands and an always-false verdict, ge is the negation
      of lt. */
  lemma {:induction false} CmpGeIsNotLt(x: Operand, y: Operand, ptyp: PrimType,
                                        equality: (Operand, Operand) -> Verdict,
                                        relational: (Operand, Operand, bool) -> Verdict)
    requires !(NoneTagged(x) && NoneTagged(y)) && !IsNaN(x) && !IsNaN(y)
    requires !relational(x, y, true).alwaysFalse
    ensures Cmp(OpLt, x, y, ptyp, equality, relational) == Some(Bool(relational(x, y, true).result))
    ensures Cmp(OpGe, x, y, ptyp, equality, relational) == Some(Bool(!relational(x, y, true).result))
  {
  }

  /** Without NaN operands and an always-false verdict, le is the negation
      of gt. */
  lemma {:induction false} CmpLeIsNotGt(x: Operand, y: Operand, ptyp: PrimType,
                                        equality: (Operand, Operand) -> Verdict,
                                        relational: (Operand, Operand, bool) -> Verdict)
    requires !(NoneTagged(x) && NoneTagged(y)) && !IsNaN(x) && !IsNaN(y)
    requires !relational(y, x, false).alwaysFalse
    ensures Cmp(OpGt, x, y, ptyp, equality, relational) == Some(Bool(relational(y, x, false).result))
    ensures Cmp(OpLe, x, y, ptyp, equality, relational) == Some(Bool(!relational(y, x, false).result))
  {
  }

  /** Without NaN operands and an always-false verdict, ne is the negation
      of eq. */
  lemma {:induction false} CmpNeIsNotEq(x: Operand, y: Operand, ptyp: PrimType,
                                        equality: (Operand, Operand) -> Verdict,
                                        relational: (Operand, Operand, bool) -> Verdict)
    requires !(NoneTagged(x) && NoneTagged(y)) && !IsNaN(x) && !IsNaN(y)
    requires !equality(x, y).alwaysFalse
    ensures Cmp(OpEq, x, y, ptyp, equality, relational) == Some(Bool(equality(x, y).result))
    ensures Cmp(OpNe, x, y, ptyp, equality, relational) == Some(Bool(!equality(x, y).result))
  {
  }

  /** An always-false abstract equality makes eq and ne both false. */
  lemma {:induction false} CmpAlwaysFalse(x: Operand, y: Operand, ptyp: PrimType,
                                          equality: (Operand, Operand) -> Verdict,
                                          relational: (Operand, Operand, bool) -> Verdict)
    requires !(NoneTagged(x) && NoneTagged(y)) && !IsNaN(x) && !IsNaN(y)
    requires equality(x, y).alwaysFalse
    ensures Cmp(OpEq, x, y, ptyp, equality, relational) == Some(Bool(false))
    ensures Cmp(OpNe, x, y, ptyp, equality, relational) == Some(Bool(false))
  {
  }

  /** Two raw int32 words compare by value, whatever the abstract routines
      say. */
  lemma {:induction false} CmpRawWords(op: Opcode, a: u32, b: u32,
                                       equality: (Operand, Operand) -> Verdict,
                                       relational: (Operand, Operand, bool) -> Verdict)
    requires IsCmp(op)
    ensures Cmp(op, Raw(a), Raw(b), I32, equality, relational) == Some(Bool(Relate(op, ToSigned32(a), ToSigned32(b))))
  {
  }

  // ---------------------------------------------------------------------
  // JSopCVT

  /** JSopCVT.  To a dynamic type: u1 becomes a boolean, i32 and a32 an
      int32 number, u32 an int32 number when it fits and a double
      otherwise, and simpleobj an object.  From a dynamic type: to u1 by
      ToBoolean, to a 32-bit integer type by ToInteger (which is
      __js_ToNumber).  Between two non-dynamic types the result is
      undefined.  The combinations the source rejects, and simplestr, give
      None. */
  function Cvt(x: Operand, to: PrimType, from: PrimType): (r: Option<Value>)
    ensures IsPrimitiveDyn(to) && from.U1? ==> r == Some(Bool(Word(x) != 0))
    ensures IsPrimitiveDyn(to) && (from.I32? || from.A32?) ==> r == Some(Number(ToSigned32(Word(x))))
    ensures IsPrimitiveDyn(to) && from.U32? ==> r.Some? && (r.value.Number? <==> Word(x) <= INT32_MAX)
    ensures !IsPrimitiveDyn(to) && !IsPrimitiveDyn(from) ==> r == Some(Undefined)
    ensures !IsPrimitiveDyn(to) && IsPrimitiveDyn(from) && to.U1? ==>
      (r.Some? <==> ToBoolean(ValueOf(x)).Some?)
  {
    if IsPrimitiveDyn(to) then
      var w := Word(x);
      match from
      case U1 => Some(Bool(w != 0))
      case A32 => Some(Number(ToSigned32(w)))
      case I32 => Some(Number(ToSigned32(w)))
      case U32 => Some(if w <= INT32_MAX then Number(w) else Double(w as real))
      case SimpleObj => Some(Object(w))
      case _ => None
    else if IsPrimitiveDyn(from) then
      match to
      case U1 =>
        var b := ToBoolean(ValueOf(x));
        if b.Some? then Some(Bool(b.value)) else None
      case A32 => CvtInteger(x)
      case U32 => CvtInteger(x)
      case I32 => CvtInteger(x)
      case _ => None
    else Some(Undefined)
  }

  /** __number_value(__js_ToInteger(v)). */
  function CvtInteger(x: Operand): (r: Option<Value>)
    ensures r.Some? <==> ToNumber(ValueOf(x)).Some?
    ensures r.Some? ==> r == Some(Number(ToNumber(ValueOf(x)).value))
  {
    var n := ToNumber(ValueOf(x));
    if n.Some? then Some(Number(n.value)) else None
  }

  /** The numeric value a dynamic number carries. */
  function NumericValue(v: Value): real
    requires v.Number? || v.Double?
  {
    if v.Number? then v.n as real else v.d
  }

  /** Converting a word to a dynamic value keeps its value under the
      source type's reading: the int32 view for i32 and a32, the unsigned
      value for u32. */
  lemma {:induction false} CvtKeepsValue(w: u32, to: PrimType, from: PrimType)
    requires IsPrimitiveDyn(to) && (from.I32? || from.A32? || from.U32?)
    ensures var r := Cvt(Raw(w), to, from).value;
      && (r.Number? || r.Double?)
      && NumericValue(r) == (if from.U32? then w as real else ToSigned32(w) as real)
  {
  }

  /** A word converted to a dynamic number and back to the same integer
      type is its int32 view again; a flag converted to a boolean and back
      is the same flag. */
  lemma {:induction false} CvtRoundTrip(w: u32, dyn: PrimType)
    requires IsPrimitiveDyn(dyn)
    ensures Cvt(Tagged(Cvt(Raw(w), dyn, I32).value), I32, dyn) == Some(Number(ToSigned32(w)))
    ensures w <= INT32_MAX ==> Cvt(Tagged(Cvt(Raw(w), dyn, U32).value), U32, dyn) == Some(Number(w))
    ensures Cvt(Tagged(Cvt(Raw(w), dyn, U1).value), U1, dyn) == Some(Bool(w != 0))
  {
  }

  // ---------------------------------------------------------------------
  // JSopUnaryLnot

  /** JSopUnaryLnot as the source writes it: every string is truthy, so !""
      is false.  The none value and the internal kinds are rejected. */
  function LnotAsWritten(v: Value): (r: Option<Value>)
    ensures r.None? <==> v.NoneValue? || v.Function? || v.Env?
    ensures r.Some? ==> r.value.Bool?
    ensures v.Str? || v.Object? || v.GpBase? ==> r == Some(Bool(false))
  {
    match v
    case Bool(_) => Some(Bool(!ToBoolean(v).value))
    case Double(_) => Some(Bool(!ToBoolean(v).value))
    case Number(_) => Some(Bool(!ToBoolean(v).value))
    case Infinity(_) => Some(Bool(!ToBoolean(v).value))
    case Object(_) => Some(Bool(false))
    case Str(_) => Some(Bool(false))
    case GpBase(_) => Some(Bool(false))
    case NaN => Some(Bool(true))
    case Null => Some(Bool(true))
    case Undefined => Some(Bool(true))
    case _ => None
  }

  /** The discrepancy: the empty string is falsy, yet its logical not is
      false as written. */
  lemma {:induction false} LnotEmptyStringAsWritten()
    ensures ToBoolean(Str("")) == Some(false)
    ensures LnotAsWritten(Str("")) == Some(Bool(false))
  {
  }

  /** Logical not as section 11.4.9 of ECMAScript 5.1 defines it: the
      negation of ToBoolean, here for every kind the source accepts.  A
      gpbase operand (a string whose characters this model does not see)
      stays truthy. */
  function Lnot(v: Value): (r: Option<Value>)
    ensures r.None? <==> v.NoneValue? || v.Function? || v.Env?
    ensures r.Some? ==> r.value.Bool?
  {
    match v
    case Str(s) => Some(Bool(|s| == 0))
    case _ => LnotAsWritten(v)
  }

  /** The corrected logical not is the negation of ToBoolean for every
      operand it accepts but gpbase, and differs from the source only on
      the empty string. */
  lemma {:induction false} LnotIsNotToBoolean(v: Value)
    requires Lnot(v).Some? && !v.GpBase?
    ensures ToBoolean(v).Some? && Lnot(v) == Some(Bool(!ToBoolean(v).value))
    ensures Lnot(v) != LnotAsWritten(v) <==> v == Str("")
  {
  }

  /** Applying logical not twice gives ToBoolean. */
  lemma {:induction false} LnotTwice(v: Value)
    requires Lnot(v).Some? && !v.GpBase?
    ensures Lnot(Lnot(v).value) == Some(Bool(ToBoolean(v).value))
  {
    LnotIsNotToBoolean(v);
  }
}

=== FILE: intl_matcher.dfy ===
/** Intl.DateTimeFormat's BasicFormatMatcher (section 12.1.1.1 of
    ECMA-402, 1st edition): every available format is scored against the
    requested options, and the first one with the best score is chosen. */
module FormatMatcher {
  import opened Common
  import opened DatePattern

  /** The widths, in the order the delta between two of them is taken. */
  const Widths: seq<string> := ["2-digit", "numeric", "narrow", "short", "long"]

  const REMOVAL_PENALTY: nat := 120
  const ADDITION_PENALTY: nat := 20
  const LONG_LESS_PENALTY: nat := 8
  const LONG_MORE_PENALTY: nat := 6
  const SHORT_LESS_PENALTY: nat := 6
  const SHORT_MORE_PENALTY: nat := 3

  /** A property of a bag, None when it is undefined. */
  function Get(p: Props, key: string): (r: Option<Opt>)
    ensures r.Some? <==> key in p
    ensures r.Some? ==> r.value == p[key]
  {
    if key in p then Some(p[key]) else None
  }

  /** indexOf over the widths: the position of a string value, or -1 for an
      undefined, boolean or unlisted value. */
  function WidthIndex(v: Option<Opt>): (r: int)
    ensures -1 <= r < |Widths|
    ensures r >= 0 ==> v == Some(OStr(Widths[r]))
    ensures r == -1 <==> !(v.Some? && v.value.OStr? && v.value.s in Widths)
  {
    if v.Some? && v.value.OStr? then IndexIn(Widths, v.value.s) else -1
  }

  /** The first position of x in s, or -1. */
  function IndexIn(s: seq<string>, x: string): (r: int)
    ensures -1 <= r < |s|
    ensures r >= 0 ==> s[r] == x && forall k :: 0 <= k < r ==> s[k] != x
    ensures r == -1 <==> x !in s
    decreases |s|
  {
    if |s| == 0 then -1
    else if s[0] == x then 0
    else
      var k := IndexIn(s[1..], x);
      assert x in s[1..] ==> x in s;
      assert k >= 0 ==> s[k + 1] == s[1..][k];
      if k < 0 then -1 else k + 1
  }

  /** The delta between two widths, clamped to [-2, 2]. */
  function Clamp(d: int): (r: int)
    ensures -2 <= r <= 2
    ensures -2 <= d <= 2 ==> r == d
    ensures d > 2 ==> r == 2
    ensures d < -2 ==> r == -2
  {
    Max(Min(d, 2), -2)
  }

  /** The penalty one component costs a format. */
  function Penalty(o: Option<Opt>, f: Option<Opt>): (r: nat)
    ensures o.None? && f.Some? ==> r == ADDITION_PENALTY
    ensures o.Some? && f.None? ==> r == REMOVAL_PENALTY
    ensures r == 0 <==> (o.None? && f.None?) || (o.Some? && f.Some? && WidthIndex(o) == WidthIndex(f))
    ensures r <= REMOVAL_PENALTY
  {
    if o.None? && f.Some? then ADDITION_PENALTY
    else if o.Some? && f.None? then REMOVAL_PENALTY
    else DeltaPenalty(Clamp(WidthIndex(f) - WidthIndex(o)))
  }

  /** The penalty for a format width delta steps away from the request. */
  function DeltaPenalty(delta: int): nat {
    if delta == 2 then LONG_MORE_PENALTY
    else if delta == 1 then SHORT_MORE_PENALTY
    else if delta == -1 then SHORT_LESS_PENALTY
    else if delta == -2 then LONG_LESS_PENALTY
    else 0
  }

  /** Farther from 0 on either side costs at least as much. */
  lemma DeltaPenaltyOrder(d1: int, d2: int)
    ensures 0 <= d1 <= d2 ==> DeltaPenalty(Clamp(d1)) <= DeltaPenalty(Clamp(d2))
    ensures d2 <= d1 <= 0 ==> DeltaPenalty(Clamp(d1)) <= DeltaPenalty(Clamp(d2))
  {
  }

  /** On either side of the requested width, a farther format width costs
      at least as much as a nearer one. */
  lemma {:induction false} PenaltyOrder(o: Opt, f1: Opt, f2: Opt)
    ensures WidthIndex(Some(o)) <= WidthIndex(Some(f1)) <= WidthIndex(Some(f2)) ==>
      Penalty(Some(o), Some(f1)) <= Penalty(Some(o), Some(f2))
    ensures WidthIndex(Some(f2)) <= WidthIndex(Some(f1)) <= WidthIndex(Some(o)) ==>
      Penalty(Some(o), Some(f1)) <= Penalty(Some(o), Some(f2))
  {
    var i, j1, j2 := WidthIndex(Some(o)), WidthIndex(Some(f1)), WidthIndex(Some(f2));
    DeltaPenaltyOrder(j1 - i, j2 - i);
  }

  /** The score of a format: minus the sum of its components' penalties. */
  function Score(opts: Props, fmt: Props, comps: seq<string>): (r: int)
    ensures -(REMOVAL_PENALTY * |comps|) <= r <= 0
    decreases |comps|
  {
    if |comps| == 0 then 0
    else Score(opts, fmt, comps[1..]) - Penalty(Get(opts, comps[0]), Get(fmt, comps[0]))
  }

  /** A format agrees with the options on a component when both leave it
      undefined or both give it the same width (or an unlisted value). */
  predicate Agrees(opts: Props, fmt: Props, key: string) {
    Penalty(Get(opts, key), Get(fmt, key)) == 0
  }

  /** A format scores 0 exactly when it agrees on every component. */
  lemma {:induction false} ScoreZeroIff(opts: Props, fmt: Props, comps: seq<string>)
    ensures Score(opts, fmt, comps) == 0 <==> forall k :: 0 <= k < |comps| ==> Agrees(opts, fmt, comps[k])
    decreases |comps|
  {
    if |comps| > 0 {
      var tail := comps[1..];
      ScoreZeroIff(opts, fmt, tail);
      assert forall k :: 0 <= k < |tail| ==> tail[k] == comps[k + 1];
      if Agrees(opts, fmt, comps[0]) && forall k :: 0 <= k < |tail| ==> Agrees(opts, fmt, tail[k]) {
        forall k | 0 <= k < |comps|
          ensures Agrees(opts, fmt, comps[k])
        {
          if k > 0 {
            assert comps[k] == tail[k - 1];
          }
        }
      }
    }
  }

  /** A format that carries exactly the requested components scores 0. */
  lemma {:induction false} ExactFormatScoresZero(opts: Props, comps: seq<string>)
    ensures Score(opts, opts, comps) == 0
  {
    ScoreZeroIff(opts, opts, comps);
  }

  /** Components are scored independently: the score of a list is the sum
      of its parts' scores. */
  lemma {:induction false} ScoreAppend(opts: Props, fmt: Props, a: seq<string>, b: seq<string>)
    ensures Score(opts, fmt, a + b) == Score(opts, fmt, a) + Score(opts, fmt, b)
    decreases |a|
  {
    if |a| == 0 {
      assert a + b == b;
    } else {
      assert (a + b)[0] == a[0] && (a + b)[1..] == a[1..] + b;
      ScoreAppend(opts, fmt, a[1..], b);
    }
  }

  /** The chosen position: the first format with the best score. */
  ghost predicate FirstBest(opts: Props, formats: seq<Props>, comps: seq<string>, k: nat) {
    && k < |formats|
    && (forall j :: 0 <= j < |formats| ==> Score(opts, formats[j], comps) <= Score(opts, formats[k], comps))
    && (forall j :: 0 <= j < k ==> Score(opts, formats[j], comps) < Score(opts, formats[k], comps))
  }

  /** At most one position is the first best one. */
  lemma {:induction false} FirstBestUnique(opts: Props, formats: seq<Props>, comps: seq<string>, k1: nat, k2: nat)
    requires FirstBest(opts, formats, comps, k1) && FirstBest(opts, formats, comps, k2)
    ensures k1 == k2
  {
    var s1, s2 := Score(opts, formats[k1], comps), Score(opts, formats[k2], comps);
    assert s1 <= s2 && s2 <= s1;
  }

  /** BasicFormatMatcher: the position of the chosen format, None (the
      undefined result) when there are no formats. */
  method BasicFormatMatcher(opts: Props, formats: seq<Props>, comps: seq<string>) returns (best: Option<nat>)
    ensures best.None? <==> |formats| == 0
    ensures best.Some? ==> FirstBest(opts, formats, comps, best.value)
  {
    best := None;
    var bestScore := 0;
    var i := 0;
    while i < |formats|
      invariant 0 <= i <= |formats|
      invariant best.None? <==> i == 0
      invariant best.Some? ==> best.value < i && bestScore == Score(opts, formats[best.value], comps)
      invariant best.Some? ==> forall j :: 0 <= j < i ==> Score(opts, formats[j], comps) <= bestScore
      invariant best.Some? ==> forall j :: 0 <= j < best.value ==> Score(opts, formats[j], comps) < bestScore
    {
      var score := ScoreOf(opts, formats[i], comps);
      if best.None? || score > bestScore {
        best := Some(i);
        bestScore := score;
      }
      i := i + 1;
    }
  }

  /** The score as the source accumulates it, component by component. */
  method ScoreOf(opts: Props, fmt: Props, comps: seq<string>) returns (score: int)
    ensures score == Score(opts, fmt, comps)
  {
    score := 0;
    var n := |comps|;
    while n > 0
      invariant 0 <= n <= |comps|
      invariant score == Score(opts, fmt, comps[n..])
    {
      n := n - 1;
      assert comps[n..][1..] == comps[n + 1..];
      score := score - Penalty(Get(opts, comps[n]), Get(fmt, comps[n]));
    }
  }
}

=== FILE: intl_number.dfy ===
/** Intl.NumberFormat's digit kernels: the ISO 4217 minor-unit table, the
    digit options the constructor resolves (section 11.1.1.1 of ECMA-402,
    1st edition), and ToRawFixed's assembly of a fixed-point numeral from
    the scaled integer n (section 11.3.2). */
module NumberFormat {
  import opened Common

  // ---------------------------------------------------------------------
  // CurrencyDigits

  /** The currencies whose minor unit is not 2. */
  const CurrencyTable: seq<(string, nat)> := [
    ("BHD", 3), ("BIF", 0), ("BYR", 0), ("CLF", 0), ("CLP", 0), ("DJF", 0),
    ("IQD", 3), ("GNF", 0), ("ISK", 0), ("JOD", 3), ("JPY", 0), ("KMF", 0),
    ("KRW", 0), ("KWD", 3), ("LYD", 3), ("OMR", 3), ("PYG", 0), ("RWF", 0),
    ("TND", 3), ("UGX", 0), ("UYI", 0), ("VND", 0), ("VUV", 0), ("XAF", 0),
    ("XOF", 0), ("XPF", 0)]

  /** The digits of the first entry for code, or 2 when there is none. */
  function FindDigits(t: seq<(string, nat)>, code: string): (r: nat)
    ensures (exists k :: 0 <= k < |t| && t[k].0 == code && r == t[k].1)
         || (r == 2 && forall k :: 0 <= k < |t| ==> t[k].0 != code)
    decreases |t|
  {
    if |t| == 0 then 2
    else if t[0].0 == code then t[0].1
    else
      var r := FindDigits(t[1..], code);
      assert forall k :: 1 <= k < |t| ==> t[k] == t[1..][k - 1];
      r
  }

  /** CurrencyDigits: the minor unit of an ISO 4217 code. */
  function CurrencyDigits(code: string): (r: nat)
    ensures r in {0, 2, 3}
  {
    TableDigits();
    FindDigits(CurrencyTable, code)
  }

  lemma {:induction false} TableDigits()
    ensures forall k :: 0 <= k < |CurrencyTable| ==> CurrencyTable[k].1 == 0 || CurrencyTable[k].1 == 3
  {
  }

  /** A listed code gets its table value; every other code gets 2. */
  lemma {:induction false} CurrencyDigitsListed(code: string)
    ensures CurrencyDigits(code) == 2 <==> forall k :: 0 <= k < |CurrencyTable| ==> CurrencyTable[k].0 != code
    ensures forall k :: 0 <= k < |CurrencyTable| && CurrencyTable[k].0 == code ==> CurrencyDigits(code) != 2
  {
    TableDigits();
    FindDigitsUnlisted(CurrencyTable, code);
  }

  /** In a table with no entry of 2, the result is 2 exactly for an
      unlisted code. */
  lemma {:induction false} FindDigitsUnlisted(t: seq<(string, nat)>, code: string)
    requires forall k :: 0 <= k < |t| ==> t[k].1 != 2
    ensures FindDigits(t, code) == 2 <==> forall k :: 0 <= k < |t| ==> t[k].0 != code
  {
  }

  // ---------------------------------------------------------------------
  // Digit options

  datatype Style = DecimalStyle | PercentStyle | CurrencyStyle

  /** The digit options as given: None where the option is undefined.  The
      values are the integers GetNumberOption reads. */
  datatype DigitRequest = DigitRequest(
    minInteger: Option<int>, minFraction: Option<int>, maxFraction: Option<int>,
    minSignificant: Option<int>, maxSignificant: Option<int>)

  /** The resolved digit slots; the significant pair only when one of the
      significant-digit options was given. */
  datatype DigitSlots = DigitSlots(
    minInteger: int, minFraction: int, maxFraction: int, significant: Option<(int, int)>)

  /** GetNumberOption: an undefined option takes the fallback, a defined one
      must lie in [lo, hi] (None models the RangeError). */
  function GetNumberOption(v: Option<int>, lo: int, hi: int, fallback: int): (r: Option<int>)
    ensures v.None? ==> r == Some(fallback)
    ensures v.Some? ==> (r.Some? <==> lo <= v.value <= hi)
    ensures r.Some? && v.Some? ==> r.value == v.value
  {
    if v.None? then Some(fallback) else if lo <= v.value <= hi then v else None
  }

  /** The minimum-fraction default: the currency's digits or 0. */
  function MinFractionDefault(style: Style, cDigits: nat): nat {
    if style == CurrencyStyle then cDigits else 0
  }

  /** The maximum-fraction default as the constructor computes it: mnfd is
      passed where Math.max takes its receiver, so only the second operand
      counts. */
  function MaxFractionDefaultAsWritten(style: Style, cDigits: nat, mnfd: int): (r: int)
    ensures r == (if style == CurrencyStyle then cDigits else if style == PercentStyle then 0 else 3)
  {
    MathMax(mnfd, [if style == CurrencyStyle then cDigits else if style == PercentStyle then 0 else 3])
  }

  /** Math.max over the argument list; the receiver is ignored. */
  function MathMax(receiver: int, items: seq<int>): (r: int)
    requires |items| >= 1
    ensures forall k :: 0 <= k < |items| ==> items[k] <= r
    ensures r in items
    decreases |items|
  {
    if |items| == 1 then items[0]
    else
      var m := MathMax(receiver, items[1..]);
      assert forall k :: 1 <= k < |items| ==> items[k] == items[1..][k - 1];
      Max(items[0], m)
  }

  /** The intended default: the larger of mnfd and the style's default. */
  function MaxFractionDefault(style: Style, cDigits: nat, mnfd: int): (r: int)
    ensures r >= mnfd
    ensures r >= MaxFractionDefaultAsWritten(style, cDigits, mnfd)
    ensures r == mnfd || r == MaxFractionDefaultAsWritten(style, cDigits, mnfd)
  {
    Max(mnfd, MaxFractionDefaultAsWritten(style, cDigits, mnfd))
  }

  /** The constructor's steps 23 to 33, with the maximum-fraction default
      chosen by `intended`. */
  function ResolveDigitsWith(style: Style, cDigits: nat, req: DigitRequest, intended: bool): (r: Option<DigitSlots>)
    ensures var mnfd := if req.minFraction.Some? then req.minFraction.value else MinFractionDefault(style, cDigits);
      var mnsd := if req.minSignificant.Some? then req.minSignificant.value else 1;
      var sig := req.minSignificant.Some? || req.maxSignificant.Some?;
      && (r.Some? <==>
            && (req.minInteger.Some? ==> 1 <= req.minInteger.value <= 21)
            && (req.minFraction.Some? ==> 0 <= req.minFraction.value <= 20)
            && (req.maxFraction.Some? ==> mnfd <= req.maxFraction.value <= 20)
            && (sig && req.minSignificant.Some? ==> 1 <= mnsd <= 21)
            && (sig && req.maxSignificant.Some? ==> mnsd <= req.maxSignificant.value <= 21))
      && (r.Some? ==> r.value.minInteger == (if req.minInteger.Some? then req.minInteger.value else 1))
      && (r.Some? ==> r.value.minFraction == mnfd)
      && (r.Some? && req.maxFraction.Some? ==> r.value.maxFraction == req.maxFraction.value)
      && (r.Some? ==> (r.value.significant.Some? <==> sig))
  {
    var mnid := GetNumberOption(req.minInteger, 1, 21, 1);
    var mnfd := GetNumberOption(req.minFraction, 0, 20, MinFractionDefault(style, cDigits));
    if mnid.None? || mnfd.None? then None
    else
      var dflt := if intended then MaxFractionDefault(style, cDigits, mnfd.value)
                  else MaxFractionDefaultAsWritten(style, cDigits, mnfd.value);
      var mxfd := GetNumberOption(req.maxFraction, mnfd.value, 20, dflt);
      if mxfd.None? then None
      else if req.minSignificant.None? && req.maxSignificant.None? then
        Some(DigitSlots(mnid.value, mnfd.value, mxfd.value, None))
      else
        var mnsd := GetNumberOption(req.minSignificant, 1, 21, 1);
        if mnsd.None? then None
        else
          var mxsd := GetNumberOption(req.maxSignificant, mnsd.value, 21, 21);
          if mxsd.None? then None
          else Some(DigitSlots(mnid.value, mnfd.value, mxfd.value, Some((mnsd.value, mxsd.value))))
  }

  /** The digit options as the source resolves them. */
  function ResolveDigitsAsWritten(style: Style, cDigits: nat, req: DigitRequest): (r: Option<DigitSlots>)
    ensures r.Some? && req.maxFraction.None? ==>
      r.value.maxFraction == (if style == CurrencyStyle then cDigits else if style == PercentStyle then 0 else 3)
  {
    ResolveDigitsWith(style, cDigits, req, false)
  }

  /** The digit options with the intended maximum-fraction default. */
  function ResolveDigits(style: Style, cDigits: nat, req: DigitRequest): (r: Option<DigitSlots>)
    requires cDigits <= 20
    ensures r.Some? ==> 1 <= r.value.minInteger <= 21
    ensures r.Some? ==> 0 <= r.value.minFraction <= r.value.maxFraction <= 20
    ensures r.Some? && r.value.significant.Some? ==>
      1 <= r.value.significant.value.0 <= r.value.significant.value.1 <= 21
    ensures r.Some? ==> (r.value.significant.Some? <==> req.minSignificant.Some? || req.maxSignificant.Some?)
    ensures r.Some? ==> r.value.minInteger == (if req.minInteger.Some? then req.minInteger.value else 1)
    ensures r.Some? && req.minFraction.Some? ==> r.value.minFraction == req.minFraction.value
    ensures r.Some? && req.minFraction.None? ==> r.value.minFraction == MinFractionDefault(style, cDigits)
    ensures r.Some? && req.maxFraction.Some? ==> r.value.maxFraction == req.maxFraction.value
    ensures r.Some? && req.maxFraction.None? ==>
      r.value.maxFraction == MaxFractionDefault(style, cDigits, r.value.minFraction)
  {
    ResolveDigitsWith(style, cDigits, req, true)
  }

  /** The options are rejected exactly when one that is given lies outside
      its range; the maximum fraction's range starts at the minimum. */
  lemma {:induction false} ResolveDigitsRejects(style: Style, cDigits: nat, req: DigitRequest)
    requires cDigits <= 20
    ensures var mnfd := if req.minFraction.Some? then req.minFraction.value else MinFractionDefault(style, cDigits);
      var mnsd := if req.minSignificant.Some? then req.minSignificant.value else 1;
      var sig := req.minSignificant.Some? || req.maxSignificant.Some?;
      ResolveDigits(style, cDigits, req).Some? <==>
        && (req.minInteger.Some? ==> 1 <= req.minInteger.value <= 21)
        && (req.minFraction.Some? ==> 0 <= req.minFraction.value <= 20)
        && (req.maxFraction.Some? ==> mnfd <= req.maxFraction.value <= 20)
        && (sig && req.minSignificant.Some? ==> 1 <= mnsd <= 21)
        && (sig && req.maxSignificant.Some? ==> mnsd <= req.maxSignificant.value <= 21)
  {
  }

  /** Without a maximum-fraction option, the source's slots have a maximum
      below the minimum whenever mnfd exceeds the style's default. */
  lemma {:induction false} MaxFractionBelowMinimum()
    ensures var req := DigitRequest(None, Some(5), None, None, None);
      && ResolveDigitsAsWritten(DecimalStyle, 0, req) == Some(DigitSlots(1, 5, 3, None))
      && ResolveDigits(DecimalStyle, 0, req) == Some(DigitSlots(1, 5, 5, None))
  {
  }

  // ---------------------------------------------------------------------
  // Decimal strings

  function Pow10(k: nat): (r: nat)
    ensures r >= 1
  {
    if k == 0 then 1 else 10 * Pow10(k - 1)
  }

  lemma {:induction false} Pow10Monotone(a: nat, b: nat)
    requires a <= b
    ensures Pow10(a) <= Pow10(b)
    decreases b
  {
    if a < b {
      Pow10Monotone(a, b - 1);
    }
  }

  predicate AllDigits(s: string) {
    forall i :: 0 <= i < |s| ==> IsDigit(s[i])
  }

  lemma {:induction false} DigitRoundTrip(c: char)
    requires IsDigit(c)
    ensures DigitChar(DigitValue(c)) == c
  {
    var d := DigitValue(c);
    assert d < 10;
    if d == 0 { assert c == '0'; } else if d == 1 { assert c == '1'; }
    else if d == 2 { assert c == '2'; } else if d == 3 { assert c == '3'; }
    else if d == 4 { assert c == '4'; } else if d == 5 { assert c == '5'; }
    else if d == 6 { assert c == '6'; } else if d == 7 { assert c == '7'; }
    else if d == 8 { assert c == '8'; } else { assert c == '9'; }
  }

  lemma {:induction false} AppendDigits(x: string, y: string)
    requires AllDigits(x) && AllDigits(y)
    ensures AllDigits(x + y)
  {
    var s := x + y;
    assert forall i :: |x| <= i < |s| ==> s[i] == y[i - |x|];
  }

  lemma {:induction false} ShiftDigit(a: nat, p: nat, b: nat, d: nat)
    ensures (a * p + b) * 10 + d == a * (10 * p) + (b * 10 + d)
  {
  }

  /** Digits to the right are worth one power of ten each. */
  lemma {:induction false} DecimalAppend(x: string, y: string)
    requires AllDigits(x) && AllDigits(y)
    ensures AllDigits(x + y)
    ensures DecimalValue(x + y) == DecimalValue(x) * Pow10(|y|) + DecimalValue(y)
    decreases |y|
  {
    AppendDigits(x, y);
    var s := x + y;
    if |y| == 0 {
      assert s == x;
    } else {
      var y' := y[..|y| - 1];
      AppendDigits(x, y');
      assert s[..|s| - 1] == x + y' && s[|s| - 1] == y[|y| - 1];
      DecimalAppend(x, y');
      ShiftDigit(DecimalValue(x), Pow10(|y'|), DecimalValue(y'), DigitValue(y[|y| - 1]));
    }
  }

  lemma {:induction false} DecimalBound(s: string)
    requires AllDigits(s)
    ensures DecimalValue(s) < Pow10(|s|)
    decreases |s|
  {
    if |s| > 0 {
      DecimalBound(s[..|s| - 1]);
    }
  }

  lemma {:induction false} DecimalZeros(k: nat)
    ensures AllDigits(Repeat('0', k)) && DecimalValue(Repeat('0', k)) == 0
    decreases k
  {
    if k > 0 {
      assert Repeat('0', k)[..k - 1] == Repeat('0', k - 1);
      DecimalZeros(k - 1);
    }
  }

  /** n / 10^f: the digits of n left of a point f places from the right. */
  function Shifted(n: nat, f: nat): nat
    decreases f
  {
    if f == 0 then n else Shifted(n / 10, f - 1)
  }

  /** n mod 10^f: the digits right of that point. */
  function Fraction(n: nat, f: nat): (r: nat)
    ensures r < Pow10(f)
    ensures n == Shifted(n, f) * Pow10(f) + r
    decreases f
  {
    if f == 0 then 0
    else
      var r' := Fraction(n / 10, f - 1);
      ShiftDigit(Shifted(n, f), Pow10(f - 1), r', n % 10);
      LastDigitBelow(r', Pow10(f - 1), n % 10);
      r' * 10 + n % 10
  }

  lemma {:induction false} LastDigitBelow(r: nat, p: nat, d: nat)
    requires r < p && d < 10
    ensures r * 10 + d < 10 * p
  {
  }

  /** Any split of n at 10^f into a quotient and a smaller remainder is
      (Shifted, Fraction). */
  lemma {:induction false} ShiftedUnique(n: nat, f: nat, x: nat, z: nat)
    requires n == Pow10(f) * x + z && z < Pow10(f)
    ensures Shifted(n, f) == x && Fraction(n, f) == z
  {
    var p, q, r := Pow10(f), Shifted(n, f), Fraction(n, f);
    assert n == p * q + r by {
      assert q * p == p * q;
    }
    DivModUnique(n, p, q, r);
    DivModUnique(n, p, x, z);
  }

  /** The w-digit numeral of v mod 10^w, with leading zeros. */
  function FixedWidth(v: nat, w: nat): (s: string)
    ensures |s| == w && AllDigits(s)
    decreases w
  {
    if w == 0 then "" else FixedWidth(v / 10, w - 1) + [DigitChar(v % 10)]
  }

  /** The remainder by 10^(w+1) splits into the last digit and the rest. */
  lemma {:induction false} ModPow10(v: nat, w: nat)
    ensures v % Pow10(w + 1) == (v / 10) % Pow10(w) * 10 + v % 10
  {
    var p := Pow10(w);
    var q, r1 := (v / 10) / p, (v / 10) % p;
    assert v / 10 == p * q + r1;
    assert v == 10 * (v / 10) + v % 10;
    assert v == (10 * p) * q + (r1 * 10 + v % 10);
    assert r1 * 10 + v % 10 < 10 * p;
    DivModUnique(v, 10 * p, q, r1 * 10 + v % 10);
  }

  lemma {:induction false} FixedWidthValue(v: nat, w: nat)
    ensures DecimalValue(FixedWidth(v, w)) == v % Pow10(w)
    decreases w
  {
    if w > 0 {
      var s := FixedWidth(v, w);
      assert s[..|s| - 1] == FixedWidth(v / 10, w - 1);
      FixedWidthValue(v / 10, w - 1);
      ModPow10(v, w - 1);
    }
  }

  /** A string of digits is the fixed-width numeral of its own value. */
  lemma {:induction false} FixedWidthUnique(s: string)
    requires AllDigits(s)
    ensures s == FixedWidth(DecimalValue(s), |s|)
    decreases |s|
  {
    if |s| > 0 {
      var s', c := s[..|s| - 1], s[|s| - 1];
      var v := DecimalValue(s);
      DivModUnique(v, 10, DecimalValue(s'), DigitValue(c));
      FixedWidthUnique(s');
      DigitRoundTrip(c);
      assert s == s' + [c];
    }
  }

  lemma {:induction false} LeadingNonzero(s: string)
    requires AllDigits(s) && |s| >= 1 && s[0] != '0'
    ensures DecimalValue(s) >= 1
    decreases |s|
  {
    if |s| > 1 {
      LeadingNonzero(s[..|s| - 1]);
    }
  }

  /** A numeral without a leading zero (or "0" itself) is the shortest
      numeral of its value. */
  lemma {:induction false} CanonicalUnique(s: string)
    requires AllDigits(s) && |s| >= 1 && (|s| > 1 ==> s[0] != '0')
    ensures s == NatToDecimal(DecimalValue(s))
    decreases |s|
  {
    var v := DecimalValue(s);
    var c := s[|s| - 1];
    DigitRoundTrip(c);
    if |s| == 1 {
      assert s == [c];
    } else {
      var s' := s[..|s| - 1];
      assert s'[0] == s[0];
      LeadingNonzero(s');
      DivModUnique(v, 10, DecimalValue(s'), DigitValue(c));
      CanonicalUnique(s');
      assert s == s' + [c];
    }
  }

  // ---------------------------------------------------------------------
  // ToRawFixed

  /** Step 4: pad the digits to more than f, then split off the last f. */
  function SplitPoint(m: string, f: nat): (r: (string, string))
    requires f > 0 && |m| >= 1
    ensures |r.1| == f && |r.0| >= 1
    ensures r.0 + r.1 == (if |m| <= f then Repeat('0', f + 1 - |m|) + m else m)
  {
    var padded := if |m| <= f then Repeat('0', f + 1 - |m|) + m else m;
    var k := |padded|;
    assert padded == padded[..k - f] + padded[k - f..];
    (padded[..k - f], padded[k - f..])
  }

  /** Step 7: drop trailing '0's, at most cut of them. */
  function TrimZeros(m: string, cut: int): (r: string)
    ensures |r| <= |m| && r == m[..|r|]
    ensures forall j :: |r| <= j < |m| ==> m[j] == '0'
    ensures |m| - |r| <= Max(cut, 0)
    ensures |m| - |r| < Max(cut, 0) ==> |r| == 0 || r[|r| - 1] != '0'
    decreases |m|
  {
    if cut > 0 && |m| > 0 && m[|m| - 1] == '0' then TrimZeros(m[..|m| - 1], cut - 1) else m
  }

  /** Step 8: drop one trailing '.'. */
  function DropPoint(m: string): (r: string)
    ensures |m| > 0 && m[|m| - 1] == '.' ==> r == m[..|m| - 1]
    ensures !(|m| > 0 && m[|m| - 1] == '.') ==> r == m
  {
    if |m| > 0 && m[|m| - 1] == '.' then m[..|m| - 1] else m
  }

  /** Steps 3 to 8: the numeral before integer padding, and the length i of
      its integer part. */
  function Unpadded(n: nat, minFraction: nat, maxFraction: nat): (u: (string, nat))
    ensures u.1 == |NatToDecimal(Shifted(n, maxFraction))|
  {
    var m := NatToDecimal(n);
    if maxFraction != 0 then
      var ab := SplitPoint(m, maxFraction);
      SplitPointValues(n, maxFraction);
      (DropPoint(TrimZeros(ab.0 + "." + ab.1, maxFraction - minFraction)), |ab.0|)
    else
      assert Shifted(n, 0) == n;
      (DropPoint(TrimZeros(m, maxFraction - minFraction)), |m|)
  }

  /** r is m with zeros put in front, so that the integer part, i digits
      long in m, is w digits long in r. */
  predicate ZeroPadded(r: string, m: string, i: nat, w: int) {
    && i <= w && |r| == |m| + (w - i)
    && r[w - i..] == m
    && forall k :: 0 <= k < w - i ==> r[k] == '0'
  }

  /** ToRawFixed as written: a short integer part gets minInteger zeros. */
  function ToRawFixedAsWritten(n: nat, minInteger: nat, minFraction: nat, maxFraction: nat): (r: string)
    ensures var i := |NatToDecimal(Shifted(n, maxFraction))|;
      ZeroPadded(r, Unpadded(n, minFraction, maxFraction).0, i, if i < minInteger then i + minInteger else i)
  {
    PadIntegerAsWritten(Unpadded(n, minFraction, maxFraction), minInteger)
  }

  /** ToRawFixed with the integer part padded up to minInteger digits. */
  function ToRawFixed(n: nat, minInteger: nat, minFraction: nat, maxFraction: nat): (r: string)
    ensures var i := |NatToDecimal(Shifted(n, maxFraction))|;
      ZeroPadded(r, Unpadded(n, minFraction, maxFraction).0, i, Max(i, minInteger))
  {
    PadInteger(Unpadded(n, minFraction, maxFraction), minInteger)
  }

  /** Step 9 as written, on a numeral m whose integer part has i digits. */
  function PadIntegerAsWritten(u: (string, nat), minInteger: nat): (r: string)
    ensures ZeroPadded(r, u.0, u.1, if u.1 < minInteger then u.1 + minInteger else u.1)
  {
    if u.1 < minInteger then Repeat('0', minInteger) + u.0 else u.0
  }

  /** Step 9: zeros in front until the integer part has minInteger digits. */
  function PadInteger(u: (string, nat), minInteger: nat): (r: string)
    ensures ZeroPadded(r, u.0, u.1, Max(u.1, minInteger))
  {
    if u.1 < minInteger then Repeat('0', minInteger - u.1) + u.0 else u.0
  }

  /** The as-written step 9 puts i zeros more in front than the intended one. */
  lemma PadIntegerExtra(u: (string, nat), minInteger: nat)
    requires u.1 < minInteger
    ensures PadIntegerAsWritten(u, minInteger) == Repeat('0', u.1) + PadInteger(u, minInteger)
  {
    RepeatSplit('0', u.1, minInteger - u.1);
  }

  /** A numeral from its integer and fraction digits. */
  function Text(ip: string, fp: string): string {
    if fp == "" then ip else ip + "." + fp
  }

  function PadLeft(s: string, w: nat): (r: string)
    ensures |r| == Max(|s|, w)
  {
    if |s| < w then Repeat('0', w - |s|) + s else s
  }

  /** The fixed-point numeral of n / 10^maxFraction by arithmetic: the
      quotient's shortest numeral padded to minInteger digits, then the
      remainder's maxFraction digits with up to maxFraction - minFraction
      trailing zeros removed. */
  function FixedReference(n: nat, minInteger: nat, minFraction: nat, maxFraction: nat): (r: string)
    ensures var w := Max(minInteger, |NatToDecimal(Shifted(n, maxFraction))|);
      && w <= |r| && AllDigits(r[..w]) && DecimalValue(r[..w]) == Shifted(n, maxFraction)
      && (w < |r| ==> r[w] == '.')
  {
    var ip := NatToDecimal(Shifted(n, maxFraction));
    var fp := TrimZeros(FixedWidth(Fraction(n, maxFraction), maxFraction), maxFraction - minFraction);
    var p := PadLeft(ip, minInteger);
    assert AllDigits(p) && DecimalValue(p) == Shifted(n, maxFraction) by {
      DecimalRoundTrip(Shifted(n, maxFraction));
      if |ip| < minInteger {
        PaddedValue(ip, minInteger - |ip|);
      }
    }
    var r := Text(p, fp);
    assert r[..|p|] == p;
    r
  }

  /** Leading zeros add nothing to a numeral's value. */
  lemma {:induction false} PaddedValue(m: string, z: nat)
    requires AllDigits(m)
    ensures AllDigits(Repeat('0', z) + m) && DecimalValue(Repeat('0', z) + m) == DecimalValue(m)
  {
    DecimalZeros(z);
    DecimalAppend(Repeat('0', z), m);
  }

  /** Splitting off the last f digits divides the value by 10^f. */
  lemma {:induction false} SplitValues(a: string, b: string, n: nat, f: nat)
    requires AllDigits(a) && AllDigits(b) && |b| == f && DecimalValue(a + b) == n
    ensures DecimalValue(a) == Shifted(n, f)
    ensures b == FixedWidth(Fraction(n, f), f)
  {
    var x, z, p := DecimalValue(a), DecimalValue(b), Pow10(f);
    assert n == p * x + z && z < p by {
      DecimalAppend(a, b);
      DecimalBound(b);
      assert n == x * p + z;
    }
    ShiftedUnique(n, f, x, z);
    FixedWidthUnique(b);
  }

  lemma {:induction false} PartsDigits(s: string, k: nat)
    requires AllDigits(s) && k <= |s|
    ensures AllDigits(s[..k]) && AllDigits(s[k..])
  {
    assert forall i :: 0 <= i < k ==> s[..k][i] == s[i];
    assert forall i :: 0 <= i < |s| - k ==> s[k..][i] == s[k + i];
  }

  /** The integer part of step 4's split is a shortest numeral. */
  lemma {:induction false} SplitHeadCanonical(n: nat, f: nat)
    requires f > 0
    ensures var a := SplitPoint(NatToDecimal(n), f).0;
      |a| > 1 ==> a[0] != '0'
  {
    var m := NatToDecimal(n);
    var a := SplitPoint(m, f).0;
    if |m| <= f {
      var z := Repeat('0', f + 1 - |m|);
      assert a == (z + m)[..1 + |m| - |m|];
    } else {
      assert a == m[..|m| - f];
      assert a[0] == m[0];
    }
  }

  /** Step 4's split, before the point, has the numeral's value. */
  lemma {:induction false} SplitPointDigits(n: nat, f: nat)
    requires f > 0
    ensures var ab := SplitPoint(NatToDecimal(n), f);
      AllDigits(ab.0) && AllDigits(ab.1) && DecimalValue(ab.0 + ab.1) == n
  {
    var m := NatToDecimal(n);
    var ab := SplitPoint(m, f);
    DecimalRoundTrip(n);
    var padded := ab.0 + ab.1;
    if |m| <= f {
      PaddedValue(m, f + 1 - |m|);
    }
    assert ab.0 == padded[..|ab.0|] && ab.1 == padded[|ab.0|..];
    PartsDigits(padded, |ab.0|);
  }

  /** Step 4's split is the quotient's numeral and the remainder's digits. */
  lemma {:induction false} SplitPointValues(n: nat, f: nat)
    requires f > 0
    ensures SplitPoint(NatToDecimal(n), f).0 == NatToDecimal(Shifted(n, f))
    ensures SplitPoint(NatToDecimal(n), f).1 == FixedWidth(Fraction(n, f), f)
  {
    var ab := SplitPoint(NatToDecimal(n), f);
    var a, b := ab.0, ab.1;
    SplitPointDigits(n, f);
    SplitValues(a, b, n, f);
    SplitHeadCanonical(n, f);
    CanonicalUnique(a);
    var q := Shifted(n, f);
    assert DecimalValue(a) == q;
    assert a == NatToDecimal(q);

  }

  /** Trimming after the point never reaches it. */
  lemma {:induction false} TrimAfterPoint(a: string, b: string, cut: int)
    requires AllDigits(b)
    ensures TrimZeros(a + "." + b, cut) == a + "." + TrimZeros(b, cut)
    decreases |b|
  {
    var s := a + "." + b;
    if cut > 0 && |b| > 0 && b[|b| - 1] == '0' {
      assert s[..|s| - 1] == a + "." + b[..|b| - 1];
      TrimAfterPoint(a, b[..|b| - 1], cut - 1);
    } else if |b| == 0 {
      assert s[|s| - 1] == '.';
    } else {
      assert s[|s| - 1] == b[|b| - 1];
    }
  }

  lemma {:induction false} DropPointText(a: string, t: string)
    requires |a| >= 1 && AllDigits(t)
    ensures DropPoint(a + "." + t) == Text(a, t)
  {
    var s := a + "." + t;
    if t == "" {
      assert s[..|s| - 1] == a;
    } else {
      assert s[|s| - 1] == t[|t| - 1];
    }
  }

  /** Steps 3 to 8 produce the reference numeral's integer and fraction
      digits, before padding. */
  lemma {:induction false} UnpaddedText(n: nat, minFraction: nat, maxFraction: nat)
    ensures var ip := NatToDecimal(Shifted(n, maxFraction));
      var fp := TrimZeros(FixedWidth(Fraction(n, maxFraction), maxFraction), maxFraction - minFraction);
      Unpadded(n, minFraction, maxFraction) == (Text(ip, fp), |ip|)
  {
    if maxFraction != 0 {
      UnpaddedSplitText(n, minFraction, maxFraction);
      SplitPointValues(n, maxFraction);
    } else {
      var m := NatToDecimal(n);
      assert FixedWidth(Fraction(n, 0), 0) == "";
      assert Shifted(n, 0) == n;
      assert m[|m| - 1] != '.';
    }
  }

  /** With a fraction, steps 3 to 8 join step 4's two parts, the second
      trimmed. */
  lemma {:induction false} UnpaddedSplitText(n: nat, minFraction: nat, maxFraction: nat)
    requires maxFraction != 0
    ensures var ab := SplitPoint(NatToDecimal(n), maxFraction);
      Unpadded(n, minFraction, maxFraction) == (Text(ab.0, TrimZeros(ab.1, maxFraction - minFraction)), |ab.0|)
  {
    var ab := SplitPoint(NatToDecimal(n), maxFraction);
    SplitPointDigits(n, maxFraction);
    TrimAfterPoint(ab.0, ab.1, maxFraction - minFraction);
    var t := TrimZeros(ab.1, maxFraction - minFraction);
    PrefixDigits(ab.1, |t|);
    DropPointText(ab.0, t);
  }

  lemma {:induction false} PrefixDigits(s: string, k: nat)
    requires AllDigits(s) && k <= |s|
    ensures AllDigits(s[..k])
  {
    assert forall i :: 0 <= i < k ==> s[..k][i] == s[i];
  }

  /** ToRawFixed assembles exactly the arithmetic reference numeral. */
  lemma {:induction false} ToRawFixedMatchesReference(n: nat, minInteger: nat, minFraction: nat, maxFraction: nat)
    ensures ToRawFixed(n, minInteger, minFraction, maxFraction) == FixedReference(n, minInteger, minFraction, maxFraction)
  {
    UnpaddedText(n, minFraction, maxFraction);
    var ip := NatToDecimal(Shifted(n, maxFraction));
    var fp := TrimZeros(FixedWidth(Fraction(n, maxFraction), maxFraction), maxFraction - minFraction);
    var u := Unpadded(n, minFraction, maxFraction);
    assert u == (Text(ip, fp), |ip|);
    PadText(ip, fp, minInteger);
    assert ToRawFixed(n, minInteger, minFraction, maxFraction) == PadInteger(u, minInteger);
    assert FixedReference(n, minInteger, minFraction, maxFraction) == Text(PadLeft(ip, minInteger), fp);
  }

  /** Padding the whole numeral by its integer count pads the integer
      digits alone. */
  lemma {:induction false} PadText(ip: string, fp: string, minInteger: nat)
    ensures PadInteger((Text(ip, fp), |ip|), minInteger) == Text(PadLeft(ip, minInteger), fp)
  {
    if |ip| < minInteger {
      var z := Repeat('0', minInteger - |ip|);
      assert PadLeft(ip, minInteger) == z + ip;
      if fp != "" {
        JoinAssoc(z, ip, fp);
      }
    }
  }

  lemma JoinAssoc(z: string, ip: string, fp: string)
    ensures z + (ip + "." + fp) == (z + ip) + "." + fp
  {
  }

  /** The source's padding adds i zeros too many whenever the integer part
      is shorter than minInteger. */
  lemma {:induction false} AsWrittenPadsExtra(n: nat, minInteger: nat, minFraction: nat, maxFraction: nat)
    requires |NatToDecimal(Shifted(n, maxFraction))| < minInteger
    ensures var i := |NatToDecimal(Shifted(n, maxFraction))|;
      ToRawFixedAsWritten(n, minInteger, minFraction, maxFraction)
        == Repeat('0', i) + ToRawFixed(n, minInteger, minFraction, maxFraction)
  {
    PadIntegerExtra(Unpadded(n, minFraction, maxFraction), minInteger);
  }

  /** 5 with minInteger 3 is written "0005" where "005" is meant. */
  lemma {:induction false} MinIntegerOverPads()
    ensures ToRawFixedAsWritten(5, 3, 0, 0) == "0005"
    ensures ToRawFixed(5, 3, 0, 0) == "005"
  {
    assert NatToDecimal(5) == "5";
    assert Unpadded(5, 0, 0) == ("5", 1);
    assert Repeat('0', 3) == "000" && Repeat('0', 2) == "00";
  }
}

=== FILE: intl_pattern.dfy ===
/** Intl.DateTimeFormat's pattern kernels: reading the fields an ICU date
    pattern sets (the date field symbols of Unicode Technical Standard
    #35, Part 4, section 8), building the skeleton asked of ICU from the
    resolved options, and the BCP 47 renaming of ICU calendar names.

    A property bag is a map from property name to value; an absent name is
    undefined. */
module DatePattern {
  import opened Common

  datatype Opt = OStr(s: string) | OBool(b: bool)

  type Props = map<string, Opt>

  // ---------------------------------------------------------------------
  // Field symbols

  /** The properties a pattern can set: the nine fields and hour12. */
  const FIELD_PROPS: set<string> :=
    {"weekday", "era", "year", "month", "day", "hour", "minute", "second", "timeZoneName", "hour12"}

  /** The property a pattern letter sets, if any. */
  function FieldOf(c: char): (f: Option<string>)
    ensures f.Some? ==> WidthOf(c, 1) != ""
    ensures f.Some? ==> f.value in FIELD_PROPS && f.value != "hour12"
  {
    if c == 'E' then Some("weekday")
    else if c == 'G' then Some("era")
    else if c == 'y' then Some("year")
    else if c == 'M' || c == 'L' then Some("month")
    else if c == 'd' then Some("day")
    else if c == 'h' || c == 'H' || c == 'k' || c == 'K' then Some("hour")
    else if c == 'm' then Some("minute")
    else if c == 's' then Some("second")
    else if c == 'z' || c == 'v' || c == 'V' then Some("timeZoneName")
    else None
  }

  /** Text widths: up to 3 letters short, 4 long, 5 or more narrow. */
  function NameWidth(count: nat): (v: string)
    ensures v == "short" <==> count <= 3
    ensures v == "long" <==> count == 4
    ensures v == "narrow" <==> count >= 5
  {
    if count <= 3 then "short" else if count == 4 then "long" else "narrow"
  }

  /** Numeric widths: exactly 2 letters is 2-digit, anything else numeric. */
  function NumberWidth(count: nat): (v: string)
    ensures v == "2-digit" <==> count == 2
    ensures v == "numeric" <==> count != 2
  {
    if count == 2 then "2-digit" else "numeric"
  }

  /** Month widths: 1 numeric, 2 2-digit, 3 short, 4 long, 5 or more narrow. */
  function MonthWidth(count: nat): (v: string)
    requires count >= 1
    ensures v == "numeric" <==> count == 1
    ensures v == "2-digit" <==> count == 2
    ensures v == "short" <==> count == 3
    ensures v == "long" <==> count == 4
    ensures v == "narrow" <==> count >= 5
  {
    if count == 1 then "numeric" else if count == 2 then "2-digit"
    else if count == 3 then "short" else if count == 4 then "long" else "narrow"
  }

  /** The value a run of `count` letters c gives its property. */
  function WidthOf(c: char, count: nat): string
    requires count >= 1
  {
    if c == 'G' || c == 'E' || c == 'z' || c == 'v' || c == 'V' then NameWidth(count)
    else if c == 'y' || c == 'd' || c == 'h' || c == 'H' || c == 'm' || c == 's' || c == 'k' || c == 'K'
    then NumberWidth(count)
    else if c == 'M' || c == 'L' then MonthWidth(count)
    else ""
  }

  /** h and K are 12-hour letters, H and k 24-hour ones. */
  function Hour12Of(c: char): (r: Option<bool>)
    ensures r == Some(true) <==> c == 'h' || c == 'K'
    ensures r == Some(false) <==> c == 'H' || c == 'k'
  {
    if c == 'h' || c == 'K' then Some(true)
    else if c == 'H' || c == 'k' then Some(false)
    else None
  }

  /** The effect of one run of letters on the format's properties. */
  function ApplyRun(fmt: Props, c: char, count: nat): (r: Props)
    requires count >= 1
    ensures FieldOf(c).Some? ==> FieldOf(c).value in r && r[FieldOf(c).value] == OStr(WidthOf(c, count))
    ensures Hour12Of(c).Some? ==> "hour12" in r && r["hour12"] == OBool(Hour12Of(c).value)
    ensures forall k :: k != "hour12" && FieldOf(c) != Some(k) ==> (k in r <==> k in fmt)
    ensures forall k :: k in fmt && k != "hour12" && FieldOf(c) != Some(k) ==> r[k] == fmt[k]
    ensures Hour12Of(c).None? ==> ("hour12" in r <==> "hour12" in fmt)
    ensures Hour12Of(c).None? && "hour12" in fmt ==> r["hour12"] == fmt["hour12"]
  {
    var f1 := if FieldOf(c).Some? then fmt[FieldOf(c).value := OStr(WidthOf(c, count))] else fmt;
    if Hour12Of(c).Some? then f1["hour12" := OBool(Hour12Of(c).value)] else f1
  }

  // ---------------------------------------------------------------------
  // ResolveICUPattern

  /** The length of the run of equal letters at the start of s. */
  function RunLength(s: string): (n: nat)
    requires |s| > 0
    ensures 1 <= n <= |s|
    ensures forall i :: 0 <= i < n ==> s[i] == s[0]
    ensures n < |s| ==> s[n] != s[0]
    decreases |s|
  {
    if |s| == 1 || s[1] != s[0] then 1
    else
      var m := RunLength(s[1..]);
      assert forall i :: 1 <= i < m + 1 ==> s[i] == s[1..][i - 1];
      m + 1
  }

  /** What follows the closing apostrophe (nothing when it is missing). */
  function AfterQuote(s: string): (r: string)
    ensures |r| <= |s|
    decreases |s|
  {
    if |s| == 0 then "" else if s[0] == '\'' then s[1..] else AfterQuote(s[1..])
  }

  /** ResolveICUPattern: quoted text is skipped, and every maximal run of
      one letter is one field, applied left to right. */
  function Resolve(pat: string, fmt: Props): (r: Props)
    ensures forall k :: k in fmt ==> k in r
    ensures forall k :: k in r && k !in fmt ==> k in FIELD_PROPS
    ensures forall k :: k in fmt && k !in FIELD_PROPS ==> r[k] == fmt[k]
    decreases |pat|
  {
    if |pat| == 0 then fmt
    else if pat[0] == '\'' then Resolve(AfterQuote(pat[1..]), fmt)
    else
      var n := RunLength(pat);
      Resolve(pat[n..], ApplyRun(fmt, pat[0], n))
  }

  lemma {:induction false} AfterQuoteOf(lit: string, rest: string)
    requires forall i :: 0 <= i < |lit| ==> lit[i] != '\''
    ensures AfterQuote(lit + "'" + rest) == rest
    decreases |lit|
  {
    if |lit| == 0 {
      assert lit + "'" + rest == "'" + rest;
    } else {
      assert (lit + "'" + rest)[1..] == lit[1..] + "'" + rest;
      AfterQuoteOf(lit[1..], rest);
    }
  }

  /** Text between apostrophes sets nothing. */
  lemma {:induction false} ResolveQuoted(lit: string, rest: string, fmt: Props)
    requires forall i :: 0 <= i < |lit| ==> lit[i] != '\''
    ensures Resolve("'" + lit + "'" + rest, fmt) == Resolve(rest, fmt)
  {
    var p := "'" + lit + "'" + rest;
    assert p[1..] == lit + "'" + rest;
    AfterQuoteOf(lit, rest);
  }

  lemma {:induction false} RunLengthOf(c: char, count: nat, rest: string)
    requires count >= 1 && (|rest| == 0 || rest[0] != c)
    ensures RunLength(Repeat(c, count) + rest) == count
  {
    var s := Repeat(c, count) + rest;
    var n := RunLength(s);
    assert s[0] == c;
    assert forall i :: 0 <= i < count ==> s[i] == c;
    assert count < |s| ==> s[count] == rest[0];
  }

  /** A maximal run of one letter is a single field. */
  lemma {:induction false} ResolveRun(c: char, count: nat, rest: string, fmt: Props)
    requires c != '\'' && count >= 1 && (|rest| == 0 || rest[0] != c)
    ensures Resolve(Repeat(c, count) + rest, fmt) == Resolve(rest, ApplyRun(fmt, c, count))
  {
    var s := Repeat(c, count) + rest;
    RunLengthOf(c, count, rest);
    assert s[0] == c;
    assert s[count..] == rest;
  }

  /** A letter that names no field sets nothing. */
  lemma {:induction false} OtherLetterSetsNothing(c: char, count: nat, fmt: Props)
    requires count >= 1 && FieldOf(c).None? && Hour12Of(c).None?
    ensures ApplyRun(fmt, c, count) == fmt
  {
  }

  // ---------------------------------------------------------------------
  // Runs

  /** A pattern given as its runs of letters. */
  function Pattern(runs: seq<(char, nat)>): (s: string)
    ensures (forall i :: 0 <= i < |runs| ==> runs[i].1 >= 1) && |runs| > 0 ==> |s| > 0 && s[0] == runs[0].0
    decreases |runs|
  {
    if |runs| == 0 then ""
    else
      var head := Repeat(runs[0].0, runs[0].1);
      assert runs[0].1 >= 1 ==> head[0] == runs[0].0;
      head + Pattern(runs[1..])
  }

  /** Apply a sequence of runs, left to right. */
  function ApplyRuns(fmt: Props, runs: seq<(char, nat)>): Props
    requires forall i :: 0 <= i < |runs| ==> runs[i].1 >= 1
    decreases |runs|
  {
    if |runs| == 0 then fmt else ApplyRuns(ApplyRun(fmt, runs[0].0, runs[0].1), runs[1..])
  }

  /** Runs that a pattern really splits into: no apostrophes, no empty run,
      and no two neighbours of the same letter. */
  ghost predicate SplitRuns(runs: seq<(char, nat)>) {
    && (forall i :: 0 <= i < |runs| ==> runs[i].1 >= 1 && runs[i].0 != '\'')
    && (forall i :: 0 < i < |runs| ==> runs[i - 1].0 != runs[i].0)
  }

  /** Reading a pattern back applies exactly its runs. */
  lemma {:induction false} ResolvePattern(runs: seq<(char, nat)>, fmt: Props)
    requires SplitRuns(runs)
    ensures Resolve(Pattern(runs), fmt) == ApplyRuns(fmt, runs)
    decreases |runs|
  {
    if |runs| > 0 {
      var rest := runs[1..];
      assert SplitRuns(rest) by {
        assert forall i :: 0 < i < |rest| ==> rest[i - 1] == runs[i] && rest[i] == runs[i + 1];
      }
      if |rest| > 0 {
        assert rest[0] == runs[1];
      }
      ResolveRun(runs[0].0, runs[0].1, Pattern(rest), fmt);
      ResolvePattern(rest, ApplyRun(fmt, runs[0].0, runs[0].1));
    }
  }

  // ---------------------------------------------------------------------
  // GetDateTimeStringSkeleton

  /** One property of the skeleton: its name, its letter, and the letter
      count for each value it recognises. */
  datatype Part = Part(prop: string, letter: char, table: seq<(string, nat)>)

  /** The letter count for v, or 0 when the part does not recognise it. */
  function CountFor(table: seq<(string, nat)>, v: string): nat
    decreases |table|
  {
    if |table| == 0 then 0 else if table[0].0 == v then table[0].1 else CountFor(table[1..], v)
  }

  /** The skeleton's parts in their fixed order; hc is the hour letter. */
  function Parts(hc: char): (ps: seq<Part>)
    ensures |ps| == 9 && forall i :: 0 <= i < 9 ==> ps[i] == PartAt(hc, i)
  {
    seq(9, i requires 0 <= i < 9 => PartAt(hc, i))
  }

  /** Entry i of the skeleton table. */
  function PartAt(hc: char, i: nat): Part {
    if i == 0 then Part("weekday", 'E', [("narrow", 5), ("short", 1), ("long", 4)])
    else if i == 1 then Part("era", 'G', [("narrow", 5), ("short", 1), ("long", 4)])
    else if i == 2 then Part("year", 'y', [("2-digit", 2), ("numeric", 1)])
    else if i == 3 then Part("month", 'M', [("2-digit", 2), ("numeric", 1), ("narrow", 5), ("short", 3), ("long", 4)])
    else if i == 4 then Part("day", 'd', [("2-digit", 2), ("numeric", 1)])
    else if i == 5 then Part("hour", hc, [("2-digit", 2), ("numeric", 1)])
    else if i == 6 then Part("minute", 'm', [("2-digit", 2), ("numeric", 1)])
    else if i == 7 then Part("second", 's', [("2-digit", 2), ("numeric", 1)])
    else Part("timeZoneName", 'z', [("short", 1), ("long", 4)])
  }

  /** The run a part contributes: none unless the option is a string the
      part recognises. */
  function PartRuns(opts: Props, p: Part): (r: seq<(char, nat)>)
    ensures |r| <= 1
    ensures |r| == 1 <==> p.prop in opts && opts[p.prop].OStr? && CountFor(p.table, opts[p.prop].s) > 0
    ensures |r| == 1 ==> r[0] == (p.letter, CountFor(p.table, opts[p.prop].s))
  {
    if p.prop in opts && opts[p.prop].OStr? && CountFor(p.table, opts[p.prop].s) > 0
    then [(p.letter, CountFor(p.table, opts[p.prop].s))]
    else []
  }

  function PartsRuns(opts: Props, ps: seq<Part>): seq<(char, nat)>
    decreases |ps|
  {
    if |ps| == 0 then [] else PartRuns(opts, ps[0]) + PartsRuns(opts, ps[1..])
  }

  /** The hour letter as the source picks it: the hour12 option is only
      consulted when it is a string, and is then read as a boolean. */
  function HourLetterAsWritten(opts: Props): (c: char)
    ensures c in "jhH"
    ensures !("hour12" in opts && opts["hour12"].OStr?) ==> c == 'j'
  {
    if "hour12" in opts && opts["hour12"].OStr?
    then (if |opts["hour12"].s| > 0 then 'h' else 'H')
    else 'j'
  }

  /** The hour letter for the boolean hour12 option the constructor reads:
      h for true, H for false, j (the locale's choice) when it is absent. */
  function HourLetter(opts: Props): (c: char)
    ensures c in "jhH"
    ensures "hour12" in opts && opts["hour12"] == OBool(true) ==> c == 'h'
    ensures "hour12" in opts && opts["hour12"] == OBool(false) ==> c == 'H'
    ensures !("hour12" in opts && opts["hour12"].OBool?) ==> c == 'j'
  {
    if "hour12" in opts && opts["hour12"].OBool?
    then (if opts["hour12"].b then 'h' else 'H')
    else 'j'
  }

  /** GetDateTimeStringSkeleton as written. */
  function SkeletonAsWritten(opts: Props): (s: string)
    ensures forall i :: 0 <= i < |s| ==> s[i] in LettersOf(Parts(HourLetterAsWritten(opts)))
  {
    var hc := HourLetterAsWritten(opts);
    PartsLetters(opts, hc);
    Pattern(PartsRuns(opts, Parts(hc)))
  }

  /** The skeleton with the hour letter taken from the boolean option. */
  function Skeleton(opts: Props): (s: string)
    ensures forall i :: 0 <= i < |s| ==> s[i] in LettersOf(Parts(HourLetter(opts)))
  {
    var hc := HourLetter(opts);
    PartsLetters(opts, hc);
    Pattern(PartsRuns(opts, Parts(hc)))
  }

  /** The skeleton for hour letter hc is spelled with the parts' letters. */
  lemma PartsLetters(opts: Props, hc: char)
    requires hc in "jhH"
    ensures forall i :: 0 <= i < |Pattern(PartsRuns(opts, Parts(hc)))| ==>
      Pattern(PartsRuns(opts, Parts(hc)))[i] in LettersOf(Parts(hc))
  {
    PartsOfAgree(hc);
    PartsRunsSplit(opts, Parts(hc));
    PatternLetters(PartsRuns(opts, Parts(hc)), LettersOf(Parts(hc)));
  }

  /** A pattern is spelled with the letters of its runs. */
  lemma {:induction false} PatternLetters(runs: seq<(char, nat)>, letters: set<char>)
    requires forall j :: 0 <= j < |runs| ==> runs[j].0 in letters
    ensures forall i :: 0 <= i < |Pattern(runs)| ==> Pattern(runs)[i] in letters
    decreases |runs|
  {
    if |runs| > 0 {
      assert forall j :: 0 <= j < |runs| - 1 ==> runs[1..][j] == runs[j + 1];
      PatternLetters(runs[1..], letters);
      var head := Repeat(runs[0].0, runs[0].1);
      assert Pattern(runs) == head + Pattern(runs[1..]);
    }
  }

  lemma {:induction false} PartsRunsAppend(opts: Props, x: seq<Part>, y: seq<Part>)
    ensures PartsRuns(opts, x + y) == PartsRuns(opts, x) + PartsRuns(opts, y)
    decreases |x|
  {
    if |x| == 0 {
      assert x + y == y;
    } else {
      assert (x + y)[0] == x[0] && (x + y)[1..] == x[1..] + y;
      PartsRunsAppend(opts, x[1..], y);
    }
  }

  /** Parts whose options are all absent contribute nothing. */
  lemma {:induction false} PartsRunsAbsent(opts: Props, ps: seq<Part>)
    requires forall i :: 0 <= i < |ps| ==> ps[i].prop !in opts
    ensures PartsRuns(opts, ps) == []
    decreases |ps|
  {
    if |ps| > 0 {
      assert forall i :: 0 <= i < |ps[1..]| ==> ps[1..][i] == ps[i + 1];
      PartsRunsAbsent(opts, ps[1..]);
    }
  }

  /** With only the hour option present, the skeleton is the hour letter. */
  lemma {:induction false} HourOnlySkeleton(hc: char, opts: Props)
    requires opts.Keys == {"hour", "hour12"} && opts["hour"] == OStr("numeric")
    ensures PartsRuns(opts, Parts(hc)) == [(hc, 1)]
  {
    var ps := Parts(hc);
    forall i | 0 <= i < |ps| && i != 5
      ensures ps[i].prop !in opts
    {
      PropRankAt(hc, i);
    }
    PartsRunsOnly(opts, ps, 5);
    assert PartAt(hc, 5).table == [("2-digit", 2), ("numeric", 1)];
  }

  /** Each entry's property has its position as rank. */
  lemma {:induction false} PropRankAt(hc: char, i: nat)
    requires i < 9
    ensures PropRank(PartAt(hc, i).prop) == i
    ensures i != 5 ==> PartAt(hc, i).prop != "hour" && PartAt(hc, i).prop != "hour12"
  {
  }

  /** When only part k's option is present, only part k contributes. */
  lemma {:induction false} PartsRunsOnly(opts: Props, ps: seq<Part>, k: nat)
    requires k < |ps|
    requires forall i :: 0 <= i < |ps| && i != k ==> ps[i].prop !in opts
    ensures PartsRuns(opts, ps) == PartRuns(opts, ps[k])
  {
    var front, back := ps[..k], ps[k + 1..];
    assert ps == front + [ps[k]] + back;
    assert forall i :: 0 <= i < |front| ==> front[i] == ps[i];
    assert forall i :: 0 <= i < |back| ==> back[i] == ps[i + k + 1];
    PartsRunsAbsent(opts, front);
    PartsRunsAbsent(opts, back);
    PartsRunsAppend(opts, front + [ps[k]], back);
    PartsRunsAppend(opts, front, [ps[k]]);
    assert PartsRuns(opts, [ps[k]]) == PartRuns(opts, ps[k]) + PartsRuns(opts, []);
  }

  /** With a boolean hour12 the source's skeleton leaves the hour letter to
      the locale, where the option asks for a 24-hour clock. */
  lemma {:induction false} SkeletonIgnoresBooleanHour12()
    ensures var opts := map["hour" := OStr("numeric"), "hour12" := OBool(false)];
      SkeletonAsWritten(opts) == "j" && Skeleton(opts) == "H"
  {
    var opts := map["hour" := OStr("numeric"), "hour12" := OBool(false)];
    assert opts.Keys == {"hour", "hour12"};
    assert HourLetterAsWritten(opts) == 'j' && HourLetter(opts) == 'H';
    assert SkeletonAsWritten(opts) == "j" by {
      HourOnlySkeleton('j', opts);
      SingleRunPattern('j');
    }
    assert Skeleton(opts) == "H" by {
      HourOnlySkeleton('H', opts);
      SingleRunPattern('H');
    }
  }

  lemma {:induction false} SingleRunPattern(c: char)
    ensures Pattern([(c, 1)]) == [c]
  {
    assert [(c, 1)][1..] == [];
    assert Repeat(c, 1) == [c];
  }

  /** The parts' properties and letters are distinct, at most one letter
      sets hour12, each letter sets its own part's property or nothing,
      and each count reads back as its value. */
  ghost predicate PartsAgree(ps: seq<Part>) {
    && (forall i, j :: 0 <= i < j < |ps| ==> ps[i].prop != ps[j].prop && ps[i].letter != ps[j].letter)
    && (forall i, j :: 0 <= i < j < |ps| && Hour12Of(ps[i].letter).Some? ==> Hour12Of(ps[j].letter).None?)
    && (forall i :: 0 <= i < |ps| ==> PartAgrees(ps[i]))
  }

  lemma {:induction false} PartsAgreeTail(ps: seq<Part>)
    requires PartsAgree(ps) && |ps| > 0
    ensures PartsAgree(ps[1..])
  {
    var tail := ps[1..];
    assert forall i :: 0 <= i < |tail| ==> tail[i] == ps[i + 1];
  }

  /** Every count of a table reads back as its value. */
  lemma {:induction false} TableReadsBack(letter: char, table: seq<(string, nat)>, v: string)
    requires forall k :: 0 <= k < |table| ==> table[k].1 >= 1 && WidthOf(letter, table[k].1) == table[k].0
    requires CountFor(table, v) > 0
    ensures WidthOf(letter, CountFor(table, v)) == v
    decreases |table|
  {
    if table[0].0 != v {
      TableReadsBack(letter, table[1..], v);
    }
  }

  /** The position of each part's property in Parts. */
  function PropRank(prop: string): nat {
    if prop == "weekday" then 0 else if prop == "era" then 1
    else if prop == "year" then 2 else if prop == "month" then 3
    else if prop == "day" then 4 else if prop == "hour" then 5
    else if prop == "minute" then 6 else if prop == "second" then 7
    else if prop == "timeZoneName" then 8 else 9
  }

  /** The position of each part's letter in Parts. */
  function LetterRank(c: char): nat {
    if c == 'E' then 0 else if c == 'G' then 1 else if c == 'y' then 2
    else if c == 'M' then 3 else if c == 'd' then 4 else if c == 'j' || c == 'h' || c == 'H' then 5
    else if c == 'm' then 6 else if c == 's' then 7 else 8
  }

  /** One part agrees with its letter and its table reads back. */
  ghost predicate PartAgrees(p: Part) {
    && p.letter != '\'' && p.prop != "hour12"
    && (FieldOf(p.letter) == Some(p.prop) || (FieldOf(p.letter).None? && Hour12Of(p.letter).None?))
    && (FieldOf(p.letter).Some? ==> forall v :: CountFor(p.table, v) > 0 ==> WidthOf(p.letter, CountFor(p.table, v)) == v)
  }

  lemma {:induction false} PartAgreesOf(p: Part)
    requires p.letter != '\'' && p.prop != "hour12"
    requires FieldOf(p.letter) == Some(p.prop) || (FieldOf(p.letter).None? && Hour12Of(p.letter).None?)
    requires FieldOf(p.letter).Some? ==>
      forall k :: 0 <= k < |p.table| ==> p.table[k].1 >= 1 && WidthOf(p.letter, p.table[k].1) == p.table[k].0
    ensures PartAgrees(p)
  {
    forall v | FieldOf(p.letter).Some? && CountFor(p.table, v) > 0
      ensures WidthOf(p.letter, CountFor(p.table, v)) == v
    {
      TableReadsBack(p.letter, p.table, v);
    }
  }

  lemma {:induction false} PartAgreesAt(hc: char, i: nat)
    requires hc in "jhH" && i < |Parts(hc)|
    ensures PartAgrees(Parts(hc)[i])
  {
    if i < 5 {
      DatePartsAgree(i);
    } else {
      TimePartsAgree(hc, i);
    }
  }

  /** The weekday, era, year, month and day entries agree. */
  lemma {:induction false} DatePartsAgree(i: nat)
    requires i < 5
    ensures PartAgrees(PartAt('j', i))
  {
    if i == 0 { PartAgreesOf(PartAt('j', 0)); }
    else if i == 1 { PartAgreesOf(PartAt('j', 1)); }
    else if i == 2 { PartAgreesOf(PartAt('j', 2)); }
    else if i == 3 { PartAgreesOf(PartAt('j', 3)); }
    else { PartAgreesOf(PartAt('j', 4)); }
  }

  /** The hour, minute, second and time-zone entries agree. */
  lemma {:induction false} TimePartsAgree(hc: char, i: nat)
    requires hc in "jhH" && 5 <= i < 9
    ensures PartAgrees(PartAt(hc, i))
  {
    if i == 5 { PartAgreesOf(PartAt(hc, 5)); }
    else if i == 6 { PartAgreesOf(PartAt(hc, 6)); }
    else if i == 7 { PartAgreesOf(PartAt(hc, 7)); }
    else { PartAgreesOf(PartAt(hc, 8)); }
  }

  lemma {:induction false} PartsEachAgree(hc: char)
    requires hc in "jhH"
    ensures forall i :: 0 <= i < |Parts(hc)| ==> PartAgrees(Parts(hc)[i])
  {
    forall i | 0 <= i < |Parts(hc)|
      ensures PartAgrees(Parts(hc)[i])
    {
      PartAgreesAt(hc, i);
    }
  }

  lemma {:induction false} PartsDistinct(hc: char)
    requires hc in "jhH"
    ensures var ps := Parts(hc);
      forall i, j :: 0 <= i < j < |ps| ==> ps[i].prop != ps[j].prop && ps[i].letter != ps[j].letter
  {
    var ps := Parts(hc);
    assert forall i :: 0 <= i < |ps| ==> PropRank(ps[i].prop) == i && LetterRank(ps[i].letter) == i;
  }

  lemma {:induction false} PartsHourOnce(hc: char)
    requires hc in "jhH"
    ensures var ps := Parts(hc);
      forall i, j :: 0 <= i < j < |ps| && Hour12Of(ps[i].letter).Some? ==> Hour12Of(ps[j].letter).None?
  {
    var ps := Parts(hc);
    forall i, j | 0 <= i < j < |ps| && Hour12Of(ps[i].letter).Some?
      ensures Hour12Of(ps[j].letter).None?
    {
      assert i == 5;
    }
  }

  lemma {:induction false} PartsOfAgree(hc: char)
    requires hc in "jhH"
    ensures PartsAgree(Parts(hc))
  {
    PartsEachAgree(hc);
    PartsDistinct(hc);
    PartsHourOnce(hc);
  }

  function LettersOf(ps: seq<Part>): set<char> {
    set i | 0 <= i < |ps| :: ps[i].letter
  }

  lemma {:induction false} PartsRunsSplit(opts: Props, ps: seq<Part>)
    requires PartsAgree(ps)
    ensures SplitRuns(PartsRuns(opts, ps))
    ensures forall i :: 0 <= i < |PartsRuns(opts, ps)| ==> PartsRuns(opts, ps)[i].0 in LettersOf(ps)
    decreases |ps|
  {
    if |ps| > 0 {
      var tail := ps[1..];
      PartsAgreeTail(ps);
      PartsRunsSplit(opts, tail);
      LettersTail(ps);
      HeadLetterFresh(ps);
      assert PartAgrees(ps[0]);
      JoinRuns(PartRuns(opts, ps[0]), PartsRuns(opts, tail), ps[0].letter, LettersOf(tail));
    }
  }

  /** The letters of a list are its head's and its tail's. */
  lemma {:induction false} LettersTail(ps: seq<Part>)
    requires |ps| > 0
    ensures ps[0].letter in LettersOf(ps) && LettersOf(ps[1..]) <= LettersOf(ps)
  {
    var tail := ps[1..];
    forall c | c in LettersOf(tail)
      ensures c in LettersOf(ps)
    {
      var k :| 0 <= k < |tail| && tail[k].letter == c;
      assert ps[k + 1] == tail[k];
    }
  }

  /** Distinct letters: the head's letter is not among the tail's. */
  lemma {:induction false} HeadLetterFresh(ps: seq<Part>)
    requires PartsAgree(ps) && |ps| > 0
    ensures ps[0].letter !in LettersOf(ps[1..])
  {
    var tail := ps[1..];
    forall k | 0 <= k < |tail|
      ensures tail[k].letter != ps[0].letter
    {
      assert ps[k + 1] == tail[k];
    }
  }

  /** A run of a fresh letter in front of split runs keeps them split. */
  lemma {:induction false} JoinRuns(a: seq<(char, nat)>, b: seq<(char, nat)>, c: char, letters: set<char>)
    requires |a| <= 1 && (|a| == 1 ==> a[0].0 == c && a[0].1 >= 1)
    requires c != '\'' && c !in letters
    requires SplitRuns(b) && forall i :: 0 <= i < |b| ==> b[i].0 in letters
    ensures SplitRuns(a + b)
    ensures forall i :: 0 <= i < |a + b| ==> (a + b)[i].0 in letters || (a + b)[i].0 == c
  {
    var r := a + b;
    forall i | 0 <= i < |r|
      ensures r[i].1 >= 1 && r[i].0 != '\'' && (r[i].0 in letters || r[i].0 == c)
    {
      if i >= |a| {
        assert r[i] == b[i - |a|];
      }
    }
    forall i | 0 < i < |r|
      ensures r[i - 1].0 != r[i].0
    {
      if i > |a| {
        assert r[i - 1] == b[i - 1 - |a|] && r[i] == b[i - |a|];
      } else {
        assert r[i] == b[0];
      }
    }
  }

  lemma {:induction false} ApplyRunsAppend(fmt: Props, a: seq<(char, nat)>, b: seq<(char, nat)>)
    requires forall i :: 0 <= i < |a| ==> a[i].1 >= 1
    requires forall i :: 0 <= i < |b| ==> b[i].1 >= 1
    ensures forall i :: 0 <= i < |a + b| ==> (a + b)[i].1 >= 1
    ensures ApplyRuns(fmt, a + b) == ApplyRuns(ApplyRuns(fmt, a), b)
    decreases |a|
  {
    if |a| == 0 {
      assert a + b == b;
    } else {
      assert (a + b)[1..] == a[1..] + b;
      ApplyRunsAppend(ApplyRun(fmt, a[0].0, a[0].1), a[1..], b);
    }
  }

  /** A part whose run is present sets its property. */
  predicate Sets(opts: Props, p: Part) {
    FieldOf(p.letter).Some? && |PartRuns(opts, p)| == 1
  }

  function PropsOf(ps: seq<Part>): set<string> {
    set i | 0 <= i < |ps| :: ps[i].prop
  }

  lemma {:induction false} PartRunsCounts(opts: Props, ps: seq<Part>)
    ensures forall i :: 0 <= i < |PartsRuns(opts, ps)| ==> PartsRuns(opts, ps)[i].1 >= 1
    decreases |ps|
  {
    if |ps| > 0 {
      PartRunsCounts(opts, ps[1..]);
    }
  }

  /** Applying one part's run, then the rest. */
  lemma {:induction false} ApplyPartsCons(opts: Props, ps: seq<Part>, fmt: Props)
    requires |ps| > 0
    ensures forall i :: 0 <= i < |PartsRuns(opts, ps)| ==> PartsRuns(opts, ps)[i].1 >= 1
    ensures forall i :: 0 <= i < |PartsRuns(opts, ps[1..])| ==> PartsRuns(opts, ps[1..])[i].1 >= 1
    ensures ApplyRuns(fmt, PartsRuns(opts, ps))
      == ApplyRuns(ApplyRuns(fmt, PartRuns(opts, ps[0])), PartsRuns(opts, ps[1..]))
    ensures |PartRuns(opts, ps[0])| == 0 ==> ApplyRuns(fmt, PartRuns(opts, ps[0])) == fmt
    ensures |PartRuns(opts, ps[0])| == 1 ==>
      ApplyRuns(fmt, PartRuns(opts, ps[0])) == ApplyRun(fmt, ps[0].letter, PartRuns(opts, ps[0])[0].1)
  {
    PartRunsCounts(opts, ps);
    PartRunsCounts(opts, ps[1..]);
    ApplyRunsAppend(fmt, PartRuns(opts, ps[0]), PartsRuns(opts, ps[1..]));
  }

  /** Reading the runs of the parts sets each present part's property to
      the option's value. */
  lemma {:induction false} ApplyPartsProps(opts: Props, ps: seq<Part>, fmt: Props)
    requires PartsAgree(ps)
    ensures forall i :: 0 <= i < |PartsRuns(opts, ps)| ==> PartsRuns(opts, ps)[i].1 >= 1
    ensures var r := ApplyRuns(fmt, PartsRuns(opts, ps));
      forall i :: 0 <= i < |ps| && Sets(opts, ps[i]) ==> ps[i].prop in r && r[ps[i].prop] == opts[ps[i].prop]
    decreases |ps|
  {
    PartRunsCounts(opts, ps);
    if |ps| > 0 {
      var tail := ps[1..];
      PartsAgreeTail(ps);
      ApplyPartsCons(opts, ps, fmt);
      var f1 := ApplyRuns(fmt, PartRuns(opts, ps[0]));
      ApplyPartsProps(opts, tail, f1);
      ApplyPartsFrame(opts, tail, f1);
      var r := ApplyRuns(fmt, PartsRuns(opts, ps));
      forall i | 0 <= i < |ps| && Sets(opts, ps[i])
        ensures ps[i].prop in r && r[ps[i].prop] == opts[ps[i].prop]
      {
        if i == 0 {
          assert ps[0].prop !in PropsOf(tail) by {
            forall k | 0 <= k < |tail|
              ensures tail[k].prop != ps[0].prop
            {
              assert ps[k + 1] == tail[k];
            }
          }
          var v := opts[ps[0].prop].s;
          assert WidthOf(ps[0].letter, CountFor(ps[0].table, v)) == v;
        } else {
          assert tail[i - 1] == ps[i];
        }
      }
    }
  }

  /** Properties no part names, other than hour12, are left as they were. */
  lemma {:induction false} ApplyPartsFrame(opts: Props, ps: seq<Part>, fmt: Props)
    requires PartsAgree(ps)
    ensures forall i :: 0 <= i < |PartsRuns(opts, ps)| ==> PartsRuns(opts, ps)[i].1 >= 1
    ensures var r := ApplyRuns(fmt, PartsRuns(opts, ps));
      forall key :: key != "hour12" && key !in PropsOf(ps) ==>
        (key in r <==> key in fmt) && (key in fmt ==> r[key] == fmt[key])
    decreases |ps|
  {
    PartRunsCounts(opts, ps);
    if |ps| > 0 {
      var tail := ps[1..];
      PartsAgreeTail(ps);
      ApplyPartsCons(opts, ps, fmt);
      var f1 := ApplyRuns(fmt, PartRuns(opts, ps[0]));
      ApplyPartsFrame(opts, tail, f1);
      assert PropsOf(tail) <= PropsOf(ps) by {
        forall q | q in PropsOf(tail)
          ensures q in PropsOf(ps)
        {
          var k :| 0 <= k < |tail| && tail[k].prop == q;
          assert ps[k + 1] == tail[k];
        }
      }
      assert ps[0].prop in PropsOf(ps);
    }
  }

  /** Properties of parts whose run is absent, or whose letter sets
      nothing, are left as they were. */
  lemma {:induction false} ApplyPartsUnset(opts: Props, ps: seq<Part>, fmt: Props)
    requires PartsAgree(ps)
    ensures forall i :: 0 <= i < |PartsRuns(opts, ps)| ==> PartsRuns(opts, ps)[i].1 >= 1
    ensures var r := ApplyRuns(fmt, PartsRuns(opts, ps));
      forall i :: 0 <= i < |ps| && !Sets(opts, ps[i]) ==>
        (ps[i].prop in r <==> ps[i].prop in fmt) && (ps[i].prop in fmt ==> r[ps[i].prop] == fmt[ps[i].prop])
    decreases |ps|
  {
    PartRunsCounts(opts, ps);
    if |ps| > 0 {
      var tail := ps[1..];
      PartsAgreeTail(ps);
      ApplyPartsCons(opts, ps, fmt);
      var f1 := ApplyRuns(fmt, PartRuns(opts, ps[0]));
      ApplyPartsUnset(opts, tail, f1);
      ApplyPartsFrame(opts, tail, f1);
      var r := ApplyRuns(fmt, PartsRuns(opts, ps));
      forall i | 0 <= i < |ps| && !Sets(opts, ps[i])
        ensures (ps[i].prop in r <==> ps[i].prop in fmt) && (ps[i].prop in fmt ==> r[ps[i].prop] == fmt[ps[i].prop])
      {
        if i == 0 {
          assert ps[0].prop !in PropsOf(tail) by {
            forall k | 0 <= k < |tail|
              ensures tail[k].prop != ps[0].prop
            {
              assert ps[k + 1] == tail[k];
            }
          }
        } else {
          assert tail[i - 1] == ps[i];
          // the first part's letter sets its own property, not this one
          assert ps[0].prop != ps[i].prop;
        }
      }
    }
  }

  /** hour12 is set by the one hour letter whose run is present, and left
      alone otherwise. */
  lemma {:induction false} ApplyPartsHour(opts: Props, ps: seq<Part>, fmt: Props)
    requires PartsAgree(ps)
    ensures forall i :: 0 <= i < |PartsRuns(opts, ps)| ==> PartsRuns(opts, ps)[i].1 >= 1
    ensures var r := ApplyRuns(fmt, PartsRuns(opts, ps));
      forall i :: 0 <= i < |ps| && Hour12Of(ps[i].letter).Some? && |PartRuns(opts, ps[i])| == 1 ==>
        "hour12" in r && r["hour12"] == OBool(Hour12Of(ps[i].letter).value)
    ensures var r := ApplyRuns(fmt, PartsRuns(opts, ps));
      (forall i :: 0 <= i < |ps| && Hour12Of(ps[i].letter).Some? ==> |PartRuns(opts, ps[i])| == 0) ==>
        ("hour12" in r <==> "hour12" in fmt) && ("hour12" in fmt ==> r["hour12"] == fmt["hour12"])
    decreases |ps|
  {
    PartRunsCounts(opts, ps);
    if |ps| > 0 {
      var tail := ps[1..];
      PartsAgreeTail(ps);
      ApplyPartsCons(opts, ps, fmt);
      var f1 := ApplyRuns(fmt, PartRuns(opts, ps[0]));
      ApplyPartsHour(opts, tail, f1);
      assert forall i :: 0 <= i < |tail| ==> tail[i] == ps[i + 1];
      if Hour12Of(ps[0].letter).Some? {
        assert forall i :: 0 <= i < |tail| ==> Hour12Of(tail[i].letter).None?;
      }
    }
  }

  /** Reading back the pattern built from agreeing parts recovers every
      option a part recognises, sets hour12 from the hour letter, and sets
      nothing else. */
  lemma {:induction false} ResolveParts(opts: Props, ps: seq<Part>)
    requires PartsAgree(ps)
    ensures var r := Resolve(Pattern(PartsRuns(opts, ps)), map[]);
      && (forall i :: 0 <= i < |ps| && Sets(opts, ps[i]) ==> ps[i].prop in r && r[ps[i].prop] == opts[ps[i].prop])
      && (forall i :: 0 <= i < |ps| && !Sets(opts, ps[i]) ==> ps[i].prop !in r)
      && (forall key :: key in r ==> key == "hour12" || key in PropsOf(ps))
  {
    PartsRunsSplit(opts, ps);
    ResolvePattern(PartsRuns(opts, ps), map[]);
    ApplyPartsProps(opts, ps, map[]);
    ApplyPartsUnset(opts, ps, map[]);
    ApplyPartsFrame(opts, ps, map[]);
  }

  /** With one part k whose letter can carry hour12, the pattern sets
      hour12 exactly when that part contributes a run. */
  lemma {:induction false} ResolveHourPart(opts: Props, ps: seq<Part>, k: nat)
    requires PartsAgree(ps) && k < |ps|
    requires forall i :: 0 <= i < |ps| && i != k ==> Hour12Of(ps[i].letter).None?
    ensures var r := Resolve(Pattern(PartsRuns(opts, ps)), map[]);
      && ("hour12" in r <==> Hour12Of(ps[k].letter).Some? && |PartRuns(opts, ps[k])| == 1)
      && ("hour12" in r ==> r["hour12"] == OBool(Hour12Of(ps[k].letter).value))
  {
    PartsRunsSplit(opts, ps);
    ResolvePattern(PartsRuns(opts, ps), map[]);
    ApplyPartsHour(opts, ps, map[]);
  }

  /** Only the hour part's letter can set hour12. */
  lemma {:induction false} OnlyHourLetter(hc: char)
    requires hc in "jhH"
    ensures forall i :: 0 <= i < |Parts(hc)| && i != 5 ==> Hour12Of(Parts(hc)[i].letter).None?
  {
    var ps := Parts(hc);
    forall i | 0 <= i < |ps| && i != 5
      ensures Hour12Of(ps[i].letter).None?
    {
      assert LetterRank(ps[i].letter) == i;
    }
  }

  /** The field options the skeleton is built from are read back from it. */
  lemma {:induction false} SkeletonFields(opts: Props)
    ensures var hc := HourLetter(opts); var ps := Parts(hc);
      var r := Resolve(Skeleton(opts), map[]);
      && (forall i :: 0 <= i < |ps| && Sets(opts, ps[i]) ==> ps[i].prop in r && r[ps[i].prop] == opts[ps[i].prop])
      && (forall i :: 0 <= i < |ps| && !Sets(opts, ps[i]) ==> ps[i].prop !in r)
      && (forall key :: key in r ==> key == "hour12" || key in PropsOf(ps))
  {
    var hc := HourLetter(opts);
    PartsOfAgree(hc);
    ResolveParts(opts, Parts(hc));
  }

  /** hour12 is read back from the skeleton exactly when the hour is in it
      with an h or H letter, and then as the option's value. */
  lemma {:induction false} SkeletonHour12(opts: Props)
    ensures var hc := HourLetter(opts); var ps := Parts(hc);
      var r := Resolve(Skeleton(opts), map[]);
      && ("hour12" in r <==> hc != 'j' && |PartRuns(opts, ps[5])| == 1)
      && ("hour12" in r ==> r["hour12"] == opts["hour12"])
  {
    var hc := HourLetter(opts);
    SkeletonHourLetter(opts, hc);
  }

  /** The skeleton for hour letter hc sets hour12 as hc's hour cycle. */
  lemma {:induction false} SkeletonHourLetter(opts: Props, hc: char)
    requires hc in "jhH"
    ensures var ps := Parts(hc);
      var r := Resolve(Pattern(PartsRuns(opts, ps)), map[]);
      && ("hour12" in r <==> Hour12Of(hc).Some? && |PartRuns(opts, ps[5])| == 1)
      && ("hour12" in r ==> r["hour12"] == OBool(Hour12Of(hc).value))
  {
    PartsOfAgree(hc);
    OnlyHourLetter(hc);
    ResolveHourPart(opts, Parts(hc), 5);
  }

  /** Reading the skeleton back as a pattern recovers exactly the options
      it was built from: every recognised field option, and hour12 when
      the hour is present.  Nothing else is set, and with hour12 absent the
      hour is left to the locale's 'j' and not read back. */
  lemma {:induction false} SkeletonRoundTrip(opts: Props)
    ensures var hc := HourLetter(opts); var ps := Parts(hc);
      var r := Resolve(Skeleton(opts), map[]);
      && (forall i :: 0 <= i < |ps| && Sets(opts, ps[i]) ==> ps[i].prop in r && r[ps[i].prop] == opts[ps[i].prop])
      && (forall i :: 0 <= i < |ps| && !Sets(opts, ps[i]) ==> ps[i].prop !in r)
      && (forall key :: key in r ==> key == "hour12" || key in PropsOf(ps))
      && ("hour12" in r <==> hc != 'j' && |PartRuns(opts, ps[5])| == 1)
      && ("hour12" in r ==> r["hour12"] == opts["hour12"])
  {
    SkeletonFields(opts);
    SkeletonHour12(opts);
  }

  // ---------------------------------------------------------------------
  // Calendar names

  /** ToBCP47CalendarName: three ICU names are renamed, every other name
      passes through. */
  function ToBCP47CalendarName(name: string): (r: string)
    ensures name == "ethiopic-amete-alem" ==> r == "ethiopic"
    ensures name == "gregorian" ==> r == "gregory"
    ensures name == "islamic-civil" ==> r == "islamicc"
    ensures name !in {"ethiopic-amete-alem", "gregorian", "islamic-civil"} ==> r == name
  {
    if name == "ethiopic-amete-alem" then "ethiopic"
    else if name == "gregorian" then "gregory"
    else if name == "islamic-civil" then "islamicc"
    else name
  }

  /** A BCP 47 name is left alone: renaming twice is renaming once. */
  lemma {:induction false} CalendarNameIdempotent(name: string)
    ensures ToBCP47CalendarName(ToBCP47CalendarName(name)) == ToBCP47CalendarName(name)
  {
    var r := ToBCP47CalendarName(name);
    assert r != "ethiopic-amete-alem" && r != "gregorian" && r != "islamic-civil" by {
      if name == "ethiopic-amete-alem" {
        assert r == "ethiopic";
        assert |r| != |"ethiopic-amete-alem"|;
      } else if name == "gregorian" {
        assert r == "gregory";
        assert |r| != |"gregorian"|;
      } else if name == "islamic-civil" {
        assert r == "islamicc";
        assert |r| != |"islamic-civil"|;
      }
    }
  }
}

=== FILE: jsarray.dfy ===
/** The fast paths of the built-in Array methods on a regular array, whose
    properties live in one block of values: slot 0 holds the length and
    slot i + 1 holds element i, with NoneValue marking a hole.  A hole
    reads through to the prototype's indexed properties, given here as a
    map.  Reference counting on the stored values is left out. */
module RegularArray {
  import opened Common
  import opened JsValue
  import opened TypeConversion

  const MAX_ARRAY_INDEX: nat := 0xFFFF_FFFF
  const ARRAY_MAXINDEXNUM_INTERNAL: nat := 0x1_0000

  type Slots = seq<Value>
  /** The prototype's indexed properties. */
  type Proto = map<nat, Value>

  /** A block whose slot 0 holds its own element count. */
  predicate WellFormed(a: Slots) {
    |a| >= 1 && |a| - 1 <= INT32_MAX && a[0] == Number(|a| - 1)
  }

  /** The element count: every slot but slot 0, which a well-formed block
      uses to store that count. */
  function Length(a: Slots): (n: nat)
    requires |a| >= 1
    ensures n < |a| && (WellFormed(a) ==> a[0] == Number(n))
  {
    |a| - 1
  }

  /** A block without holes. */
  predicate NoHoles(a: Slots) {
    forall i :: 1 <= i < |a| ==> a[i] != NoneValue
  }

  /** The value stored in slot 0 for a length: an int32 number when it fits,
      a double otherwise. */
  function LengthValue(len: u32): (v: Value)
    ensures len <= INT32_MAX ==> v == Number(len)
    ensures len > INT32_MAX ==> v == Double(len as real)
  {
    if len > INT32_MAX then Double(len as real) else Number(len)
  }

  // ---------------------------------------------------------------------
  // Creating and reading a block

  /** __js_new_arr_internal: a block of min(length, 0x10000) + 1 slots, all
      holes, with the length in slot 0. */
  function NewArray(length: u32): (a: Slots)
    ensures |a| == Min(length, ARRAY_MAXINDEXNUM_INTERNAL) + 1
    ensures a[0] == LengthValue(length)
    ensures forall i :: 1 <= i < |a| ==> a[i] == NoneValue
    ensures length <= ARRAY_MAXINDEXNUM_INTERNAL ==> WellFormed(a) && Length(a) == length
  {
    [LengthValue(length)] + Repeat(NoneValue, Min(length, ARRAY_MAXINDEXNUM_INTERNAL))
  }

  /** A block holding `length` holes, which is what slice needs for its result. */
  function NewArrayFull(length: u32): (a: Slots)
    ensures |a| == length + 1
    ensures a[0] == LengthValue(length)
    ensures forall i :: 1 <= i < |a| ==> a[i] == NoneValue
    ensures length <= INT32_MAX ==> WellFormed(a)
  {
    [LengthValue(length)] + Repeat(NoneValue, length)
  }

  /** Element idx of the block: the stored value, or for a hole the
      prototype's property idx, or NoneValue when there is none. */
  function Read(a: Slots, proto: Proto, idx: nat): (v: Value)
    requires idx + 1 < |a|
    ensures a[idx + 1] != NoneValue ==> v == a[idx + 1]
    ensures a[idx + 1] == NoneValue && idx in proto ==> v == proto[idx]
    ensures a[idx + 1] == NoneValue && idx !in proto ==> v == NoneValue
  {
    if a[idx + 1] != NoneValue then a[idx + 1]
    else if idx in proto then proto[idx] else NoneValue
  }

  /** __jsarr_GetRegularElem as written: the block is consulted only for
      indices up to 0x10000, so a stored element above that is not seen. */
  function ReadAsWritten(a: Slots, proto: Proto, idx: nat): (v: Value)
    requires idx + 1 < |a|
    ensures idx <= ARRAY_MAXINDEXNUM_INTERNAL ==> v == Read(a, proto, idx)
    ensures idx > ARRAY_MAXINDEXNUM_INTERNAL ==> v == (if idx in proto then proto[idx] else NoneValue)
  {
    if idx <= ARRAY_MAXINDEXNUM_INTERNAL && a[idx + 1] != NoneValue then a[idx + 1]
    else if idx in proto then proto[idx] else NoneValue
  }

  /** __set_regular_elem: store v as element i. */
  function SetElem(a: Slots, i: nat, v: Value): (r: Slots)
    requires i + 1 < |a|
    ensures |r| == |a| && r[i + 1] == v
    ensures forall j :: 0 <= j < |a| && j != i + 1 ==> r[j] == a[j]
  {
    a[i + 1 := v]
  }

  /** Reading back what was stored gives it; no other element changes. */
  lemma {:induction false} ReadAfterSet(a: Slots, proto: Proto, i: nat, v: Value, j: nat)
    requires i + 1 < |a| && j + 1 < |a|
    ensures j == i && v != NoneValue ==> Read(SetElem(a, i, v), proto, j) == v
    ensures j != i ==> Read(SetElem(a, i, v), proto, j) == Read(a, proto, j)
  {
  }

  /** Element i as a method returns it: a hole that the prototype does not
      fill reads as undefined. */
  function OrUndefined(v: Value): (r: Value)
    ensures r != NoneValue
    ensures v != NoneValue ==> r == v
  {
    if v == NoneValue then Undefined else v
  }

  /** Every element as read through the prototype. */
  function Filled(a: Slots, proto: Proto): (f: seq<Value>)
    requires |a| >= 1
    ensures |f| == Length(a)
    ensures forall i :: 0 <= i < |f| ==> f[i] == Read(a, proto, i)
  {
    seq(|a| - 1, i requires 0 <= i < |a| - 1 => Read(a, proto, i))
  }

  /** Without holes, reading through the prototype changes nothing. */
  lemma {:induction false} FilledNoHoles(a: Slots, proto: Proto)
    requires |a| >= 1 && NoHoles(a)
    ensures Filled(a, proto) == a[1..]
  {
  }

  // ---------------------------------------------------------------------
  // Reallocation

  /** __jsarr_RegularRealloc: the block resized to newLen elements.  The
      elements below min(oldLen, newLen) are kept, the new ones are holes,
      and slot 0 gets newLen as an int32 number. */
  function Realloc(a: Slots, oldLen: u32, newLen: u32): (r: Slots)
    requires |a| == oldLen + 1
    ensures |r| == newLen + 1
    ensures r[0] == Number(WrapI32(newLen))
    ensures forall i :: 1 <= i <= Min(oldLen, newLen) ==> r[i] == a[i]
    ensures forall i :: Min(oldLen, newLen) < i <= newLen ==> r[i] == NoneValue
    ensures newLen <= INT32_MAX ==> WellFormed(r)
  {
    var keep := Min(oldLen, newLen);
    [Number(WrapI32(newLen))] + a[1..keep + 1] + Repeat(NoneValue, newLen - keep)
  }

  /** Shrinking to fewer elements and growing back leaves holes. */
  lemma {:induction false} ReallocShrinkGrow(a: Slots, oldLen: u32, newLen: u32)
    requires |a| == oldLen + 1 && newLen <= oldLen
    ensures var g := Realloc(Realloc(a, oldLen, newLen), newLen, oldLen);
      forall i :: newLen < i <= oldLen ==> g[i] == NoneValue
  {
  }

  // ---------------------------------------------------------------------
  // pop and push

  /** __jsarr_pt_pop on a regular array: the last element (undefined for a
      hole the prototype does not fill) and the block one element shorter. */
  function Pop(a: Slots, proto: Proto): (r: (Slots, Value))
    requires WellFormed(a)
    ensures Length(a) == 0 ==> r == (a, Undefined)
    ensures Length(a) > 0 ==>
      && WellFormed(r.0) && Length(r.0) == Length(a) - 1
      && r.0[1..] == a[1..Length(a)]
      && r.1 == OrUndefined(Read(a, proto, Length(a) - 1))
  {
    var len := Length(a);
    if len == 0 then (a, Undefined)
    else
      var element := Read(a, proto, len - 1);
      (Realloc(a, len, len - 1), OrUndefined(element))
  }

  /** pop as written, reading the last element with __jsarr_GetRegularElem. */
  function PopAsWritten(a: Slots, proto: Proto): (r: (Slots, Value))
    requires WellFormed(a)
    ensures r.0 == Pop(a, proto).0
    ensures Length(a) > 0 ==> r.1 == OrUndefined(ReadAsWritten(a, proto, Length(a) - 1))
  {
    var len := Length(a);
    if len == 0 then (a, Undefined)
    else (Realloc(a, len, len - 1), OrUndefined(ReadAsWritten(a, proto, len - 1)))
  }

  /** The outcome of push's length check. */
  datatype PushStep = NothingToPush | LengthTypeError | Grow(newLen: nat)

  /** push's length guard for an object of length n: nothing to do for no
      items, a TypeError past 2^53 - 1, otherwise the new length. */
  function PushLength(n: nat, size: nat): (s: PushStep)
    ensures s == NothingToPush <==> size == 0
    ensures s == LengthTypeError <==> size > 0 && n + size > MAX_LENGTH
    ensures s.Grow? ==> s.newLen == n + size && s.newLen <= MAX_LENGTH
  {
    if size == 0 then NothingToPush
    else if n + size > MAX_LENGTH then LengthTypeError
    else Grow(n + size)
  }

  /** A regular array's length fits in 32 bits, so push never throws on it. */
  lemma {:induction false} RegularPushNoTypeError(a: Slots, items: seq<Value>)
    requires WellFormed(a) && |items| <= UINT32_MAX
    ensures PushLength(Length(a), |items|) != LengthTypeError
  {
  }

  /** __jsarr_pt_push on a regular array: the block grows by the items,
      which land at indices n .. n + size - 1, and the new length is
      returned as a double. */
  method Push(a: Slots, items: seq<Value>) returns (r: Slots, result: Value)
    requires WellFormed(a)
    requires Length(a) + |items| <= UINT32_MAX
    ensures |items| == 0 ==> r == a
    ensures |r| == |a| + |items|
    ensures r[1..|a|] == a[1..]
    ensures forall i :: 0 <= i < |items| ==> r[|a| + i] == items[i]
    ensures result == Double((Length(a) + |items|) as real)
    ensures Length(a) + |items| <= INT32_MAX ==> WellFormed(r)
  {
    var n := Length(a);
    if |items| == 0 {
      return a, Double(n as real);
    }
    r := Realloc(a, n, n + |items|);
    var i := 0;
    while i < |items|
      invariant 0 <= i <= |items|
      invariant |r| == |a| + |items| && r[0] == Number(WrapI32(n + |items|))
      invariant r[1..|a|] == a[1..]
      invariant forall j :: 0 <= j < i ==> r[|a| + j] == items[j]
    {
      r := SetElem(r, i + n, items[i]);
      i := i + 1;
    }
    result := Double((n + |items|) as real);
  }

  /** Popping what was just pushed gives it back and restores the array. */
  lemma {:induction false} PushPopRoundTrip(a: Slots, proto: Proto, v: Value, b: Slots)
    requires WellFormed(a) && Length(a) + 1 <= INT32_MAX && v != NoneValue
    requires |b| == |a| + 1 && b[1..|a|] == a[1..] && b[|a|] == v && WellFormed(b)
    ensures Pop(b, proto) == (a, v)
  {
    var r := Pop(b, proto).0;
    assert r[1..] == a[1..];
    assert r == [r[0]] + r[1..];
    assert a == [a[0]] + a[1..];
  }

  // ---------------------------------------------------------------------
  // shift and unshift

  /** What shift leaves: element i is element i + 1 read through the
      prototype, and the length is one less. */
  function ShiftSpec(a: Slots, proto: Proto): (r: Slots)
    requires |a| >= 2
    ensures |r| == |a| - 1
  {
    [Number(WrapI32(Length(a) - 1))] + Filled(a, proto)[1..]
  }

  /** __jsarr_pt_shift on a regular array. */
  method Shift(a: Slots, proto: Proto) returns (r: Slots, first: Value)
    requires WellFormed(a)
    ensures Length(a) == 0 ==> r == a && first == Undefined
    ensures Length(a) > 0 ==> r == ShiftSpec(a, proto) && first == OrUndefined(Read(a, proto, 0))
    ensures WellFormed(r)
  {
    var len := Length(a);
    if len == 0 {
      return a, Undefined;
    }
    var head := Read(a, proto, 0);
    var cur := a;
    var k := 1;
    while k < len
      invariant 1 <= k <= len && |cur| == |a| && cur[0] == a[0]
      invariant forall s :: 1 <= s < k ==> cur[s] == Read(a, proto, s)
      invariant forall s :: k < s <= len ==> cur[s] == a[s]
    {
      // __jsarr_internal_MoveElem(k - 1, k): a hole is moved as a hole
      var from := Read(cur, proto, k);
      cur := SetElem(cur, k - 1, from);
      k := k + 1;
    }
    r := Realloc(cur, len, len - 1);
    first := OrUndefined(head);
    ShiftDone(a, proto, r);
  }

  /** Once every element has moved down one place, the shorter block is
      ShiftSpec. */
  lemma {:induction false} ShiftDone(a: Slots, proto: Proto, r: Slots)
    requires |a| >= 2 && |r| == |a| - 1 && r[0] == Number(WrapI32(Length(a) - 1))
    requires forall s :: 1 <= s < Length(a) ==> r[s] == Read(a, proto, s)
    ensures r == ShiftSpec(a, proto)
  {
    assert forall i :: 1 <= i < |r| ==> r[i] == ShiftSpec(a, proto)[i];
  }

  /** What unshift leaves: the items, then every old element read through
      the prototype. */
  function UnshiftSpec(a: Slots, proto: Proto, items: seq<Value>): (r: Slots)
    requires |a| >= 1
    ensures |r| == |a| + |items|
  {
    [Number(WrapI32(Length(a) + |items|))] + items + Filled(a, proto)
  }

  /** __jsarr_pt_unshift on a regular array; the result is the new length as
      an int32 number. */
  method Unshift(a: Slots, proto: Proto, items: seq<Value>) returns (r: Slots, result: Value)
    requires WellFormed(a)
    requires Length(a) + |items| <= UINT32_MAX
    ensures r == UnshiftSpec(a, proto, items)
    ensures result == Number(WrapI32(Length(a) + |items|))
    ensures Length(a) + |items| <= INT32_MAX ==> WellFormed(r)
  {
    var len := Length(a);
    var size := |items|;
    var cur := Realloc(a, len, len + size);
    var k := len;
    while k > 0
      invariant 0 <= k <= len && |cur| == len + size + 1
      invariant cur[0] == Number(WrapI32(len + size))
      invariant forall s :: 1 <= s <= k ==> cur[s] == a[s]
      invariant forall j :: k <= j < len ==> cur[j + size + 1] == Read(a, proto, j)
    {
      // __jsarr_internal_MoveElem(k + size - 1, k - 1)
      var from := Read(cur, proto, k - 1);
      cur := SetElem(cur, k + size - 1, from);
      k := k - 1;
    }
    var j := 0;
    while j < size
      invariant 0 <= j <= size && |cur| == len + size + 1
      invariant cur[0] == Number(WrapI32(len + size))
      invariant forall i :: 0 <= i < j ==> cur[i + 1] == items[i]
      invariant forall i :: 0 <= i < len ==> cur[i + size + 1] == Read(a, proto, i)
    {
      cur := SetElem(cur, j, items[j]);
      j := j + 1;
    }
    r := cur;
    result := Number(WrapI32(len + size));
    UnshiftDone(a, proto, items, r);
  }

  /** The moved elements and the stored items of Unshift give UnshiftSpec. */
  lemma {:induction false} UnshiftDone(a: Slots, proto: Proto, items: seq<Value>, r: Slots)
    requires |a| >= 1 && |r| == Length(a) + |items| + 1
    requires r[0] == Number(WrapI32(Length(a) + |items|))
    requires forall i :: 0 <= i < |items| ==> r[i + 1] == items[i]
    requires forall i :: 0 <= i < Length(a) ==> r[i + |items| + 1] == Read(a, proto, i)
    ensures r == UnshiftSpec(a, proto, items)
  {
    var size := |items|;
    var s := UnshiftSpec(a, proto, items);
    forall i | 1 <= i < |r|
      ensures r[i] == s[i]
    {
      if i > size {
        assert s[i] == Filled(a, proto)[i - size - 1];
      }
    }
  }

  /** On an array without holes, shift undoes unshift of one item. */
  lemma {:induction false} UnshiftShiftRoundTrip(a: Slots, proto: Proto, v: Value)
    requires WellFormed(a) && Length(a) + 1 <= INT32_MAX && NoHoles(a) && v != NoneValue
    ensures var u := UnshiftSpec(a, proto, [v]);
      && Read(u, proto, 0) == v
      && ShiftSpec(u, proto) == a
  {
    var u := UnshiftSpec(a, proto, [v]);
    FilledNoHoles(a, proto);
    assert u[1..] == [v] + a[1..];
    assert NoHoles(u);
    FilledNoHoles(u, proto);
    assert Filled(u, proto)[1..] == a[1..];
    assert a == [a[0]] + a[1..];
  }

  // ---------------------------------------------------------------------
  // reverse

  /** Element i of the reversed array: the element at len - 1 - i read
      through the prototype, except that the middle element of an odd
      length is not touched. */
  function ReversedAt(a: Slots, proto: Proto, i: nat): (v: Value)
    requires i + 1 < |a|
  {
    var len := Length(a);
    if i < len / 2 || i >= len - len / 2 then Read(a, proto, len - 1 - i) else a[i + 1]
  }

  function ReverseSpec(a: Slots, proto: Proto): (r: Slots)
    requires |a| >= 1
    ensures |r| == |a| && r[0] == a[0]
    ensures forall i :: 0 <= i < Length(a) ==> r[i + 1] == ReversedAt(a, proto, i)
  {
    [a[0]] + seq(|a| - 1, i requires 0 <= i < |a| - 1 => ReversedAt(a, proto, i))
  }

  /** __jsarr_pt_reverse on a regular array: elements lower and upper swap
      until lower reaches len / 2; the length is unchanged. */
  method Reverse(a: Slots, proto: Proto) returns (r: Slots)
    requires WellFormed(a)
    ensures r == ReverseSpec(a, proto)
    ensures WellFormed(r)
  {
    var len := Length(a);
    var middle := len / 2;
    var lower := 0;
    var upper: int := len - 1;
    r := a;
    while lower != middle
      invariant 0 <= lower <= middle && upper == len - 1 - lower
      invariant |r| == |a| && r[0] == a[0]
      invariant forall s :: 1 <= s <= lower ==> r[s] == Read(a, proto, len - s)
      invariant forall i :: 0 <= i < lower ==> r[len - i] == Read(a, proto, i)
      invariant forall s :: lower < s <= upper + 1 ==> r[s] == a[s]
    {
      var lowerValue := Read(r, proto, lower);
      var upperValue := Read(r, proto, upper);
      r := SetElem(r, lower, upperValue);
      r := SetElem(r, upper, lowerValue);
      lower := lower + 1;
      upper := upper - 1;
    }
    ReverseDone(a, proto, r);
  }

  /** The swaps of Reverse, once lower reaches len / 2, give ReverseSpec. */
  lemma {:induction false} ReverseDone(a: Slots, proto: Proto, r: Slots)
    requires WellFormed(a)
    requires |r| == |a| && r[0] == a[0]
    requires forall s :: 1 <= s <= Length(a) / 2 ==> r[s] == Read(a, proto, Length(a) - s)
    requires forall i :: 0 <= i < Length(a) / 2 ==> r[Length(a) - i] == Read(a, proto, i)
    requires forall s :: Length(a) / 2 < s <= Length(a) - Length(a) / 2 ==> r[s] == a[s]
    ensures r == ReverseSpec(a, proto)
  {
    var len, middle := Length(a), Length(a) / 2;
    var sp := ReverseSpec(a, proto);
    forall s | len - middle < s <= len
      ensures r[s] == sp[s]
    {
      assert r[len - (len - s)] == Read(a, proto, len - s);
    }
  }

  /** Without holes, the reverse is the mirror image of the block. */
  lemma {:induction false} ReverseMirror(a: Slots, proto: Proto)
    requires |a| >= 1 && NoHoles(a)
    ensures var b := ReverseSpec(a, proto);
      && NoHoles(b)
      && forall s :: 1 <= s < |a| ==> b[s] == a[|a| - s]
  {
    var b := ReverseSpec(a, proto);
    forall s | 1 <= s < |a|
      ensures b[s] == a[|a| - s]
    {
      assert b[s] == ReversedAt(a, proto, s - 1);
    }
  }

  /** Reversing an array without holes twice gives it back. */
  lemma {:induction false} ReverseInvolution(a: Slots, proto: Proto)
    requires |a| >= 1 && NoHoles(a)
    ensures ReverseSpec(ReverseSpec(a, proto), proto) == a
  {
    var b := ReverseSpec(a, proto);
    ReverseMirror(a, proto);
    ReverseMirror(b, proto);
    var c := ReverseSpec(b, proto);
    assert forall s :: 1 <= s < |a| ==> c[s] == b[|a| - s];
  }

  // ---------------------------------------------------------------------
  // slice

  /** __jsarr_helper_get_value_from_relative: a relative position against a
      length, counted from the end when negative, clamped to [0, refer]. */
  function FromRelative(relat: int, refer: int): (r: int)
    ensures refer >= 0 ==> 0 <= r <= refer
    ensures relat < 0 ==> r == Max(refer + relat, 0)
    ensures relat >= 0 ==> r == Min(relat, refer)
  {
    if relat < 0 then (if refer + relat > 0 then refer + relat else 0)
    else if refer > relat then relat else refer
  }

  /** A position in [0, refer] is its own clamp, and counting it from the
      end instead gives the same position. */
  lemma {:induction false} FromRelativeFixes(relat: int, refer: nat)
    requires 0 <= relat <= refer
    ensures FromRelative(relat, refer) == relat
    ensures relat < refer ==> FromRelative(relat - refer, refer) == relat
  {
  }

  /** __jsarr_helper_get_Int64OrLength: a converted position as an int64;
      ±Infinity stand for ±len and NaN for 0.  Other kinds reach the
      assertion and give None. */
  function Int64OrLength(v: Value, len: int): (r: Option<int>)
    ensures r.Some? <==> v.Number? || v.Double? || v.Infinity? || v.NaN?
    ensures v.Number? ==> r == Some(v.n)
    ensures v.Double? ==> r.Some? && Abs(r.value) as real <= Abs2(v.d) < Abs(r.value) as real + 1.0
    ensures v == Infinity(false) ==> r == Some(len)
    ensures v == Infinity(true) ==> r == Some(-len)
    ensures v.NaN? ==> r == Some(0)
  {
    match v
    case Number(n) => Some(n)
    case Double(d) => Some(TruncReal(d))
    case Infinity(negative) => Some(if negative then -len else len)
    case NaN => Some(0)
    case _ => None
  }

  function Abs2(d: real): real { if d < 0.0 then -d else d }

  /** slice's bounds for a length: start and end converted by
      __js_ToNumber2, read as positions and clamped, the end defaulting to
      the length when undefined. */
  function SliceBounds(start: Value, end: Value, len: nat): (r: Option<(nat, nat)>)
    ensures r.Some? ==> r.value.0 <= len && r.value.1 <= len
    ensures r.Some? <==> ToNumber2(start).Some? && (end == Undefined || ToNumber2(end).Some?)
    ensures r.Some? && Numeric(start) ==> r.value.0 == FromRelative(Int64OrLength(start, len).value, len)
    ensures r.Some? && Numeric(end) ==> r.value.1 == FromRelative(Int64OrLength(end, len).value, len)
  {
    match ToNumber2(start)
    case None => None
    case Some(sv) =>
      var rs := Int64OrLength(sv, len).value;
      var re := if end == Undefined then Some(len)
                else match ToNumber2(end)
                  case None => None
                  case Some(ev) => Some(Int64OrLength(ev, len).value);
      ToNumber2Position(start, len);
      ToNumber2Position(end, len);
      match re
      case None => None
      case Some(e) => Some((FromRelative(rs, len), FromRelative(e, len)))
  }

  /** Converting a value that is already numeric does not move the position
      it stands for. */
  lemma {:induction false} ToNumber2Position(v: Value, len: int)
    ensures Numeric(v) ==> Int64OrLength(ToNumber2(v).value, len) == Int64OrLength(v, len)
  {
    if v.Double? {
      var t := TruncReal(v.d);
      assert TruncReal(t as real) == t;
    }
  }

  /** slice() copies everything: undefined, null and "none" convert to 0,
      and a boolean start is a position 0 or 1. */
  lemma {:induction false} SliceBoundsDefault(len: nat)
    ensures SliceBounds(Undefined, Undefined, len) == Some((0, len))
    ensures SliceBounds(Null, Undefined, len) == Some((0, len))
    ensures SliceBounds(NoneValue, Null, len) == Some((0, 0))
    ensures SliceBounds(Bool(true), Bool(false), len) == Some((if len == 0 then 0 else 1, 0))
  {
  }

  /** slice(-Infinity) starts at 0, slice(+Infinity) at the end, and an
      undefined end means the length. */
  lemma {:induction false} SliceBoundsInfinity(len: nat)
    ensures SliceBounds(Infinity(true), Undefined, len) == Some((0, len))
    ensures SliceBounds(Infinity(false), Undefined, len) == Some((len, len))
  {
  }

  /** The slice of positions k .. final - 1, each read through the prototype. */
  function SliceSpec(a: Slots, proto: Proto, k: nat, final: nat): (r: Slots)
    requires |a| >= 1 && Length(a) <= UINT32_MAX && k <= Length(a) && final <= Length(a)
    ensures |r| == (if k < final then final - k else 0) + 1
    ensures forall s :: 1 <= s < |r| ==> r[s] == Read(a, proto, k + s - 1)
  {
    var n := if k < final then final - k else 0;
    [LengthValue(n)] + seq(n, j requires 0 <= j < n => Read(a, proto, k + j))
  }

  /** The regular path of __jsarr_pt_slice from clamped bounds: a new array
      of max(final - k, 0) elements receives every element that is not a
      hole.  The new block is allocated with room for all of them. */
  method Slice(a: Slots, proto: Proto, k0: nat, final: nat) returns (r: Slots)
    requires WellFormed(a) && k0 <= Length(a) && final <= Length(a)
    ensures r == SliceSpec(a, proto, k0, final)
    ensures WellFormed(r)
  {
    var newLen := if k0 < final then final - k0 else 0;
    r := NewArrayFull(newLen);
    var k := k0;
    var n := 0;
    while k < final
      invariant k0 <= k && (k <= final || k == k0) && n == k - k0
      invariant |r| == newLen + 1 && r[0] == LengthValue(newLen)
      invariant forall s :: 1 <= s <= n ==> r[s] == Read(a, proto, k0 + s - 1)
      invariant forall s :: n < s <= newLen ==> r[s] == NoneValue
    {
      var e := Read(a, proto, k);
      if e != NoneValue {
        r := SetElem(r, n, e);
      }
      k := k + 1;
      n := n + 1;
    }
    assert r == SliceSpec(a, proto, k0, final) by {
      assert forall j :: 1 <= j < |r| ==> r[j] == SliceSpec(a, proto, k0, final)[j];
    }
  }

  /** Slicing all of an array without holes copies it. */
  lemma {:induction false} SliceWhole(a: Slots, proto: Proto)
    requires WellFormed(a) && NoHoles(a)
    ensures SliceSpec(a, proto, 0, Length(a)) == a
  {
    var r := SliceSpec(a, proto, 0, Length(a));
    assert forall j :: 1 <= j < |r| ==> r[j] == a[j];
  }

  // ---------------------------------------------------------------------
  // Array indices

  /** The string form __jsstr_is_numidx accepts: decimal digits whose value
      fits in 32 bits (jsstring.cpp is not part of this model, so this
      reading of it is an assumption). */
  predicate NumIdx(s: string) {
    |s| >= 1 && (forall i :: 0 <= i < |s| ==> IsDigit(s[i])) && DecimalValue(s) <= UINT32_MAX
  }

  /** __jsarr_getIndex: the array index a property key denotes, or
      0xFFFFFFFF when it is not one.  Object keys would first be converted
      to a string and give None here. */
  function GetIndex(p: Value): (r: Option<nat>)
    ensures r.None? <==> p.Object? || p.Function? || p.Env? || p.GpBase? || p == NoneValue
    ensures r.Some? ==> r.value <= MAX_ARRAY_INDEX
    ensures p.Number? ==> r == Some(if p.n >= 0 then p.n else MAX_ARRAY_INDEX)
    ensures p.Double? && 0.0 <= p.d < MAX_ARRAY_INDEX as real ==> r.Some? && r.value as real <= p.d < r.value as real + 1.0
    ensures p.Double? && !(0.0 <= p.d < MAX_ARRAY_INDEX as real) ==> r == Some(MAX_ARRAY_INDEX)
    ensures p.Bool? || p == Undefined || p == Null || p.NaN? || p.Infinity? ==> r == Some(MAX_ARRAY_INDEX)
    ensures p.Str? && r.value != MAX_ARRAY_INDEX ==> NumIdx(p.chars) && r.value == DecimalValue(p.chars)
  {
    match p
    case Number(n) => Some(if n >= 0 then n else MAX_ARRAY_INDEX)
    case Double(d) =>
      if d >= MAX_ARRAY_INDEX as real || d < 0.0 then Some(MAX_ARRAY_INDEX) else Some(d.Floor)
    case Str(s) => Some(StringIndex(s))
    // these convert to "true", "false", "undefined", "null", "NaN" and
    // "Infinity", none of which is a numeral
    case Bool(_) => Some(MAX_ARRAY_INDEX)
    case Undefined => Some(MAX_ARRAY_INDEX)
    case Null => Some(MAX_ARRAY_INDEX)
    case NaN => Some(MAX_ARRAY_INDEX)
    case Infinity(_) => Some(MAX_ARRAY_INDEX)
    case _ => None
  }

  /** The string path as written: the parsed index goes through
      __number_value, an int32, before it is printed and compared. */
  function StringIndex(s: string): (r: nat)
    ensures r <= MAX_ARRAY_INDEX
    ensures r != MAX_ARRAY_INDEX ==> NumIdx(s) && r == DecimalValue(s)
  {
    if NumIdx(s) && s == NumberToString(WrapI32(DecimalValue(s))) then DecimalValue(s)
    else MAX_ARRAY_INDEX
  }

  /** The string path with the index printed as the unsigned number it is. */
  function StringIndexFixed(s: string): (r: nat)
    ensures r <= MAX_ARRAY_INDEX
    ensures r != MAX_ARRAY_INDEX ==> NumIdx(s) && r == DecimalValue(s) && s == NatToDecimal(r)
  {
    if NumIdx(s) && s == NatToDecimal(DecimalValue(s)) then DecimalValue(s)
    else MAX_ARRAY_INDEX
  }

  /** A string is an index only in its canonical form: "007" is not 7. */
  lemma {:induction false} StringIndexCanonical(s: string)
    requires StringIndex(s) != MAX_ARRAY_INDEX
    ensures s == NatToDecimal(StringIndex(s))
  {
    var v := DecimalValue(s);
    var w := WrapI32(v);
    assert s == NumberToString(w);
    assert s[0] != '-';
    assert w >= 0;
    assert w == v;
    NumberToStringRoundTrip(w);
  }

  /** The canonical numeral of an index up to INT32_MAX denotes it. */
  lemma {:induction false} StringIndexSmall(v: nat)
    requires v <= INT32_MAX
    ensures StringIndex(NatToDecimal(v)) == v
  {
    var s := NatToDecimal(v);
    DecimalRoundTrip(v);
    assert Wrap32(v) == v;
    assert WrapI32(v) == v;
    assert NumberToString(v) == s;
  }

  /** As written, the numerals of 2^31 .. 2^32 - 2, which are array indices
      in section 15.4 of ECMAScript 5.1, are rejected: the int32 they pass
      through is negative and prints with a '-'. */
  lemma {:induction false} StringIndexLargeRejected(v: nat)
    requires INT32_MAX < v < MAX_ARRAY_INDEX
    ensures StringIndex(NatToDecimal(v)) == MAX_ARRAY_INDEX
  {
    var s := NatToDecimal(v);
    DecimalRoundTrip(v);
    var w := WrapI32(v);
    assert w == v - TWO32;
    assert NumberToString(w)[0] == '-';
  }

  /** With the fix, every canonical numeral of an index denotes it. */
  lemma {:induction false} StringIndexFixedCorrect(v: nat)
    requires v <= UINT32_MAX
    ensures StringIndexFixed(NatToDecimal(v)) == v
  {
    DecimalRoundTrip(v);
  }

  // ---------------------------------------------------------------------
  // The 0x10000 limits, as written

  /** A block holding 0x10002 elements, all set: what 0x10002 pushes onto
      an empty regular array leave. */
  function BigArray(v: Value): (a: Slots)
    ensures |a| == 0x1_0003 && WellFormed(a)
  {
    [Number(0x1_0002)] + Repeat(v, 0x1_0002)
  }

  /** pop reads its last element with __jsarr_GetRegularElem, which does
      not look at slots above index 0x10000: the element pushed last comes
      back as undefined when the prototype has no such index. */
  lemma {:induction false} PopPastLimitLosesElement(v: Value)
    requires v != NoneValue
    ensures PopAsWritten(BigArray(v), map[]).1 == Undefined
    ensures Pop(BigArray(v), map[]).1 == v
  {
    var a := BigArray(v);
    assert a[0x1_0002] == v;
  }

  /** Elements lo .. hi - 1 read the same through __jsarr_GetRegularElem
      as through the prototype-aware read. */
  predicate SeenAsWritten(a: Slots, proto: Proto, lo: nat, hi: nat)
    requires hi < |a|
  {
    forall i :: lo <= i < hi ==> ReadAsWritten(a, proto, i) == Read(a, proto, i)
  }

  /** Below the limit the two reads agree. */
  lemma {:induction false} SeenBelowLimit(a: Slots, proto: Proto, lo: nat, hi: nat)
    requires hi < |a| && hi <= ARRAY_MAXINDEXNUM_INTERNAL + 1
    ensures SeenAsWritten(a, proto, lo, hi)
  {
  }

  /** shift as written: every element moves down one place through
      __jsarr_internal_MoveElem, which reads with __jsarr_GetRegularElem. */
  function ShiftAsWritten(a: Slots, proto: Proto): (r: Slots)
    requires |a| >= 2
    ensures |r| == |a| - 1 && r[0] == Number(WrapI32(Length(a) - 1))
    ensures forall s :: 1 <= s < |r| ==> r[s] == ReadAsWritten(a, proto, s)
  {
    [Number(WrapI32(Length(a) - 1))]
      + seq(Length(a) - 1, i requires 0 <= i < Length(a) - 1 => ReadAsWritten(a, proto, i + 1))
  }

  /** shift as written leaves what the corrected Shift leaves exactly when
      every element it moves reads the same both ways, which holds for
      arrays of at most 0x10001 elements. */
  lemma {:induction false} ShiftAsWrittenAgrees(a: Slots, proto: Proto)
    requires |a| >= 2
    ensures ShiftAsWritten(a, proto) == ShiftSpec(a, proto) <==> SeenAsWritten(a, proto, 1, Length(a))
    ensures Length(a) <= ARRAY_MAXINDEXNUM_INTERNAL + 1 ==> ShiftAsWritten(a, proto) == ShiftSpec(a, proto)
  {
    var r, sp := ShiftAsWritten(a, proto), ShiftSpec(a, proto);
    assert forall i :: 1 <= i < |sp| ==> sp[i] == Read(a, proto, i) by {
      forall i | 1 <= i < |sp|
        ensures sp[i] == Read(a, proto, i)
      {
        assert sp[i] == Filled(a, proto)[i];
      }
    }
    if SeenAsWritten(a, proto, 1, Length(a)) {
      assert forall i :: 1 <= i < |r| ==> r[i] == sp[i];
    }
    if r == sp {
      assert forall i :: 1 <= i < Length(a) ==> r[i] == sp[i];
    }
    if Length(a) <= ARRAY_MAXINDEXNUM_INTERNAL + 1 {
      SeenBelowLimit(a, proto, 1, Length(a));
    }
  }

  /** unshift as written: the old elements move up through
      __jsarr_internal_MoveElem, which reads with __jsarr_GetRegularElem. */
  function UnshiftAsWritten(a: Slots, proto: Proto, items: seq<Value>): (r: Slots)
    requires |a| >= 1
    ensures |r| == |a| + |items| && r[0] == Number(WrapI32(Length(a) + |items|))
    ensures r[1..|items| + 1] == items
    ensures forall j :: 0 <= j < Length(a) ==> r[j + |items| + 1] == ReadAsWritten(a, proto, j)
  {
    [Number(WrapI32(Length(a) + |items|))] + items
      + seq(Length(a), j requires 0 <= j < Length(a) => ReadAsWritten(a, proto, j))
  }

  /** unshift as written leaves what the corrected Unshift leaves exactly
      when every old element reads the same both ways. */
  lemma {:induction false} UnshiftAsWrittenAgrees(a: Slots, proto: Proto, items: seq<Value>)
    requires |a| >= 1
    ensures UnshiftAsWritten(a, proto, items) == UnshiftSpec(a, proto, items)
            <==> SeenAsWritten(a, proto, 0, Length(a))
    ensures Length(a) <= ARRAY_MAXINDEXNUM_INTERNAL + 1 ==> UnshiftAsWritten(a, proto, items) == UnshiftSpec(a, proto, items)
  {
    var r, sp := UnshiftAsWritten(a, proto, items), UnshiftSpec(a, proto, items);
    var head := [Number(WrapI32(Length(a) + |items|))] + items;
    var moved := seq(Length(a), j requires 0 <= j < Length(a) => ReadAsWritten(a, proto, j));
    var filled := Filled(a, proto);
    assert r == head + moved && sp == head + filled;
    if r == sp {
      assert moved == r[|head|..] == sp[|head|..] == filled;
      assert forall j :: 0 <= j < Length(a) ==> moved[j] == filled[j];
    }
    if Length(a) <= ARRAY_MAXINDEXNUM_INTERNAL + 1 {
      SeenBelowLimit(a, proto, 0, Length(a));
    }
    if SeenAsWritten(a, proto, 0, Length(a)) {
      assert moved == filled;
    }
  }

  /** Element i after reverse as written: the swapped values are read with
      __jsarr_GetRegularElem. */
  function ReversedAtAsWritten(a: Slots, proto: Proto, i: nat): (v: Value)
    requires i + 1 < |a|
  {
    var len := Length(a);
    if i < len / 2 || i >= len - len / 2 then ReadAsWritten(a, proto, len - 1 - i) else a[i + 1]
  }

  /** reverse as written. */
  function ReverseAsWritten(a: Slots, proto: Proto): (r: Slots)
    requires |a| >= 1
    ensures |r| == |a| && r[0] == a[0]
    ensures forall i :: 0 <= i < Length(a) ==> r[i + 1] == ReversedAtAsWritten(a, proto, i)
  {
    [a[0]] + seq(|a| - 1, i requires 0 <= i < |a| - 1 => ReversedAtAsWritten(a, proto, i))
  }

  /** reverse as written leaves what the corrected Reverse leaves when every
      element reads the same both ways, which holds for arrays of at most
      0x10001 elements. */
  lemma {:induction false} ReverseAsWrittenAgrees(a: Slots, proto: Proto)
    requires |a| >= 1
    ensures SeenAsWritten(a, proto, 0, Length(a)) ==> ReverseAsWritten(a, proto) == ReverseSpec(a, proto)
    ensures Length(a) <= ARRAY_MAXINDEXNUM_INTERNAL + 1 ==> ReverseAsWritten(a, proto) == ReverseSpec(a, proto)
  {
    var r, sp := ReverseAsWritten(a, proto), ReverseSpec(a, proto);
    if Length(a) <= ARRAY_MAXINDEXNUM_INTERNAL + 1 {
      SeenBelowLimit(a, proto, 0, Length(a));
    }
    if SeenAsWritten(a, proto, 0, Length(a)) {
      assert forall i :: 0 <= i < Length(a) ==> ReversedAtAsWritten(a, proto, i) == ReversedAt(a, proto, i);
      assert forall s :: 1 <= s < |r| ==> r[s] == sp[s] by {
        forall s | 1 <= s < |r|
          ensures r[s] == sp[s]
        {
          assert r[(s - 1) + 1] == sp[(s - 1) + 1];
        }
      }
    }
  }

  /** Some element slice would store lies past the block
      __js_new_arr_internal gave it. */
  predicate StoresPastBlock(a: Slots, proto: Proto, k: nat, n: nat)
    requires k + n < |a|
  {
    exists i :: k + ARRAY_MAXINDEXNUM_INTERNAL <= i < k + n && ReadAsWritten(a, proto, i) != NoneValue
  }

  /** slice as written: the new block comes from __js_new_arr_internal and
      the elements are read with __jsarr_GetRegularElem.  None when the
      loop stores an element past that block. */
  function SliceAsWritten(a: Slots, proto: Proto, k: nat, final: nat): (r: Option<Slots>)
    requires |a| >= 1 && Length(a) <= UINT32_MAX && k <= Length(a) && final <= Length(a)
    ensures r.Some? ==> |r.value| == Min(if k < final then final - k else 0, ARRAY_MAXINDEXNUM_INTERNAL) + 1
    ensures r.Some? ==> forall s :: 1 <= s < |r.value| ==> r.value[s] == ReadAsWritten(a, proto, k + s - 1)
  {
    var n := if k < final then final - k else 0;
    var m := Min(n, ARRAY_MAXINDEXNUM_INTERNAL);
    if StoresPastBlock(a, proto, k, n) then None
    else Some([LengthValue(n)] + seq(m, j requires 0 <= j < m => ReadAsWritten(a, proto, k + j)))
  }

  /** slice as written builds what the corrected Slice builds for arrays of
      at most 0x10000 elements. */
  lemma {:induction false} SliceAsWrittenAgrees(a: Slots, proto: Proto, k: nat, final: nat)
    requires |a| >= 1 && k <= Length(a) && final <= Length(a)
    requires Length(a) <= ARRAY_MAXINDEXNUM_INTERNAL
    ensures SliceAsWritten(a, proto, k, final) == Some(SliceSpec(a, proto, k, final))
  {
    var n := if k < final then final - k else 0;
    assert Min(n, ARRAY_MAXINDEXNUM_INTERNAL) == n;
    assert !StoresPastBlock(a, proto, k, n);
    var r, sp := SliceAsWritten(a, proto, k, final).value, SliceSpec(a, proto, k, final);
    assert |r| == |sp|;
    forall s | 1 <= s < |r|
      ensures r[s] == sp[s]
    {
      assert k + s - 1 <= ARRAY_MAXINDEXNUM_INTERNAL;
    }
    assert SliceAsWritten(a, proto, k, final).Some?;
    assert r == sp;
  }

  /** On 0x10002 elements, shift, unshift and reverse as written lose
      elements above index 0x10000 that the corrected reads keep, and
      reversing twice no longer gives the array back. */
  lemma {:induction false} MovesPastLimitLoseElements(v: Value)
    requires v != NoneValue
    ensures ShiftAsWritten(BigArray(v), map[])[0x1_0001] == NoneValue
    ensures ShiftSpec(BigArray(v), map[])[0x1_0001] == v
    ensures UnshiftAsWritten(BigArray(v), map[], [])[0x1_0002] == NoneValue
    ensures UnshiftSpec(BigArray(v), map[], [])[0x1_0002] == v
    ensures ReverseAsWritten(BigArray(v), map[])[1] == NoneValue
    ensures ReverseSpec(BigArray(v), map[])[1] == v
    ensures ReverseAsWritten(ReverseAsWritten(BigArray(v), map[]), map[]) != BigArray(v)
  {
    var a := BigArray(v);
    assert a[0x1_0002] == v;
    assert ShiftSpec(a, map[])[0x1_0001] == Filled(a, map[])[0x1_0001];
    assert UnshiftSpec(a, map[], [])[0x1_0002] == Filled(a, map[])[0x1_0001];
    var b := ReverseAsWritten(a, map[]);
    assert b[1] == NoneValue;
    assert ReverseAsWritten(b, map[])[0x1_0002] == NoneValue;
  }

  /** slice as written: a slice of 0x10000 elements ending above index
      0x10000 holds a hole where the corrected slice holds the element, and
      a slice of 0x10001 elements stores past its block. */
  lemma {:induction false} SlicePastLimitAsWritten(v: Value)
    requires v != NoneValue
    ensures SliceAsWritten(BigArray(v), map[], 2, 0x1_0002).Some?
    ensures SliceAsWritten(BigArray(v), map[], 2, 0x1_0002).value[0x1_0000] == NoneValue
    ensures SliceSpec(BigArray(v), map[], 2, 0x1_0002)[0x1_0000] == v
    ensures SliceAsWritten(BigArray(v), map[], 0, 0x1_0001) == None
  {
    var a := BigArray(v);
    assert a[0x1_0002] == v;
    assert a[0x1_0001] == v;
    assert !StoresPastBlock(a, map[], 2, 0x1_0000);
    assert ReadAsWritten(a, map[], 0x1_0000) != NoneValue;
  }

  /** __js_new_arr_internal allocates at most 0x10001 slots, so the array
      slice builds for 0x10001 elements has no slot for its last one, which
      the slice loop writes. */
  lemma {:induction false} SliceOverrunsNewArray()
    ensures |NewArray(0x1_0001)| == 0x1_0001
    ensures |NewArrayFull(0x1_0001)| == 0x1_0002
    ensures |SliceSpec(BigArray(Bool(true)), map[], 0, 0x1_0001)| == 0x1_0002
  {
  }
}

=== FILE: jsdate.dfy ===
/** The date arithmetic of section 15.9.1 of ECMAScript 5.1 as the runtime
    computes it: times are integers of milliseconds since 1970-01-01 UTC and
    every step is C integer arithmetic, so `/` and `%` truncate toward zero.
    The one floating-point step, the first guess of the year in
    YearFromTime, is a parameter: an `Estimator` from times to years. */
module JsDate {
  import opened Common

  const MS_PER_SECOND: int := 1000
  const MS_PER_MINUTE: int := 60000
  const MS_PER_HOUR: int := 3600000
  const MS_PER_DAY: int := 86400000

  // ---------------------------------------------------------------------
  // Days and years

  /** Day(t): truncating division, so a negative time that is not a
      midnight lands on the day after the one it lies in. */
  function Day(t: int): (d: int)
    ensures t >= 0 || t % MS_PER_DAY == 0 ==> d == t / MS_PER_DAY
    ensures t < 0 && t % MS_PER_DAY != 0 ==> d == t / MS_PER_DAY + 1
  {
    TruncByFloor(t, MS_PER_DAY);
    TruncDiv(t, MS_PER_DAY)
  }

  /** TimeWithinDay(t): the truncating remainder, negative before 1970. */
  function TimeWithinDay(t: int): (r: int)
    ensures Day(t) * MS_PER_DAY + r == t
    ensures -MS_PER_DAY < r < MS_PER_DAY
  {
    TruncMod(t, MS_PER_DAY)
  }

  /** The leap-year rule of the Gregorian calendar. */
  ghost predicate LeapYear(y: int) {
    y % 400 == 0 || (y % 4 == 0 && y % 100 != 0)
  }

  /** DaysInYear(y), with C's fmod tests (only their being zero matters). */
  function DaysInYear(y: int): (n: int)
    ensures n == 365 || n == 366
    ensures n == 366 <==> LeapYear(y)
  {
    if y % 4 != 0 then 365
    else if y % 100 != 0 then 366
    else if y % 400 != 0 then 365
    else 366
  }

  /** DayFromYear(y): the floors of real divisions, which are Dafny's `/`
      for these positive divisors. */
  function DayFromYear(y: int): int {
    var k := y - 1970;
    365 * k + (k + 1) / 4 - (k + 69) / 100 + (k + 369) / 400
  }

  /** The day of year 1970 + k stays within two days of 365.2425 days a
      year from 1970. */
  lemma {:induction false} DayFromYearBounds(k: int)
    ensures 146097 * k - 607 < 400 * DayFromYear(1970 + k) < 146097 * k + 593
  {
    FloorBounds(k + 1, 4);
    FloorBounds(k + 69, 100);
    FloorBounds(k + 369, 400);
    assert DayFromYear(1970 + k) == 365 * k + (k + 1) / 4 - (k + 69) / 100 + (k + 369) / 400;
  }

  /** TimeFromYear(y): the time year y starts. */
  function TimeFromYear(y: int): int {
    MS_PER_DAY * DayFromYear(y)
  }

  lemma {:induction false} FloorStep(a: int, b: int)
    requires b > 0
    ensures (a + 1) / b == a / b + (if (a + 1) % b == 0 then 1 else 0)
  {
    var q, r := a / b, a % b;
    if r == b - 1 {
      assert a + 1 == b * (q + 1) + 0 by { MulNegate(b, q); }
      DivModUnique(a + 1, b, q + 1, 0);
    } else {
      DivModUnique(a + 1, b, q, r + 1);
    }
  }

  lemma {:induction false} ModShift(a: int, b: int, k: int)
    requires b > 0
    ensures (a + b * k) % b == a % b
  {
    var q, r := a / b, a % b;
    assert a + b * k == b * (q + k) + r;
    DivModUnique(a + b * k, b, q + k, r);
  }

  /** The year 1970 starts at day 0 and each year is as long as DaysInYear says. */
  lemma {:induction false} DayFromYearStep(y: int)
    ensures DayFromYear(1970) == 0
    ensures DayFromYear(y + 1) == DayFromYear(y) + DaysInYear(y)
  {
    FloorStep(y - 1969, 4);
    FloorStep(y - 1901, 100);
    FloorStep(y - 1601, 400);
    ModShift(y, 4, -492);
    ModShift(y, 100, -19);
    ModShift(y, 400, -4);
  }

  lemma {:induction false} TimeFromYearStep(y: int)
    ensures TimeFromYear(1970) == 0
    ensures TimeFromYear(y + 1) == TimeFromYear(y) + MS_PER_DAY * DaysInYear(y)
  {
    DayFromYearStep(y);
  }

  lemma {:induction false} TimeFromYearMonotone(a: int, b: int)
    requires a < b
    ensures TimeFromYear(a) < TimeFromYear(b)
    decreases b - a
  {
    TimeFromYearStep(b - 1);
    if a < b - 1 {
      TimeFromYearMonotone(a, b - 1);
    }
  }

  // ---------------------------------------------------------------------
  // The year of a time

  /** t lies in year y. */
  ghost predicate InYear(t: int, y: int) {
    TimeFromYear(y) <= t < TimeFromYear(y + 1)
  }

  /** The year of t is e - 1, e or e + 1. */
  ghost predicate Near(t: int, e: int) {
    TimeFromYear(e - 1) <= t < TimeFromYear(e + 2)
  }

  /** The first guess of the year, floor(t / (msPerDay * 365.2425)) + 1970. */
  type Estimator = int -> int

  /** The estimate for t is within a year of t's year. */
  ghost predicate NearAt(est: Estimator, t: int) {
    Near(t, est(t))
  }

  ghost predicate GoodEstimator(est: Estimator) {
    forall t :: NearAt(est, t)
  }

  /** A time lies in one year only. */
  lemma {:induction false} YearUnique(t: int, a: int, b: int)
    requires InYear(t, a) && InYear(t, b)
    ensures a == b
  {
    if a < b {
      if a + 1 < b {
        TimeFromYearMonotone(a + 1, b);
      }
    } else if b < a {
      if b + 1 < a {
        TimeFromYearMonotone(b + 1, a);
      }
    }
  }

  /** YearFromTime(t): correct the estimate by one year either way. */
  function YearFromTime(est: Estimator, t: int): (y: int)
    ensures est(t) - 1 <= y <= est(t) + 1
    ensures Near(t, est(t)) ==> InYear(t, y)
  {
    CorrectYearNear(est(t), t);
    CorrectYear(est(t), t)
  }

  /** The estimate e moved back when year e starts after t, forward when it
      ends at or before t. */
  function CorrectYear(e: int, t: int): (y: int)
    ensures e - 1 <= y <= e + 1
  {
    if TimeFromYear(e) > t then e - 1
    else if TimeFromYear(e) + MS_PER_DAY * DaysInYear(e) <= t then e + 1
    else e
  }

  lemma {:induction false} CorrectYearNear(e: int, t: int)
    ensures Near(t, e) ==> InYear(t, CorrectYear(e, t))
  {
    TimeFromYearStep(e);
  }

  /** With a good estimate, YearFromTime is the year t lies in. */
  lemma {:induction false} YearFromTimeCorrect(est: Estimator, t: int, y: int)
    requires GoodEstimator(est)
    ensures YearFromTime(est, t) == y <==> InYear(t, y)
  {
    assert NearAt(est, t);
    if InYear(t, y) {
      YearUnique(t, y, YearFromTime(est, t));
    }
  }

  /** The estimate computed exactly, 365.2425 being 146097 / 400. */
  function ExactEstimate(t: int): int {
    (400 * t) / (MS_PER_DAY * 146097) + 1970
  }

  lemma {:induction false} FloorBounds(a: int, b: int)
    requires b > 0
    ensures b * (a / b) <= a < b * (a / b) + b
  {
  }

  /** 400 * DayFromYear(1970 + k) is within 607 of 146097 * k. */
  /** The exactly computed estimate is never off by more than one year. */
  lemma {:induction false} ExactEstimateGood()
    ensures GoodEstimator(ExactEstimate)
  {
    forall t
      ensures NearAt(ExactEstimate, t)
    {
      var k := (400 * t) / (MS_PER_DAY * 146097);
      FloorBounds(400 * t, MS_PER_DAY * 146097);
      DayFromYearBounds(k - 1);
      DayFromYearBounds(k + 2);
      assert 1970 + (k - 1) == ExactEstimate(t) - 1;
      assert 1970 + (k + 2) == ExactEstimate(t) + 2;
    }
  }

  // ---------------------------------------------------------------------
  // Months and dates

  /** InLeapYear(t): 1 in a leap year, 0 otherwise. */
  function InLeapYear(est: Estimator, t: int): (l: int)
    ensures l == 0 || l == 1
    ensures l == 1 <==> LeapYear(YearFromTime(est, t))
  {
    if DaysInYear(YearFromTime(est, t)) == 365 then 0 else 1
  }

  function DayWithinYear(est: Estimator, t: int): (d: int)
    ensures Near(t, est(t)) ==> 0 <= d <= DaysInYear(YearFromTime(est, t))
    ensures Near(t, est(t)) && (t >= 0 || t % MS_PER_DAY == 0) ==> d < DaysInYear(YearFromTime(est, t))
  {
    var y := YearFromTime(est, t);
    DayInYear(t, y);
    Day(t) - DayFromYear(y)
  }

  /** The day of a time in year y is one of that year's days, or the day
      after them when truncation moves it forward. */
  lemma {:induction false} DayInYear(t: int, y: int)
    ensures InYear(t, y) ==> DayFromYear(y) <= Day(t) <= DayFromYear(y) + DaysInYear(y)
    ensures InYear(t, y) && (t >= 0 || t % MS_PER_DAY == 0) ==> Day(t) < DayFromYear(y) + DaysInYear(y)
  {
    if InYear(t, y) {
      TimeFromYearStep(y);
      FloorWithin(t, DayFromYear(y), DaysInYear(y));
    }
  }

  lemma {:induction false} FloorWithin(t: int, a: int, n: int)
    requires MS_PER_DAY * a <= t < MS_PER_DAY * (a + n)
    ensures a <= t / MS_PER_DAY < a + n
  {
  }

  /** The days of the year before month m (0 = January, 12 = the whole
      year), `leap` being 1 in a leap year. */
  function CumDays(m: int, leap: int): int
    requires 0 <= m <= 12
  {
    if m == 0 then 0 else if m == 1 then 31
    else [59, 90, 120, 151, 181, 212, 243, 273, 304, 334, 365][m - 2] + leap
  }

  /** The length of month m. */
  function DaysInMonth(m: int, leap: int): int
    requires 0 <= m < 12
  {
    CumDays(m + 1, leap) - CumDays(m, leap)
  }

  /** The month test of MonthFromTime on a day of the year; None where the
      runtime reaches its failing assertion. */
  function MonthOfDay(d: int, leap: int): (m: Option<int>)
    requires leap == 0 || leap == 1
    ensures m.Some? <==> 0 <= d <= 365 + leap
    ensures m.Some? ==> 0 <= m.value < 12 && CumDays(m.value, leap) <= d
    ensures m.Some? ==> d < CumDays(m.value + 1, leap) || (m.value == 11 && d == 365 + leap)
  {
    if 0 <= d < 31 then Some(0)
    else if 31 <= d < 59 + leap then Some(1)
    else if 59 + leap <= d < 90 + leap then Some(2)
    else if 90 + leap <= d < 120 + leap then Some(3)
    else if 120 + leap <= d < 151 + leap then Some(4)
    else if 151 + leap <= d < 181 + leap then Some(5)
    else if 181 + leap <= d < 212 + leap then Some(6)
    else if 212 + leap <= d < 243 + leap then Some(7)
    else if 243 + leap <= d < 273 + leap then Some(8)
    else if 273 + leap <= d < 304 + leap then Some(9)
    else if 304 + leap <= d < 334 + leap then Some(10)
    else if 334 + leap <= d <= 365 + leap then Some(11)
    else None
  }

  /** The only month whose day range holds d. */
  lemma {:induction false} MonthOfDayUnique(d: int, leap: int, m: int)
    requires leap == 0 || leap == 1
    requires 0 <= m < 12 && CumDays(m, leap) <= d < CumDays(m + 1, leap)
    ensures MonthOfDay(d, leap) == Some(m)
  {
  }

  /** MonthFromTime(t). */
  function MonthFromTime(est: Estimator, t: int): (m: Option<int>)
    ensures Near(t, est(t)) ==> m.Some? && 0 <= m.value < 12
  {
    MonthOfDay(DayWithinYear(est, t), InLeapYear(est, t))
  }

  /** DateFromTime(t): before 1970 the time is first moved back by one day
      less a millisecond, so that the truncating Day gives the floor. */
  function DateFromTime(est: Estimator, t: int): (r: Option<int>)
    ensures Near(ShiftBack(t), est(ShiftBack(t))) ==> r.Some?
  {
    var t2 := ShiftBack(t);
    DateOfDay(DayWithinYear(est, t2), InLeapYear(est, t2))
  }

  /** The date within its month of day d of the year, by the month test of
      MonthFromTime; the day after the year's last reads as December 32. */
  function DateOfDay(d: int, leap: int): (r: Option<int>)
    requires leap == 0 || leap == 1
    ensures r.Some? <==> 0 <= d <= 365 + leap
    ensures 0 <= d < 365 + leap ==> 1 <= r.value <= DaysInMonth(MonthOfDay(d, leap).value, leap)
    ensures d == 365 + leap ==> r == Some(32)
  {
    match MonthOfDay(d, leap)
    case None => None
    case Some(m) => Some(d + 1 - CumDays(m, leap))
  }

  function ShiftBack(t: int): int {
    if t < 0 then t - (MS_PER_DAY - 1) else t
  }

  /** Moving a negative time back by a day less a millisecond makes the
      truncating Day the floor of the original time. */
  lemma {:induction false} ShiftBackDay(t: int)
    ensures Day(ShiftBack(t)) == t / MS_PER_DAY
  {
    if t < 0 {
      var q, r := t / MS_PER_DAY, t % MS_PER_DAY;
      var u := t - (MS_PER_DAY - 1);
      if r == MS_PER_DAY - 1 {
        DivModUnique(u, MS_PER_DAY, q, 0);
      } else {
        DivModUnique(u, MS_PER_DAY, q - 1, r + 1);
      }
    }
  }

  // ---------------------------------------------------------------------
  // Months and dates as sections 15.9.1.4 and 15.9.1.5 of ECMAScript 5.1
  // define them, with
  // Day the floor of t / msPerDay

  function FloorDay(t: int): int { t / MS_PER_DAY }

  function LeapDays(y: int): (l: int)
    ensures l == 0 || l == 1
    ensures l == 1 <==> LeapYear(y)
  {
    DaysInYear(y) - 365
  }

  function DayWithinYearFloor(est: Estimator, t: int): (d: int)
    ensures Near(t, est(t)) ==> 0 <= d < DaysInYear(YearFromTime(est, t))
  {
    var y := YearFromTime(est, t);
    FloorDayInYear(t, y);
    FloorDay(t) - DayFromYear(y)
  }

  lemma {:induction false} FloorDayInYear(t: int, y: int)
    ensures InYear(t, y) ==> DayFromYear(y) <= FloorDay(t) < DayFromYear(y) + DaysInYear(y)
  {
    if InYear(t, y) {
      TimeFromYearStep(y);
      FloorWithin(t, DayFromYear(y), DaysInYear(y));
    }
  }

  /** The month of t: the one whose day range holds its day of the year. */
  function MonthFromTimeFloor(est: Estimator, t: int): (m: Option<int>)
    ensures Near(t, est(t)) ==> (
      && m.Some? && 0 <= m.value < 12
      && CumDays(m.value, InLeapYear(est, t)) <= DayWithinYearFloor(est, t) < CumDays(m.value + 1, InLeapYear(est, t)))
  {
    MonthOfDay(DayWithinYearFloor(est, t), InLeapYear(est, t))
  }

  /** The date of t within its month, from 1 to the month's length. */
  function DateFromTimeFloor(est: Estimator, t: int): (r: Option<int>)
    ensures Near(t, est(t)) ==> (
      && r.Some? && MonthFromTimeFloor(est, t).Some?
      && 1 <= r.value <= DaysInMonth(MonthFromTimeFloor(est, t).value, InLeapYear(est, t)))
  {
    DateOfDay(DayWithinYearFloor(est, t), InLeapYear(est, t))
  }

  /** The runtime's month agrees with the definition except on negative
      times that are not a midnight. */
  lemma {:induction false} MonthFromTimeAgrees(est: Estimator, t: int)
    requires t >= 0 || t % MS_PER_DAY == 0
    ensures MonthFromTime(est, t) == MonthFromTimeFloor(est, t)
  {
  }

  /** The runtime's date agrees with the definition except on the first
      day of a year before 1970. */
  lemma {:induction false} DateFromTimeAgrees(est: Estimator, t: int)
    requires GoodEstimator(est)
    requires t >= 0 || FloorDay(t) != DayFromYear(YearFromTime(est, t))
    ensures DateFromTime(est, t) == DateFromTimeFloor(est, t)
  {
    if t < 0 {
      var y := YearFromTime(est, t);
      assert NearAt(est, t);
      ShiftBackSameYear(t, y);
      YearFromTimeCorrect(est, ShiftBack(t), y);
      assert DayWithinYear(est, ShiftBack(t)) == DayWithinYearFloor(est, t);
      assert InLeapYear(est, ShiftBack(t)) == InLeapYear(est, t);
    } else {
      assert ShiftBack(t) == t;
      assert DayWithinYear(est, t) == DayWithinYearFloor(est, t);
    }
  }

  /** Moving a negative time back by a day less a millisecond keeps it in
      its year unless it lies on the year's first day. */
  lemma {:induction false} ShiftBackSameYear(t: int, y: int)
    requires t < 0 && InYear(t, y) && FloorDay(t) != DayFromYear(y)
    ensures InYear(ShiftBack(t), y)
  {
    var t2 := ShiftBack(t);
    FloorDayInYear(t, y);
    FloorBounds(t, MS_PER_DAY);
    assert t2 >= MS_PER_DAY * (FloorDay(t) - 1);
    assert MS_PER_DAY * (FloorDay(t) - 1) >= MS_PER_DAY * DayFromYear(y);
  }

  /** On 1969-01-31 at noon the runtime reports February. */
  lemma {:induction false} MonthFromTimeLastDay(est: Estimator)
    requires GoodEstimator(est)
    ensures MonthFromTime(est, -28900800000) == Some(1)
    ensures MonthFromTimeFloor(est, -28900800000) == Some(0)
  {
    var t := -28900800000;
    assert DayFromYear(1969) == -365 && DayFromYear(1970) == 0;
    assert InYear(t, 1969);
    YearFromTimeCorrect(est, t, 1969);
    assert Day(t) == -334 && FloorDay(t) == -335;
  }

  /** On 1969-01-01 at midnight the runtime reports date 32. */
  lemma {:induction false} DateFromTimeNewYear(est: Estimator)
    requires GoodEstimator(est)
    ensures DateFromTime(est, -31536000000) == Some(32)
    ensures DateFromTimeFloor(est, -31536000000) == Some(1)
  {
    var t := -31536000000;
    var t2 := ShiftBack(t);
    assert t2 == -31622399999;
    assert DayFromYear(1968) == -731 && DayFromYear(1969) == -365 && DayFromYear(1970) == 0;
    assert InYear(t, 1969) && InYear(t2, 1968);
    YearFromTimeCorrect(est, t, 1969);
    YearFromTimeCorrect(est, t2, 1968);
    assert Day(t2) == -365 && FloorDay(t) == -365;
    assert DayWithinYear(est, t2) == 366 && InLeapYear(est, t2) == 1;
    assert MonthOfDay(366, 1) == Some(11);
  }

  // ---------------------------------------------------------------------
  // Time of day and week day

  /** The runtime's positive stand-in for the time within the day of a
      negative t: msPerDay plus the truncating remainder. */
  lemma {:induction false} NegativeWithinDay(t: int)
    requires t < 0
    ensures MS_PER_DAY + TruncMod(t, MS_PER_DAY) == (if t % MS_PER_DAY == 0 then MS_PER_DAY else t % MS_PER_DAY)
  {
    TruncByFloor(t, MS_PER_DAY);
  }

  /** Taking the remainder by k * u and then dividing by u is dividing by u
      and then taking the remainder by k. */
  lemma {:induction false} ModThenDiv(x: int, u: int, k: int)
    requires u > 0 && k > 0
    ensures (x % (k * u)) / u == (x / u) % k
  {
    var q, r := x / u, x % u;
    var a, b := q / k, q % k;
    assert x == u * q + r;
    assert q == k * a + b;
    MulDistrib(u, k, a, b);
    assert u * b <= u * (k - 1) by { MulMonotone(u, b, k - 1); }
    MulDistrib(u, 1, k - 1, 0);
    DivModUnique(x, k * u, a, u * b + r);
    DivModUnique(u * b + r, u, b, r);
  }

  lemma {:induction false} MulDistrib(u: int, k: int, a: int, b: int)
    ensures u * (k * a + b) == (k * u) * a + u * b
  {
  }

  lemma {:induction false} MulMonotone(u: int, b: int, c: int)
    requires u > 0 && b <= c
    ensures u * b <= u * c
  {
  }

  /** A remainder by a * b keeps the remainder by a. */
  lemma {:induction false} ModOfMod(x: int, a: int, b: int)
    requires a > 0 && b > 0
    ensures (x % (a * b)) % a == x % a
  {
    var q, r := x / (a * b), x % (a * b);
    var c, e := r / a, r % a;
    assert x == (a * b) * q + r && r == a * c + e;
    MulAssoc(a, b, q, c);
    DivModUnique(x, a, b * q + c, e);
  }

  lemma {:induction false} MulAssoc(a: int, b: int, q: int, c: int)
    ensures (a * b) * q + a * c == a * (b * q + c)
  {
  }

  /** HourFromTime(t): floor(t / msPerHour) modulo 24 for every t. */
  function HourFromTime(t: int): (h: int)
    ensures h == (t / MS_PER_HOUR) % 24
    ensures 0 <= h < 24
  {
    ModThenDiv(t, MS_PER_HOUR, 24);
    if t < 0 then
      NegativeWithinDay(t);
      ((MS_PER_DAY + TruncMod(t, MS_PER_DAY)) / MS_PER_HOUR) % 24
    else (t / MS_PER_HOUR) % 24
  }

  /** MinFromTime(t): floor(t / msPerMinute) modulo 60 for every t. */
  function MinFromTime(t: int): (m: int)
    ensures m == (t / MS_PER_MINUTE) % 60
    ensures 0 <= m < 60
  {
    ModThenDiv(t, MS_PER_MINUTE, 1440);
    ModOfMod(t / MS_PER_MINUTE, 60, 24);
    if t < 0 then
      NegativeWithinDay(t);
      ((MS_PER_DAY + TruncMod(t, MS_PER_DAY)) / MS_PER_MINUTE) % 60
    else (t / MS_PER_MINUTE) % 60
  }

  /** SecFromTime(t): floor(t / msPerSecond) modulo 60 for every t. */
  function SecFromTime(t: int): (s: int)
    ensures s == (t / MS_PER_SECOND) % 60
    ensures 0 <= s < 60
  {
    ModThenDiv(t, MS_PER_SECOND, 86400);
    ModOfMod(t / MS_PER_SECOND, 60, 1440);
    if t < 0 then
      NegativeWithinDay(t);
      ((MS_PER_DAY + TruncMod(t, MS_PER_DAY)) / MS_PER_SECOND) % 60
    else (t / MS_PER_SECOND) % 60
  }

  /** MsFromTime(t): t modulo 1000 for every t. */
  function MsFromTime(t: int): (ms: int)
    ensures ms == t % MS_PER_SECOND
    ensures 0 <= ms < 1000
  {
    ModOfMod(t, 1000, 86400);
    if t < 0 then
      NegativeWithinDay(t);
      (MS_PER_DAY + TruncMod(t, MS_PER_DAY)) % MS_PER_SECOND
    else t % MS_PER_SECOND
  }

  /** WeekDay(t): (floor(t / msPerDay) + 4) modulo 7, 1970-01-01 being a
      Thursday; before 1970 the time is moved back as in DateFromTime. */
  function WeekDay(t: int): (w: int)
    ensures w == (t / MS_PER_DAY + 4) % 7
    ensures 0 <= w < 7
  {
    if t < 0 then
      ShiftBackDay(t);
      var d := Day(ShiftBack(t));
      TruncByFloor(d, 7);
      ModShift(d + 4, 7, 1);
      (TruncMod(d, 7) + 11) % 7
    else (Day(t) + 4) % 7
  }

  // ---------------------------------------------------------------------
  // Building times

  /** MakeTime(hour, min, sec, ms) on integers: in-range parts give a time
      within one day. */
  function MakeTime(hour: int, min: int, sec: int, ms: int): (t: int)
    ensures 0 <= hour < 24 && 0 <= min < 60 && 0 <= sec < 60 && 0 <= ms < 1000 ==> 0 <= t < MS_PER_DAY
  {
    hour * MS_PER_HOUR + min * MS_PER_MINUTE + sec * MS_PER_SECOND + ms
  }

  /** MakeDate(day, time): a time within the day lands on that day. */
  function MakeDate(day: int, time: int): (t: int)
    ensures 0 <= time < MS_PER_DAY ==> FloorDay(t) == day && t % MS_PER_DAY == time
  {
    if 0 <= time < MS_PER_DAY then
      DivModUnique(day * MS_PER_DAY + time, MS_PER_DAY, day, time);
      day * MS_PER_DAY + time
    else day * MS_PER_DAY + time
  }

  /** TimeClip(time): the runtime applies no range check, so even times
      beyond 8.64e15 ms, which section 15.9.1.14 turns into NaN, are kept. */
  function TimeClip(time: int): (t: int)
    ensures t == time
  {
    time
  }

  /** A date built from in-range parts gives those parts back. */
  lemma {:induction false} MakeDateRoundTrip(day: int, hour: int, min: int, sec: int, ms: int)
    requires 0 <= hour < 24 && 0 <= min < 60 && 0 <= sec < 60 && 0 <= ms < 1000
    ensures var t := TimeClip(MakeDate(day, MakeTime(hour, min, sec, ms)));
      && FloorDay(t) == day
      && HourFromTime(t) == hour && MinFromTime(t) == min
      && SecFromTime(t) == sec && MsFromTime(t) == ms
  {
    var t := MakeDate(day, MakeTime(hour, min, sec, ms));
    var w := MakeTime(hour, min, sec, ms);
    DivModUnique(t, MS_PER_DAY, day, w);
    DivModUnique(t, MS_PER_HOUR, day * 24 + hour, min * MS_PER_MINUTE + sec * MS_PER_SECOND + ms);
    ModShift(hour, 24, day);
    DivModUnique(t, MS_PER_MINUTE, day * 1440 + hour * 60 + min, sec * MS_PER_SECOND + ms);
    ModShift(min, 60, day * 24 + hour);
    DivModUnique(t, MS_PER_SECOND, day * 86400 + hour * 3600 + min * 60 + sec, ms);
    ModShift(sec, 60, day * 1440 + hour * 60 + min);
  }

  /** LocalTime(t) with the zone offset `tza` (in milliseconds) given; the
      daylight-saving adjustment is always 0. */
  function LocalTime(t: int, tza: int): (l: int)
    ensures l - t == tza
  {
    t + tza + DaylightSavingTA(t)
  }

  function UTC(t: int, tza: int): (u: int)
    ensures t - u == tza
  {
    t - tza - DaylightSavingTA(t - tza)
  }

  function DaylightSavingTA(t: int): int { 0 }

  /** UTC undoes LocalTime and LocalTime undoes UTC. */
  lemma {:induction false} LocalTimeInverse(t: int, tza: int)
    ensures UTC(LocalTime(t, tza), tza) == t
    ensures LocalTime(UTC(t, tza), tza) == t
  {
  }

  // ---------------------------------------------------------------------
  // MakeDay

  /** The days before month mm as MakeDay adds them up; a negative mm
      passes none of its tests. */
  function DaysBefore(mm: int, leap: int): (yd: int)
    requires mm < 12
  {
    if mm <= 0 then 0 else CumDays(mm, leap)
  }

  /** A year's start, given as a time, is found to lie in that year. */
  lemma {:induction false} YearStart(est: Estimator, y: int)
    requires Near(TimeFromYear(y), est(TimeFromYear(y)))
    ensures YearFromTime(est, TimeFromYear(y)) == y
    ensures InLeapYear(est, TimeFromYear(y)) == LeapDays(y)
  {
    TimeFromYearStep(y);
    YearUnique(TimeFromYear(y), y, YearFromTime(est, TimeFromYear(y)));
  }

  lemma {:induction false} DayOfMultiple(x: int)
    ensures Day(MS_PER_DAY * x) == x
  {
    DivModUnique(MS_PER_DAY * x, MS_PER_DAY, x, 0);
  }

  /** MakeDay(year, month, date) with C's truncating month / 12 and
      month % 12. */
  function MakeDay(est: Estimator, year: int, month: int, date: int): (r: int)
    ensures month < 0 ==> r == DayFromYear(year + TruncDiv(month, 12)) + date - 1
    ensures month >= 0 && Near(TimeFromYear(year + month / 12), est(TimeFromYear(year + month / 12))) ==>
      r == DayFromYear(year + month / 12) + CumDays(month % 12, LeapDays(year + month / 12)) + date - 1
  {
    var ym := year + TruncDiv(month, 12);
    var mm := TruncMod(month, 12);
    var t := TimeFromYear(ym);
    var yd := DaysBefore(mm, InLeapYear(est, t));
    DayOfMultiple(DayFromYear(ym) + yd);
    assert t + yd * MS_PER_DAY == MS_PER_DAY * (DayFromYear(ym) + yd);
    TruncByFloor(month, 12);
    assert month >= 0 && Near(t, est(t)) ==> InLeapYear(est, t) == LeapDays(ym) by {
      if month >= 0 && Near(t, est(t)) {
        YearStart(est, ym);
      }
    }
    Day(t + yd * MS_PER_DAY) + date - 1
  }

  /** MakeDay as section 15.9.1.12 defines it: the year moves by
      floor(month / 12) and the month is month modulo 12. */
  function MakeDayFloor(year: int, month: int, date: int): int {
    var ym := year + month / 12;
    DayFromYear(ym) + CumDays(month % 12, LeapDays(ym)) + date - 1
  }

  /** The runtime's MakeDay is the standard one for months from 0 on. */
  lemma {:induction false} MakeDayAgrees(est: Estimator, year: int, month: int, date: int)
    requires GoodEstimator(est)
    requires month >= 0
    ensures MakeDay(est, year, month, date) == MakeDayFloor(year, month, date)
  {
    assert NearAt(est, TimeFromYear(year + month / 12));
  }

  /** Month -1 of 1970 is December 1969, but the runtime gives 1970-01-01. */
  lemma {:induction false} MakeDayNegativeMonth(est: Estimator)
    ensures MakeDay(est, 1970, -1, 1) == 0
    ensures MakeDayFloor(1970, -1, 1) == -31
  {
    assert TruncDiv(-1, 12) == 0;
    assert DayFromYear(1970) == 0;
    assert -1 / 12 == -1 && -1 % 12 == 11;
    assert DayFromYear(1969) == -365;
    assert LeapDays(1969) == 0;
    assert CumDays(11, 0) == 334;
  }

  lemma {:induction false} CumDaysBound(m: int, leap: int)
    requires 0 <= m < 12 && (leap == 0 || leap == 1)
    ensures 0 <= CumDays(m, leap) < CumDays(m + 1, leap) <= 365 + leap
  {
  }

  /** The time at the start of day DayFromYear(y) + d, for d a day of the
      year, lies in year y and its day of the year is d. */
  lemma {:induction false} StartOfDayInYear(est: Estimator, y: int, d: int)
    requires GoodEstimator(est)
    requires 0 <= d < DaysInYear(y)
    ensures InYear(MakeDate(DayFromYear(y) + d, 0), y)
    ensures YearFromTime(est, MakeDate(DayFromYear(y) + d, 0)) == y
    ensures DayWithinYearFloor(est, MakeDate(DayFromYear(y) + d, 0)) == d
  {
    var day := DayFromYear(y) + d;
    var t := MakeDate(day, 0);
    TimeFromYearStep(y);
    assert InYear(t, y);
    YearFromTimeCorrect(est, t, y);
    DivModUnique(t, MS_PER_DAY, day, 0);
  }

  /** A time whose day of the year falls in month m reads back as month m
      and the matching date. */
  lemma {:induction false} ReadBackMonth(est: Estimator, t: int, m: int, leap: int, d: int)
    requires 0 <= m < 12 && (leap == 0 || leap == 1)
    requires InLeapYear(est, t) == leap && DayWithinYearFloor(est, t) == d
    requires CumDays(m, leap) <= d < CumDays(m + 1, leap)
    ensures MonthFromTimeFloor(est, t) == Some(m)
    ensures DateFromTimeFloor(est, t) == Some(d + 1 - CumDays(m, leap))
  {
    MonthOfDayUnique(d, leap, m);
  }

  /** A day built by MakeDayFloor from a valid date reads back as that
      year, month and date. */
  lemma {:induction false} MakeDayRoundTrip(est: Estimator, year: int, month: int, date: int)
    requires GoodEstimator(est)
    requires 1 <= date <= DaysInMonth(month % 12, LeapDays(year + month / 12))
    ensures var t := MakeDate(MakeDayFloor(year, month, date), 0);
      && YearFromTime(est, t) == year + month / 12
      && MonthFromTimeFloor(est, t) == Some(month % 12)
      && DateFromTimeFloor(est, t) == Some(date)
  {
    var ym, mm := year + month / 12, month % 12;
    var leap := LeapDays(ym);
    var d := CumDays(mm, leap) + date - 1;
    CumDaysBound(mm, leap);
    StartOfDayInYear(est, ym, d);
    var t := MakeDate(DayFromYear(ym) + d, 0);
    assert t == MakeDate(MakeDayFloor(year, month, date), 0);
    ReadBackMonth(est, t, mm, leap, d);
  }
}

=== FILE: jsvalue.dfy ===
/** The runtime's tagged values.  The NaN-boxed bit layout is not part of
    this model: a value is its tag and payload.  A double is an exact real
    (rounding and the sign of zero are not modelled); a string is its
    characters; objects, functions and environments are references. */
module JsValue {
  import opened Common

  datatype Value =
    | NoneValue                   // JSTYPE_NONE, also an array hole
    | Undefined
    | Null
    | Bool(b: bool)
    | Number(n: i32)              // the int32-tagged number
    | Double(d: real)
    | NaN
    | Infinity(negative: bool)
    | Str(chars: string)
    | Object(ref: nat)
    | Function(addr: nat)
    | Env(addr: nat)
    | GpBase(offset: int)

  /** The 2^53 - 1 cap on lengths. */
  const MAX_LENGTH: nat := 0x1F_FFFF_FFFF_FFFF

  /** An int32 number or a boolean: the values whose low 32 bits are the payload. */
  predicate NumberOrBool(v: Value) { v.Number? || v.Bool? }

  /** The low 32 bits of a number or boolean, read as int32. */
  function Payload32(v: Value): (p: i32)
    requires NumberOrBool(v)
    ensures v.Bool? ==> p == (if v.b then 1 else 0)
    ensures v.Number? ==> p == v.n
  {
    if v.Bool? then (if v.b then 1 else 0) else v.n
  }

  /** C's conversion of a double to an integer: toward zero. */
  function TruncReal(d: real): (i: int)
    ensures d >= 0.0 ==> i as real <= d < i as real + 1.0
    ensures d < 0.0 ==> i as real - 1.0 < d <= i as real
  {
    if d < 0.0 then -((-d).Floor) else d.Floor
  }
}

=== FILE: pass_arguments.dfy ===
/** PassArguments: how the interpreter lays out a call's `this`, its
    environment and its arguments in the 8-byte slots below the stack
    pointer.  The stack is modelled as a map from byte offsets (relative to
    the stack pointer) to the values stored there. */
module PassArguments {
  import opened Common
  import opened JsValue

  /** MVALSIZE: the size of a stack slot. */
  const SLOT: nat := 8

  /** How many of the actual arguments are passed: all of them when the
      function's formal count is -1 (unknown), otherwise at most the formal
      count. */
  function ArgCount(narg: nat, funcNarg: int): (m: nat)
    ensures m <= narg
    ensures funcNarg == -1 ==> m == narg
    ensures funcNarg >= 0 ==> m == Min(narg, funcNarg)
  {
    if funcNarg == -1 then narg
    else if funcNarg - narg > 0 then narg
    else Max(funcNarg, 0)
  }

  /** How many undefined values pad a call with fewer actual arguments
      than formal ones. */
  function PadCount(narg: nat, funcNarg: int): (k: nat)
    ensures funcNarg == -1 ==> k == 0
    ensures funcNarg >= 0 ==> ArgCount(narg, funcNarg) + k == Max(narg, funcNarg) - (narg - ArgCount(narg, funcNarg))
  {
    if funcNarg == -1 then 0 else Max(funcNarg - narg, 0)
  }

  /** The slots from the returned offset upward: `this`, the environment
      if there is one, the passed arguments in order, then the pads. */
  function Layout(thisArg: Value, env: Option<nat>, args: seq<Value>, funcNarg: int): (l: seq<Value>)
    ensures |l| >= 1 && l[0] == thisArg
    ensures funcNarg == -1 ==> |l| == 1 + (if env.Some? then 1 else 0) + |args|
    ensures funcNarg >= 0 ==> |l| == 1 + (if env.Some? then 1 else 0) + funcNarg
  {
    [thisArg] + (if env.Some? then [Env(env.value)] else [])
    + args[..ArgCount(|args|, funcNarg)] + Repeat(Undefined, PadCount(|args|, funcNarg))
  }

  /** What the layout holds where: `this` first, then the environment, the
      i-th passed argument at 1 + e + i, and undefined above it; with a
      formal count of -1 every actual argument is passed, otherwise exactly
      the formal count of argument slots is filled. */
  lemma {:induction false} LayoutContents(thisArg: Value, env: Option<nat>, args: seq<Value>, funcNarg: int)
    ensures var l, e, m := Layout(thisArg, env, args, funcNarg), if env.Some? then 1 else 0, ArgCount(|args|, funcNarg);
      && |l| == 1 + e + m + PadCount(|args|, funcNarg)
      && l[0] == thisArg
      && (env.Some? ==> l[1] == Env(env.value))
      && (forall i :: 0 <= i < m ==> l[1 + e + i] == args[i])
      && (forall i :: 1 + e + m <= i < |l| ==> l[i] == Undefined)
      && (funcNarg >= 0 ==> |l| == 1 + e + funcNarg)
      && (funcNarg == -1 ==> |l| == 1 + e + |args|)
  {
    var e, m := if env.Some? then 1 else 0, ArgCount(|args|, funcNarg);
    var head := [thisArg] + (if env.Some? then [Env(env.value)] else []);
    var mid, pad := args[..m], Repeat(Undefined, PadCount(|args|, funcNarg));
    ConcatIndex(head, mid, pad);
    assert |head| == 1 + e;
    assert forall i :: 0 <= i < m ==> mid[i] == args[i];
  }

  /** Where the parts of a three-part concatenation sit. */
  lemma {:induction false} ConcatIndex<T>(a: seq<T>, b: seq<T>, c: seq<T>)
    ensures |a + b + c| == |a| + |b| + |c|
    ensures forall i :: 0 <= i < |a| ==> (a + b + c)[i] == a[i]
    ensures forall i :: |a| <= i < |a| + |b| ==> (a + b + c)[i] == b[i - |a|]
    ensures forall i :: |a| + |b| <= i < |a| + |b| + |c| ==> (a + b + c)[i] == c[i - |a| - |b|]
  {
  }

  /** The byte offset of the u-th slot below the stack pointer. */
  function SlotAt(u: int): int { -(SLOT as int) * u }

  /** The stack after the top w slots of the layout were stored, from the
      stack pointer down: the u-th slot below it holds l[|l| - u]. */
  function Pushed(stack: map<int, Value>, l: seq<Value>, w: nat): map<int, Value>
    requires w <= |l|
  {
    if w == 0 then stack else Pushed(stack, l, w - 1)[SlotAt(w) := l[|l| - w]]
  }

  lemma {:induction false} PushedReads(stack: map<int, Value>, l: seq<Value>, w: nat)
    requires w <= |l|
    ensures forall u :: 1 <= u <= w ==> SlotAt(u) in Pushed(stack, l, w) && Pushed(stack, l, w)[SlotAt(u)] == l[|l| - u]
    decreases w
  {
    if w > 0 {
      PushedReads(stack, l, w - 1);
    }
  }

  lemma {:induction false} PushedKeeps(stack: map<int, Value>, l: seq<Value>, w: nat)
    requires w <= |l|
    ensures forall k :: (k < SlotAt(w) || k >= 0) ==> (k in Pushed(stack, l, w) <==> k in stack)
    ensures forall k :: (k < SlotAt(w) || k >= 0) && k in stack ==> Pushed(stack, l, w)[k] == stack[k]
    decreases w
  {
    if w > 0 {
      PushedKeeps(stack, l, w - 1);
    }
  }

  /** PassArguments: stores the layout into the slots just below the
      stack pointer and returns the offset of the lowest one.  No other
      slot changes.  (Alignment of the offset is a no-op: every step moves
      it by whole slots.) */
  method Pass(thisArg: Value, env: Option<nat>, args: seq<Value>, funcNarg: int, stack: map<int, Value>)
    returns (offset: int, stack': map<int, Value>)
    ensures var l := Layout(thisArg, env, args, funcNarg);
      && offset == -(SLOT as int) * |l|
      && (forall j :: 0 <= j < |l| ==> offset + SLOT * j in stack' && stack'[offset + SLOT * j] == l[j])
    ensures forall k :: (k < offset || k >= 0) ==> (k in stack' <==> k in stack)
    ensures forall k :: (k < offset || k >= 0) && k in stack ==> stack'[k] == stack[k]
  {
    var l := Layout(thisArg, env, args, funcNarg);
    LayoutContents(thisArg, env, args, funcNarg);
    offset, stack' := StoreLayout(thisArg, env, args, funcNarg, l, stack);
  }

  /** The stores themselves, for a layout with the contents LayoutContents
      describes: pads first, then the arguments from the last down, then
      the environment and `this`. */
  method StoreLayout(thisArg: Value, env: Option<nat>, args: seq<Value>, funcNarg: int, l: seq<Value>,
                     stack: map<int, Value>)
    returns (offset: int, stack': map<int, Value>)
    requires var e, m := if env.Some? then 1 else 0, ArgCount(|args|, funcNarg);
      && |l| == 1 + e + m + PadCount(|args|, funcNarg)
      && l[0] == thisArg
      && (env.Some? ==> l[1] == Env(env.value))
      && (forall i :: 0 <= i < m ==> l[1 + e + i] == args[i])
      && (forall i :: 1 + e + m <= i < |l| ==> l[i] == Undefined)
    ensures offset == -(SLOT as int) * |l|
    ensures forall j :: 0 <= j < |l| ==> offset + SLOT * j in stack' && stack'[offset + SLOT * j] == l[j]
    ensures forall k :: (k < offset || k >= 0) ==> (k in stack' <==> k in stack)
    ensures forall k :: (k < offset || k >= 0) && k in stack ==> stack'[k] == stack[k]
  {
    var narg: int := |args|;
    var e := if env.Some? then 1 else 0;
    offset, stack' := 0, stack;
    var pads := 0;
    if funcNarg == -1 {
    } else if funcNarg - narg > 0 {
      pads := funcNarg - narg;
      offset, stack' := PushPads(stack, l, pads);
    } else {
      narg := funcNarg;
    }
    offset, stack' := PushArgs(stack, l, args, narg, e, pads, offset, stack');
    var written := |l| - 1 - e;
    if env.Some? {
      offset := offset - (SLOT + SLOT);
      StoreSlot(stack, l, written, stack', Env(env.value));
      stack' := stack'[offset + SLOT := Env(env.value)];
      written := written + 1;
    } else {
      offset := offset - SLOT;
    }
    StoreSlot(stack, l, written, stack', thisArg);
    stack' := stack'[offset := thisArg];
    LayoutStored(stack, l, offset, stack');
  }

  /** Once every slot of the layout is stored, it reads back from the
      offset up and nothing outside it changed. */
  lemma {:induction false} LayoutStored(stack: map<int, Value>, l: seq<Value>, offset: int, stack': map<int, Value>)
    requires offset == SlotAt(|l|) && stack' == Pushed(stack, l, |l|)
    ensures offset == -(SLOT as int) * |l|
    ensures forall j :: 0 <= j < |l| ==> offset + SLOT * j in stack' && stack'[offset + SLOT * j] == l[j]
    ensures forall k :: (k < offset || k >= 0) ==> (k in stack' <==> k in stack)
    ensures forall k :: (k < offset || k >= 0) && k in stack ==> stack'[k] == stack[k]
  {
    PushedReads(stack, l, |l|);
    PushedKeeps(stack, l, |l|);
    PassDone(l, offset, stack');
  }

  /** Storing the next slot of the layout. */
  lemma {:induction false} StoreSlot(stack: map<int, Value>, l: seq<Value>, w: nat, st: map<int, Value>, v: Value)
    requires w < |l| && st == Pushed(stack, l, w) && v == l[|l| - (w + 1)]
    ensures st[SlotAt(w + 1) := v] == Pushed(stack, l, w + 1)
  {
  }

  /** The loop that stores the undefined pads, topmost slot first. */
  method PushPads(stack: map<int, Value>, l: seq<Value>, count: nat) returns (offset: int, stack': map<int, Value>)
    requires count <= |l|
    requires forall j :: |l| - count <= j < |l| ==> l[j] == Undefined
    ensures offset == SlotAt(count) && stack' == Pushed(stack, l, count)
  {
    offset, stack' := 0, stack;
    var i := count;
    while i > 0
      invariant 0 <= i <= count && offset == SlotAt(count - i)
      invariant stack' == Pushed(stack, l, count - i)
    {
      offset := offset - SLOT;
      assert l[|l| - (count - i + 1)] == Undefined;
      stack' := stack'[offset := Undefined];
      i := i - 1;
    }
  }

  /** The loop that stores the passed arguments, last one first; a negative
      count passes none. */
  method PushArgs(stack: map<int, Value>, l: seq<Value>, args: seq<Value>, narg: int, e: nat, pads: nat,
                  offset0: int, stack0: map<int, Value>)
    returns (offset: int, stack': map<int, Value>)
    requires narg <= |args| && |l| == 1 + e + Max(narg, 0) + pads
    requires forall i :: 0 <= i < narg ==> l[1 + e + i] == args[i]
    requires offset0 == SlotAt(pads) && stack0 == Pushed(stack, l, pads)
    ensures offset == SlotAt(pads + Max(narg, 0)) && stack' == Pushed(stack, l, pads + Max(narg, 0))
  {
    offset, stack' := offset0, stack0;
    var m := Max(narg, 0);
    var i := narg - 1;
    while i >= 0
      invariant i < m && offset == SlotAt(pads + (m - 1 - Max(i, -1)))
      invariant stack' == Pushed(stack, l, pads + (m - 1 - Max(i, -1)))
    {
      offset := offset - SLOT;
      assert l[|l| - (pads + (m - i))] == args[i];
      stack' := stack'[offset := args[i]];
      i := i - 1;
    }
  }

  /** The slots the method filled, numbered from the stack pointer down,
      read back from the returned offset up. */
  lemma {:induction false} PassDone(l: seq<Value>, offset: int, stack': map<int, Value>)
    requires offset == SlotAt(|l|)
    requires forall u :: 1 <= u <= |l| ==> SlotAt(u) in stack' && stack'[SlotAt(u)] == l[|l| - u]
    ensures forall j :: 0 <= j < |l| ==> offset + SLOT * j in stack' && stack'[offset + SLOT * j] == l[j]
  {
    forall j | 0 <= j < |l|
      ensures offset + SLOT * j in stack' && stack'[offset + SLOT * j] == l[j]
    {
      assert offset + SLOT * j == SlotAt(|l| - j);
    }
  }
}

=== FILE: prim_types.dfy ===
/** The engine's primitive types, as far as the interpreter's handlers and
    its trace output distinguish them, and `typestr`, the fixed-width name
    a type is printed under. */
module PrimTypes {
  import opened Common

  datatype PrimType =
    | I8 | I16 | I32 | I64
    | U1 | U8 | U16 | U32 | U64
    | A32 | A64
    | F32 | F64
    | Void | Invalid            // PTY_void and kPtyInvalid
    | SimpleStr | SimpleObj
    | DynAny | DynUndef | DynNull | DynBool | DynI32 | DynStr | DynObj
    | DynF32 | DynF64 | DynNone
    | OtherType(code: nat)      // any other type the instruction set knows

  /** IsPrimitiveDyn: the dynamic types, PTY_dynany through PTY_dynnone. */
  predicate IsPrimitiveDyn(t: PrimType) {
    t.DynAny? || t.DynUndef? || t.DynNull? || t.DynBool? || t.DynI32? || t.DynStr?
    || t.DynObj? || t.DynF32? || t.DynF64? || t.DynNone?
  }

  /** The types `typestr` has a name for. */
  predicate Named(t: PrimType) {
    !(t.A32? || t.DynNull? || t.DynBool? || t.DynF32? || t.DynF64? || t.DynNone? || t.OtherType?)
  }

  /** The short name of a type, before alignment; "UNK" for an unnamed one. */
  function ShortName(t: PrimType): (s: string)
    ensures 1 <= |s| <= 6
  {
    match t
    case I8 => "i8"
    case I16 => "i16"
    case I32 => "i32"
    case I64 => "i64"
    case U16 => "u16"
    case U1 => "u1"
    case A64 => "a64"
    case F32 => "f32"
    case F64 => "f64"
    case U64 => "u64"
    case Void => "---"
    case Invalid => "INV"
    case U8 => "u8"
    case U32 => "u32"
    case SimpleStr => "splstr"
    case SimpleObj => "splobj"
    case DynAny => "dynany"
    case DynUndef => "dynund"
    case DynStr => "dynstr"
    case DynObj => "dynobj"
    case DynI32 => "dyni32"
    case _ => "UNK"
  }

  /** s right-aligned in a field of w characters. */
  function AlignRight(s: string, w: nat): (r: string)
    requires |s| <= w
    ensures |r| == w
    ensures r[w - |s|..] == s
    ensures forall i :: 0 <= i < w - |s| ==> r[i] == ' '
  {
    Repeat(' ', w - |s|) + s
  }

  /** typestr: the name a type is printed under. */
  function TypeStr(t: PrimType): (s: string)
    ensures |s| == 6
  {
    match t
    case I8 => "    i8"
    case I16 => "   i16"
    case I32 => "   i32"
    case I64 => "   i64"
    case U16 => "   u16"
    case U1 => "    u1"
    case A64 => "   a64"
    case F32 => "   f32"
    case F64 => "   f64"
    case U64 => "   u64"
    case Void => "   ---"
    case Invalid => "   INV"
    case U8 => "    u8"
    case U32 => "   u32"
    case SimpleStr => "splstr"
    case SimpleObj => "splobj"
    case DynAny => "dynany"
    case DynStr => "dynstr"
    case DynUndef => "dynund"
    case DynObj => "dynobj"
    case DynI32 => "dyni32"
    case _ => "   UNK"
  }

  /** Every printed name is the type's short name right-aligned in six
      columns. */
  lemma {:induction false} TypeStrAligned(t: PrimType)
    ensures TypeStr(t) == AlignRight(ShortName(t), 6)
  {
    match t
    case I8 | U1 | U8 => assert Repeat(' ', 4) == "    ";
    case SimpleStr | SimpleObj | DynAny | DynUndef | DynStr | DynObj | DynI32 => assert Repeat(' ', 0) == "";
    case _ => assert Repeat(' ', 3) == "   ";
  }

  /** A type without a name prints as "   UNK", and a named one never does. */
  lemma {:induction false} TypeStrUnknown(t: PrimType)
    ensures TypeStr(t) == "   UNK" <==> !Named(t)
  {
    if Named(t) {
      assert TypeStr(t)[3..] != "UNK";
    }
  }
}

=== FILE: prop_cache.dfy ===
/** The interpreter's property-lookup cache: 64 slots, each remembering
    the generation it was filled in, the object and name words of the
    lookup and its result.  A lookup hits only when the slot's generation is
    the current one and both words match, so bumping the generation empties
    the whole cache at once. */
module PropCache {
  import opened Common
  import opened Bits
  import opened JsValue

  const CACHE_SIZE: nat := 64

  datatype Entry = Entry(g: nat, o: u64, p: u64, ret: Value)

  datatype Cache = Cache(gen: nat, entries: seq<Entry>)

  /** The cache has its 64 slots and no slot is from a future generation. */
  ghost predicate Valid(c: Cache) {
    && |c.entries| == CACHE_SIZE
    && forall i :: 0 <= i < |c.entries| ==> c.entries[i].g <= c.gen
  }

  /** The cache at start-up: generation 1, every slot zero-initialised (its
      result word is never returned). */
  function Fresh(): (c: Cache)
    ensures Valid(c) && c.gen == 1
    ensures forall i :: 0 <= i < |c.entries| ==> c.entries[i].g == 0
  {
    Cache(1, seq(CACHE_SIZE, _ => Entry(0, 0, 0, NoneValue)))
  }

  /** PROP_CACHE_HASH: the low 32 bits of the object word shifted down by 3,
      xor the low 32 bits of the name word, masked to 6 bits. */
  function Hash(obj: u64, name: u64): (ci: nat)
    ensures ci < CACHE_SIZE
  {
    var x := Xor(Shr(obj % TWO32, 3), name % TWO32);
    AndLowMask(x, 6);
    assert Pow2(6) == 64 by { Pow2Values(); }
    And(x, LowMask(6))
  }

  /** The lookup both PROP_CACHE_GET and PROP_CACHE_GET_THIS make: the slot
      is chosen by the object word, and the stored object word must equal
      `key` (the object word itself for GET, the object's payload for
      GET_THIS). */
  function GetKeyed(c: Cache, obj: u64, key: u64, name: u64): (r: Option<Value>)
    requires |c.entries| == CACHE_SIZE
    ensures r.Some? <==> var e := c.entries[Hash(obj, name)]; e.g == c.gen && e.o == key && e.p == name
  {
    var e := c.entries[Hash(obj, name)];
    if c.gen == e.g && e.o == key && e.p == name then Some(e.ret) else None
  }

  /** PROP_CACHE_GET: the key is the object word itself. */
  function Lookup(c: Cache, obj: u64, name: u64): (r: Option<Value>)
    requires |c.entries| == CACHE_SIZE
    ensures var e := c.entries[Hash(obj, name)];
      (r.Some? <==> e.g == c.gen && e.o == obj && e.p == name) && (r.Some? ==> r.value == e.ret)
  {
    GetKeyed(c, obj, obj, name)
  }

  /** The store both PROP_CACHE_SET and PROP_CACHE_SET_THIS make. */
  function Store(c: Cache, obj: u64, key: u64, name: u64, r: Value): (c': Cache)
    requires |c.entries| == CACHE_SIZE
    ensures |c'.entries| == CACHE_SIZE && c'.gen == c.gen
  {
    c.(entries := c.entries[Hash(obj, name) := Entry(c.gen, key, name, r)])
  }

  /** PROP_CACHE_SET. */
  function Set(c: Cache, obj: u64, name: u64, r: Value): (c': Cache)
    requires |c.entries| == CACHE_SIZE
    ensures |c'.entries| == CACHE_SIZE
  {
    Store(c, obj, obj, name, r)
  }

  /** PROP_CACHE_INVALIDATE. */
  function Invalidate(c: Cache): (c': Cache)
    ensures c'.entries == c.entries
  {
    c.(gen := c.gen + 1)
  }

  /** PROP_CACHE_RESET: the slot of the lookup loses its object word. */
  function Reset(c: Cache, obj: u64, name: u64): (c': Cache)
    requires |c.entries| == CACHE_SIZE
    ensures |c'.entries| == CACHE_SIZE && c'.gen == c.gen
  {
    var ci := Hash(obj, name);
    c.(entries := c.entries[ci := c.entries[ci].(o := 0)])
  }

  /** A lookup right after storing its key hits with the stored result. */
  lemma {:induction false} StoreThenGet(c: Cache, obj: u64, key: u64, name: u64, r: Value)
    requires |c.entries| == CACHE_SIZE
    ensures GetKeyed(Store(c, obj, key, name, r), obj, key, name) == Some(r)
  {
  }

  /** The same for PROP_CACHE_SET and PROP_CACHE_GET. */
  lemma {:induction false} SetThenGet(c: Cache, obj: u64, name: u64, r: Value)
    requires |c.entries| == CACHE_SIZE
    ensures Lookup(Set(c, obj, name, r), obj, name) == Some(r)
  {
    StoreThenGet(c, obj, obj, name, r);
  }

  /** Every lookup misses in a fresh cache. */
  lemma {:induction false} FreshMisses(obj: u64, key: u64, name: u64)
    ensures GetKeyed(Fresh(), obj, key, name) == None
  {
    var c := Fresh();
    assert c.entries[Hash(obj, name)].g == 0;
  }

  /** Every lookup misses right after an invalidation. */
  lemma {:induction false} InvalidateMisses(c: Cache, obj: u64, key: u64, name: u64)
    requires Valid(c)
    ensures GetKeyed(Invalidate(c), obj, key, name) == None
  {
    assert c.entries[Hash(obj, name)].g <= c.gen;
  }

  /** A lookup misses right after its slot is reset, since no object word is 0. */
  lemma {:induction false} ResetMisses(c: Cache, obj: u64, key: u64, name: u64)
    requires |c.entries| == CACHE_SIZE && key != 0
    ensures GetKeyed(Reset(c, obj, name), obj, key, name) == None
  {
  }

  // ---------------------------------------------------------------------
  // Sequences of cache operations

  datatype Op =
    | StoreOp(obj: u64, key: u64, name: u64, r: Value)
    | InvalidateOp
    | ResetOp(obj: u64, name: u64)

  function Apply(c: Cache, op: Op): (c': Cache)
    requires |c.entries| == CACHE_SIZE
    ensures |c'.entries| == CACHE_SIZE
  {
    match op
    case StoreOp(o, k, n, r) => Store(c, o, k, n, r)
    case InvalidateOp => Invalidate(c)
    case ResetOp(o, n) => Reset(c, o, n)
  }

  function Run(c: Cache, ops: seq<Op>): (c': Cache)
    requires |c.entries| == CACHE_SIZE
    ensures |c'.entries| == CACHE_SIZE
    decreases |ops|
  {
    if |ops| == 0 then c else Run(Apply(c, ops[0]), ops[1..])
  }

  /** The reference answer: what a lookup of (obj, key, name) should give
      after one more operation, from what it gave before.  An operation on
      another slot leaves the answer alone; a store into the slot answers
      for its own key only; an invalidation or a reset of the slot ends any
      answer. */
  function Step(prev: Option<Value>, op: Op, obj: u64, key: u64, name: u64): (r: Option<Value>)
    ensures r.Some? ==> r == prev || (op.StoreOp? && r == Some(op.r))
    ensures op.InvalidateOp? ==> r.None?
  {
    match op
    case StoreOp(o, k, n, r) =>
      if Hash(o, n) != Hash(obj, name) then prev
      else if k == key && n == name then Some(r)
      else None
    case InvalidateOp => None
    case ResetOp(o, n) => if Hash(o, n) != Hash(obj, name) then prev else None
  }

  function Answer(prev: Option<Value>, ops: seq<Op>, obj: u64, key: u64, name: u64): Option<Value>
    decreases |ops|
  {
    if |ops| == 0 then prev else Answer(Step(prev, ops[0], obj, key, name), ops[1..], obj, key, name)
  }

  /** One operation keeps the cache valid and moves the lookup's result as
      the reference says. */
  lemma {:induction false} ApplyAnswers(c: Cache, op: Op, obj: u64, key: u64, name: u64)
    requires Valid(c) && key != 0
    ensures Valid(Apply(c, op))
    ensures GetKeyed(Apply(c, op), obj, key, name) == Step(GetKeyed(c, obj, key, name), op, obj, key, name)
  {
    var ci := Hash(obj, name);
    match op
    case StoreOp(o, k, n, r) =>
      var c' := Store(c, o, k, n, r);
      assert forall i :: 0 <= i < CACHE_SIZE && i != Hash(o, n) ==> c'.entries[i] == c.entries[i];
    case InvalidateOp =>
      InvalidateMisses(c, obj, key, name);
    case ResetOp(o, n) =>
      var c' := Reset(c, o, n);
      assert forall i :: 0 <= i < CACHE_SIZE && i != Hash(o, n) ==> c'.entries[i] == c.entries[i];
  }

  /** The cache answers every lookup exactly as the reference does, over
      any sequence of operations. */
  lemma {:induction false} RunAnswers(c: Cache, ops: seq<Op>, obj: u64, key: u64, name: u64)
    requires Valid(c) && key != 0
    ensures Valid(Run(c, ops))
    ensures GetKeyed(Run(c, ops), obj, key, name) == Answer(GetKeyed(c, obj, key, name), ops, obj, key, name)
    decreases |ops|
  {
    if |ops| > 0 {
      ApplyAnswers(c, ops[0], obj, key, name);
      RunAnswers(Apply(c, ops[0]), ops[1..], obj, key, name);
    }
  }

  /** An operation that can change the answer for the slot. */
  predicate Touches(op: Op, slot: nat) {
    match op
    case StoreOp(o, _, n, _) => Hash(o, n) == slot
    case InvalidateOp => true
    case ResetOp(o, n) => Hash(o, n) == slot
  }

  /** An operation that stores the lookup's own key. */
  predicate StoresKey(op: Op, obj: u64, key: u64, name: u64) {
    op.StoreOp? && op.key == key && op.name == name && Hash(op.obj, op.name) == Hash(obj, name)
  }

  /** Operations that leave the slot alone leave the answer alone. */
  lemma {:induction false} AnswerUntouched(prev: Option<Value>, ops: seq<Op>, obj: u64, key: u64, name: u64)
    requires forall i :: 0 <= i < |ops| ==> !Touches(ops[i], Hash(obj, name))
    ensures Answer(prev, ops, obj, key, name) == prev
    decreases |ops|
  {
    if |ops| > 0 {
      assert !Touches(ops[0], Hash(obj, name));
      assert forall i :: 0 <= i < |ops| - 1 ==> ops[1..][i] == ops[i + 1];
      AnswerUntouched(prev, ops[1..], obj, key, name);
    }
  }

  /** Without a store of the lookup's own key, a missing answer stays missing. */
  lemma {:induction false} AnswerStaysMissing(ops: seq<Op>, obj: u64, key: u64, name: u64)
    requires forall i :: 0 <= i < |ops| ==> !StoresKey(ops[i], obj, key, name)
    ensures Answer(None, ops, obj, key, name) == None
    decreases |ops|
  {
    if |ops| > 0 {
      assert !StoresKey(ops[0], obj, key, name);
      assert forall i :: 0 <= i < |ops| - 1 ==> ops[1..][i] == ops[i + 1];
      AnswerStaysMissing(ops[1..], obj, key, name);
    }
  }

  /** After SET, GET keeps hitting with the stored result until the cache is
      invalidated or its slot is stored into or reset. */
  lemma {:induction false} HitPersists(c: Cache, obj: u64, name: u64, r: Value, ops: seq<Op>)
    requires Valid(c) && obj != 0
    requires forall i :: 0 <= i < |ops| ==> !Touches(ops[i], Hash(obj, name))
    ensures Lookup(Run(Set(c, obj, name, r), ops), obj, name) == Some(r)
  {
    var c1 := Set(c, obj, name, r);
    assert Valid(c1) by {
      ApplyAnswers(c, StoreOp(obj, obj, name, r), obj, obj, name);
    }
    SetThenGet(c, obj, name, r);
    RunAnswers(c1, ops, obj, obj, name);
    AnswerUntouched(Some(r), ops, obj, obj, name);
  }

  /** After an invalidation, every lookup misses until its own key is
      stored again. */
  lemma {:induction false} MissUntilStored(c: Cache, obj: u64, key: u64, name: u64, ops: seq<Op>)
    requires Valid(c) && key != 0
    requires forall i :: 0 <= i < |ops| ==> !StoresKey(ops[i], obj, key, name)
    ensures GetKeyed(Run(Invalidate(c), ops), obj, key, name) == None
  {
    ApplyAnswers(c, InvalidateOp, obj, key, name);
    InvalidateMisses(c, obj, key, name);
    RunAnswers(Invalidate(c), ops, obj, key, name);
    AnswerStaysMissing(ops, obj, key, name);
  }
}

=== FILE: tyconv.dfy ===
/** The runtime's type conversions for the value kinds whose conversion is
    pure arithmetic.  Converting a string or an object needs the string
    parser or an object's default value, which are not part of this model:
    those inputs, and the kinds that reach a failed assertion, give None. */
module TypeConversion {
  import opened Common
  import opened JsValue

  /** The kinds whose conversion goes through a string parse or an object's
      [[DefaultValue]]. */
  predicate NeedsParseOrPrimitive(v: Value) { v.Str? || v.Object? }

  /** The kinds __jsval_typeof reports that no conversion case handles. */
  predicate Internal(v: Value) { v.Function? || v.Env? || v.GpBase? }

  /** The falsy values of section 9.2 of ECMAScript 5.1, plus the engine's
      "none" value. */
  predicate Falsy(v: Value) {
    || v == NoneValue || v == Undefined || v == Null || v == NaN
    || v == Bool(false) || v == Number(0) || v == Double(0.0) || v == Str("")
  }

  /** __js_ToBoolean. */
  function ToBoolean(v: Value): (r: Option<bool>)
    ensures r.None? <==> Internal(v)
    ensures r.Some? ==> (r.value <==> !Falsy(v))
  {
    match v
    case NoneValue => Some(false)
    case Undefined => Some(false)
    case Null => Some(false)
    case NaN => Some(false)
    case Bool(b) => Some(b)
    case Str(s) => Some(|s| != 0)
    case Number(n) => Some(n != 0)
    case Double(d) => Some(d != 0.0)
    case Infinity(_) => Some(true)
    case Object(_) => Some(true)
    // the default case asserts that the value is an object
    case _ => None
  }

  /** __js_ToNumberSlow: ToInt32 of section 9.5 of ECMAScript 5.1 for the
      kinds that are not already int32 numbers.  A double is truncated toward
      zero and its low 32 bits kept (the int64 step in between is taken as
      exact). */
  function ToNumberSlow(v: Value): (r: Option<i32>)
    ensures r.None? <==> NeedsParseOrPrimitive(v) || Internal(v) || v.Number?
    ensures v == Undefined || v == Null || v == NoneValue || v.NaN? || v.Infinity? ==> r == Some(0)
    ensures v.Bool? ==> r == Some(if v.b then 1 else 0)
    ensures v.Double? ==> r.Some? && (r.value - TruncReal(v.d)) % TWO32 == 0
    ensures v.Double? && INT32_MIN <= TruncReal(v.d) <= INT32_MAX ==> r == Some(TruncReal(v.d))
  {
    match v
    case Undefined => Some(0)
    case Null => Some(0)
    case NoneValue => Some(0)
    case Bool(b) => Some(if b then 1 else 0)
    case Double(d) => Some(WrapI32(TruncReal(d)))
    case NaN => Some(0)
    case Infinity(_) => Some(0)
    // strings and objects are parsed or converted to a primitive first;
    // an int32 number and the internal kinds reach the "unreachable" assertion
    case _ => None
  }

  /** __js_ToNumber: an int32 number is its own value; every other kind
      goes through the slow path. */
  function ToNumber(v: Value): (r: Option<i32>)
    ensures v.Number? ==> r == Some(v.n)
    ensures r.None? <==> NeedsParseOrPrimitive(v) || Internal(v)
    ensures v.Bool? ==> r == Some(if v.b then 1 else 0)
  {
    if v.Number? then Some(v.n) else ToNumberSlow(v)
  }

  /** A value the runtime treats as already numeric. */
  predicate Numeric(v: Value) { v.Number? || v.Double? || v.NaN? || v.Infinity? }

  /** __js_ToNumber2 with __js_ToNumberSlow2: a value converted to a numeric
      value rather than to an int32.  Undefined, null and "none" are 0, a
      boolean its payload, a double its truncation (an int32 number when
      it fits), and NaN and the infinities stay as they are. */
  function ToNumber2(v: Value): (r: Option<Value>)
    ensures r.None? <==> NeedsParseOrPrimitive(v) || Internal(v)
    ensures r.Some? ==> Numeric(r.value)
    ensures v.Number? || v.NaN? || v.Infinity? ==> r == Some(v)
    ensures r.Some? && r.value.Number? ==> ToNumber(v) == Some(r.value.n)
    ensures v.Double? ==> r.Some? && (r.value.Number? || r.value.Double?)
    ensures r.Some? && r.value.Double? ==>
              v.Double? && r.value.d == TruncReal(v.d) as real && !(INT32_MIN <= TruncReal(v.d) <= INT32_MAX)
  {
    match v
    case Number(_) => Some(v)
    case Undefined => Some(Number(0))
    case NoneValue => Some(Number(0))
    case Null => Some(Number(0))
    case Bool(b) => Some(Number(if b then 1 else 0))
    case Double(d) =>
      var res := TruncReal(d);
      Some(if INT32_MIN <= res <= INT32_MAX then Number(res) else Double(res as real))
    case Infinity(_) => Some(v)
    case NaN => Some(v)
    // strings are parsed and objects converted to a primitive first;
    // the internal kinds reach the "unreachable" assertion
    case _ => None
  }

  /** __js_NumberToString: the builtin "0", or the "%d" form of n. */
  function NumberToString(n: i32): (s: string)
    ensures |s| >= 1
    ensures s[0] == '-' <==> n < 0
    ensures s == "0" <==> n == 0
    ensures n > 0 ==> s[0] != '0'
    ensures n < 0 ==> |s| >= 2 && s[1] != '0'
  {
    if n == 0 then "0" else IntToDecimal(n)
  }

  /** The builtin "0" is also the "%d" form of zero, so the result is always
      the decimal numeral, and reading it back gives n. */
  lemma {:induction false} NumberToStringRoundTrip(n: i32)
    ensures NumberToString(n) == IntToDecimal(n)
    ensures ParseDecimal(NumberToString(n)) == n
  {
    IntDecimalRoundTrip(n);
  }

  /** The only characters in the result are digits and a leading '-'. */
  lemma {:induction false} NumberToStringDigits(n: i32, k: nat)
    requires (if n < 0 then 1 else 0) <= k < |NumberToString(n)|
    ensures IsDigit(NumberToString(n)[k])
  {
    IntDecimalRoundTrip(n);
  }

  /** ToBoolean and ToNumberSlow agree on the kinds both convert without
      parsing: the value is true exactly when its number is nonzero. */
  lemma {:induction false} ToBooleanOfNumber(v: Value)
    requires v == Undefined || v == Null || v == NoneValue || v.Bool?
    ensures ToBoolean(v) == Some(ToNumberSlow(v).value != 0)
  {
  }

  /** An int32 number and the same number as a double have the same truth
      value, and ToNumberSlow of the double gives the number back. */
  lemma {:induction false} NumberAsDouble(n: i32)
    ensures ToBoolean(Number(n)) == ToBoolean(Double(n as real))
    ensures ToNumberSlow(Double(n as real)) == Some(n)
  {
    assert TruncReal(n as real) == n;
  }

  // ---------------------------------------------------------------------
  // SameValue

  /** The function objects' code pointers: an object reference is a key
      exactly when the object's class is JSFUNCTION. */
  type CodePointers = map<nat, nat>

  /** Two function objects, or a function object and a function value, that
      share a code pointer. */
  predicate SameCode(x: Value, y: Value, fp: CodePointers) {
    || (x.Object? && y.Object? && x.ref in fp && y.ref in fp && fp[x.ref] == fp[y.ref])
    || (x.Object? && y.Function? && x.ref in fp && fp[x.ref] == y.addr)
    || (x.Function? && y.Object? && y.ref in fp && fp[y.ref] == x.addr)
  }

  /** __js_SameValue. */
  function SameValue(x: Value, y: Value, fp: CodePointers): (r: bool)
    ensures NumberOrBool(x) && NumberOrBool(y) ==> (r <==> Payload32(x) == Payload32(y))
    ensures !(NumberOrBool(x) && NumberOrBool(y)) && !(x.Object? || x.Function?) ==> (r <==> x == y)
    ensures !(NumberOrBool(x) && NumberOrBool(y)) && (x.Object? || x.Function?) ==> (r <==> x == y || SameCode(x, y, fp))
  {
    if NumberOrBool(x) && NumberOrBool(y) then Payload32(x) == Payload32(y)
    else if x == y then true
    else if x.Str? then y.Str? && x.chars == y.chars
    else if x.Object? && y.Object? then x.ref in fp && y.ref in fp && fp[x.ref] == fp[y.ref]
    else if x.Object? && y.Function? then x.ref in fp && fp[x.ref] == y.addr
    else if x.Function? && y.Object? then y.ref in fp && fp[y.ref] == x.addr
    else false
  }

  /** true is the same value as 1, and false as 0. */
  lemma {:induction false} SameValueBoolNumber(b: bool)
    ensures SameValue(Bool(b), Number(if b then 1 else 0), map[])
  {
  }

  /** SameValue is an equivalence relation. */
  lemma {:induction false} SameValueReflexive(x: Value, fp: CodePointers)
    ensures SameValue(x, x, fp)
  {
  }

  lemma {:induction false} SameValueSymmetric(x: Value, y: Value, fp: CodePointers)
    ensures SameValue(x, y, fp) == SameValue(y, x, fp)
  {
  }

  lemma {:induction false} SameValueTransitive(x: Value, y: Value, z: Value, fp: CodePointers)
    requires SameValue(x, y, fp) && SameValue(y, z, fp)
    ensures SameValue(x, z, fp)
  {
  }

  // ---------------------------------------------------------------------
  // ToLength

  /** The integer a double denotes as a length: its truncation clamped to
      [0, 2^53 - 1]. */
  function ClampLength(i: int): (r: nat)
    ensures r <= MAX_LENGTH
    ensures 0 <= i <= MAX_LENGTH ==> r == i
    ensures i < 0 ==> r == 0
    ensures i > MAX_LENGTH ==> r == MAX_LENGTH
  {
    if i < 0 then 0 else if i > MAX_LENGTH then MAX_LENGTH else i
  }

  /** __js_toLength, section 7.1.15 of ECMAScript 2015, for the kinds that
      need no parse. */
  function ToLength(v: Value): (r: Option<nat>)
    ensures r.None? <==> NeedsParseOrPrimitive(v) || Internal(v)
    ensures r.Some? ==> r.value <= MAX_LENGTH
    ensures v.Number? ==> r == Some(if v.n < 0 then 0 else v.n)
    ensures v.Double? && v.d < 1.0 ==> r == Some(0)
    ensures v.Double? && v.d >= MAX_LENGTH as real ==> r == Some(MAX_LENGTH)
    ensures v.Double? && 1.0 <= v.d < MAX_LENGTH as real ==> r.Some? && r.value as real <= v.d < r.value as real + 1.0
    ensures v == Infinity(false) ==> r == Some(MAX_LENGTH)
    ensures v == Infinity(true) || v.NaN? || v == Undefined || v == Null || v == NoneValue ==> r == Some(0)
    ensures v.Bool? ==> r == Some(if v.b then 1 else 0)
  {
    match v
    case Number(n) => Some(if n < 0 then 0 else n)
    case Double(d) => Some(ClampLength(TruncReal(d)))
    case Infinity(negative) => Some(if negative then 0 else MAX_LENGTH)
    case NaN => Some(0)
    case Undefined => Some(0)
    case Null => Some(0)
    case NoneValue => Some(0)
    case Bool(b) => Some(if b then 1 else 0)
    // a string is parsed and an object converted first; the internal kinds
    // reach the assertion
    case _ => None
  }

  /** The int32 and the double path agree on every int32 value. */
  lemma {:induction false} ToLengthNumberAsDouble(n: i32)
    ensures ToLength(Number(n)) == ToLength(Double(n as real))
  {
    assert TruncReal(n as real) == n;
  }

  /** A length is its own length. */
  lemma {:induction false} ToLengthIdempotent(v: Value)
    requires ToLength(v).Some?
    ensures ToLength(Double(ToLength(v).value as real)) == ToLength(v)
  {
    var l := ToLength(v).value;
    assert TruncReal(l as real) == l;
  }

  /** Larger doubles never give shorter lengths. */
  lemma {:induction false} ToLengthMonotone(a: real, b: real)
    requires a <= b
    ensures ToLength(Double(a)).value <= ToLength(Double(b)).value
  {
    TruncMonotone(a, b);
  }

  lemma {:induction false} TruncMonotone(a: real, b: real)
    requires a <= b
    ensures TruncReal(a) <= TruncReal(b)
  {
    if a < 0.0 && b >= 0.0 {
    } else if a < 0.0 {
      assert (-b).Floor <= (-a).Floor;
    }
  }
}

=== FILE: vm_chunks.dfy ===
/** The free-chunk table of the runtime's memory manager (MemoryHash).
    Bucket x < n - 1 holds the free chunks whose size >> 2 is x + 1, as a
    stack; the last bucket holds every other chunk as a list sorted by
    offset, searched first-fit and coalesced on demand.  The table size n
    (MEMHASHTABLESIZE) is a parameter: its header is not part of this
    model. */
module FreeChunks {
  import opened Common

  datatype Chunk = Chunk(offset: nat, size: nat)

  function End(c: Chunk): nat { c.offset + c.size }

  /** The free bytes a list holds. */
  function Total(l: seq<Chunk>): nat
    decreases |l|
  {
    if |l| == 0 then 0 else l[0].size + Total(l[1..])
  }

  ghost predicate ChunksByOffset(l: seq<Chunk>) {
    forall i, j :: 0 <= i < j < |l| ==> l[i].offset <= l[j].offset
  }

  /** Sorted, and no chunk reaches into a later one. */
  ghost predicate Disjoint(l: seq<Chunk>) {
    forall i, j :: 0 <= i < j < |l| ==> End(l[i]) <= l[j].offset
  }

  /** No chunk of the list is empty. */
  ghost predicate NonEmpty(l: seq<Chunk>) {
    forall i :: 0 <= i < |l| ==> l[i].size > 0
  }

  /** Disjoint with a gap after every chunk: no two chunks touch. */
  ghost predicate Separated(l: seq<Chunk>) {
    forall i, j :: 0 <= i < j < |l| ==> End(l[i]) < l[j].offset
  }

  lemma {:induction false} TotalAppend(a: seq<Chunk>, b: seq<Chunk>)
    ensures Total(a + b) == Total(a) + Total(b)
    decreases |a|
  {
    if |a| > 0 {
      assert (a + b)[0] == a[0];
      assert (a + b)[1..] == a[1..] + b;
      TotalAppend(a[1..], b);
    } else {
      assert a + b == b;
    }
  }

  lemma {:induction false} TotalCons(c: Chunk, l: seq<Chunk>)
    ensures Total([c] + l) == c.size + Total(l)
  {
    assert ([c] + l)[1..] == l;
  }

  // ---------------------------------------------------------------------
  // Buckets

  datatype Bank = Bank(table: seq<seq<Chunk>>)

  /** The bucket a chunk of this size belongs to. */
  function BucketIndex(size: nat, n: nat): (x: nat)
    requires n >= 2
    ensures x < n
    ensures 1 <= size / 4 < n ==> x == size / 4 - 1
    ensures !(1 <= size / 4 < n) ==> x == n - 1
  {
    var index := size / 4;
    if 1 <= index < n then index - 1 else n - 1
  }

  predicate IsSmall(size: nat, n: nat) { 1 <= size / 4 < n }

  /** Every chunk of a small bucket has that bucket's size class, and the
      last bucket is sorted, disjoint and free of empty chunks.  The last
      bucket may hold chunks of a small size class: splitting a big chunk
      leaves its remainder there whatever its size. */
  ghost predicate BankValid(b: Bank) {
    && |b.table| >= 2
    && (forall x :: 0 <= x < |b.table| - 1 ==> InBucket(b.table[x], x, |b.table|))
    && Disjoint(b.table[|b.table| - 1])
    && NonEmpty(b.table[|b.table| - 1])
  }

  /** Every chunk of l belongs in bucket x. */
  ghost predicate InBucket(l: seq<Chunk>, x: nat, n: nat)
    requires n >= 2
  {
    forall k :: 0 <= k < |l| ==> BucketIndex(l[k].size, n) == x
  }

  /** Insert c before the first chunk whose offset is not below its own. */
  function InsertChunk(c: Chunk, l: seq<Chunk>): (r: seq<Chunk>)
    ensures |r| == |l| + 1
    ensures multiset(r) == multiset(l) + multiset{c}
    decreases |l|
  {
    if |l| == 0 || l[0].offset >= c.offset then [c] + l
    else
      assert l == [l[0]] + l[1..];
      [l[0]] + InsertChunk(c, l[1..])
  }

  lemma {:induction false} InsertTotal(c: Chunk, l: seq<Chunk>)
    ensures Total(InsertChunk(c, l)) == Total(l) + c.size
    decreases |l|
  {
    if |l| == 0 || l[0].offset >= c.offset {
      TotalCons(c, l);
    } else {
      InsertTotal(c, l[1..]);
      TotalCons(l[0], InsertChunk(c, l[1..]));
    }
  }

  /** Where InsertChunk puts c: after every chunk with a smaller offset. */
  function InsertPos(c: Chunk, l: seq<Chunk>): (p: nat)
    ensures p <= |l|
    ensures forall i :: 0 <= i < p ==> l[i].offset < c.offset
    ensures p < |l| ==> l[p].offset >= c.offset
    decreases |l|
  {
    if |l| == 0 || l[0].offset >= c.offset then 0
    else
      var q := InsertPos(c, l[1..]);
      assert forall i :: 1 <= i < q + 1 ==> l[i] == l[1..][i - 1];
      q + 1
  }

  lemma {:induction false} InsertAt(c: Chunk, l: seq<Chunk>)
    ensures forall i :: 0 <= i < InsertPos(c, l) ==> InsertChunk(c, l)[i] == l[i]
    ensures InsertChunk(c, l)[InsertPos(c, l)] == c
    ensures forall i :: InsertPos(c, l) < i <= |l| ==> InsertChunk(c, l)[i] == l[i - 1]
    decreases |l|
  {
    var r := InsertChunk(c, l);
    if |l| == 0 || l[0].offset >= c.offset {
      assert forall i :: 0 < i <= |l| ==> r[i] == l[i - 1];
    } else {
      var t := l[1..];
      InsertAt(c, t);
      var q := InsertPos(c, t);
      var rt := InsertChunk(c, t);
      assert r == [l[0]] + rt;
      forall i | 0 < i < q + 1
        ensures r[i] == l[i]
      {
        assert r[i] == rt[i - 1] == t[i - 1];
      }
      assert r[q + 1] == rt[q];
      forall i | q + 1 < i <= |l|
        ensures r[i] == l[i - 1]
      {
        assert r[i] == rt[i - 1] == t[i - 2];
      }
    }
  }

  /** Inserting into a sorted list keeps it sorted. */
  lemma {:induction false} InsertChunkSorted(c: Chunk, l: seq<Chunk>)
    requires ChunksByOffset(l)
    ensures ChunksByOffset(InsertChunk(c, l))
  {
    var p := InsertPos(c, l);
    var r := InsertChunk(c, l);
    InsertAt(c, l);
    forall i, j | 0 <= i < j < |r|
      ensures r[i].offset <= r[j].offset
    {
      if j < p {
        assert r[i] == l[i] && r[j] == l[j];
      } else if j == p {
        assert r[i] == l[i] && r[j] == c;
      } else if i < p {
        assert r[i] == l[i] && r[j] == l[j - 1];
      } else if i == p {
        assert r[i] == c && r[j] == l[j - 1];
        assert l[p].offset <= l[j - 1].offset;
      } else {
        assert r[i] == l[i - 1] && r[j] == l[j - 1];
      }
    }
  }

  /** Inserting a chunk that overlaps nothing into a disjoint list keeps it
      disjoint. */
  lemma {:induction false} InsertDisjoint(c: Chunk, l: seq<Chunk>)
    requires Disjoint(l) && NonEmpty(l)
    requires forall i :: 0 <= i < |l| ==> End(l[i]) <= c.offset || End(c) <= l[i].offset
    requires c.size > 0
    ensures Disjoint(InsertChunk(c, l))
  {
    var p := InsertPos(c, l);
    var r := InsertChunk(c, l);
    InsertAt(c, l);
    forall i, j | 0 <= i < j < |r|
      ensures End(r[i]) <= r[j].offset
    {
      if j < p {
        assert r[i] == l[i] && r[j] == l[j];
      } else if j == p {
        assert r[i] == l[i] && r[j] == c;
      } else if i < p {
        assert r[i] == l[i] && r[j] == l[j - 1];
      } else if i == p {
        assert r[i] == c && r[j] == l[j - 1];
        assert End(l[j - 1]) <= c.offset || End(c) <= l[j - 1].offset;
        assert l[p].offset <= l[j - 1].offset;
      } else {
        assert r[i] == l[i - 1] && r[j] == l[j - 1];
      }
    }
  }

  /** MemoryHash::PutFreeChunk: a small chunk is pushed on its bucket, a
      big one inserted into the last bucket by offset. */
  function PutFreeChunk(b: Bank, c: Chunk): (r: Bank)
    requires |b.table| >= 2
    ensures |r.table| == |b.table|
    ensures forall x :: 0 <= x < |b.table| && x != BucketIndex(c.size, |b.table|) ==> r.table[x] == b.table[x]
    ensures IsSmall(c.size, |b.table|) ==> r.table[BucketIndex(c.size, |b.table|)] == [c] + b.table[BucketIndex(c.size, |b.table|)]
    ensures var x := BucketIndex(c.size, |b.table|);
      && multiset(r.table[x]) == multiset(b.table[x]) + multiset{c}
      && Total(r.table[x]) == Total(b.table[x]) + c.size
  {
    var n := |b.table|;
    var x := BucketIndex(c.size, n);
    if IsSmall(c.size, n) then
      TotalCons(c, b.table[x]);
      Bank(b.table[x := [c] + b.table[x]])
    else
      InsertTotal(c, b.table[x]);
      Bank(b.table[x := InsertChunk(c, b.table[x])])
  }

  /** Every chunk of the inserted list is c or one of l's. */
  lemma {:induction false} InsertElems(c: Chunk, l: seq<Chunk>)
    ensures forall k :: 0 <= k < |l| + 1 ==> InsertChunk(c, l)[k] == c || InsertChunk(c, l)[k] in l
  {
    InsertAt(c, l);
    var p := InsertPos(c, l);
    var r := InsertChunk(c, l);
    forall k | 0 <= k < |l| + 1
      ensures r[k] == c || r[k] in l
    {
      if k < p {
        assert r[k] == l[k];
      } else if k > p {
        assert r[k] == l[k - 1];
      }
    }
  }

  lemma {:induction false} InsertInBucket(c: Chunk, l: seq<Chunk>, x: nat, n: nat)
    requires n >= 2 && InBucket(l, x, n) && BucketIndex(c.size, n) == x
    ensures InBucket(InsertChunk(c, l), x, n)
  {
    InsertElems(c, l);
  }

  lemma {:induction false} InsertNonEmpty(c: Chunk, l: seq<Chunk>)
    requires NonEmpty(l) && c.size > 0
    ensures NonEmpty(InsertChunk(c, l))
  {
    InsertElems(c, l);
  }

  /** Putting back a chunk that overlaps no free big chunk keeps the table
      valid. */
  lemma {:induction false} PutFreeChunkValid(b: Bank, c: Chunk)
    requires BankValid(b)
    requires var l := b.table[|b.table| - 1];
      forall i :: 0 <= i < |l| ==> End(l[i]) <= c.offset || End(c) <= l[i].offset
    requires c.size > 0
    ensures BankValid(PutFreeChunk(b, c))
  {
    var n := |b.table|;
    var r := PutFreeChunk(b, c);
    var x := BucketIndex(c.size, n);
    if IsSmall(c.size, n) {
      assert x < n - 1;
      assert InBucket(b.table[x], x, n);
      var t := r.table[x];
      forall k | 0 <= k < |t|
        ensures BucketIndex(t[k].size, n) == x
      {
        if k > 0 {
          assert t[k] == b.table[x][k - 1];
        }
      }
      assert r.table[n - 1] == b.table[n - 1];
    } else {
      InsertDisjoint(c, b.table[n - 1]);
      InsertNonEmpty(c, b.table[n - 1]);
    }
    forall y | 0 <= y < n - 1
      ensures InBucket(r.table[y], y, n)
    {
      if y != x {
        assert r.table[y] == b.table[y];
        assert InBucket(b.table[y], y, n);
      }
    }
  }

  // ---------------------------------------------------------------------
  // Taking a chunk

  /** The first-fit walk over the big list: the first chunk of at least
      `size` bytes is unlinked when it fits exactly, and split in place
      otherwise, the caller getting its first `size` bytes. */
  function TakeFit(l: seq<Chunk>, size: nat): (r: (seq<Chunk>, Option<Chunk>))
    ensures r.1.None? <==> forall i :: 0 <= i < |l| ==> l[i].size < size
    ensures r.1.None? ==> r.0 == l
    ensures r.1.Some? ==> r.1.value.size == size
    ensures Total(r.0) + (if r.1.Some? then size else 0) == Total(l)
    decreases |l|
  {
    if |l| == 0 then (l, None)
    else if l[0].size < size then
      var rest := TakeFit(l[1..], size);
      TotalCons(l[0], rest.0);
      assert forall i :: 1 <= i < |l| ==> l[i] == l[1..][i - 1];
      assert rest.1.None? ==> [l[0]] + rest.0 == l;
      ([l[0]] + rest.0, rest.1)
    else if l[0].size == size then
      (l[1..], Some(l[0]))
    else
      TotalCons(Chunk(l[0].offset + size, l[0].size - size), l[1..]);
      ([Chunk(l[0].offset + size, l[0].size - size)] + l[1..], Some(Chunk(l[0].offset, size)))
  }

  /** The position of the first chunk of at least `size` bytes (|l| when
      there is none). */
  function FitPos(l: seq<Chunk>, size: nat): (p: nat)
    ensures p <= |l|
    ensures forall i :: 0 <= i < p ==> l[i].size < size
    ensures p < |l| ==> l[p].size >= size
    decreases |l|
  {
    if |l| == 0 || l[0].size >= size then 0
    else
      var q := FitPos(l[1..], size);
      assert forall i :: 1 <= i < q + 1 ==> l[i] == l[1..][i - 1];
      q + 1
  }

  /** What is left when the chunk at p gives its first `size` bytes away. */
  function Remainder(l: seq<Chunk>, p: nat, size: nat): seq<Chunk>
    requires p < |l| && l[p].size >= size
  {
    l[..p] + (if l[p].size == size then [] else [Chunk(l[p].offset + size, l[p].size - size)]) + l[p + 1..]
  }

  lemma {:induction false} RemainderCons(l: seq<Chunk>, q: nat, size: nat)
    requires 0 < |l| && q + 1 < |l| && l[q + 1].size >= size
    ensures Remainder(l, q + 1, size) == [l[0]] + Remainder(l[1..], q, size)
  {
    var t := l[1..];
    assert t[q] == l[q + 1];
    assert l[..q + 1] == [l[0]] + t[..q];
    assert l[q + 2..] == t[q + 1..];
  }

  /** The chunk handed out is the front of the first chunk that fits, and
      that chunk's remainder keeps its place in the list. */
  lemma {:induction false} TakeFitFirst(l: seq<Chunk>, size: nat)
    requires TakeFit(l, size).1.Some?
    ensures FitPos(l, size) < |l|
    ensures TakeFit(l, size).1.value.offset == l[FitPos(l, size)].offset
    ensures TakeFit(l, size).0 == Remainder(l, FitPos(l, size), size)
    decreases |l|
  {
    if l[0].size >= size {
      assert l[..0] == [];
      assert FitPos(l, size) == 0;
    } else {
      var t := l[1..];
      TakeFitFirst(t, size);
      var q := FitPos(t, size);
      assert FitPos(l, size) == q + 1;
      assert TakeFit(l, size).0 == [l[0]] + TakeFit(t, size).0;
      RemainderCons(l, q, size);
    }
  }

  /** The chunks of a remainder, position by position. */
  lemma {:induction false} RemainderAt(l: seq<Chunk>, p: nat, size: nat)
    requires p < |l| && l[p].size >= size
    ensures l[p].size == size ==> |Remainder(l, p, size)| == |l| - 1
    ensures l[p].size > size ==> |Remainder(l, p, size)| == |l|
    ensures forall i :: 0 <= i < p ==> Remainder(l, p, size)[i] == l[i]
    ensures l[p].size == size ==> forall i :: p <= i < |l| - 1 ==> Remainder(l, p, size)[i] == l[i + 1]
    ensures l[p].size > size ==> Remainder(l, p, size)[p] == Chunk(l[p].offset + size, l[p].size - size)
    ensures l[p].size > size ==> forall i :: p < i < |l| ==> Remainder(l, p, size)[i] == l[i]
  {
  }

  /** Giving away the front of a chunk of a disjoint list keeps it disjoint,
      and the front overlaps nothing that is left. */
  lemma {:induction false} RemainderDisjoint(l: seq<Chunk>, p: nat, size: nat)
    requires Disjoint(l) && p < |l| && l[p].size >= size
    ensures Disjoint(Remainder(l, p, size))
    ensures var r := Remainder(l, p, size); var c := Chunk(l[p].offset, size);
      forall i :: 0 <= i < |r| ==> End(r[i]) <= c.offset || End(c) <= r[i].offset
  {
    var r := Remainder(l, p, size);
    var c := Chunk(l[p].offset, size);
    RemainderAt(l, p, size);
    if l[p].size == size {
      forall i, j | 0 <= i < j < |r|
        ensures End(r[i]) <= r[j].offset
      {
        if j < p {
          assert r[i] == l[i] && r[j] == l[j];
        } else if i < p {
          assert r[i] == l[i] && r[j] == l[j + 1];
        } else {
          assert r[i] == l[i + 1] && r[j] == l[j + 1];
        }
      }
      forall i | 0 <= i < |r|
        ensures End(r[i]) <= c.offset || End(c) <= r[i].offset
      {
        if i < p {
          assert r[i] == l[i];
          assert End(l[i]) <= l[p].offset;
        } else {
          assert r[i] == l[i + 1];
          assert End(l[p]) <= l[i + 1].offset;
        }
      }
    } else {
      var s := Chunk(l[p].offset + size, l[p].size - size);
      forall i, j | 0 <= i < j < |r|
        ensures End(r[i]) <= r[j].offset
      {
        if j < p {
          assert r[i] == l[i] && r[j] == l[j];
        } else if j == p {
          assert r[i] == l[i] && r[j] == s;
          assert End(l[i]) <= l[p].offset;
        } else if i < p {
          assert r[i] == l[i] && r[j] == l[j];
        } else if i == p {
          assert r[i] == s && r[j] == l[j];
          assert End(l[p]) <= l[j].offset;
        } else {
          assert r[i] == l[i] && r[j] == l[j];
        }
      }
      forall i | 0 <= i < |r|
        ensures End(r[i]) <= c.offset || End(c) <= r[i].offset
      {
        if i < p {
          assert r[i] == l[i];
          assert End(l[i]) <= l[p].offset;
        } else if i == p {
          assert r[i] == s;
        } else {
          assert r[i] == l[i];
          assert End(l[p]) <= l[i].offset;
        }
      }
    }
  }

  /** Taking a chunk keeps the big list sorted and disjoint, and the chunk
      handed out overlaps no chunk left in the list. */
  lemma {:induction false} TakeFitDisjoint(l: seq<Chunk>, size: nat)
    requires Disjoint(l) && TakeFit(l, size).1.Some?
    ensures Disjoint(TakeFit(l, size).0)
    ensures var r := TakeFit(l, size);
      forall i :: 0 <= i < |r.0| ==> End(r.0[i]) <= r.1.value.offset || End(r.1.value) <= r.0[i].offset
  {
    TakeFitFirst(l, size);
    var p := FitPos(l, size);
    assert TakeFit(l, size).1.value == Chunk(l[p].offset, size);
    RemainderDisjoint(l, p, size);
  }

  /** MemoryHash::GetFreeChunk: a small request pops the head of its
      bucket (nothing when it is empty); a big one takes the first fit of
      the last bucket.  No other bucket changes. */
  function GetFreeChunk(b: Bank, size: nat): (r: (Bank, Option<Chunk>))
    requires |b.table| >= 2
    ensures |r.0.table| == |b.table|
    ensures forall x :: 0 <= x < |b.table| && x != BucketIndex(size, |b.table|) ==> r.0.table[x] == b.table[x]
    ensures IsSmall(size, |b.table|) ==>
      var x := BucketIndex(size, |b.table|);
      && (r.1.None? <==> |b.table[x]| == 0)
      && (r.1.Some? ==> r.1.value == b.table[x][0] && r.0.table[x] == b.table[x][1..])
    ensures !IsSmall(size, |b.table|) ==>
      var l := b.table[|b.table| - 1];
      && (r.1.None? <==> forall i :: 0 <= i < |l| ==> l[i].size < size)
      && (r.1.Some? ==> r.1.value.size == size)
    ensures var x := BucketIndex(size, |b.table|);
      Total(r.0.table[x]) + (if r.1.Some? then r.1.value.size else 0) == Total(b.table[x])
    ensures r.1.None? ==> r.0 == b
  {
    var n := |b.table|;
    var x := BucketIndex(size, n);
    if IsSmall(size, n) then
      if |b.table[x]| == 0 then (b, None)
      else
        TotalCons(b.table[x][0], b.table[x][1..]);
        assert b.table[x] == [b.table[x][0]] + b.table[x][1..];
        (Bank(b.table[x := b.table[x][1..]]), Some(b.table[x][0]))
    else
      var t := TakeFit(b.table[x], size);
      (Bank(b.table[x := t.0]), t.1)
  }

  /** A small chunk handed out has the size class of the request. */
  lemma {:induction false} GetSmallSizeClass(b: Bank, size: nat)
    requires BankValid(b) && IsSmall(size, |b.table|)
    requires GetFreeChunk(b, size).1.Some?
    ensures GetFreeChunk(b, size).1.value.size / 4 == size / 4
  {
    var x := BucketIndex(size, |b.table|);
    assert BucketIndex(b.table[x][0].size, |b.table|) == x;
  }

  /** Taking a chunk keeps the table valid, and a big chunk handed out
      overlaps nothing still free in the last bucket. */
  lemma {:induction false} GetFreeChunkValid(b: Bank, size: nat)
    requires BankValid(b)
    ensures BankValid(GetFreeChunk(b, size).0)
    ensures var r := GetFreeChunk(b, size); var l := r.0.table[|b.table| - 1];
      !IsSmall(size, |b.table|) && r.1.Some? ==>
        forall i :: 0 <= i < |l| ==> End(l[i]) <= r.1.value.offset || End(r.1.value) <= l[i].offset
  {
    if IsSmall(size, |b.table|) {
      SmallTakeValid(b, size);
    } else {
      BigTakeValid(b, size);
    }
  }

  /** Taking the head of a small bucket leaves its rest in the bucket. */
  lemma {:induction false} SmallTakeValid(b: Bank, size: nat)
    requires BankValid(b) && IsSmall(size, |b.table|)
    ensures BankValid(GetFreeChunk(b, size).0)
  {
    var n := |b.table|;
    var r := GetFreeChunk(b, size).0;
    var x := BucketIndex(size, n);
    if |b.table[x]| > 0 {
      var t := r.table[x];
      assert InBucket(b.table[x], x, n);
      forall k | 0 <= k < |t|
        ensures BucketIndex(t[k].size, n) == x
      {
        assert t[k] == b.table[x][k + 1];
      }
    }
    assert r.table[n - 1] == b.table[n - 1];
    BucketsKept(b, r, x);
  }

  /** Taking a fit from the big list keeps it disjoint and non-empty, and
      the chunk taken overlaps nothing left in it. */
  lemma {:induction false} BigTakeValid(b: Bank, size: nat)
    requires BankValid(b) && !IsSmall(size, |b.table|)
    ensures BankValid(GetFreeChunk(b, size).0)
    ensures var r := GetFreeChunk(b, size); var l := r.0.table[|b.table| - 1];
      r.1.Some? ==> forall i :: 0 <= i < |l| ==> End(l[i]) <= r.1.value.offset || End(r.1.value) <= l[i].offset
  {
    var n := |b.table|;
    var l := b.table[n - 1];
    if TakeFit(l, size).1.Some? {
      TakeFitDisjoint(l, size);
      TakeFitFirst(l, size);
      RemainderNonEmpty(l, FitPos(l, size), size);
    }
    BucketsKept(b, GetFreeChunk(b, size).0, BucketIndex(size, n));
  }

  /** Buckets other than x are untouched, so they stay in place. */
  lemma {:induction false} BucketsKept(b: Bank, r: Bank, x: nat)
    requires BankValid(b) && |r.table| == |b.table|
    requires forall y :: 0 <= y < |b.table| && y != x ==> r.table[y] == b.table[y]
    requires x < |b.table| - 1 ==> InBucket(r.table[x], x, |b.table|)
    ensures forall y :: 0 <= y < |b.table| - 1 ==> InBucket(r.table[y], y, |b.table|)
  {
    var n := |b.table|;
    forall y | 0 <= y < n - 1
      ensures InBucket(r.table[y], y, n)
    {
      if y != x {
        assert r.table[y] == b.table[y];
        assert InBucket(b.table[y], y, n);
      }
    }
  }

  lemma {:induction false} RemainderNonEmpty(l: seq<Chunk>, p: nat, size: nat)
    requires NonEmpty(l) && p < |l| && l[p].size >= size
    ensures NonEmpty(Remainder(l, p, size))
  {
    RemainderAt(l, p, size);
    var r := Remainder(l, p, size);
    forall i | 0 <= i < |r|
      ensures r[i].size > 0
    {
      if i < p {
        assert r[i] == l[i];
      } else if l[p].size == size {
        assert r[i] == l[i + 1];
      } else if i > p {
        assert r[i] == l[i];
      }
    }
  }

  // ---------------------------------------------------------------------
  // Coalescing

  /** MemoryHash::MergeBigFreeChunk: walking the big list, a chunk that
      ends where the next begins absorbs it; a chunk that reaches past the
      next one's start is a fatal error (None). */
  function Merge(l: seq<Chunk>): (r: Option<seq<Chunk>>)
    ensures r.Some? ==> Total(r.value) == Total(l)
    ensures r.Some? ==> |r.value| <= |l|
    ensures |l| <= 1 ==> r == Some(l)
    ensures r.Some? && |l| > 0 ==> |r.value| > 0 && r.value[0].offset == l[0].offset
    decreases |l|
  {
    if |l| <= 1 then Some(l)
    else if End(l[0]) == l[1].offset then
      var merged := Chunk(l[0].offset, l[0].size + l[1].size);
      TotalCons(l[0], l[1..]);
      TotalCons(l[1], l[2..]);
      TotalCons(merged, l[2..]);
      assert l[1..] == [l[1]] + l[2..];
      Merge([merged] + l[2..])
    else if End(l[0]) < l[1].offset then
      match Merge(l[1..])
      case None => None
      case Some(rest) =>
        TotalCons(l[0], rest);
        TotalCons(l[0], l[1..]);
        Some([l[0]] + rest)
    else None
  }

  /** Absorbing the second chunk into the first keeps a list disjoint. */
  lemma {:induction false} MergeHeadDisjoint(l: seq<Chunk>)
    requires Disjoint(l) && |l| >= 2 && End(l[0]) == l[1].offset
    ensures Disjoint([Chunk(l[0].offset, l[0].size + l[1].size)] + l[2..])
  {
    var merged := Chunk(l[0].offset, l[0].size + l[1].size);
    var m := [merged] + l[2..];
    forall i, j | 0 <= i < j < |m|
      ensures End(m[i]) <= m[j].offset
    {
      assert m[j] == l[j + 1];
      if i == 0 {
        assert End(merged) == End(l[1]);
      } else {
        assert m[i] == l[i + 1];
      }
    }
  }

  /** A chunk that ends before everything in a separated list can go in
      front of it. */
  lemma {:induction false} ConsSeparated(c: Chunk, rest: seq<Chunk>, lo: nat)
    requires Separated(rest) && End(c) < lo
    requires forall k :: 0 <= k < |rest| ==> lo <= rest[k].offset
    ensures Separated([c] + rest)
  {
    var r := [c] + rest;
    forall i, j | 0 <= i < j < |r|
      ensures End(r[i]) < r[j].offset
    {
      assert r[j] == rest[j - 1];
      if i > 0 {
        assert r[i] == rest[i - 1];
      }
    }
  }

  /** A sorted disjoint list never hits the fatal case, and afterwards no
      two chunks touch. */
  lemma {:induction false} MergeSeparates(l: seq<Chunk>)
    requires Disjoint(l)
    ensures Merge(l).Some?
    ensures Separated(Merge(l).value)
    ensures forall k :: 0 <= k < |Merge(l).value| ==> l[0].offset <= Merge(l).value[k].offset
    decreases |l|
  {
    if |l| <= 1 {
    } else if End(l[0]) == l[1].offset {
      var m := [Chunk(l[0].offset, l[0].size + l[1].size)] + l[2..];
      MergeHeadDisjoint(l);
      MergeSeparates(m);
      assert Merge(l) == Merge(m);
    } else {
      var t := l[1..];
      assert End(l[0]) <= l[1].offset;
      assert forall i, j :: 0 <= i < j < |t| ==> t[i] == l[i + 1] && t[j] == l[j + 1];
      MergeSeparates(t);
      var rest := Merge(t).value;
      assert Merge(l) == Some([l[0]] + rest);
      ConsSeparated(l[0], rest, l[1].offset);
      var r := [l[0]] + rest;
      forall k | 0 <= k < |r|
        ensures l[0].offset <= r[k].offset
      {
        if k > 0 {
          assert r[k] == rest[k - 1];
        }
      }
    }
  }

  /** Two chunks that overlap at the head of the list are fatal. */
  lemma {:induction false} MergeOverlapFatal(l: seq<Chunk>)
    requires |l| >= 2 && End(l[0]) > l[1].offset
    ensures Merge(l).None?
  {
  }

  /** A list that is already separated is left as it is. */
  lemma {:induction false} MergeSeparatedUnchanged(l: seq<Chunk>)
    requires Separated(l)
    ensures Merge(l) == Some(l)
    decreases |l|
  {
    if |l| > 1 {
      var t := l[1..];
      assert forall i, j :: 0 <= i < j < |t| ==> t[i] == l[i + 1] && t[j] == l[j + 1];
      MergeSeparatedUnchanged(t);
      assert [l[0]] + t == l;
    }
  }

  /** Merging is idempotent: a second pass changes nothing. */
  lemma {:induction false} MergeIdempotent(l: seq<Chunk>)
    requires Disjoint(l)
    ensures Merge(l).Some? && Merge(Merge(l).value) == Merge(l)
  {
    MergeSeparates(l);
    MergeSeparatedUnchanged(Merge(l).value);
  }

  /** Merging never creates an empty chunk. */
  lemma {:induction false} MergeNonEmpty(l: seq<Chunk>)
    requires NonEmpty(l) && Merge(l).Some?
    ensures NonEmpty(Merge(l).value)
    decreases |l|
  {
    if |l| > 1 {
      if End(l[0]) == l[1].offset {
        var m := [Chunk(l[0].offset, l[0].size + l[1].size)] + l[2..];
        assert forall i :: 1 <= i < |m| ==> m[i] == l[i + 1];
        assert Merge(l) == Merge(m);
        MergeNonEmpty(m);
      } else {
        var t := l[1..];
        assert forall i :: 0 <= i < |t| ==> t[i] == l[i + 1];
        MergeNonEmpty(t);
        var r := [l[0]] + Merge(t).value;
        assert Merge(l) == Some(r);
        assert forall i :: 1 <= i < |r| ==> r[i] == Merge(t).value[i - 1];
      }
    }
  }

  /** MergeBigFreeChunk on the table: only the last bucket changes. */
  function MergeBigFreeChunk(b: Bank): (r: Option<Bank>)
    requires |b.table| >= 2
    ensures r.Some? ==> |r.value.table| == |b.table|
    ensures r.Some? ==> forall x :: 0 <= x < |b.table| - 1 ==> r.value.table[x] == b.table[x]
    ensures r.Some? ==> Total(r.value.table[|b.table| - 1]) == Total(b.table[|b.table| - 1])
  {
    var n := |b.table|;
    match Merge(b.table[n - 1])
    case None => None
    case Some(l) => Some(Bank(b.table[n - 1 := l]))
  }

  /** Coalescing a valid table succeeds, keeps it valid, and leaves no two
      free big chunks touching. */
  lemma {:induction false} MergeBigFreeChunkValid(b: Bank)
    requires BankValid(b)
    ensures MergeBigFreeChunk(b).Some?
    ensures BankValid(MergeBigFreeChunk(b).value)
    ensures Separated(MergeBigFreeChunk(b).value.table[|b.table| - 1])
  {
    var n := |b.table|;
    var l := b.table[n - 1];
    MergeSeparates(l);
    MergeNonEmpty(l);
    var r := MergeBigFreeChunk(b).value;
    assert r.table[n - 1] == Merge(l).value;
    forall y | 0 <= y < n - 1
      ensures InBucket(r.table[y], y, n)
    {
      assert r.table[y] == b.table[y];
      assert InBucket(b.table[y], y, n);
    }
  }
}

=== FILE: vm_heap.dfy ===
/** The app heap of the runtime's MemoryManager: a small-object region
    [0, totalSmall) and a big-object region [totalSmall, totalSize), each
    with a bump offset, in front of which the free-chunk table is searched;
    the 32-bit block headers with their reference counts; and the set of
    candidate cycle roots.  Offsets are relative to the heap base.

    The header sizes (MALLOCHEADSIZE, MALLOCEXHEADSIZE), the table size
    and Bytes4Align come from vmmemory.h, which is not part of this model:
    the sizes are fields of the heap record and Bytes4Align is taken to
    round up to a multiple of 4. */
module VmHeap {
  import opened Common
  import opened FreeChunks

  const MB: nat := 1024 * 1024
  /** The largest value of the 14-bit reference count; a count that reaches
      it sticks. */
  const UINT14_MAX: nat := 0x3FFF

  /** Bytes4Align: the least multiple of 4 that is not below n. */
  function Align4(n: nat): (r: nat)
    ensures r % 4 == 0 && n <= r < n + 4
  {
    (n + 3) / 4 * 4
  }

  datatype HeapTag = AnyTag | JSFunc | JSObj | JSProp | JSString | JSList | JSIter | EnvTag

  datatype Header = Header(tag: HeapTag, refcount: nat, inRoots: bool)

  datatype Heap = Heap(
    bank: Bank,
    base: nat,
    headSize: nat,
    exHeadSize: nat,
    smallOffset: nat,
    bigOffset: nat,
    totalSmall: nat,
    totalSize: nat,
    headers: map<nat, Header>,
    roots: set<nat>,
    gcOff: bool)

  /** A JSObj block carries the extended header. */
  function HeadSize(h: Heap, tag: HeapTag): nat {
    if tag == JSObj then h.exHeadSize else h.headSize
  }

  /** The address lies in the heap's [base, base + total size). */
  predicate IsHeap(h: Heap, addr: nat)
    ensures IsHeap(h, addr) <==> 0 <= addr - h.base < h.totalSize
  {
    h.base <= addr < h.base + h.totalSize
  }

  // ---------------------------------------------------------------------
  // The space invariant

  /** A free chunk lies in space already handed out by a bump offset: below
      the small offset, or inside the used part of the big region (the two
      join when the small region is full). */
  ghost predicate InSpace(c: Chunk, s: nat, t: nat, b: nat) {
    || End(c) <= s
    || (End(c) <= b && (t <= c.offset || s == t))
  }

  ghost predicate BankInSpace(bank: Bank, s: nat, t: nat, b: nat) {
    forall x, k :: 0 <= x < |bank.table| && 0 <= k < |bank.table[x]| ==> InSpace(bank.table[x][k], s, t, b)
  }

  ghost predicate ListInSpace(l: seq<Chunk>, s: nat, t: nat, b: nat) {
    forall k :: 0 <= k < |l| ==> InSpace(l[k], s, t, b)
  }

  /** The allocator's invariant: a valid table whose chunks all lie in used
      space, the offsets ordered inside a heap addressable with 32 bits,
      and a table small enough that one small request never needs more
      than the 1 MiB by which the small region grows. */
  ghost predicate HeapValid(h: Heap) {
    && BankValid(h.bank)
    && 4 * |h.bank.table| <= MB
    && h.smallOffset <= h.totalSmall <= h.bigOffset <= h.totalSize < TWO32
    && BankInSpace(h.bank, h.smallOffset, h.totalSmall, h.bigOffset)
  }

  /** A header is marked in_roots exactly when its block is a candidate
      root, only JSObj blocks are marked, and every candidate root has a
      header. */
  ghost predicate RootsValid(h: Heap) {
    && (forall a :: a in h.roots ==> a in h.headers)
    && (forall a :: a in h.headers ==> (h.headers[a].inRoots <==> a in h.roots))
    && (forall a :: a in h.headers && h.headers[a].inRoots ==> h.headers[a].tag == JSObj)
  }

  /** The block [offset, offset + size) shares a byte with chunk c. */
  predicate Overlaps(offset: nat, size: nat, c: Chunk) {
    offset < End(c) && c.offset < offset + size
  }

  // ---------------------------------------------------------------------
  // Malloc

  /** The small region may take 1 MiB from the big one when the big region
      is still unused and at least 1 MiB larger than the growth point. */
  predicate SmallRegionGrows(h: Heap) {
    h.bigOffset == h.totalSmall && h.bigOffset + MB < h.totalSize
  }

  /** The same test with the source's uint32 subtraction, which wraps for a
      heap smaller than 1 MiB. */
  predicate SmallRegionGrowsAsWritten(h: Heap) {
    h.bigOffset == h.totalSmall && h.bigOffset < Wrap32(h.totalSize - MB)
  }

  /** MemoryManager::Malloc, with the decision whether the small region
      grows passed in: a free chunk of the table when there is one;
      otherwise a big request bumps the big offset, or coalesces the big
      list and retries when the big region is exhausted; a small request
      bumps the small offset, growing the small region first when it is
      full.  None is a fatal out-of-memory error.  The result is the heap
      and the offset of the block. */
  function Allocate(h: Heap, size: nat, grow: bool): (r: Option<(Heap, nat)>)
    requires |h.bank.table| >= 2
    requires grow ==> h.bigOffset == h.totalSmall
    ensures r.Some? ==> |r.value.0.bank.table| == |h.bank.table|
    ensures r.Some? ==> r.value.0.headers == h.headers && r.value.0.roots == h.roots
    ensures r.Some? ==> r.value.0.totalSize == h.totalSize && r.value.0.base == h.base
    ensures r.Some? ==> r.value.0.headSize == h.headSize && r.value.0.exHeadSize == h.exHeadSize
    ensures r.Some? ==> h.smallOffset <= r.value.0.smallOffset && h.bigOffset <= r.value.0.bigOffset
    ensures GetFreeChunk(h.bank, size).1.Some? ==>
      r == Some((h.(bank := GetFreeChunk(h.bank, size).0), GetFreeChunk(h.bank, size).1.value.offset))
  {
    var got := GetFreeChunk(h.bank, size);
    if got.1.Some? then Some((h.(bank := got.0), got.1.value.offset))
    else if !IsSmall(size, |h.bank.table|) then
      if size + h.bigOffset > h.totalSize then
        match MergeBigFreeChunk(h.bank)
        case None => None
        case Some(merged) =>
          var again := GetFreeChunk(merged, size);
          if again.1.None? then None
          else Some((h.(bank := again.0), again.1.value.offset))
      else Some((h.(bigOffset := h.bigOffset + size), h.bigOffset))
    else if size + h.smallOffset > h.totalSmall then
      if grow then
        var t := h.totalSmall + MB;
        Some((h.(totalSmall := t, bigOffset := t, smallOffset := h.smallOffset + size), h.smallOffset))
      else None
    else Some((h.(smallOffset := h.smallOffset + size), h.smallOffset))
  }

  /** Malloc as the allocator evidently intends it. */
  function Malloc(h: Heap, size: nat): (r: Option<(Heap, nat)>)
    requires |h.bank.table| >= 2
    ensures r.Some? ==> r.value.0.headers == h.headers && r.value.0.roots == h.roots
    ensures r.Some? ==> r.value.0.base == h.base
    ensures r.Some? ==> r.value.0.headSize == h.headSize && r.value.0.exHeadSize == h.exHeadSize
  {
    Allocate(h, size, SmallRegionGrows(h))
  }

  /** Malloc with the source's wrapping growth test. */
  function MallocAsWritten(h: Heap, size: nat): (r: Option<(Heap, nat)>)
    requires |h.bank.table| >= 2
    ensures (SmallRegionGrowsAsWritten(h) <==> SmallRegionGrows(h)) ==> r == Malloc(h, size)
  {
    Allocate(h, size, SmallRegionGrowsAsWritten(h))
  }

  /** For a heap of at least 1 MiB the two growth tests agree. */
  lemma {:induction false} GrowthTestsAgree(h: Heap)
    requires MB <= h.totalSize < TWO32 + MB && h.bigOffset + MB < TWO32
    ensures SmallRegionGrowsAsWritten(h) <==> SmallRegionGrows(h)
  {
    assert Wrap32(h.totalSize - MB) == h.totalSize - MB;
  }

  // Lemmas about the space invariant

  lemma {:induction false} InSpaceMonotone(c: Chunk, s: nat, t: nat, b: nat, s': nat, b': nat)
    requires InSpace(c, s, t, b) && s <= s' <= t && b <= b'
    ensures InSpace(c, s', t, b')
  {
  }

  lemma {:induction false} BankInSpaceMonotone(bank: Bank, s: nat, t: nat, b: nat, s': nat, b': nat)
    requires BankInSpace(bank, s, t, b) && s <= s' <= t && b <= b'
    ensures BankInSpace(bank, s', t, b')
  {
    forall x, k | 0 <= x < |bank.table| && 0 <= k < |bank.table[x]|
      ensures InSpace(bank.table[x][k], s', t, b')
    {
      InSpaceMonotone(bank.table[x][k], s, t, b, s', b');
    }
  }

  /** The tail of a chunk in used space is in used space. */
  lemma {:induction false} TailInSpace(c: Chunk, d: Chunk, s: nat, t: nat, b: nat)
    requires InSpace(c, s, t, b) && c.offset <= d.offset && End(d) == End(c)
    ensures InSpace(d, s, t, b)
  {
  }

  /** Two touching chunks in used space merge into one in used space. */
  lemma {:induction false} JoinInSpace(c: Chunk, d: Chunk, s: nat, t: nat, b: nat)
    requires s <= t && InSpace(c, s, t, b) && InSpace(d, s, t, b) && End(c) == d.offset
    ensures InSpace(Chunk(c.offset, c.size + d.size), s, t, b)
  {
  }

  lemma {:induction false} MergeInSpace(l: seq<Chunk>, s: nat, t: nat, b: nat)
    requires s <= t && ListInSpace(l, s, t, b) && Merge(l).Some?
    ensures ListInSpace(Merge(l).value, s, t, b)
    decreases |l|
  {
    if |l| > 1 {
      if End(l[0]) == l[1].offset {
        var merged := Chunk(l[0].offset, l[0].size + l[1].size);
        var m := [merged] + l[2..];
        JoinInSpace(l[0], l[1], s, t, b);
        assert forall k :: 1 <= k < |m| ==> m[k] == l[k + 1];
        assert Merge(l) == Merge(m);
        MergeInSpace(m, s, t, b);
      } else {
        var tl := l[1..];
        assert forall k :: 0 <= k < |tl| ==> tl[k] == l[k + 1];
        MergeInSpace(tl, s, t, b);
        var r := [l[0]] + Merge(tl).value;
        assert Merge(l) == Some(r);
        assert forall k :: 1 <= k < |r| ==> r[k] == Merge(tl).value[k - 1];
      }
    }
  }

  lemma {:induction false} MergeBankInSpace(bank: Bank, s: nat, t: nat, b: nat)
    requires |bank.table| >= 2 && s <= t && BankInSpace(bank, s, t, b) && MergeBigFreeChunk(bank).Some?
    ensures BankInSpace(MergeBigFreeChunk(bank).value, s, t, b)
  {
    var n := |bank.table|;
    var r := MergeBigFreeChunk(bank).value;
    var l := bank.table[n - 1];
    assert ListInSpace(l, s, t, b) by {
      forall k | 0 <= k < |l|
        ensures InSpace(l[k], s, t, b)
      {
        assert l[k] == bank.table[n - 1][k];
      }
    }
    MergeInSpace(l, s, t, b);
    assert r.table[n - 1] == Merge(l).value;
    forall x, k | 0 <= x < |r.table| && 0 <= k < |r.table[x]|
      ensures InSpace(r.table[x][k], s, t, b)
    {
      if x < n - 1 {
        assert r.table[x] == bank.table[x];
      } else {
        assert r.table[x][k] == Merge(l).value[k];
      }
    }
  }

  lemma {:induction false} RemainderInSpace(l: seq<Chunk>, p: nat, size: nat, s: nat, t: nat, b: nat)
    requires p < |l| && l[p].size >= size && ListInSpace(l, s, t, b)
    ensures ListInSpace(Remainder(l, p, size), s, t, b)
  {
    RemainderAt(l, p, size);
    var r := Remainder(l, p, size);
    forall i | 0 <= i < |r|
      ensures InSpace(r[i], s, t, b)
    {
      if i < p {
        assert r[i] == l[i];
      } else if l[p].size == size {
        assert r[i] == l[i + 1];
      } else if i == p {
        TailInSpace(l[p], r[i], s, t, b);
      } else {
        assert r[i] == l[i];
      }
    }
  }

  /** Taking a chunk leaves every remaining chunk in used space. */
  lemma {:induction false} GetFreeChunkInSpace(bank: Bank, size: nat, s: nat, t: nat, b: nat)
    requires |bank.table| >= 2 && BankInSpace(bank, s, t, b)
    ensures BankInSpace(GetFreeChunk(bank, size).0, s, t, b)
  {
    var n := |bank.table|;
    var r := GetFreeChunk(bank, size).0;
    var x := BucketIndex(size, n);
    if IsSmall(size, n) {
      forall y, k | 0 <= y < n && 0 <= k < |r.table[y]|
        ensures InSpace(r.table[y][k], s, t, b)
      {
        if y == x && |bank.table[x]| > 0 {
          assert r.table[y][k] == bank.table[x][k + 1];
        } else {
          assert r.table[y] == bank.table[y];
        }
      }
    } else {
      var l := bank.table[n - 1];
      if TakeFit(l, size).1.Some? {
        assert ListInSpace(l, s, t, b) by {
          forall k | 0 <= k < |l|
            ensures InSpace(l[k], s, t, b)
          {
            assert l[k] == bank.table[n - 1][k];
          }
        }
        TakeFitFirst(l, size);
        RemainderInSpace(l, FitPos(l, size), size, s, t, b);
        forall y, k | 0 <= y < n && 0 <= k < |r.table[y]|
          ensures InSpace(r.table[y][k], s, t, b)
        {
          if y < n - 1 {
            assert r.table[y] == bank.table[y];
          } else {
            assert r.table[y][k] == TakeFit(l, size).0[k];
          }
        }
      }
    }
  }

  /** Every chunk of a valid table holds at least one byte. */
  lemma {:induction false} ChunkNonEmpty(bank: Bank, x: nat, k: nat)
    requires BankValid(bank) && x < |bank.table| && k < |bank.table[x]|
    ensures bank.table[x][k].size > 0
  {
    var n := |bank.table|;
    if x < n - 1 {
      assert InBucket(bank.table[x], x, n);
      assert BucketIndex(bank.table[x][k].size, n) == x;
    }
  }

  /** When the small region grows, every free chunk lies below the small
      offset, since the big region is still unused. */
  lemma {:induction false} GrowthInSpace(h: Heap, size: nat)
    requires HeapValid(h) && h.bigOffset == h.totalSmall
    ensures BankInSpace(h.bank, h.smallOffset, h.totalSmall + MB, h.totalSmall + MB)
  {
    var bank := h.bank;
    forall x, k | 0 <= x < |bank.table| && 0 <= k < |bank.table[x]|
      ensures InSpace(bank.table[x][k], h.smallOffset, h.totalSmall + MB, h.totalSmall + MB)
    {
      ChunkNonEmpty(bank, x, k);
    }
  }

  /** Malloc keeps the allocator invariant. */
  lemma {:induction false} MallocValid(h: Heap, size: nat)
    requires HeapValid(h) && Malloc(h, size).Some?
    ensures HeapValid(Malloc(h, size).value.0)
  {
    var s, t, b := h.smallOffset, h.totalSmall, h.bigOffset;
    var h' := Malloc(h, size).value.0;
    var got := GetFreeChunk(h.bank, size);
    if got.1.Some? {
      GetFreeChunkValid(h.bank, size);
      GetFreeChunkInSpace(h.bank, size, s, t, b);
    } else if !IsSmall(size, |h.bank.table|) {
      if size + b > h.totalSize {
        MergeBigFreeChunkValid(h.bank);
        var merged := MergeBigFreeChunk(h.bank).value;
        MergeBankInSpace(h.bank, s, t, b);
        GetFreeChunkValid(merged, size);
        GetFreeChunkInSpace(merged, size, s, t, b);
      } else {
        BankInSpaceMonotone(h.bank, s, t, b, s, b + size);
      }
    } else if size + s > t {
      GrowthInSpace(h, size);
      BankInSpaceMonotone(h.bank, s, t + MB, t + MB, s + size, t + MB);
    } else {
      BankInSpaceMonotone(h.bank, s, t, b, s + size, b);
    }
  }

  /** A block taken from a bump offset lies inside the heap and shares no
      byte with any free chunk left in the table: nothing is handed out
      twice. */
  lemma {:induction false} MallocFresh(h: Heap, size: nat)
    requires HeapValid(h) && Malloc(h, size).Some? && size > 0
    requires GetFreeChunk(h.bank, size).1.None?
    requires IsSmall(size, |h.bank.table|) || size + h.bigOffset <= h.totalSize
    ensures var r := Malloc(h, size).value;
      && r.1 + size <= r.0.totalSize
      && forall x, k :: 0 <= x < |r.0.bank.table| && 0 <= k < |r.0.bank.table[x]| ==>
           !Overlaps(r.1, size, r.0.bank.table[x][k])
  {
    var s, t, b := h.smallOffset, h.totalSmall, h.bigOffset;
    var r := Malloc(h, size).value;
    assert r.0.bank == h.bank;
    var grows := IsSmall(size, |h.bank.table|) && size + s > t;
    if grows {
      GrowthInSpace(h, size);
    }
    forall x, k | 0 <= x < |h.bank.table| && 0 <= k < |h.bank.table[x]|
      ensures !Overlaps(r.1, size, h.bank.table[x][k])
    {
      var c := h.bank.table[x][k];
      assert InSpace(c, s, t, b);
      ChunkNonEmpty(h.bank, x, k);
      if grows {
        assert End(c) <= s;
      }
    }
  }

  /** With a heap under 1 MiB, the wrapping growth test lets the small
      region grow past the end of the heap, where the intended test fails
      the request. */
  lemma {:induction false} SmallGrowthPastHeapEnd()
    ensures var h := SmallHeap();
      && HeapValid(h)
      && MallocAsWritten(h, 4).Some?
      && MallocAsWritten(h, 4).value.0.totalSmall > h.totalSize
      && Malloc(h, 4).None?
  {
    var h := SmallHeap();
    assert GetFreeChunk(h.bank, 8).1.None?;
    assert Wrap32(h.totalSize - MB) == TWO32 + 0x8_0000 - MB;
    assert SmallRegionGrowsAsWritten(h) && !SmallRegionGrows(h);
  }

  /** A 512 KiB heap whose small half is full and whose table is empty. */
  function SmallHeap(): (h: Heap)
    ensures |h.bank.table| == 2 && h.totalSize == 0x8_0000
  {
    Heap(Bank([[], []]), 0, 4, 12, 0x4_0000, 0x4_0000, 0x4_0000, 0x8_0000, map[], {}, false)
  }

  // ---------------------------------------------------------------------
  // Recall

  /** MemoryManager::RecallMem: the block of a user address goes back to
      the table as one chunk covering its header and its 4-aligned body; a
      JSObj that was a candidate root stops being one.  The offset is the
      source's uint32 difference. */
  function RecallMem(h: Heap, addr: nat, size: nat): (r: Heap)
    requires |h.bank.table| >= 2 && addr in h.headers
    ensures |r.bank.table| == |h.bank.table|
    ensures r.roots == h.roots - {addr}
    ensures r.headers.Keys == h.headers.Keys
    ensures forall a :: a in h.headers && a != addr ==> r.headers[a] == h.headers[a]
    ensures !r.headers[addr].inRoots || h.headers[addr].tag != JSObj
    ensures r.headers[addr].tag == h.headers[addr].tag && r.headers[addr].refcount == h.headers[addr].refcount
    ensures var x := BucketIndex(RecalledChunk(h, addr, size).size, |h.bank.table|);
      multiset(r.bank.table[x]) == multiset(h.bank.table[x]) + multiset{RecalledChunk(h, addr, size)}
  {
    var hd := h.headers[addr];
    var h1 :=
      if hd.tag == JSObj && hd.inRoots
      then h.(headers := h.headers[addr := hd.(inRoots := false)], roots := h.roots - {addr})
      else h.(roots := h.roots - {addr});
    h1.(bank := PutFreeChunk(h.bank, RecalledChunk(h, addr, size)))
  }

  /** The chunk RecallMem puts back. */
  function RecalledChunk(h: Heap, addr: nat, size: nat): Chunk
    requires addr in h.headers
  {
    var head := HeadSize(h, h.headers[addr].tag);
    Chunk(Wrap32(addr - h.base - head), Align4(size) + head)
  }

  /** RecallMem keeps the candidate roots in step with the in_roots flags. */
  lemma {:induction false} RecallMemRoots(h: Heap, addr: nat, size: nat)
    requires |h.bank.table| >= 2 && addr in h.headers && RootsValid(h)
    ensures RootsValid(RecallMem(h, addr, size))
  {
    var r := RecallMem(h, addr, size);
    forall a | a in r.headers
      ensures r.headers[a].inRoots <==> a in r.roots
    {
      if a != addr {
        assert r.headers[a] == h.headers[a];
      }
    }
  }

  // ---------------------------------------------------------------------
  // Allocation with a header

  /** VMMallocGC: allocate the 4-aligned body plus the header for the tag,
      initialise the header with the tag, count 0 and not in roots, and
      return the user address just past the header.  None is the fatal
      out-of-memory error. */
  function VMMallocGC(h: Heap, size: nat, tag: HeapTag): (r: Option<(Heap, nat)>)
    requires |h.bank.table| >= 2
    ensures r.Some? <==> Malloc(h, Align4(size) + HeadSize(h, tag)).Some?
    ensures r.Some? ==> r.value.1 == h.base + Malloc(h, Align4(size) + HeadSize(h, tag)).value.1 + HeadSize(h, tag)
    ensures r.Some? ==> r.value.0.headers == h.headers[r.value.1 := Header(tag, 0, false)]
    ensures r.Some? ==> r.value.0.roots == h.roots
    ensures r.Some? ==> r.value.0.base == h.base && |r.value.0.bank.table| == |h.bank.table|
    ensures r.Some? ==> r.value.0.headSize == h.headSize && r.value.0.exHeadSize == h.exHeadSize
  {
    var head := HeadSize(h, tag);
    var m := Malloc(h, Align4(size) + head);
    if m.None? then None
    else
      var h1, addr := m.value.0, h.base + m.value.1 + head;
      Some((h1.(headers := h1.headers[addr := Header(tag, 0, false)]), addr))
  }

  /** Recalling a fresh block gives back exactly the bytes that were taken
      for it: the chunk starts at the allocated offset and spans the header
      and the aligned body. */
  lemma {:induction false} AllocRecallRoundTrip(h: Heap, size: nat, tag: HeapTag, h': Heap, addr: nat, offset: nat)
    requires |h.bank.table| >= 2 && VMMallocGC(h, size, tag) == Some((h', addr))
    requires Malloc(h, Align4(size) + HeadSize(h, tag)).Some?
    requires Malloc(h, Align4(size) + HeadSize(h, tag)).value.1 == offset && offset < TWO32
    ensures |h'.bank.table| == |h.bank.table|
    ensures RecalledChunk(h', addr, size) == Chunk(offset, Align4(size) + HeadSize(h, tag))
  {
    RecalledAt(h', addr, size, tag, offset);
  }

  /** The header at addr, offset plus head past the base, recalls the chunk
      at offset. */
  lemma {:induction false} RecalledAt(h: Heap, addr: nat, size: nat, tag: HeapTag, offset: nat)
    requires addr in h.headers && h.headers[addr].tag == tag
    requires addr == h.base + offset + HeadSize(h, tag) && offset < TWO32
    ensures RecalledChunk(h, addr, size) == Chunk(offset, Align4(size) + HeadSize(h, tag))
  {
  }

  /** Every block Malloc hands out in a valid heap starts below 2^32, so
      the round trip above applies. */
  lemma {:induction false} MallocOffsetBound(h: Heap, size: nat)
    requires HeapValid(h) && Malloc(h, size).Some?
    ensures Malloc(h, size).value.1 < TWO32
  {
    var got := GetFreeChunk(h.bank, size);
    var s, t, b := h.smallOffset, h.totalSmall, h.bigOffset;
    if got.1.Some? {
      ChunkTakenInSpace(h.bank, size, s, t, b);
    } else if !IsSmall(size, |h.bank.table|) && size + b > h.totalSize {
      var merged := MergeBigFreeChunk(h.bank).value;
      MergeBigFreeChunkValid(h.bank);
      MergeBankInSpace(h.bank, s, t, b);
      ChunkTakenInSpace(merged, size, s, t, b);
    }
  }

  /** The chunk GetFreeChunk hands out starts in used space. */
  lemma {:induction false} ChunkTakenInSpace(bank: Bank, size: nat, s: nat, t: nat, b: nat)
    requires BankValid(bank) && BankInSpace(bank, s, t, b) && s <= b && GetFreeChunk(bank, size).1.Some?
    ensures GetFreeChunk(bank, size).1.value.offset <= b
  {
    var n := |bank.table|;
    var x := BucketIndex(size, n);
    if IsSmall(size, n) {
      assert InSpace(bank.table[x][0], s, t, b);
    } else {
      var l := bank.table[n - 1];
      TakeFitFirst(l, size);
      var p := FitPos(l, size);
      assert l[p] == bank.table[n - 1][p];
      assert InSpace(l[p], s, t, b);
    }
  }

  // ---------------------------------------------------------------------
  // Reference counts

  /** The 14-bit count after `refcount--` when it is below UINT14_MAX; 0
      wraps round to UINT14_MAX. */
  function DecCount(rc: nat): (r: nat)
    requires rc <= UINT14_MAX
    ensures r <= UINT14_MAX
    ensures rc == UINT14_MAX ==> r == UINT14_MAX
    ensures 0 < rc < UINT14_MAX ==> r + 1 == rc
    ensures rc == 0 ==> r == UINT14_MAX
  {
    if rc < UINT14_MAX then (if rc == 0 then UINT14_MAX else rc - 1) else rc
  }

  /** What GCDecRf leaves for the rest of the collector when a count
      reaches 0: an object or environment to release (ManageObject and
      ManageEnvironment are not part of this model), or the fatal error
      for a tag with no release path. */
  datatype Release = NoRelease | ReleaseObject(addr: nat) | ReleaseEnv(addr: nat) | FatalTag

  /** MemoryManager::GCDecRf.  Nothing happens with the collector off or
      for an address outside the heap.  Otherwise the count drops unless
      saturated; at 0 a string or iterator block is recalled at once
      (stringBytes and iterBytes are the byte sizes of the string and of
      an iterator), an object or environment is handed on, and any other
      tag is fatal; above 0 a JSObj not yet a candidate root becomes one. */
  function GCDecRf(h: Heap, addr: nat, stringBytes: nat, iterBytes: nat): (r: (Heap, Release))
    requires |h.bank.table| >= 2
    requires IsHeap(h, addr) ==> addr in h.headers && h.headers[addr].refcount <= UINT14_MAX
    ensures h.gcOff || !IsHeap(h, addr) ==> r == (h, NoRelease)
    ensures |r.0.bank.table| == |h.bank.table|
    ensures r.0.headers.Keys == h.headers.Keys
    ensures forall a :: a in h.headers && a != addr ==> r.0.headers[a] == h.headers[a]
    ensures !h.gcOff && IsHeap(h, addr) ==>
      r.0.headers[addr].refcount == DecCount(h.headers[addr].refcount)
    ensures !h.gcOff && IsHeap(h, addr) && h.headers[addr].refcount == UINT14_MAX ==>
      r.0.headers[addr].refcount == UINT14_MAX
    ensures r.1.ReleaseObject? ==> r.1.addr == addr && h.headers[addr].tag == JSObj && r.0.headers[addr].refcount == 0
    ensures r.1.ReleaseEnv? ==> r.1.addr == addr && h.headers[addr].tag == EnvTag && r.0.headers[addr].refcount == 0
    ensures r.1.FatalTag? ==> h.headers[addr].tag !in {JSObj, JSString, EnvTag, JSIter}
    ensures !h.gcOff && IsHeap(h, addr) && DecCount(h.headers[addr].refcount) != 0 ==>
      && r.1 == NoRelease
      && r.0.bank == h.bank
      && (h.headers[addr].tag == JSObj ==> r.0.headers[addr].inRoots)
      && (h.headers[addr].tag == JSObj && !h.headers[addr].inRoots ==> r.0.roots == h.roots + {addr})
      && (h.headers[addr].tag != JSObj || h.headers[addr].inRoots ==> r.0.roots == h.roots)
  {
    if h.gcOff || !IsHeap(h, addr) then (h, NoRelease)
    else
      var hd := h.headers[addr];
      var rc := DecCount(hd.refcount);
      var h1 := h.(headers := h.headers[addr := hd.(refcount := rc)]);
      if rc == 0 then
        match hd.tag
        case JSObj => (h1, ReleaseObject(addr))
        case JSString => (RecallMem(h1, addr, stringBytes), NoRelease)
        case EnvTag => (h1, ReleaseEnv(addr))
        case JSIter => (RecallMem(h1, addr, iterBytes), NoRelease)
        case _ => (h1, FatalTag)
      else if hd.tag == JSObj && !hd.inRoots then
        (h1.(headers := h1.headers[addr := hd.(refcount := rc, inRoots := true)], roots := h.roots + {addr}), NoRelease)
      else (h1, NoRelease)
  }

  /** GCDecRf keeps the candidate roots in step with the in_roots flags: a
      block enters the roots at most once, guarded by its flag. */
  lemma {:induction false} GCDecRfRoots(h: Heap, addr: nat, stringBytes: nat, iterBytes: nat)
    requires |h.bank.table| >= 2 && RootsValid(h)
    requires IsHeap(h, addr) ==> addr in h.headers && h.headers[addr].refcount <= UINT14_MAX
    ensures RootsValid(GCDecRf(h, addr, stringBytes, iterBytes).0)
  {
    if !h.gcOff && IsHeap(h, addr) {
      var hd := h.headers[addr];
      var rc := DecCount(hd.refcount);
      var h1 := h.(headers := h.headers[addr := hd.(refcount := rc)]);
      assert RootsValid(h1) by {
        forall a | a in h1.headers
          ensures h1.headers[a].inRoots <==> a in h1.roots
        {
          if a != addr {
            assert h1.headers[a] == h.headers[a];
          }
        }
      }
      if rc == 0 && hd.tag == JSString {
        RecallMemRoots(h1, addr, stringBytes);
      } else if rc == 0 && hd.tag == JSIter {
        RecallMemRoots(h1, addr, iterBytes);
      } else if rc != 0 && hd.tag == JSObj && !hd.inRoots {
        var r := GCDecRf(h, addr, stringBytes, iterBytes).0;
        forall a | a in r.headers
          ensures r.headers[a].inRoots <==> a in r.roots
        {
          if a != addr {
            assert r.headers[a] == h.headers[a];
          }
        }
      }
    }
  }

  // ---------------------------------------------------------------------
  // Realloc

  /** The bytes of the new block: the header and the first min(orig, new)
      body bytes of the old block, then zeros up to the new size. */
  function ReallocContent(prev: seq<byte>, origSize: nat, newSize: nat, head: nat): (r: seq<byte>)
    requires |prev| == origSize + head
    ensures |r| == newSize + head
    ensures forall i :: 0 <= i < head + Min(origSize, newSize) ==> r[i] == prev[i]
    ensures forall i :: head + origSize <= i < |r| ==> r[i] == 0
  {
    if newSize > origSize then prev + Zeros(newSize - origSize)
    else prev[..newSize + head]
  }

  function Zeros(n: nat): (z: seq<byte>)
    ensures |z| == n && forall i :: 0 <= i < n ==> z[i] == 0
  {
    seq(n, _ => 0)
  }

  /** Growing a block and shrinking it back gives the old bytes. */
  lemma {:induction false} ReallocGrowShrink(prev: seq<byte>, origSize: nat, newSize: nat, head: nat)
    requires |prev| == origSize + head && origSize <= newSize
    ensures ReallocContent(ReallocContent(prev, origSize, newSize, head), newSize, origSize, head) == prev
  {
    var grown := ReallocContent(prev, origSize, newSize, head);
    var back := ReallocContent(grown, newSize, origSize, head);
    assert forall i :: 0 <= i < |prev| ==> back[i] == prev[i];
  }

  /** MemoryManager::Realloc on the heap: a block for the new size and a
      header is allocated, then the old block is recalled.  The result is
      the heap and the offset of the new block; the copied bytes are
      ReallocContent. */
  function PoolRealloc(h: Heap, origAddr: nat, origSize: nat, newSize: nat): (r: Option<(Heap, nat)>)
    requires |h.bank.table| >= 2 && origAddr in h.headers
    ensures r.Some? <==> Malloc(h, newSize + h.headSize).Some?
    ensures r.Some? ==> r.value.1 == Malloc(h, newSize + h.headSize).value.1
    ensures r.Some? ==> r.value.0.roots == h.roots - {origAddr}
  {
    match Malloc(h, newSize + h.headSize)
    case None => None
    case Some((h1, offset)) => Some((RecallMem(h1, origAddr, origSize), offset))
  }

  // ---------------------------------------------------------------------
  // MemoryChunk nodes

  /** The pool MemoryChunk nodes come from: a count of recycled nodes and
      the bump offset into the VM's small region, with its limit. */
  datatype NodePool = NodePool(recycled: nat, offset: nat, limit: nat, nodeSize: nat)

  /** MemoryManager::NewMemoryChunk: reuse a recycled node, or bump the
      offset by one aligned node; None is the fatal error of running past
      the limit. */
  function NewMemoryChunk(p: NodePool): (r: Option<NodePool>)
    ensures p.recycled > 0 ==> r == Some(p.(recycled := p.recycled - 1))
    ensures p.recycled == 0 ==> (r.None? <==> p.offset + Align4(p.nodeSize) > p.limit)
    ensures r.Some? ==> r.value.limit == p.limit && r.value.nodeSize == p.nodeSize
    ensures r.Some? && p.recycled == 0 ==> r.value.offset == p.offset + Align4(p.nodeSize) && r.value.recycled == 0
  {
    if p.recycled > 0 then Some(p.(recycled := p.recycled - 1))
    else
      var o := p.offset + Align4(p.nodeSize);
      if o > p.limit then None else Some(p.(offset := o))
  }

  /** The pool never runs past its limit, and the nodes it has carved out
      only grow. */
  lemma {:induction false} NewMemoryChunkBounded(p: NodePool)
    requires p.offset <= p.limit && NewMemoryChunk(p).Some?
    ensures NewMemoryChunk(p).value.offset <= p.limit
    ensures p.offset <= NewMemoryChunk(p).value.offset
  {
  }
}
